=== FILE: README.md ===
# pymqi, modelled in Dafny

This project models the Python layer of pymqi (`code/pymqi.py`), the WebSphere MQ client
library. It covers four parts:

- **`MQOpts`**: the schema-driven codec behind every MQI structure. A structure is an ordered
  list of `(name, default, format)` members with a store of attributes. `pack` and `unpack`
  go through `struct` in native mode, or in big-endian mode with a leading `'>'`. `set`,
  `[]=`, `[]` and `get` read and write the store. `set_vs` and `get_vs` handle the MQCHARV
  variable-length strings. The structure classes (`gmo`, `pmo`, `od`, `md`, `TM`, `TMC2`,
  `cd`, `sco`, `SD`, `SRO`, `CMHO`, `PD`, `SMPO`, `IMPO`) are member lists gated by the set
  of MQ levels the extension was built for.
- **`RFH2`**: the extensible header with its 36-byte preamble, `add_folder`, the
  byte-order switch of `pack`, and the validating `unpack`. `Queue.put_rfh2` and
  `Queue.get_rfh2` chain several headers in front of a message.
- **Handle state machines**: `QueueManager`, `Queue`, `Topic` and `Subscription`, driven
  through an abstract transport. The transport is a broker oracle that answers each MQI
  verb given the calls made so far, plus a log of the calls made.
- **Small helpers**: `makeQDesc`, `commonQArgs`, `_MQConst2String`,
  `MQMIError.errorAsString`, `Filter`/`FilterOperator`, and `PCFExecute` with its
  `_Method` dispatch and `stringifyKeys`.

Layout (one module per file):

- `bytes`, `wire`: byte strings and the `struct` items.
- `mqopts`: `MQOpts`.
- `schemas`: the structure classes.
- `rfh2`: RFH2 construction and `add_folder`.
- `rfh2codec`: RFH2 `pack` and `unpack`.
- `transport`: verbs, replies and the broker oracle.
- `qargs`: default structures, `makeQDesc` and `commonQArgs`.
- `qmgr`: `QueueManager`.
- `queue`: `Queue`.
- `chain`: `put_rfh2` and `get_rfh2`.
- `topic`: `Topic` and `Subscription`.
- `mnemonics`: `_MQConst2String` and `errorAsString`.
- `pcf`: `PCFExecute`.
- `filter`: the MQAI filters.

How Python is mapped into the model:

- Python's in-place mutation becomes returned values. Every verb returns a `Step`: the
  object's new state, the world (the call log and the ctypes memory) and the result or the
  exception raised.
- The `CMQC`, `CMQCFC` and `CMQXC` constants are symbolic, read by name through a `Consts`
  record.
- The XML parser is an oracle `RootTag: bytes -> Option<string>`.
- The platform is the 64-bit Linux build: `MQLONG_TYPE` is `'i'`, native `'l'` is 8 bytes,
  and native `struct` alignment is modelled.

## Model

| member | source | states |
|---|---|---|
| MQOpts.Create | code/pymqi.py:185-201 | construction succeeds exactly when every keyword names an instance attribute, which a fresh instance has only for its members; the instance has exactly the member names as attributes, each keyword's value is stored, and every other member holds its default |
| MQOpts.WithDefaultsUnique | code/pymqi.py:197-200 | with distinct member names, the defaults loop leaves every member holding its own default |
| MQOpts.CreateIsSetKw | code/pymqi.py:185-201 | a construction with keywords is the bare construction followed by `set(**kw)` |
| MQOpts.SetKw | code/pymqi.py:237-248 | `set` never adds or removes attributes; it raises `AttributeError` for the first keyword that names no instance attribute, exactly when there is one |
| MQOpts.SetKwWrites | code/pymqi.py:237-248 | every keyword before the first unknown one is written, and no other attribute changes: an unknown name raises before its own value is written |
| MQOpts.SetKwKeeps | code/pymqi.py:237-248 | `set` leaves alone every attribute that no keyword names |
| MQOpts.SetItem | code/pymqi.py:250-260 | `obj[key] = v` succeeds exactly when the instance attribute exists; it then writes that one attribute and nothing else, and otherwise raises `AttributeError(key)` |
| MQOpts.GetItem | code/pymqi.py:273-278 | `obj[key]` is the instance attribute's value when it exists, else `AttributeError(key)` |
| MQOpts.Get | code/pymqi.py:262-271 | `get()` has one entry per member name, holding that member's current value |
| MQOpts.Reinit | code/pymqi.py:185-201 | re-running `__init__` over a new member list and then re-setting the saved `get()` keeps every old member's value and every extra attribute, and gives new members their defaults (also lines 262-271 of the same file) |
| MQOpts.GetLength | code/pymqi.py:297-304 | `get_length()` is defined exactly when the format compiles, and is then the size of the laid-out format including native padding |
| MQOpts.PackLength | code/pymqi.py:203-222 | length law: a successful `pack` yields exactly `get_length()` bytes (also lines 297-304 of the same file) |
| MQOpts.Pack | code/pymqi.py:203-222 | `pack` raises `struct.error` for a format that does not compile, and a successful `pack` gives exactly as many bytes as the compiled format's size; every failure is a `struct.error` |
| MQOpts.PackWellShaped | code/pymqi.py:203-222 | for well-shaped members, `pack` yields each member's bytes in list order after its zero padding, with list values flattened element by element |
| MQOpts.GapAligns | code/pymqi.py:203-222 | in native mode every numeric member starts at a multiple of its item size |
| MQOpts.NativeAligned | code/pymqi.py:203-222 | in native mode every numeric member of a laid-out format is aligned to its own size |
| MQOpts.BigEndianUnpadded | code/pymqi.py:203-222 | with the `'>'` prefix nothing is padded, and the size is the sum of the member sizes |
| MQOpts.LayoutPads | code/pymqi.py:203-222 | the padding before each member is what its running offset needs |
| MQOpts.Unpack | code/pymqi.py:224-235 | corrected `unpack` succeeds exactly when the format compiles and the buffer has `get_length()` bytes; it keeps the member list and leaves every attribute that is not a member untouched |
| MQOpts.UnpackAsWritten | code/pymqi.py:224-235 | `unpack` as written succeeds only when the format compiles and the buffer has `get_length()` bytes, raising `struct.error` for a wrong length; it keeps the member list and gives every member an attribute, leaving the other attributes' names in place |
| MQOpts.UnpackAgreesOnSingles | code/pymqi.py:224-235 | when no member's format yields several items, `unpack` as written gives exactly what the corrected `unpack` gives |
| MQOpts.FlatIsDecoded | code/pymqi.py:224-235 | the flat tuple `struct.unpack` returns is the decoded member values flattened |
| MQOpts.RoundTrip | code/pymqi.py:203-235 | when every member is well shaped, `pack` succeeds and `unpack` of its output gives every member its read-back value (strings cut or NUL-padded to their width, negative pointers as their unsigned 64-bit pattern) and changes no other attribute |
| MQOpts.RoundTripIdentity | code/pymqi.py:203-235 | a structure whose members already hold their read-back values is reproduced exactly by `unpack(pack())` |
| MQOpts.UnpackThenPack | code/pymqi.py:203-235 | a buffer of the right length whose padding bytes are zero survives `unpack` followed by `pack` unchanged |
| MQOpts.UnpackAsWrittenMisalignsArrays | code/pymqi.py:224-235 | as written, a `'2i'` list member followed by an `'i'` member reads back a scalar and the wrong second value; the corrected `unpack` reproduces the structure |
| MQOpts.VsNamesDistinct | code/pymqi.py:306-338 | the five MQCHARV member names derived from one base are distinct |
| MQOpts.StoreVSWrites | code/pymqi.py:343-347 | on a structure with the five MQCHARV members, every assignment of `set_vs` lands; only `len(None)` raises, after the pointer, offset and buffer size were written |
| MQOpts.SetVS | code/pymqi.py:306-347 | corrected `set_vs` keeps the member list and the attribute names and never alters memory already handed out |
| MQOpts.SetVSAsWritten | code/pymqi.py:306-347 | `set_vs` as written keeps the member list and the attribute names and never alters memory already handed out |
| MQOpts.SetVSGetVS | code/pymqi.py:306-368 | on a structure with the MQCHARV members, `set_vs` of a string stores its length, and `get_vs` reads the string back up to its first NUL; `set_vs` of `None` raises `TypeError` and leaves a null pointer, which `get_vs` reads as `None` |
| MQOpts.SetVSMissing | code/pymqi.py:306-347 | `set_vs` on a structure without the pointer member raises `AttributeError` naming that member |
| MQOpts.SetVSKeepsOthers | code/pymqi.py:306-347 | `set_vs` writes only the five MQCHARV members of the name, whether or not it raised |
| MQOpts.GetVS | code/pymqi.py:349-368 | `get_vs` raises when the pointer member is missing, reads `None` exactly for a null pointer (the integer 0 or `None`), and otherwise reads a NUL-terminated string from memory |
| MQOpts.GetVSFrame | code/pymqi.py:349-368 | `get_vs` depends only on the pointer member and the buffer it points to |
| MQOpts.SetVSAsWrittenKeepsSuffix | code/pymqi.py:325-338 | as written, a name ending in `VSPtr` writes the pointer and then raises `AttributeError` for `...VSPtrVSOffset`; the corrected `set_vs` succeeds on the same call |
| MQOpts.SetVSAsWrittenDangles | code/pymqi.py:339-347 | as written, the string buffer dies with `set_vs`, so `get_vs` dereferences released memory; with the corrected `set_vs` it reads the string back (also lines 363-366 of the same file) |
| Wire.UnpackPackAtom | code/pymqi.py:203-235 | every packable `struct` item reads back as its canonical form |
| Wire.NegativePointerWraps | code/pymqi.py:203-222 | a `'P'` item accepts a negative int down to -2^63 and packs it as the unsigned value with the same low 64 bits |
| Wire.PackUnpackAtom | code/pymqi.py:203-235 | every byte string of an item's size is reproduced by unpacking and re-packing it |
| Wire.CanonicalIdempotent | code/pymqi.py:203-235 | a canonical value is its own read-back |
| Schemas.MembersCompile | code/pymqi.py:375-1114 | every member list built from the class member kinds compiles |
| Schemas.GmoGate | code/pymqi.py:398-401 | level 7.0 appends `Reserved2` and `MsgHandle` to MQGMO, and nothing else |
| Schemas.PmoGate | code/pymqi.py:435-440 | level 7.0 appends the two message handles, `Action` and `PubLevel` to MQPMO |
| Schemas.OdGate | code/pymqi.py:474-503 | level 7.0 appends three MQCHARV strings, `ResolvedType` and the 64-bit pad to MQOD |
| Schemas.ScoGate | code/pymqi.py:960-962 | level 6.0 appends `KeyResetCount` and `FipsRequired` to MQSCO |
| Schemas.CdSslGate | code/pymqi.py:893-902 | level 5.3 puts the SSL members right after the MQCD base members |
| Schemas.Cd71Gate | code/pymqi.py:925-934 | level 7.1 replaces MQCD's trailing 4-byte pad with its three members |
| Schemas.CdVersionAgrees | code/pymqi.py:804-823 | on a build whose levels are nested, the default `Version` and `StrucLength` of an MQCD name the same MQCD version, the one of the highest level (also lines 893-905 of the same file) |
| Schemas.CdVersionWithoutSsl | code/pymqi.py:804-823 | without level 5.3, `Version` is pinned to MQCD version 6 while `StrucLength` follows the highest level; the two disagree exactly when a level of 6.0 or above is present (also lines 903-905 of the same file) |
| Schemas.SdHeadNames | code/pymqi.py:977-983 | MQSD has seven members before `ObjectString`, `Options` and `ObjectName` among them |
| Schemas.VsBetween | code/pymqi.py:306-348 | a live structure with an MQCHARV group among its members has all five of that group's members |
| Schemas.OdNames | code/pymqi.py:447-508 | MQOD has the members that the queue, topic and queue manager verbs set by name |
| Schemas.Rfh2InitialSize | code/pymqi.py:562-569 | the RFH2 preamble spans the 36 bytes `RFH2.unpack` reads before the folders (also line 687 of the same file) |
| Schemas.PreambleSize | code/pymqi.py:562-569 | a preamble laid out like RFH2's spans 36 bytes in either byte order, with no native padding |
| Rfh2.BigEndianEncodings | code/pymqi.py:571-587 | the eight big-endian encodings, four single flags and their sums |
| Rfh2.PreambleShaped | code/pymqi.py:562-569 | the preamble has the RFH2 members by name and format, and the byte order asked for (also lines 645-652 of the same file) |
| Rfh2.PreambleFacts | code/pymqi.py:562-569 | the preamble compiles, has distinct names, and spans 36 bytes in either byte order |
| Rfh2.NewHeader | code/pymqi.py:589-592 | `RFH2(**kw)` succeeds exactly when every keyword names a preamble member, the instance attributes of a fresh header, and gives an RFH2 over the preamble |
| Rfh2.NewHeaderHolds | code/pymqi.py:589-592 | a new header is a little-endian preamble without folders |
| Rfh2.AddFolder | code/pymqi.py:594-636 | `add_folder` rejects text without a root tag with `PYIFError`; on success it appends exactly one folder's two members, named after the root tag |
| Rfh2.Padded | code/pymqi.py:617-624 | the folder text is followed by 0-3 spaces, and its length is a multiple of four and not less than the text's |
| Rfh2.AddFolderHolds | code/pymqi.py:594-636 | the padded folder is appended after every existing member, every member keeps its value, and `StrucLength` holds the new `get_length()` |
| Rfh2.FolderFieldsValid | code/pymqi.py:626-628 | folder members compile exactly when no folder length is negative |
| Rfh2.FolderDefaults | code/pymqi.py:629-636 | after `add_folder` re-initialises the structure, every folder member holds its length or text |
| Rfh2Codec.UnpackWith | code/pymqi.py:656-743 | `unpack` raises for a wrong structure id, a buffer shorter than 36 bytes, a negative `StrucLength`, or, for buffers longer than 36 bytes, a `StrucLength` past the end, in that order; a malformed folder aborts the whole unpack |
| Rfh2Codec.ReadFolders | code/pymqi.py:699-736 | the folder loop reads `(4-byte length, text)` pairs with Python slicing, needing a root tag for each |
| Rfh2Codec.BytesReadFolders | code/pymqi.py:699-736 | the bytes of complete folders with root tags read back as those folders |
| Rfh2Codec.ReadFoldersBytes | code/pymqi.py:699-736 | when the loop reads only complete folders, the folder area is exactly their bytes |
| Rfh2Codec.UnpackHeaderFolders | code/pymqi.py:656-743 | a 36-byte preamble whose `StrucLength` covers exactly the folder bytes after it unpacks to a header over those folders, with each folder member holding its folder's length or text |
| Rfh2Codec.UnpackAsWrittenLittleFails | code/pymqi.py:703-708 | as written, every little-endian header with a folder fails with `struct.error` on 64-bit Linux |
| Rfh2Codec.UnpackHeaderAsWritten | code/pymqi.py:656-743 | `unpack` as written agrees with the corrected one on big-endian headers; a little-endian one it accepts has no folders, and every header it accepts spans at least the 36-byte preamble |
| Rfh2Codec.ReadFoldersNativeLong | code/pymqi.py:703-708 | with native `"l"` 8 bytes wide, a non-empty little-endian folder area never decodes |
| Rfh2Codec.PackHeader | code/pymqi.py:638-654 | corrected `pack`: it sets the first member's format to `'4s'`, with `'>'` exactly for a big-endian encoding; it keeps every value and the rest of the member list, and packs the result |
| Rfh2Codec.PackAsWrittenSticks | code/pymqi.py:645-652 | as written, after a big-endian pack, a pack asking for a little-endian encoding still packs big-endian |
| Rfh2Codec.PackHeaderAsWritten | code/pymqi.py:638-654 | `pack` as written gives a big-endian encoding a `'>'`-prefixed `'4s'` first member and leaves the structure exactly as it was for any other encoding, keeping every value, then packs the result |
| Rfh2Codec.PackFollowsEncoding | code/pymqi.py:638-654 | the corrected pack follows the last encoding asked for, in both directions |
| QArgs.MakeQDesc | code/pymqi.py:1460-1465 | a string becomes `od(ObjectName=string)`; a descriptor or `None` passes through |
| QArgs.MakeQDescIsNew | code/pymqi.py:1460-1465 | with the classes' own `od()`, a named queue is `od(ObjectName=name)` |
| QArgs.CommonQArgs | code/pymqi.py:1469-1482 | more than two items raise `TypeError`; with at most two, a missing or `None` descriptor is replaced by a default `md()`, and the options are passed on as given |
| QArgs.MsgStructs | code/pymqi.py:1469-1482 | a message verb sends the `commonQArgs` descriptor and the given options, or its own default options when none were passed (also lines 1593-1595 of the same file) |
| QArgs.FreshOfWf | code/pymqi.py:375-1114 | the classes' own default structures are live and have the members the verbs set by name |
| QMgr.Connect | code/pymqi.py:1254-1269 | exactly one MQCONN; it succeeds exactly when the completion code is 0, then keeps the handle and the name, and otherwise raises the reply's codes and changes nothing |
| QMgr.ConnectedHandle | code/pymqi.py:1345-1354 | `getHandle()` raises `PYIFError` on a queue manager built without a name, and after a successful connection hands out the broker's handle unless it is 0 (also lines 1225-1236 of the same file) |
| QMgr.NewQueueManager | code/pymqi.py:1225-1236 | `QueueManager(None)` calls nothing; a name connects at once |
| QMgr.Disconnect | code/pymqi.py:1335-1343 | when connected, one MQDISC whatever it answers, with the handle kept; when not connected, it raises without calling anything |
| QMgr.DisconnectKeepsHandle | code/pymqi.py:1335-1354 | after `disconnect()` the old handle is still handed out |
| QMgr.ConnKeywords | code/pymqi.py:1284-1298 | more than two positional options raise; positional `cd` and `sco` overwrite the keywords with no check; new-style keywords outside `opts`, `cd`, `sco` raise for the first one |
| QMgr.ConnXCall | code/pymqi.py:1300-1309 | the MQCONNX carries the name, the `opts` keyword or `MQCNO_NONE`, the packed `cd` or a default `cd()`, and a packed `sco` exactly when one was passed |
| QMgr.ConnectWithOptions | code/pymqi.py:1271-1313 | nothing is called when the arguments raise; otherwise one MQCONNX, and the handle and name are kept exactly when it succeeds |
| QMgr.OldStyleIgnoresKeywords | code/pymqi.py:1285-1292 | with positional options, an unknown keyword is neither rejected nor used |
| QMgr.NewStyleRejects | code/pymqi.py:1294-1298 | a new-style keyword outside `opts`, `cd`, `sco` raises `TypeError` before anything is called |
| QMgr.ConnectDefaults | code/pymqi.py:1300-1309 | with only the name, the MQCONNX sends `MQCNO_NONE`, a default `cd()` and no `sco` |
| QMgr.ClientChannel | code/pymqi.py:1326-1329 | the client channel definition keeps the member list and stays live |
| QMgr.ClientChannelHolds | code/pymqi.py:1326-1329 | the definition holds the channel name, connection name, `MQCHT_CLNTCONN` and `MQXPT_TCP`, and every other attribute as it was |
| QMgr.ConnectTcpClient | code/pymqi.py:1318-1330 | `connectTCPClient` leaves the caller's `cd` holding the client channel definition, live and with its member list |
| QMgr.ConnectTcpClientSends | code/pymqi.py:1318-1330 | a TCP client connection is one MQCONNX with `MQCNO_NONE`, the packed client definition and no `sco`; a definition that does not pack raises before any call |
| QMgr.Sync | code/pymqi.py:1359-1386 | `begin`, `commit` and `backout` make one verb call on the handle and raise exactly on a non-zero completion code |
| QMgr.Put1Msg | code/pymqi.py:1388-1421 | one MQPUT1 once the arguments evaluate; it succeeds exactly on a zero completion code, and then the descriptor and options are refreshed from the reply |
| QMgr.Put1KeepsShape | code/pymqi.py:1388-1421 | a successful `put1` hands back structures of the classes it was given |
| QMgr.QMgrOdIsNew | code/pymqi.py:1431 | the queue manager descriptor is `od(ObjectType=MQOT_Q_MGR, ObjectQMgrName=name)` |
| QMgr.Inquire | code/pymqi.py:1423-1439 | the first call opens the queue manager object with `MQOO_INQUIRE` and caches its handle; every call then makes one MQINQ on it |
| QMgr.InquireKeepsConnection | code/pymqi.py:1423-1439 | `inquire` never changes the handle or the name, and never replaces a cached object handle |
| QMgr.InquireOpensOnce | code/pymqi.py:1423-1439 | after a successful `inquire`, the next one makes a single MQINQ on the cached handle and no MQOPEN |
| Queues.RealOpen | code/pymqi.py:1498-1507 | without a descriptor it raises `PYIFError` before any call; otherwise one MQOPEN, which raises and changes nothing on a non-zero completion code, and otherwise keeps the handle and refreshes the descriptor |
| Queues.NewQueue | code/pymqi.py:1509-1542 | more than two items raise `TypeError`; none leaves the queue unopened with no descriptor; one sets the descriptor; two open at once |
| Queues.ConstructionOpens | code/pymqi.py:1509-1542 | the construction table: with fewer than two items nothing is called and the queue is not open; with two, exactly one MQOPEN with the given options, or the missing-descriptor error before any call |
| Queues.OpenQueue | code/pymqi.py:1555-1574 | `open` raises on an open queue; otherwise it replaces the descriptor and opens when open options are given |
| Queues.OpenedQueueRefusesOpen | code/pymqi.py:1555-1574 | a queue that an MQOPEN gave a non-zero handle refuses a second `open` |
| Queues.LazyOpen | code/pymqi.py:1597-1599 | a verb on a queue that is not open records its own open option and opens; an open queue is used as it is (also lines 1666-1668, 1761-1763, 1773-1775 of the same file) |
| Queues.LazyOpenCall | code/pymqi.py:1597-1599 | a successful lazy open made exactly one MQOPEN of the queue's descriptor with the verb's option (also lines 1498-1507 of the same file) |
| Queues.PutMsg | code/pymqi.py:1576-1606 | `put` opens lazily for output, then one MQPUT, and returns the descriptor and options refreshed from the reply |
| Queues.PutOpensForOutput | code/pymqi.py:1576-1606 | a successful `put` on a queue that is not open makes an MQOPEN with `MQOO_OUTPUT`, then one MQPUT on the returned handle |
| Queues.PutOnOpenQueue | code/pymqi.py:1576-1606 | `put` on an open queue makes only the MQPUT, on the queue's own handle, and leaves the queue as it was |
| Queues.Receive | code/pymqi.py:1671-1707 | the buffer is the caller's length or 4096; a success delivers the message; a failure raises unless it is a truncation with the default buffer, which is retried once |
| Queues.GetMsg | code/pymqi.py:1637-1707 | `get` opens lazily for input, then `Receive` |
| Queues.GetOpensForInput | code/pymqi.py:1637-1707 | a successful `get` on a queue that is not open opens it with `MQOO_INPUT_AS_Q_DEF`, then makes one or two MQGETs on the returned handle |
| Queues.ReceiveCalls | code/pymqi.py:1666-1707 | a successful `Receive` made one or two MQGETs on the queue's handle, the first asking for the caller's length or 4096 |
| Queues.TruncatedGetRetries | code/pymqi.py:1696-1707 | after a truncated default-buffer read, the descriptor is refreshed from the reply and exactly one more MQGET asks for the reported length; its outcome is the outcome of `get` |
| Queues.ExplicitLengthGetsOnce | code/pymqi.py:1689-1690 | with a caller-supplied length that is not negative, a failure raises and at most one MQGET is made |
| Queues.OtherFailuresNotRetried | code/pymqi.py:1692-1694 | with the default buffer, a failure for any reason but truncation raises the reply's codes with no second MQGET |
| Queues.CloseQueue | code/pymqi.py:1742-1752 | `close` raises unless the queue is open; a non-zero completion code raises and keeps the queue; otherwise the handle, descriptor and open options are cleared |
| Queues.ClosedQueueCannotPut | code/pymqi.py:1747-1752 | after a successful `close`, `put` raises the missing-descriptor `PYIFError` without calling anything (also lines 1500-1501 of the same file) |
| Queues.InquireQueue | code/pymqi.py:1754-1767 | `inquire` opens lazily for inquiry, then MQINQ, and raises on a non-zero completion code |
| Queues.SetQueueAttr | code/pymqi.py:1769-1778 | `set` opens lazily for setting, then MQSET, and raises on a non-zero reason code |
| Queues.InquireSetOpenOptions | code/pymqi.py:1754-1778 | `inquire` and `set` on a queue that is not open open it with `MQOO_INQUIRE` and `MQOO_SET` before their verb |
| Queues.AdoptedHandleSkipsOpen | code/pymqi.py:1754-1788 | with a handle adopted through `set_handle`, `inquire` makes a single MQINQ on it and no MQOPEN |
| Chain.StartEncoding | code/pymqi.py:1622-1625 | `put_rfh2` starts from the descriptor's `Encoding`, or `MQENC_NATIVE` without a descriptor; a descriptor without `Encoding` raises |
| Chain.Leading | code/pymqi.py:1633-1635 | `put_rfh2` and `get_rfh2` hand on all items when there are fewer than three, and the first two otherwise (also lines 1725, 1738 of the same file) |
| Chain.PutRfh2 | code/pymqi.py:1608-1635 | corrected `put_rfh2`, each header packed by the corrected `pack`: without a header list it is `put`; with one, the message put is the packed headers one after another in front of the body, and a header that does not pack raises with nothing put |
| Chain.PutRfh2AsWritten | code/pymqi.py:1608-1635 | `put_rfh2` as written, each header packed by `pack` as written: without a header list it is `put`; with one, the message put is the packed headers one after another in front of the body, and a header that does not pack raises with nothing put |
| Chain.ChainSlots | code/pymqi.py:1627-1632 | packing keeps every item of the header list where it was |
| Chain.ChainJoined | code/pymqi.py:1627-1632 | the bytes built are the packed headers one after another, whether or not every header packed |
| Chain.ChainRepacks | code/pymqi.py:1627-1632 | each header is packed with the `Encoding` of the nearest header before it, or with the start encoding |
| Chain.ChainByteOrder | code/pymqi.py:1627-1632 | in the corrected `put_rfh2`, every packed header whose encoding is given is big-endian exactly for the big-endian encodings (also lines 645-652 of the same file) |
| Chain.ChainByteOrderAsWritten | code/pymqi.py:1627-1632 | in `put_rfh2` as written, a header whose encoding is big-endian is packed big-endian, and any other header is packed exactly as it came, so a `'>'` left from an earlier pack stays (also lines 645-652 of the same file) |
| Chain.PackAsWrittenKeepsEncoding | code/pymqi.py:638-654 | `pack` as written keeps the header an RFH2 header and its `Encoding` member unchanged |
| Chain.PackKeepsEncoding | code/pymqi.py:638-654 | `RFH2.pack` keeps the header an RFH2 header and its `Encoding` member unchanged |
| Chain.ReaderReadsPreamble | code/pymqi.py:668-670 | `RFH2.unpack` refuses anything shorter than the preamble |
| Chain.SliceFrom | code/pymqi.py:1734 | `msg[StrucLength:]` cuts for an integer, keeps the whole message for `None`, and raises otherwise |
| Chain.AsWrittenSpins | code/pymqi.py:1729-1735 | as written, a first header with `StrucLength` 0 and `Format` `MQFMT_RF_HEADER_2` keeps the loop going for any number of turns |
| Chain.WalkAsWritten | code/pymqi.py:1729-1735 | the loop as written reads no header unless the format is `MQFMT_RF_HEADER_2`, and is still going when its turns run out on that format |
| Chain.Walk | code/pymqi.py:1729-1735 | the corrected walk reads no headers unless the format is `MQFMT_RF_HEADER_2`, and raises on a header that does not cover the preamble |
| Chain.WalkAgrees | code/pymqi.py:1729-1735 | whenever the corrected walk finishes, the loop as written, given one turn per header, finishes with the same headers and the same rest of the message |
| Chain.WalkCutsFront | code/pymqi.py:1729-1735 | what the walk leaves is what follows the headers it read, at least 36 bytes per header shorter |
| Chain.WalkAnnounced | code/pymqi.py:1729-1735 | each header read announces the next RFH2 header except the last, and each covers the preamble |
| Chain.AfterGetAgrees | code/pymqi.py:1719-1736 | whenever the corrected post-`get` processing succeeds, the one as written gives the same |
| Chain.GetRfh2AsWritten | code/pymqi.py:1719-1740 | `get_rfh2` as written, each header read by `unpack` as written: a `None` third item fetches nothing and raises `UnboundLocalError` for `msg` |
| Chain.NoListIsGet | code/pymqi.py:1719-1740 | in the corrected `get_rfh2`, a `None` third item is `get` on the first two items, with the message returned whole |
| Chain.GetRfh2Calls | code/pymqi.py:1709-1740 | corrected `get_rfh2`: it makes exactly the calls `get` makes with the first two items, raises what `get` raises, returns the message whole without a header list, and otherwise extends the caller's list with the headers read and keeps the descriptor `get` refreshed |
| Topics.CheckTopicDesc | code/pymqi.py:1865-1871 | a given descriptor must have `ObjectType` `MQOT_TOPIC`, then `Version` `MQOD_VERSION_4`; a structure without either member raises `AttributeError` |
| Topics.CreateTopicDesc | code/pymqi.py:1878-1895 | the topic `od()` has type `MQOT_TOPIC`, version 4 and the topic name when given, and the topic string is set as `ObjectString` when given |
| Topics.CreatedDescPassesCheck | code/pymqi.py:1865-1895 | a descriptor built by `__create_topic_desc` passes the constructor's checks and names the topic |
| Topics.CreatedDescString | code/pymqi.py:1878-1895 | from MQ 7.0, a given topic string is set without error and `get_vs` reads it back (also lines 349-368 of the same file) |
| Topics.CreatedDescNeedsCharV | code/pymqi.py:1878-1895 | before MQ 7.0, a given topic string makes `__create_topic_desc` raise `AttributeError` |
| Topics.NewTopic | code/pymqi.py:1836-1876 | a passed descriptor is checked; without one a descriptor is built; the topic is opened at once exactly when open options are given |
| Topics.ConstructionChecksTopic | code/pymqi.py:1836-1876 | a descriptor failing the checks raises before anything else; without open options nothing is called and the topic is not open, and a passed descriptor is accepted as it is exactly when it passes the checks |
| Topics.ConstructionOpensTopic | code/pymqi.py:1836-1876 | with open options, a successful construction made exactly one MQOPEN, with those options, and holds the handle the broker returned |
| Topics.OpenTopic | code/pymqi.py:1907-1935 | `open` raises on an open topic; otherwise a given name or string replaces the topic's own, the descriptor is settled, and the topic opens when open options are given |
| Topics.OpenedTopicRefusesOpen | code/pymqi.py:1907-1935 | a topic that an MQOPEN gave a non-zero handle refuses a second `open` |
| Topics.Pub | code/pymqi.py:1937-1972 | `pub` opens lazily for output, then one MQPUT on the topic handle |
| Topics.PubIsQueuePut | code/pymqi.py:1937-1972 | `pub` is the queue's `put` on the topic's handle, descriptor and open options, except for the topic's own missing-descriptor error (also lines 1576-1606 of the same file) |
| Topics.PubOpensForOutput | code/pymqi.py:1937-1972 | a successful `pub` on a topic that is not open makes an MQOPEN with `MQOO_OUTPUT`, then one MQPUT on the returned handle |
| Topics.CloseTopic | code/pymqi.py:1997-2014 | `close` raises unless the topic is open; a successful MQCLOSE forgets the handle, descriptor and open options |
| Topics.ClosedTopicCannotPub | code/pymqi.py:1997-2014 | after a successful `close`, `pub` raises the missing-descriptor error without calling anything, and a second `close` raises (also lines 1937-1972 of the same file) |
| Topics.DefaultSubOptions | code/pymqi.py:2072-2076 | a subscription made without options is `MQSO_CREATE + MQSO_NON_DURABLE + MQSO_MANAGED` |
| Topics.BuildSd | code/pymqi.py:2072-2089 | the built `SD()` gets the options, then the subscription name, topic name and topic string, each only when given; the first step that raises ends it |
| Topics.BuiltSdContents | code/pymqi.py:2072-2089 | on an `SD()`, nothing raises: `Options` holds the given or default options, the topic name is set, and `get_vs` reads back the subscription name and topic string |
| Topics.SendSub | code/pymqi.py:2099-2109 | MQSUB records the descriptor; a non-zero completion code raises; otherwise the descriptor is refreshed, the subscription queue is a `Queue` on the reply's queue handle, and the subscription handle is kept |
| Topics.Subscribe | code/pymqi.py:2054-2109 | a given name, topic name or topic string replaces the subscription's own; a passed descriptor must be an `SD`, otherwise one is built; then MQSUB |
| Topics.SubscribeSends | code/pymqi.py:2054-2109 | a successful `sub` made exactly one MQSUB with the connection handle, the packed descriptor and the subscription queue's handle |
| Topics.TopicSub | code/pymqi.py:1974-1995 | `Topic.sub` is a new subscription subscribed with the first two items and the topic's name and string |
| Topics.TopicSubSends | code/pymqi.py:1974-1995 | `Topic.sub()` without a descriptor sends the `SD()` built from the topic's name and string with the default options (also lines 2072-2089 of the same file) |
| Topics.NewSubscription | code/pymqi.py:2023-2034 | the corrected constructor subscribes at once with a descriptor, passing on the subscription queue it was given |
| Topics.NewSubscriptionAsWritten | code/pymqi.py:2023-2034 | the constructor as written only records its arguments when no descriptor is given, and always leaves a well-formed subscription |
| Topics.AsWrittenDropsSubQueue | code/pymqi.py:2033-2034 | as written, a constructor given a descriptor and a subscription queue sends MQSUB with `MQHO_NONE` instead of that queue |
| Topics.NewSubscriptionUsesSubQueue | code/pymqi.py:2023-2034 | the corrected constructor sends MQSUB with the handle of the subscription queue it was given (also lines 2092-2097 of the same file) |
| Topics.SubGet | code/pymqi.py:2045-2052 | `get` on a subscription is `get` on its subscription queue |
| Topics.SubscribedGetNeedsNoOpen | code/pymqi.py:2045-2052 | after a successful `sub`, `get` uses the reply's queue handle as it is: one or two MQGETs and no MQOPEN (also lines 2099-2109 of the same file) |
| Topics.SubClose | code/pymqi.py:2111-2125 | before any `sub`, reading the handle raises `AttributeError`; a falsy handle raises `PYIFError`; a successful MQCLOSE clears the handle and descriptor |
| Topics.CloseBeforeSub | code/pymqi.py:2111-2114 | before any successful `sub`, `close` raises `AttributeError` without calling anything |
| Topics.SubCloseOnce | code/pymqi.py:2111-2125 | a subscription with a non-zero handle is closed with one MQCLOSE on that handle, and a second `close` then raises without calling anything |
| Topics.SubCloseWithQueue | code/pymqi.py:2124-2125 | with `close_sub_queue`, the open subscription queue is closed too, with the queue options |
| Mnemonics.BuildDictKey | code/pymqi.py:1129-1140 | the dictionary holds a value exactly when some prefixed name carries it, under the last such name |
| Mnemonics.Const2String | code/pymqi.py:1142-1144 | a mnemonic exists exactly when some prefixed name carries the code, is such a name, and looks the code up again; otherwise `KeyError` |
| Mnemonics.MnemonicOfUniqueValue | code/pymqi.py:1129-1144 | when a single prefixed name carries a value, that name is its mnemonic |
| Mnemonics.DigitsRoundTrip | code/pymqi.py:1196 | the decimal digits of a natural number read back as the number |
| Mnemonics.PyStrRoundTrip | code/pymqi.py:1196 | `str(n)` starts with `-` exactly for negative numbers and reads back as `n` |
| Mnemonics.ErrorAsString | code/pymqi.py:1180-1196 | a successful completion spells `OK` |
| Mnemonics.ErrorAsStringCases | code/pymqi.py:1180-1196 | `OK` exactly for success; otherwise `WARNING: ` or `FAILED: `, then an `MQRC_` name carrying the reason, else an `MQRCCF_` name, else the fallback text |
| Filters.OperatorGet | code/pymqi.py:2257-2270 | an operator maps to a value exactly when it is one of the twelve mapped names, and then to that name's `MQCFOP_` constant (also lines 2289-2290 of the same file) |
| Filters.FilterCall | code/pymqi.py:2275-2294 | a filter is made exactly when the selector is in the integer or string range and the operator maps to a non-zero constant; the integer range is tested first, the selector check comes before the operator check, and the filter carries the selector, value and operator |
| Filters.NamedOperatorCall | code/pymqi.py:2304-2315 | any attribute name but `selector` and `operator` is recorded as the filter's operator and yields a `FilterOperator` that builds a filter exactly when the name is a mapped operator with a non-zero constant, carrying the selector of the filter as it was when the attribute was read and that constant (also lines 2275-2294 of the same file) |
| Filters.OperatorRoundTrip | code/pymqi.py:2257-2294 | with distinct non-zero `MQCFOP_` constants, every mapped name gives a filter, and two names give the same operator exactly when they are equal |
| PcfKeys.RekeyDomain | code/pymqi.py:2397-2407 | the renamed dictionary's keys are exactly the new keys of the visited raw keys |
| PcfKeys.RekeyValues | code/pymqi.py:2397-2407 | with an injective renaming, each value is stored under its new key and nothing is overwritten |
| PcfKeys.StringifyInjective | code/pymqi.py:2399-2406 | the renaming `stringifyKeys` applies is injective when `CMQC` has one entry per name |
| PcfKeys.StringifyRow | code/pymqi.py:2391-2407 | the result has one entry per raw key, each value stored under its renamed key |
| PcfKeys.StringifyKnownKey | code/pymqi.py:2399-2404 | a key `CMQC` names is replaced by its `MQCA_` or `MQIA_` name, which looks the key up again, and the integer key is gone |
| PcfKeys.StringifyUnknownKey | code/pymqi.py:2403-2406 | a key `CMQC` does not name passes through with its value |
| PcfKeys.CountListed | code/pymqi.py:2398 | the keys of a dictionary, listed without repeats, are as many as the dictionary's entries |
| Pcf.QualifiedCommand | code/pymqi.py:2322-2327 | `pcf.CMQCFC.NAME` resolves to `NAME` |
| Pcf.CommandNameKeeps | code/pymqi.py:2326-2327 | a name is resolved unchanged exactly when it lacks the `CMQCFC.` prefix, and otherwise is that prefix followed by the resolved name |
| Pcf.Run | code/pymqi.py:2325-2338 | the stored name is stripped first; a call succeeds exactly when a handle is at hand, the command is defined and the reply has a zero completion code, after exactly one `mqaiExecute`; an unknown command raises `KeyError` with no call |
| Pcf.SharedConnectionUsed | code/pymqi.py:2328-2338 | a `PCFExecute` built on a connected queue manager sends its commands over that connection |

## Left out

- `MessageHandle` and its `_Properties`, `Queue`/`Topic`/`Subscription`/`QueueManager.__del__`, `_is_connected`, the `connect()` convenience wrapper, `ByteString`, and the `__str__`/`__repr__` methods: thin wrappers, teardown with swallowed exceptions, or printing.
- The stray `print` in `connect`: output only.
- The `threading.Lock` in `_MQConst2String`: the dictionary build is modelled as a pure function.
- The `pymqe` verbs: they are foreign calls, modelled only as a broker oracle that answers each call given the calls made before it.
- XML parsing with lxml or minidom: it is the `RootTag` oracle.
- Concrete `CMQC`, `CMQCFC` and `CMQXC` values: they stay symbolic. A module dictionary is a list of `(name, value)` pairs in iteration order, and its non-integer attributes are not modelled.
- Platforms other than 64-bit Linux: `MQLONG_TYPE` is fixed to `'i'` and native `'l'` to 8 bytes.
- Real ctypes memory: addresses are keys of a modelled memory map.
- Python's in-place mutation of caller objects (the `mDesc`, options and header list passed in): the updated objects are returned instead.
- Exceptions raised by Python itself for wrongly typed arguments: a non-list third item of `put_rfh2`/`get_rfh2` (`isinstance` check), a string subscription queue in `Subscription.sub`, and a non-integer `Encoding` (treated as no encoding) are not modelled.
- Topics.CheckTopicDesc: `Topic.__init__` compares the descriptor's `ObjectType` and `Version` with `is not`, an identity test; the model compares values.
- `Topic.sub` items after the second: ignored, as the source ignores them.
- `PCFExecute` built on a `QueueManager` instance: that instance is a value captured at construction. Later changes to the shared object are not seen.
- `stringifyKeys` on unicode values: only byte-string values are modelled.
- `code/examples/dis_attributes.py`: a reporting script against a live broker, not part of the library.
- Queues.Refresh, Queues.RealOpen, Queues.Receive, QMgr.Put1Msg, Rfh2Codec.UnpackWith, Topics.SendSub, Topics.CreateTopicDesc and Topics.BuildSd refresh and fill structures with the corrected `unpack` and `set_vs`, not the ones as written. `MQOpts.UnpackAgreesOnSingles` shows the two `unpack`s agree on any structure without a list member, and the `od`, `md`, `gmo`, `pmo` and `SD` member lists and the RFH2 preamble have none; that fact about each class is read off its member list, not proved per class.
- Queues.CloseQueue, Topics.CloseTopic and Topics.SubClose take the close options as `Option<int>` with `None` sending `MQCO_NONE`, so an explicit `close(None)` is treated like an omitted argument rather than passed on to the verb.
- MQOpts.Create: Python's `getattr` test also finds the class's methods and class attributes (`pack`, `unpack`, `get`, `set`, `set_vs`, `get_vs`, `get_length`), so `gmo(pack=1)` succeeds and shadows the method; the model has no class namespace and raises `AttributeError` for such a keyword.
- MQOpts.SetKw: the same `getattr` test; a keyword naming a method or class attribute is refused in the model, while Python writes it as a new instance attribute.
- MQOpts.SetItem: the same `getattr` test; `obj['pack'] = v` raises in the model, while Python shadows the method.
- MQOpts.GetItem: `obj['pack']` raises in the model, while Python returns the bound method; methods are not values of the model.
- Rfh2.NewHeader: on RFH2 `getattr` also finds `add_folder`, `initial_opts` and `big_endian_encodings`, so `RFH2(add_folder=1)` succeeds in Python and raises in the model.
- Filters.NamedOperatorCall: the `FilterOperator` holds a copy of the filter taken when the attribute is read, not a reference to the same `Filter`; a later attribute read or `selector` assignment on that `Filter` is not seen by an operator handed out earlier, so `a = f.less; f.greater; a(v)` builds a `less` filter in the model and a `greater` one in Python.
- Filters.GetAttr: returns the updated filter and the operator as values, for the same reason.
- Chain.WalkAsWritten: runs for at most `fuel` turns and answers `None` while still going, since the loop as written need not end.
- Mnemonics.ErrorAsString: its own contract states only the `OK` case; the other cases are stated by `Mnemonics.ErrorAsStringCases`.

## Findings

| source | as written | input that shows it | evidently intended | confidence | as-written member | corrected member |
|---|---|---|---|---|---|---|
| code/pymqi.py:224-235 | `unpack` assigns one item of the flat `struct.unpack` tuple to each member, although `pack` flattens list members | an MQCD at level 6.0, whose `HdrCompList` is `'2i'`; or any `'2i'` member followed by an `'i'` member | each member takes as many items as its format has | high (not executed) | MQOpts.UnpackAsWrittenMisalignsArrays | MQOpts.RoundTrip |
| code/pymqi.py:325-338 | `set_vs` keeps the `VSPtr` suffix on the other four member names when the name already ends in `VSPtr` | `od.set_vs("ObjectStringVSPtr", "x")` writes the pointer, then raises `AttributeError` for `ObjectStringVSPtrVSOffset` | strip the suffix, as the comment says | high (not executed) | MQOpts.SetVSAsWrittenKeepsSuffix | MQOpts.SetVSGetVS |
| code/pymqi.py:339-347 | the ctypes string buffer is a local of `set_vs`, so the pointer stored outlives it | any `set_vs(name, "topic")` followed by `get_vs(name)` or an MQOPEN reading the pointer | keep the buffer alive as long as the structure refers to it | medium (not executed) | MQOpts.SetVSAsWrittenDangles | MQOpts.SetVSGetVS |
| code/pymqi.py:1729-1735 | the `get_rfh2` loop cuts `StrucLength` bytes and reads the header's `Format` again | a message whose first RFH2 header has `StrucLength` 0 and `Format` `MQFMT_RF_HEADER_2` loops forever | reject a header shorter than its 36-byte preamble | high (not executed) | Chain.AsWrittenSpins | Chain.WalkAgrees |
| code/pymqi.py:703-708 | the folder length is decoded with native `"l"`, 8 bytes on 64-bit Linux, from a 4-byte slice | any little-endian RFH2 with one folder raises `struct.error` | decode the 4-byte MQLONG with `"<l"` or `"=l"` | high (not executed) | Rfh2Codec.UnpackAsWrittenLittleFails | Rfh2Codec.UnpackHeaderFolders |
| code/pymqi.py:645-652 | `pack` sets the `'>'` prefix for a big-endian encoding but never clears it for another encoding | `h.pack(MQENC_INTEGER_NORMAL)` then `h.pack(MQENC_NATIVE)` still packs big-endian | follow the encoding asked for | medium (not executed) | Rfh2Codec.PackAsWrittenSticks | Rfh2Codec.PackFollowsEncoding |
| code/pymqi.py:1719-1740 | with three or more items and a `None` third item, neither branch assigns `msg` | `q.get_rfh2(None, md, gmo, None)` raises `UnboundLocalError` and fetches nothing | fetch the message and return it whole | high (not executed) | Chain.GetRfh2AsWritten | Chain.NoListIsGet |
| code/pymqi.py:2033-2034 | `Subscription.__init__` subscribes with `self.sub(sub_desc=sub_desc)` only, dropping `sub_queue` | `Subscription(qm, sub_desc=sd, sub_queue=q)` sends MQSUB with `MQHO_NONE` | pass the subscription queue it was given on to `sub` | high (not executed) | Topics.AsWrittenDropsSubQueue | Topics.NewSubscriptionUsesSubQueue |

=== FILE: bytes.dfy ===
/** Bytes and fixed-width integer encodings, in either byte order.
    This is the part of Python's `struct` module the structure codec relies on:
    fixed-width codes, two's complement for signed codes. */
module Bytes {

  type byte = x: int | 0 <= x < 256
  type bytes = seq<byte>

  /** 256 to the power `n`: the number of distinct `n`-byte strings. */
  function Pow256(n: nat): (r: nat)
    ensures r >= 1
    ensures n >= 1 ==> r >= 256 && r % 2 == 0
  {
    if n == 0 then 1 else 256 * Pow256(n - 1)
  }

  /** `n` zero bytes (the NUL padding `struct` writes after a short string). */
  function Zeros(n: nat): (r: bytes)
    ensures |r| == n
    ensures forall i :: 0 <= i < n ==> r[i] == 0
  {
    seq(n, _ => 0)
  }

  /** `n` ASCII spaces (the padding RFH2 folders receive). */
  function Spaces(n: nat): (r: bytes)
    ensures |r| == n
    ensures forall i :: 0 <= i < n ==> r[i] == 32
  {
    seq(n, _ => 32)
  }

  /** Reverses a byte string. */
  function Reverse(b: bytes): (r: bytes)
    ensures |r| == |b|
    ensures forall i :: 0 <= i < |b| ==> r[i] == b[|b| - 1 - i]
  {
    seq(|b|, i requires 0 <= i < |b| => b[|b| - 1 - i])
  }

  lemma ReverseReverse(b: bytes)
    ensures Reverse(Reverse(b)) == b
  {
  }

  /** The `w` low-order bytes of `v`, least significant first. */
  function LittleEndian(v: nat, w: nat): (r: bytes)
    ensures |r| == w
  {
    if w == 0 then [] else [(v % 256) as byte] + LittleEndian(v / 256, w - 1)
  }

  /** The number a little-endian byte string denotes. */
  function FromLittleEndian(b: bytes): (r: nat)
    ensures r < Pow256(|b|)
  {
    if |b| == 0 then 0
    else
      var rest := FromLittleEndian(b[1..]);
      assert b[0] + 256 * rest <= 255 + 256 * (Pow256(|b| - 1) - 1);
      b[0] + 256 * rest
  }

  lemma {:induction false} FromLittleEndianOfLittleEndian(v: nat, w: nat)
    requires v < Pow256(w)
    ensures FromLittleEndian(LittleEndian(v, w)) == v
  {
    if w > 0 {
      var b := LittleEndian(v, w);
      assert b[1..] == LittleEndian(v / 256, w - 1);
      assert v / 256 < Pow256(w - 1);
      FromLittleEndianOfLittleEndian(v / 256, w - 1);
    }
  }

  lemma {:induction false} LittleEndianOfFromLittleEndian(b: bytes)
    ensures LittleEndian(FromLittleEndian(b), |b|) == b
  {
    if |b| > 0 {
      var v := FromLittleEndian(b);
      var rest := FromLittleEndian(b[1..]);
      assert v % 256 == b[0] && v / 256 == rest;
      LittleEndianOfFromLittleEndian(b[1..]);
      assert LittleEndian(v, |b|) == [b[0]] + b[1..];
    }
  }

  /** Unsigned encoding of `v` in `w` bytes, big- or little-endian. */
  function EncodeUnsigned(v: nat, w: nat, big: bool): (r: bytes)
    ensures |r| == w
  {
    if big then Reverse(LittleEndian(v, w)) else LittleEndian(v, w)
  }

  function DecodeUnsigned(b: bytes, big: bool): (r: nat)
    ensures r < Pow256(|b|)
  {
    if big then FromLittleEndian(Reverse(b)) else FromLittleEndian(b)
  }

  lemma DecodeEncodeUnsigned(v: nat, w: nat, big: bool)
    requires v < Pow256(w)
    ensures DecodeUnsigned(EncodeUnsigned(v, w, big), big) == v
  {
    if big {
      ReverseReverse(LittleEndian(v, w));
    }
    FromLittleEndianOfLittleEndian(v, w);
  }

  lemma EncodeDecodeUnsigned(b: bytes, big: bool)
    ensures EncodeUnsigned(DecodeUnsigned(b, big), |b|, big) == b
  {
    if big {
      LittleEndianOfFromLittleEndian(Reverse(b));
      ReverseReverse(b);
    } else {
      LittleEndianOfFromLittleEndian(b);
    }
  }

  /** Half the range of a `w`-byte string: the bound of its signed values. */
  function Half(w: nat): (h: int)
    requires w >= 1
    ensures 2 * h == Pow256(w) && h >= 128
  {
    Pow256(w) / 2
  }

  /** Two's complement: the unsigned `w`-byte pattern of a signed value. */
  function TwosComplement(v: int, w: nat): (u: nat)
    requires w >= 1 && -Half(w) <= v < Half(w)
    ensures u < Pow256(w)
  {
    if v < 0 then v + Pow256(w) else v
  }

  /** The signed value of a `w`-byte two's complement pattern. */
  function Signed(u: nat, w: nat): (v: int)
    requires w >= 1 && u < Pow256(w)
    ensures -Half(w) <= v < Half(w)
  {
    if u >= Half(w) then u - Pow256(w) else u
  }

  lemma SignedOfTwosComplement(v: int, w: nat)
    requires w >= 1 && -Half(w) <= v < Half(w)
    ensures Signed(TwosComplement(v, w), w) == v
  {
  }

  lemma TwosComplementOfSigned(u: nat, w: nat)
    requires w >= 1 && u < Pow256(w)
    ensures TwosComplement(Signed(u, w), w) == u
  {
  }
}

=== FILE: chain.dfy ===
/** The RFH2 variants of put and get, `Queue.put_rfh2` and `Queue.get_rfh2`
    (code/pymqi.py:1608-1637, 1709-1740): a message body preceded by a chain of RFH2
    headers, each header packed in the encoding the structure before it announces, and
    the walk that strips such a chain off a received message while the format in hand
    says another RFH2 header follows. */
module Chain {
  import opened Wrappers
  import opened Bytes
  import opened Wire
  import opened Errors
  import opened Consts
  import opened MQOpts
  import opened Rfh2
  import opened Rfh2Codec
  import opened Transport
  import opened QArgs
  import opened QMgr
  import opened Queues

  // ---------------------------------------------------------------------------
  // put_rfh2: packing the header chain
  // ---------------------------------------------------------------------------

  /** An RFH2 header in the list handed to `put_rfh2`: a live instance whose members
      include `Encoding`, as every `RFH2` preamble does. */
  predicate HeaderWf(h: Struct) {
    Wf(h) && |h.fields| > 0 && "Encoding" in NameSet(h.fields)
  }

  /** Every header of the list that is not `None` is an RFH2 header. */
  predicate HeadersWf(hs: seq<Option<Struct>>) {
    forall i :: 0 <= i < |hs| && hs[i].Some? ==> HeaderWf(hs[i].value)
  }

  /** The encoding an `Encoding` member announces to `RFH2.pack`: an integer is passed on;
      `None`, and anything else that is never one of the big-endian encodings, leaves the
      byte order alone. */
  function EncodingOf(v: Value): (e: Option<int>)
    ensures e.Some? <==> v.One? && v.x.I?
    ensures e.Some? ==> e.value == v.x.n
  {
    match v
    case One(I(n)) => Some(n)
    case _ => None
  }

  /** The encoding after one item of the list: a header hands on its own `Encoding`
      member, a `None` item hands on the encoding it was given. */
  function Next(h: Option<Struct>, enc: Option<int>): Option<int>
    requires h.Some? ==> HeaderWf(h.value)
  {
    if h.Some? then EncodingOf(h.value.store["Encoding"]) else enc
  }

  /** Reference definition: the encoding the header at position `i` is packed with, the
      `Encoding` member of the nearest header before it, or the starting encoding when no
      header comes before it. */
  function EncodingAt(hs: seq<Option<Struct>>, enc: Option<int>, i: nat): Option<int>
    requires i <= |hs| && HeadersWf(hs)
    decreases i
  {
    if i == 0 then enc
    else if hs[i - 1].Some? then EncodingOf(hs[i - 1].value.store["Encoding"])
    else EncodingAt(hs, enc, i - 1)
  }

  /** Looking one item further along the list is looking along its tail, starting from
      the encoding the first item hands on. */
  lemma {:induction false} EncodingAtTail(hs: seq<Option<Struct>>, enc: Option<int>, i: nat)
    requires HeadersWf(hs) && 0 < i <= |hs|
    ensures HeadersWf(hs[1..])
    ensures EncodingAt(hs, enc, i) == EncodingAt(hs[1..], Next(hs[0], enc), i - 1)
    decreases i
  {
    TailWf(hs);
    if i > 1 {
      EncodingAtTail(hs, enc, i - 1);
      assert hs[1..][i - 2] == hs[i - 1];
    }
  }

  /** The tail of a well-formed list is well formed. */
  lemma TailWf(hs: seq<Option<Struct>>)
    requires HeadersWf(hs) && 0 < |hs|
    ensures HeadersWf(hs[1..])
  {
    forall j | 0 <= j < |hs[1..]| && hs[1..][j].Some? ensures HeaderWf(hs[1..][j].value) {
      assert hs[1..][j] == hs[j + 1];
    }
  }

  /** A header, or `None`, in front of a well-formed list makes a well-formed list. */
  lemma ConsWf(h: Option<Struct>, t: seq<Option<Struct>>)
    requires (h.Some? ==> HeaderWf(h.value)) && HeadersWf(t)
    ensures HeadersWf([h] + t) && ([h] + t)[1..] == t
  {
    var l := [h] + t;
    assert l[1..] == t;
    forall j | 0 <= j < |l| && l[j].Some? ensures HeaderWf(l[j].value) {
      if j > 0 { assert l[j] == t[j - 1]; }
    }
  }

  /** The headers' bytes one after another, `None` items contributing nothing, or the
      first error `MQOpts.pack` raises. */
  function Joined(hs: seq<Option<Struct>>): (r: Result<bytes, Error>)
    requires HeadersWf(hs)
    decreases |hs|
  {
    if |hs| == 0 then Ok([])
    else
      TailWf(hs);
      if hs[0].None? then Joined(hs[1..])
      else
        match Pack(hs[0].value)
        case Err(e) => Err(e)
        case Ok(x) =>
          match Joined(hs[1..])
          case Err(e) => Err(e)
          case Ok(y) => Ok(x + y)
  }

  /** How the loop packs a header with an encoding: the instance after the call and what
      `MQOpts.pack` gives. The loop is stated for any packer that keeps the properties
      `PacksHeaders` names. `PackingAsWritten(k)` is `RFH2.pack` as written, and
      `Packing(k)` is the corrected `RFH2.pack` whose byte order follows every encoding. */
  type Packer = (Struct, Option<int>) --> (Struct, Result<bytes, Error>)

  function Packing(k: Consts): Packer {
    (h: Struct, e: Option<int>) requires Wf(h) && |h.fields| > 0 => PackHeader(h, e, k)
  }

  function PackingAsWritten(k: Consts): Packer {
    (h: Struct, e: Option<int>) requires Wf(h) && |h.fields| > 0 => PackHeaderAsWritten(h, e, k)
  }

  /** What one packing `r` of header `h` keeps: an RFH2 header with `h`'s `Encoding`
      member, and bytes that are `MQOpts.pack` of the instance after the call. */
  predicate Packs(h: Struct, r: (Struct, Result<bytes, Error>))
    requires HeaderWf(h)
  {
    HeaderWf(r.0) && r.0.store["Encoding"] == h.store["Encoding"] && r.1 == Pack(r.0)
  }

  ghost predicate PacksHeaders(p: Packer) {
    forall h, e :: HeaderWf(h) ==> p.requires(h, e) && Packs(h, p(h, e))
  }

  /** An item of the list after packing with encoding `e`; `None` stays `None`. */
  function RepackAt(h: Option<Struct>, e: Option<int>, p: Packer): Option<Struct>
    requires PacksHeaders(p) && (h.Some? ==> HeaderWf(h.value))
  {
    if h.Some? then Some(p(h.value, e).0) else None
  }

  /** `RFH2.pack` keeps the header an RFH2 header and its `Encoding` member as it was. */
  lemma PackKeepsEncoding(h: Struct, enc: Option<int>, k: Consts)
    requires HeaderWf(h)
    ensures HeaderWf(PackHeader(h, enc, k).0)
    ensures PackHeader(h, enc, k).0.store["Encoding"] == h.store["Encoding"]
  {
    var h1 := PackHeader(h, enc, k).0;
    var j :| 0 <= j < |h.fields| && h.fields[j].name == "Encoding";
    if j > 0 { assert h1.fields[1..][j - 1] == h.fields[1..][j - 1]; }
    assert h1.fields[j].name == "Encoding";
  }

  lemma PackingPacks(k: Consts)
    ensures PacksHeaders(Packing(k))
  {
    forall h, e | HeaderWf(h) ensures Packing(k).requires(h, e) && Packs(h, Packing(k)(h, e)) {
      PackKeepsEncoding(h, e, k);
    }
  }

  /** `RFH2.pack` as written keeps the header an RFH2 header and its `Encoding` member as
      it was. */
  lemma PackAsWrittenKeepsEncoding(h: Struct, enc: Option<int>, k: Consts)
    requires HeaderWf(h)
    ensures HeaderWf(PackHeaderAsWritten(h, enc, k).0)
    ensures PackHeaderAsWritten(h, enc, k).0.store["Encoding"] == h.store["Encoding"]
  {
    var h1 := PackHeaderAsWritten(h, enc, k).0;
    var j :| 0 <= j < |h.fields| && h.fields[j].name == "Encoding";
    if j > 0 { assert h1.fields[1..][j - 1] == h.fields[1..][j - 1]; }
    assert h1.fields[j].name == "Encoding";
  }

  lemma PackingAsWrittenPacks(k: Consts)
    ensures PacksHeaders(PackingAsWritten(k))
  {
    forall h, e | HeaderWf(h) ensures PackingAsWritten(k).requires(h, e) && Packs(h, PackingAsWritten(k)(h, e)) {
      PackAsWrittenKeepsEncoding(h, e, k);
    }
  }

  /** `after` is the list `hs` once its headers were packed in place: headers where `hs`
      has headers, `None` where it has `None`. */
  predicate SameSlots(hs: seq<Option<Struct>>, after: seq<Option<Struct>>) {
    && |after| == |hs| && HeadersWf(after)
    && forall i :: 0 <= i < |hs| ==> (after[i].Some? <==> hs[i].Some?)
  }

  /** The loop of `put_rfh2` over the header list: each header is packed with the current
      encoding, which then becomes the header's own `Encoding`; packing changes the
      headers in place, so the list after the loop is returned with the bytes. The bytes
      are the packed headers one after another, whatever happens. */
  function PackChain(hs: seq<Option<Struct>>, enc: Option<int>, p: Packer): (seq<Option<Struct>>, Result<bytes, Error>)
    requires HeadersWf(hs) && PacksHeaders(p)
    decreases |hs|
  {
    if |hs| == 0 then ([], Ok([]))
    else
      TailWf(hs);
      if hs[0].None? then
        var (t, rb) := PackChain(hs[1..], enc, p);
        ([None] + t, rb)
      else
        var (h1, b1) := p(hs[0].value, enc);
        match b1
        case Err(e) => ([Some(h1)] + hs[1..], Err(e))
        case Ok(x) =>
          var (t, rb) := PackChain(hs[1..], EncodingOf(h1.store["Encoding"]), p);
          ([Some(h1)] + t, match rb case Err(e) => Err(e) case Ok(y) => Ok(x + y))
  }

  /** Packing keeps every item where it was: headers stay RFH2 headers and `None` stays
      `None`. */
  lemma {:induction false} ChainSlots(hs: seq<Option<Struct>>, enc: Option<int>, p: Packer)
    requires HeadersWf(hs) && PacksHeaders(p)
    ensures SameSlots(hs, PackChain(hs, enc, p).0)
    decreases |hs|
  {
    if |hs| > 0 {
      TailWf(hs);
      if hs[0].None? {
        ChainSlots(hs[1..], enc, p);
        ConsWf(None, PackChain(hs[1..], enc, p).0);
      } else {
        var h1 := p(hs[0].value, enc).0;
        ConsWf(Some(h1), hs[1..]);
        ChainSlots(hs[1..], Next(hs[0], enc), p);
        ConsWf(Some(h1), PackChain(hs[1..], Next(hs[0], enc), p).0);
      }
    }
  }

  /** The bytes the loop builds are the packed headers one after another, whether or not
      every header packed: the headers after a failure stay as they were and add
      nothing. */
  lemma {:induction false} ChainJoined(hs: seq<Option<Struct>>, enc: Option<int>, p: Packer)
    requires HeadersWf(hs) && PacksHeaders(p)
    ensures SameSlots(hs, PackChain(hs, enc, p).0) && PackChain(hs, enc, p).1 == Joined(PackChain(hs, enc, p).0)
    decreases |hs|
  {
    ChainSlots(hs, enc, p);
    if |hs| > 0 {
      TailWf(hs);
      var r := PackChain(hs, enc, p).0;
      if hs[0].None? {
        ChainJoined(hs[1..], enc, p);
        assert r[1..] == PackChain(hs[1..], enc, p).0;
      } else {
        var (h1, b1) := p(hs[0].value, enc);
        if b1.Err? {
          assert r[1..] == hs[1..];
        } else {
          ChainJoined(hs[1..], Next(hs[0], enc), p);
          assert r[1..] == PackChain(hs[1..], Next(hs[0], enc), p).0;
        }
      }
    }
  }

  /** One turn of the loop: when the whole list packed, its head is the first header
      packed with the starting encoding and the rest is the tail packed from the encoding
      the head hands on. */
  lemma PackChainStep(hs: seq<Option<Struct>>, enc: Option<int>, p: Packer)
    requires HeadersWf(hs) && PacksHeaders(p) && 0 < |hs| && PackChain(hs, enc, p).1.Ok?
    ensures HeadersWf(hs[1..])
    ensures PackChain(hs, enc, p).0[0] == RepackAt(hs[0], enc, p)
    ensures PackChain(hs[1..], Next(hs[0], enc), p).1.Ok?
    ensures PackChain(hs, enc, p).0[1..] == PackChain(hs[1..], Next(hs[0], enc), p).0
  {
    TailWf(hs);
  }

  /** When every header packed, the header at each position is the one `RFH2.pack`
      makes with the encoding at that position: the descriptor's encoding (or native) for
      the first header, then the `Encoding` of the nearest header before it. */
  lemma {:induction false} ChainRepacks(hs: seq<Option<Struct>>, enc: Option<int>, p: Packer)
    requires HeadersWf(hs) && PacksHeaders(p) && PackChain(hs, enc, p).1.Ok?
    ensures |PackChain(hs, enc, p).0| == |hs|
    ensures forall i :: 0 <= i < |hs| ==> PackChain(hs, enc, p).0[i] == RepackAt(hs[i], EncodingAt(hs, enc, i), p)
    decreases |hs|
  {
    ChainSlots(hs, enc, p);
    if |hs| > 0 {
      PackChainStep(hs, enc, p);
      var r := PackChain(hs, enc, p).0;
      var t := PackChain(hs[1..], Next(hs[0], enc), p).0;
      ChainRepacks(hs[1..], Next(hs[0], enc), p);
      forall i | 0 <= i < |hs| ensures r[i] == RepackAt(hs[i], EncodingAt(hs, enc, i), p) {
        if i > 0 {
          EncodingAtTail(hs, enc, i);
          assert r[i] == t[i - 1] && hs[1..][i - 1] == hs[i];
        }
      }
    }
  }

  /** The encoding `put_rfh2` starts from: the descriptor's `Encoding` member when a
      descriptor is passed, `MQENC_NATIVE` otherwise. */
  function StartEncoding(k: Consts, md: Option<Struct>): (r: Result<Option<int>, Error>)
    ensures md.None? ==> r == Ok(Some(N(k, "MQENC_NATIVE")))
    ensures md.Some? ==> (r.Ok? <==> "Encoding" in md.value.store)
  {
    match md
    case None => Ok(Some(N(k, "MQENC_NATIVE")))
    case Some(d) =>
      match GetItem(d, "Encoding")
      case Err(e) => Err(e)
      case Ok(v) => Ok(EncodingOf(v))
  }

  /** The items of `opts` a call with `argc` of them has: a descriptor only from the
      first on, options from the second, the header list from the third. */
  predicate CallShape<L>(argc: nat, md: Option<Struct>, o: Option<Struct>, headers: Option<L>) {
    && (argc < 1 ==> md.None?)
    && (argc < 2 ==> o.None?)
    && (argc < 3 ==> headers.None?)
  }

  /** What `put_rfh2` and `get_rfh2` hand on to `put` and `get`: `*opts` when there are
      fewer than three items, `*opts[0:2]` otherwise. */
  function Leading(argc: nat, md: Option<Struct>, o: Option<Struct>): (r: seq<Option<Struct>>)
    ensures |r| <= 2 && |r| == (if argc < 2 then argc else 2)
    ensures |r| > 0 ==> r[0] == md
    ensures |r| > 1 ==> r[1] == o
  {
    [md, o][..if argc < 2 then argc else 2]
  }

  /** The items handed on are live structures when the caller's are. */
  lemma LeadingWf(argc: nat, md: Option<Struct>, o: Option<Struct>)
    requires AllWf([md, o])
    ensures AllWf(Leading(argc, md, o))
  {
  }

  /** `put_rfh2(msg, *opts)`. Without a header list (fewer than three items, or `None`
      third) it is `put`, extra items beyond the third ignored. With one, the start
      encoding is read first (a descriptor without `Encoding` raises before any header
      is packed); then the message put is the headers, as packing leaves them, one after
      another in front of the body, each header packed with the encoding of the nearest
      header before it or the start encoding; a header that fails to pack raises with
      nothing put. The header list is returned as packing left it. Each header is packed
      with the corrected `RFH2.pack`, whose byte order follows the encoding it is given. */
  function PutRfh2(q: Queue, qm: QueueManager, b: Broker, w: World, env: Env, f: Fresh, msg: bytes,
                   argc: nat, md: Option<Struct>, pmo: Option<Struct>, headers: Option<seq<Option<Struct>>>)
    : (r: (Option<seq<Option<Struct>>>, Step<Queue, (Struct, Struct)>))
    requires QueueWf(q) && FreshWf(f) && AllWf([md, pmo]) && CallShape(argc, md, pmo, headers)
    requires headers.Some? ==> HeadersWf(headers.value)
    ensures headers.None? ==> r == (None, PutMsg(q, qm, b, w, env, f, msg, Leading(argc, md, pmo)))
    ensures headers.Some? && StartEncoding(env.k, md).Err? ==>
      r == (headers, Step(q, w, Err(StartEncoding(env.k, md).error)))
    ensures headers.Some? && StartEncoding(env.k, md).Ok? ==>
      (PackingPacks(env.k);
       RfhPut(q, qm, b, w, env, f, msg, md, pmo, headers.value, StartEncoding(env.k, md).value, Packing(env.k), r))
  {
    LeadingWf(argc, md, pmo);
    PackingPacks(env.k);
    if headers.None? then (None, PutMsg(q, qm, b, w, env, f, msg, Leading(argc, md, pmo)))
    else
      match StartEncoding(env.k, md)
      case Err(e) => (headers, Step(q, w, Err(e)))
      case Ok(enc) => PutChain(q, qm, b, w, env, f, msg, md, pmo, headers.value, enc, Packing(env.k))
  }

  /** `put_rfh2(msg, *opts)` as written: the same call, each header packed with
      `RFH2.pack` as written, which leaves a `'>'` prefix in place when the encoding it is
      given is not big-endian. */
  function PutRfh2AsWritten(q: Queue, qm: QueueManager, b: Broker, w: World, env: Env, f: Fresh, msg: bytes,
                            argc: nat, md: Option<Struct>, pmo: Option<Struct>, headers: Option<seq<Option<Struct>>>)
    : (r: (Option<seq<Option<Struct>>>, Step<Queue, (Struct, Struct)>))
    requires QueueWf(q) && FreshWf(f) && AllWf([md, pmo]) && CallShape(argc, md, pmo, headers)
    requires headers.Some? ==> HeadersWf(headers.value)
    ensures headers.None? ==> r == (None, PutMsg(q, qm, b, w, env, f, msg, Leading(argc, md, pmo)))
    ensures headers.Some? && StartEncoding(env.k, md).Err? ==>
      r == (headers, Step(q, w, Err(StartEncoding(env.k, md).error)))
    ensures headers.Some? && StartEncoding(env.k, md).Ok? ==>
      (PackingAsWrittenPacks(env.k);
       RfhPut(q, qm, b, w, env, f, msg, md, pmo, headers.value, StartEncoding(env.k, md).value, PackingAsWritten(env.k), r))
  {
    LeadingWf(argc, md, pmo);
    PackingAsWrittenPacks(env.k);
    if headers.None? then (None, PutMsg(q, qm, b, w, env, f, msg, Leading(argc, md, pmo)))
    else
      match StartEncoding(env.k, md)
      case Err(e) => (headers, Step(q, w, Err(e)))
      case Ok(enc) => PutChain(q, qm, b, w, env, f, msg, md, pmo, headers.value, enc, PackingAsWritten(env.k))
  }

  /** The header-list branch of `put_rfh2` once the start encoding `enc` is known, each
      header packed by `p`. */
  function PutChain(q: Queue, qm: QueueManager, b: Broker, w: World, env: Env, f: Fresh, msg: bytes,
                    md: Option<Struct>, pmo: Option<Struct>, headers: seq<Option<Struct>>, enc: Option<int>, p: Packer)
    : (r: (Option<seq<Option<Struct>>>, Step<Queue, (Struct, Struct)>))
    requires QueueWf(q) && FreshWf(f) && AllWf([md, pmo]) && HeadersWf(headers) && PacksHeaders(p)
    ensures RfhPut(q, qm, b, w, env, f, msg, md, pmo, headers, enc, p, r)
  {
    var (hs, buf) := PackChain(headers, enc, p);
    ChainJoined(headers, enc, p);
    match buf
    case Err(e) => (Some(hs), Step(q, w, Err(e)))
    case Ok(x) =>
      ChainRepacks(headers, enc, p);
      (Some(hs), PutMsg(q, qm, b, w, env, f, x + msg, [md, pmo]))
  }

  /** The outcome of `put_rfh2` with a header list, start encoding `enc` and packer `p`. */
  predicate RfhPut(q: Queue, qm: QueueManager, b: Broker, w: World, env: Env, f: Fresh, msg: bytes,
                   md: Option<Struct>, pmo: Option<Struct>, hs: seq<Option<Struct>>, enc: Option<int>, p: Packer,
                   r: (Option<seq<Option<Struct>>>, Step<Queue, (Struct, Struct)>))
    requires QueueWf(q) && FreshWf(f) && AllWf([md, pmo]) && HeadersWf(hs) && PacksHeaders(p)
  {
    && r.0.Some? && SameSlots(hs, r.0.value)
    && (Joined(r.0.value).Err? ==> r.1 == Step(q, w, Err(Joined(r.0.value).error)))
    && (Joined(r.0.value).Ok? ==>
          && r.1 == PutMsg(q, qm, b, w, env, f, Joined(r.0.value).value + msg, [md, pmo])
          && forall i :: 0 <= i < |hs| ==> r.0.value[i] == RepackAt(hs[i], EncodingAt(hs, enc, i), p))
  }

  /** Every header the corrected `put_rfh2` packed whose encoding is given is laid out in
      that encoding's byte order: big-endian for the big-endian encodings, little-endian
      for the others. */
  lemma ChainByteOrder(hs: seq<Option<Struct>>, enc: Option<int>, k: Consts, i: nat)
    requires HeadersWf(hs) && PacksHeaders(Packing(k)) && PackChain(hs, enc, Packing(k)).1.Ok?
    requires i < |hs| && hs[i].Some? && EncodingAt(hs, enc, i).Some?
    ensures |PackChain(hs, enc, Packing(k)).0| == |hs| && PackChain(hs, enc, Packing(k)).0[i].Some?
    ensures BigEndian(PackChain(hs, enc, Packing(k)).0[i].value.fields) == BigEncoding(k, EncodingAt(hs, enc, i))
  {
    ChainRepacks(hs, enc, Packing(k));
  }

  /** As written, `put_rfh2` packs a header big-endian when its encoding is big-endian and
      otherwise leaves the header exactly as it came, so a header that was already
      big-endian is packed big-endian whatever encoding it is given. */
  lemma ChainByteOrderAsWritten(hs: seq<Option<Struct>>, enc: Option<int>, k: Consts, i: nat)
    requires HeadersWf(hs) && PacksHeaders(PackingAsWritten(k)) && PackChain(hs, enc, PackingAsWritten(k)).1.Ok?
    requires i < |hs| && hs[i].Some?
    ensures |PackChain(hs, enc, PackingAsWritten(k)).0| == |hs| && PackChain(hs, enc, PackingAsWritten(k)).0[i].Some?
    ensures BigEncoding(k, EncodingAt(hs, enc, i)) ==> BigEndian(PackChain(hs, enc, PackingAsWritten(k)).0[i].value.fields)
    ensures !BigEncoding(k, EncodingAt(hs, enc, i)) ==> PackChain(hs, enc, PackingAsWritten(k)).0[i] == hs[i]
  {
    ChainRepacks(hs, enc, PackingAsWritten(k));
  }

  // ---------------------------------------------------------------------------
  // get_rfh2: walking the header chain
  // ---------------------------------------------------------------------------

  /** `CMQC.MQFMT_RF_HEADER_2` as a `Format` member holds it. */
  function Rf2(k: Consts): Value {
    One(S(C(k, "MQFMT_RF_HEADER_2")))
  }

  /** `RFH2()`: the header each turn of the walk unpacks into. */
  function Blank(k: Consts): (h: Struct)
    ensures h.kind == RFH2
  {
    NewHeader(k, []).value
  }

  /** How a turn of the walk reads a header off the front of the message. */
  type Unpacker = bytes -> Result<Struct, Error>

  /** `RFH2().unpack(msg)`, reading the byte order from the message. */
  function Reader(k: Consts, tag: RootTag): Unpacker {
    b => UnpackHeader(Blank(k), b, None, k, tag)
  }

  /** `RFH2().unpack(msg)` as written, with the folder length read as a native 8-byte
      `"l"`. */
  function ReaderAsWritten(k: Consts, tag: RootTag): Unpacker {
    b => UnpackHeaderAsWritten(Blank(k), b, None, k, tag)
  }

  /** A reader that only succeeds on at least a 36-byte preamble. */
  ghost predicate ReadsPreamble(u: Unpacker) {
    forall b :: u(b).Ok? ==> |b| >= 36
  }

  /** `RFH2.unpack` refuses anything shorter than the preamble. */
  lemma ReaderReadsPreamble(k: Consts, tag: RootTag)
    ensures ReadsPreamble(Reader(k, tag)) && ReadsPreamble(ReaderAsWritten(k, tag))
  {
  }

  /** Python's `msg[v:]` for the value `v` of a `StrucLength` member: an integer cuts,
      `None` keeps the whole message, anything else raises. */
  function SliceFrom(msg: bytes, v: Value): (r: Result<bytes, Error>)
    ensures r.Ok? ==> |r.value| <= |msg|
  {
    match v
    case One(I(n)) => Ok(Drop(msg, n))
    case One(Nil) => Ok(msg)
    case _ => Err(TypeError(NotAnIndex))
  }

  /** One turn of the `while` loop of `get_rfh2`: read a header off the message, cut
      `StrucLength` bytes off, and take the header's own `Format`. Returns the header,
      what is left of the message, and the format for the next test. */
  function Turn(u: Unpacker, msg: bytes): (r: Result<(Struct, bytes, Value), Error>)
    ensures r.Ok? ==> u(msg) == Ok(r.value.0) && |r.value.1| <= |msg|
    ensures r.Ok? ==> "StrucLength" in r.value.0.store && "Format" in r.value.0.store
    ensures r.Ok? ==> SliceFrom(msg, r.value.0.store["StrucLength"]) == Ok(r.value.1)
    ensures r.Ok? ==> r.value.2 == r.value.0.store["Format"]
  {
    match u(msg)
    case Err(e) => Err(e)
    case Ok(h) =>
      match GetItem(h, "StrucLength")
      case Err(e) => Err(e)
      case Ok(sl) =>
        match SliceFrom(msg, sl)
        case Err(e) => Err(e)
        case Ok(rest) =>
          match GetItem(h, "Format")
          case Err(e) => Err(e)
          case Ok(fmt1) => Ok((h, rest, fmt1))
  }

  /** A turn of the walk, as a value: the walks below are stated for any turn that keeps
      the links `TurnLinks` names, and `Turning(u)` is the one `get_rfh2` takes. */
  type Turner = bytes -> Result<(Struct, bytes, Value), Error>

  function Turning(u: Unpacker): Turner {
    b => Turn(u, b)
  }

  /** What a successful turn `v` on message `b` keeps: the next format is the header's
      own `Format`, and a header covering the preamble was cut off the front of `b`,
      taking at least 36 bytes with it. */
  predicate TurnLinks(b: bytes, v: (Struct, bytes, Value)) {
    && "Format" in v.0.store && v.2 == v.0.store["Format"]
    && (CoversPreamble(v.0) ==> 36 + |v.1| <= |b| && v.1 == b[|b| - |v.1|..])
  }

  ghost predicate TurnsWell(t: Turner) {
    forall b :: t(b).Ok? ==> TurnLinks(b, t(b).value)
  }

  /** `Turn` keeps the links whenever its reader needs a whole preamble. */
  lemma TurningWell(u: Unpacker)
    requires ReadsPreamble(u)
    ensures TurnsWell(Turning(u))
  {
    forall b | Turning(u)(b).Ok?
      ensures TurnLinks(b, Turning(u)(b).value)
    {
      var (h, rest, _) := Turn(u, b).value;
      if CoversPreamble(h) {
        assert Take(b, h.store["StrucLength"].x.n) + rest == b;
      }
    }
  }

  /** The `while` loop of `get_rfh2` as written, run for at most `fuel` turns (`None`
      when it is still going): turn after turn while the format in hand is
      `MQFMT_RF_HEADER_2`. */
  function WalkAsWritten(k: Consts, t: Turner, msg: bytes, fmt: Value, fuel: nat)
    : (r: Result<Option<(seq<Struct>, bytes)>, Error>)
    ensures fmt != Rf2(k) ==> r == Ok(Some(([], msg)))
    ensures fmt == Rf2(k) && fuel == 0 ==> r == Ok(None)
    decreases fuel
  {
    if fmt != Rf2(k) then Ok(Some(([], msg)))
    else if fuel == 0 then Ok(None)
    else
      var turn := t(msg);
      if turn.Err? then Err(turn.error)
      else
        var more := WalkAsWritten(k, t, turn.value.1, turn.value.2, fuel - 1);
        if more.Err? then Err(more.error)
        else if more.value.None? then Ok(None)
        else Ok(Some(([turn.value.0] + more.value.value.0, more.value.value.1)))
  }

  /** A message whose first header says it is 0 bytes long and is followed by another
      RFH2 header. */
  predicate SelfChained(k: Consts, u: Unpacker, msg: bytes) {
    && u(msg).Ok?
    && "StrucLength" in u(msg).value.store && u(msg).value.store["StrucLength"] == One(I(0))
    && "Format" in u(msg).value.store && u(msg).value.store["Format"] == Rf2(k)
  }

  /** As written, a message whose first RFH2 header has `StrucLength` 0 and `Format`
      `MQFMT_RF_HEADER_2` keeps the loop going forever: cutting 0 bytes leaves the same
      message, which reads as the same header, however many turns are allowed. */
  lemma {:induction false} AsWrittenSpins(k: Consts, u: Unpacker, msg: bytes, fuel: nat)
    requires SelfChained(k, u, msg)
    ensures WalkAsWritten(k, Turning(u), msg, Rf2(k), fuel) == Ok(None)
    decreases fuel
  {
    if fuel > 0 {
      assert Drop(msg, 0) == msg;
      assert Turning(u)(msg) == Ok((u(msg).value, msg, Rf2(k)));
      AsWrittenSpins(k, u, msg, fuel - 1);
    }
  }

  /** A header that says it is at least as long as the 36-byte preamble. */
  predicate CoversPreamble(h: Struct) {
    "StrucLength" in h.store && h.store["StrucLength"].One? && h.store["StrucLength"].x.I?
    && h.store["StrucLength"].x.n >= 36
  }

  /** The walk with the loop made to progress, the evidently intended behaviour: a
      header that does not cover the 36-byte preamble raises, so each turn cuts at least
      36 bytes off and the walk ends. Otherwise it is the loop as written. */
  function Walk(k: Consts, t: Turner, msg: bytes, fmt: Value): (r: Result<(seq<Struct>, bytes), Error>)
    requires TurnsWell(t)
    ensures fmt != Rf2(k) ==> r == Ok(([], msg))
    decreases |msg|
  {
    if fmt != Rf2(k) then Ok(([], msg))
    else
      var turn := t(msg);
      if turn.Err? then Err(turn.error)
      else if !CoversPreamble(turn.value.0) then Err(PYIFError(HeaderShorterThanPreamble))
      else
        assert TurnLinks(msg, turn.value);
        var more := Walk(k, t, turn.value.1, turn.value.2);
        if more.Err? then Err(more.error)
        else Ok(([turn.value.0] + more.value.0, more.value.1))
  }

  /** Whenever the corrected walk finishes, the loop as written, given a turn per header,
      finishes with the same headers and the same remaining message. */
  lemma {:induction false} WalkAgrees(k: Consts, t: Turner, msg: bytes, fmt: Value, fuel: nat)
    requires TurnsWell(t) && Walk(k, t, msg, fmt).Ok? && fuel >= |Walk(k, t, msg, fmt).value.0|
    ensures WalkAsWritten(k, t, msg, fmt, fuel) == Ok(Some(Walk(k, t, msg, fmt).value))
    decreases |msg|
  {
    if fmt == Rf2(k) {
      var (h, rest, fmt1) := t(msg).value;
      assert TurnLinks(msg, t(msg).value);
      var w := Walk(k, t, rest, fmt1).value;
      assert Walk(k, t, msg, fmt) == Ok(([h] + w.0, w.1));
      WalkAgrees(k, t, rest, fmt1, fuel - 1);
    }
  }

  /** The headers a walk that started from format `fmt` read: there are some exactly
      when `fmt` is `MQFMT_RF_HEADER_2`; each announces a further RFH2 header except the
      last; each covers the preamble. */
  predicate Announced(k: Consts, fmt: Value, hs: seq<Struct>) {
    && (fmt == Rf2(k) <==> |hs| > 0)
    && forall i :: 0 <= i < |hs| ==>
         && "Format" in hs[i].store && (hs[i].store["Format"] == Rf2(k) <==> i + 1 < |hs|)
         && CoversPreamble(hs[i])
  }

  /** What the corrected walk leaves of the message is what follows the headers it
      read, at least 36 bytes per header shorter. */
  lemma {:induction false} WalkCutsFront(k: Consts, t: Turner, msg: bytes, fmt: Value)
    requires TurnsWell(t) && Walk(k, t, msg, fmt).Ok?
    ensures var (hs, rest) := Walk(k, t, msg, fmt).value;
      36 * |hs| + |rest| <= |msg| && rest == msg[|msg| - |rest|..]
    decreases |msg|
  {
    if fmt == Rf2(k) {
      var (h, rest, fmt1) := t(msg).value;
      assert TurnLinks(msg, t(msg).value);
      var w := Walk(k, t, rest, fmt1).value;
      assert Walk(k, t, msg, fmt) == Ok(([h] + w.0, w.1));
      WalkCutsFront(k, t, rest, fmt1);
    }
  }

  /** The headers the corrected walk read are `Announced` one after another from the
      format it started with. */
  lemma {:induction false} WalkAnnounced(k: Consts, t: Turner, msg: bytes, fmt: Value)
    requires TurnsWell(t) && Walk(k, t, msg, fmt).Ok?
    ensures Announced(k, fmt, Walk(k, t, msg, fmt).value.0)
    decreases |msg|
  {
    if fmt == Rf2(k) {
      var (h, rest, fmt1) := t(msg).value;
      assert TurnLinks(msg, t(msg).value);
      var w := Walk(k, t, rest, fmt1).value;
      assert Walk(k, t, msg, fmt) == Ok(([h] + w.0, w.1));
      WalkAnnounced(k, t, rest, fmt1);
      var hs := [h] + w.0;
      forall i | 0 <= i < |hs|
        ensures "Format" in hs[i].store && (hs[i].store["Format"] == Rf2(k) <==> i + 1 < |hs|)
        ensures CoversPreamble(hs[i])
      {
        if i > 0 { assert hs[i] == w.0[i - 1]; }
      }
    }
  }

  // ---------------------------------------------------------------------------
  // get_rfh2
  // ---------------------------------------------------------------------------

  /** What `get_rfh2` hands back: the message with its headers cut off, the descriptor
      and options `get` refreshed, and the caller's header list (if any) as the call
      leaves it. */
  datatype Stripped = Stripped(got: Got, headers: Option<seq<Struct>>)

  /** After a successful `get`, with a header list: the format comes from the caller's
      descriptor as `get` refreshed it (there is none to read when the caller passed
      `None`), the walk runs, and the headers it read are appended to the list. */
  function Strip(k: Consts, t: Turner, got: Got, md: Option<Struct>, headers: seq<Struct>): (r: Result<Stripped, Error>)
    requires TurnsWell(t)
    ensures md.None? ==> r == Err(TypeError(NotSubscriptable))
    ensures r.Ok? ==> "Format" in got.md.store && Walk(k, t, got.msg, got.md.store["Format"]).Ok?
    ensures r.Ok? ==>
      var (hs, rest) := Walk(k, t, got.msg, got.md.store["Format"]).value;
      r.value == Stripped(got.(msg := rest), Some(headers + hs))
  {
    if md.None? then Err(TypeError(NotSubscriptable))
    else
      match GetItem(got.md, "Format")
      case Err(e) => Err(e)
      case Ok(fmt) =>
        match Walk(k, t, got.msg, fmt)
        case Err(e) => Err(e)
        case Ok((hs, rest)) => Ok(Stripped(got.(msg := rest), Some(headers + hs)))
  }

  /** `Strip` with the loop as written, for at most `fuel` turns. */
  function StripAsWritten(k: Consts, t: Turner, got: Got, md: Option<Struct>, headers: seq<Struct>, fuel: nat)
    : (r: Result<Option<Stripped>, Error>)
    ensures md.None? ==> r == Err(TypeError(NotSubscriptable))
  {
    if md.None? then Err(TypeError(NotSubscriptable))
    else
      match GetItem(got.md, "Format")
      case Err(e) => Err(e)
      case Ok(fmt) =>
        match WalkAsWritten(k, t, got.msg, fmt, fuel)
        case Err(e) => Err(e)
        case Ok(None) => Ok(None)
        case Ok(Some((hs, rest))) => Ok(Some(Stripped(got.(msg := rest), Some(headers + hs))))
  }

  /** What `get_rfh2` does with the outcome `g` of its `get`, corrected: without a header
      list the message comes back whole; with one, `Strip` runs. */
  function AfterGet(k: Consts, t: Turner, g: Step<Queue, Got>, md: Option<Struct>, headers: Option<seq<Struct>>): (r: Step<Queue, Stripped>)
    requires TurnsWell(t)
    ensures r.state == g.state && r.world == g.world
    ensures g.result.Err? ==> r.result == Err(g.result.error)
    ensures g.result.Ok? && headers.None? ==> r.result == Ok(Stripped(g.result.value, None))
    ensures g.result.Ok? && headers.Some? ==> r.result == Strip(k, t, g.result.value, md, headers.value)
  {
    match g.result
    case Err(e) => Step(g.state, g.world, Err(e))
    case Ok(got) =>
      if headers.None? then Step(g.state, g.world, Ok(Stripped(got, None)))
      else Step(g.state, g.world, Strip(k, t, got, md, headers.value))
  }

  /** `AfterGet` as written, its loop run for at most `fuel` turns. */
  function AfterGetAsWritten(k: Consts, t: Turner, g: Step<Queue, Got>, md: Option<Struct>,
                             headers: Option<seq<Struct>>, fuel: nat): (r: Step<Queue, Option<Stripped>>)
    ensures r.state == g.state && r.world == g.world
  {
    match g.result
    case Err(e) => Step(g.state, g.world, Err(e))
    case Ok(got) =>
      if headers.None? then Step(g.state, g.world, Ok(Some(Stripped(got, None))))
      else Step(g.state, g.world, StripAsWritten(k, t, got, md, headers.value, fuel))
  }

  /** Whenever the corrected `AfterGet` succeeds, the one as written, given a turn per
      header, gives the same. */
  lemma AfterGetAgrees(k: Consts, t: Turner, g: Step<Queue, Got>, md: Option<Struct>,
                       headers: Option<seq<Struct>>, fuel: nat)
    requires TurnsWell(t) && AfterGet(k, t, g, md, headers).result.Ok?
    requires headers.Some? ==> fuel >= |AfterGet(k, t, g, md, headers).result.value.headers.value|
    ensures AfterGetAsWritten(k, t, g, md, headers, fuel).result == Ok(Some(AfterGet(k, t, g, md, headers).result.value))
  {
    if headers.Some? {
      var got := g.result.value;
      WalkAgrees(k, t, got.msg, got.md.store["Format"], fuel);
    }
  }

  /** `get_rfh2(max_length, *opts)` as written, its loop run for at most `fuel` turns
      (`None` when it is still going), each header read by `RFH2.unpack` as written.
      With a third item that is `None`, nothing is fetched and the final `return msg`
      finds `msg` unassigned. */
  function GetRfh2AsWritten(q: Queue, qm: QueueManager, b: Broker, w: World, env: Env, f: Fresh, tag: RootTag,
                            maxLength: Option<int>, argc: nat, md: Option<Struct>, gmo: Option<Struct>,
                            headers: Option<seq<Struct>>, fuel: nat): (r: Step<Queue, Option<Stripped>>)
    requires QueueWf(q) && FreshWf(f) && AllWf([md, gmo]) && CallShape(argc, md, gmo, headers)
    ensures argc >= 3 && headers.None? ==> r == Step(q, w, Err(UnboundLocalError("msg")))
  {
    LeadingWf(argc, md, gmo);
    if argc >= 3 && headers.None? then Step(q, w, Err(UnboundLocalError("msg")))
    else AfterGetAsWritten(env.k, Turning(ReaderAsWritten(env.k, tag)), GetMsg(q, qm, b, w, env, f, maxLength, Leading(argc, md, gmo)), md, headers, fuel)
  }

  /** `get_rfh2(max_length, *opts)` with both defects corrected: a `None` third item is
      treated as no header list, so the message is fetched with the first two items and
      returned whole, and the walk is the one that always ends. */
  function GetRfh2(q: Queue, qm: QueueManager, b: Broker, w: World, env: Env, f: Fresh, tag: RootTag,
                   maxLength: Option<int>, argc: nat, md: Option<Struct>, gmo: Option<Struct>,
                   headers: Option<seq<Struct>>): (r: Step<Queue, Stripped>)
    requires QueueWf(q) && FreshWf(f) && AllWf([md, gmo]) && CallShape(argc, md, gmo, headers)
    ensures QueueWf(r.state)
  {
    ReaderReadsPreamble(env.k, tag);
    TurningWell(Reader(env.k, tag));
    LeadingWf(argc, md, gmo);
    AfterGet(env.k, Turning(Reader(env.k, tag)), GetMsg(q, qm, b, w, env, f, maxLength, Leading(argc, md, gmo)), md, headers)
  }

  /** `get_rfh2` makes exactly the calls `get` makes with the items it hands on, raises
      what `get` raises, returns the message whole without a header list, and otherwise
      appends the headers it read to the caller's list, keeping the descriptor `get`
      refreshed. */
  lemma GetRfh2Calls(q: Queue, qm: QueueManager, b: Broker, w: World, env: Env, f: Fresh, tag: RootTag,
                     maxLength: Option<int>, argc: nat, md: Option<Struct>, gmo: Option<Struct>,
                     headers: Option<seq<Struct>>)
    requires QueueWf(q) && FreshWf(f) && AllWf([md, gmo]) && CallShape(argc, md, gmo, headers)
    ensures (LeadingWf(argc, md, gmo);
      var g := GetMsg(q, qm, b, w, env, f, maxLength, Leading(argc, md, gmo));
      var r := GetRfh2(q, qm, b, w, env, f, tag, maxLength, argc, md, gmo, headers);
      && r.state == g.state && r.world == g.world
      && (g.result.Err? ==> r.result == Err(g.result.error))
      && (g.result.Ok? && headers.None? ==> r.result == Ok(Stripped(g.result.value, None)))
      && (r.result.Ok? && headers.Some? ==>
            && r.result.value.headers.Some? && headers.value <= r.result.value.headers.value
            && r.result.value.got.md == g.result.value.md))
  {
    ReaderReadsPreamble(env.k, tag);
    TurningWell(Reader(env.k, tag));
  }

  /** With a `None` third item, the corrected `get_rfh2` is `get` on the first two items
      with the message returned whole (`GetRfh2AsWritten` raises `UnboundLocalError`
      there without fetching anything). */
  lemma NoListIsGet(q: Queue, qm: QueueManager, b: Broker, w: World, env: Env, f: Fresh, tag: RootTag,
                    maxLength: Option<int>, argc: nat, md: Option<Struct>, gmo: Option<Struct>)
    requires QueueWf(q) && FreshWf(f) && AllWf([md, gmo]) && argc >= 3
    ensures var g := GetMsg(q, qm, b, w, env, f, maxLength, [md, gmo]);
      GetRfh2(q, qm, b, w, env, f, tag, maxLength, argc, md, gmo, None)
         == Step(g.state, g.world, if g.result.Err? then Err(g.result.error) else Ok(Stripped(g.result.value, None)))
  {
    assert Leading(argc, md, gmo) == [md, gmo];
    var t := Turning(Reader(env.k, tag));
    ReaderReadsPreamble(env.k, tag);
    TurningWell(Reader(env.k, tag));
    var g := GetMsg(q, qm, b, w, env, f, maxLength, [md, gmo]);
    assert GetRfh2(q, qm, b, w, env, f, tag, maxLength, argc, md, gmo, None) == AfterGet(env.k, t, g, md, None);
    AfterGetNoList(env.k, t, g, md);
  }

  /** Without a header list, what `get` gave is handed back as it is. */
  lemma AfterGetNoList(k: Consts, t: Turner, g: Step<Queue, Got>, md: Option<Struct>)
    requires TurnsWell(t)
    ensures AfterGet(k, t, g, md, None)
      == Step(g.state, g.world, if g.result.Err? then Err(g.result.error) else Ok(Stripped(g.result.value, None)))
  {
  }
}

=== FILE: consts.dfy ===
/** The MQ constant modules (`CMQC`, `CMQCFC`, `CMQXC`) and the MQ levels the C extension
    was built with. Their concrete values are not part of this model: every operation
    takes them as a parameter. */
module Consts {
  import opened Bytes
  import opened Wrappers

  /** The constant modules as pymqi sees them.
      `cmqc` and `cmqcfc` are the module dictionaries in iteration order (name, value);
      `num` is attribute access `CMQC.X` / `CMQXC.X` / `CMQCFC.X` on numeric constants;
      `chars` is attribute access on the character constants (structure ids, formats). */
  datatype Consts = Consts(
    cmqc: seq<(string, int)>,
    cmqcfc: seq<(string, int)>,
    num: string -> int,
    chars: string -> bytes)

  /** `pymqe.__mqlevels__` (e.g. "5.3", "6.0", "7.0", "7.1", "7.5") and the constants. */
  datatype Env = Env(levels: set<string>, k: Consts)

  /** A numeric constant, `CMQC.name`. */
  function N(k: Consts, name: string): int {
    k.num(name)
  }

  /** A character constant, `CMQC.name`. */
  function C(k: Consts, name: string): bytes {
    k.chars(name)
  }

  /** A Python 2 byte-string literal. */
  function Ascii(s: string): (b: bytes)
    requires forall i :: 0 <= i < |s| ==> s[i] as int < 256
    ensures |b| == |s|
    ensures forall i :: 0 <= i < |s| ==> b[i] == s[i] as int
  {
    seq(|s|, i requires 0 <= i < |s| => s[i] as int)
  }

  /** A module dictionary has one entry per name. */
  predicate DistinctNames(table: seq<(string, int)>) {
    forall i, j :: 0 <= i < j < |table| ==> table[i].0 != table[j].0
  }

  /** `module.__dict__[name]`. */
  function Lookup(table: seq<(string, int)>, name: string): (r: Option<int>)
    ensures r.Some? <==> exists i :: 0 <= i < |table| && table[i].0 == name
    ensures r.Some? ==> exists i :: 0 <= i < |table| && table[i] == (name, r.value)
    ensures r.Some? && DistinctNames(table) ==>
      forall i :: 0 <= i < |table| && table[i].0 == name ==> table[i].1 == r.value
  {
    if |table| == 0 then None
    else if table[0].0 == name then Some(table[0].1)
    else
      var r := Lookup(table[1..], name);
      assert forall i :: 0 <= i < |table| - 1 ==> table[1..][i] == table[i + 1];
      r
  }
}

=== FILE: errors.dfy ===
/** The exceptions pymqi raises (code/pymqi.py:1157-1210), one constructor per Python
    exception class, each carrying why it was raised. */
module Errors {

  /** Why pymqi raised its own `PYIFError`. */
  datatype Why =
    | NotConnected                 // QueueManager.disconnect/getHandle
    | QueueDescNotSet              // Queue.__realOpen
    | QueueAlreadyOpen             // Queue.open
    | QueueNotOpen                 // Queue.close
    | TopicDescNotSet              // Topic.__real_open
    | TopicAlreadyOpen             // Topic.open
    | TopicNotOpen                 // Topic.close
    | TopicObjectType              // Topic.__init__: ObjectType is not MQOT_TOPIC
    | TopicVersion                 // Topic.__init__: Version is not MQOD_VERSION_4
    | SubscriptionNotOpen          // Subscription.close
    | FolderNotWellFormed          // RFH2.add_folder / RFH2.unpack
    | StrucIdMismatch              // RFH2.unpack: first 4 bytes
    | BufferTooShort               // RFH2.unpack: fewer than 36 bytes
    | NegativeStrucLength          // RFH2.unpack
    | StrucLengthBeyondBuffer      // RFH2.unpack
    | HeaderShorterThanPreamble    // header chain: StrucLength below 36 (corrected model only)

  /** Why a Python `TypeError` was raised. */
  datatype TypeWhy =
    | TooManyArgs                  // commonQArgs, Queue.__init__, Queue.open, connectWithOptions
    | InvalidOption(name: string)  // connectWithOptions keyword not in (opts, cd, sco)
    | NotAnSD                      // Subscription.sub: sub_desc is not an SD
    | NoneArgument                 // a None handed to a transport verb or to len()
    | WrongArgument                // a verb argument of another wrong type
    | NotSubscriptable             // `None["Format"]` in get_rfh2
    | NotAPointer                  // get_vs: the pointer member does not hold an integer
    | NotAnIndex                   // a slice bound that is not an integer (get_rfh2)

  /** Why Python's `struct` module raised `struct.error`. */
  datatype StructWhy =
    | BadFormat                    // the format string does not compile
    | ItemCount                    // pack got a different number of items than the format
    | BadItem                      // an item has the wrong type or is out of range
    | BufferSize                   // unpack got a buffer of the wrong length

  /** Why the base `pymqi.Error` was raised by the filter builder. */
  datatype FilterWhy = UnsupportedSelector(selector: int) | UnsupportedOperator(name: string)

  datatype Error =
    | MQMIError(comp: int, reason: int)   // a non-OK completion code from a verb
    | PYIFError(why: Why)
    | TypeError(t: TypeWhy)
    | AttributeError(name: string)        // getattr on an unknown structure member
    | StructError(s: StructWhy)
    | IndexError                          // a tuple index past its end
    | KeyError(key: string)               // a missing dictionary key
    | CodeKeyError(code: int)             // a missing integer key (_MQConst2String lookup)
    | UnboundLocalError(name: string)     // a local read before any assignment
    | PymqiError(f: FilterWhy)
    | BadPointer(address: int)            // dereferencing a pointer no buffer lives at
}

=== FILE: filter.dfy ===
/** MQAI filters (code/pymqi.py:2226-2315): the user-facing `Filter`, whose attribute
    access records an operator name, and `FilterOperator`, which turns a selector, an
    operator name and a value into an `IntegerFilter` or a `StringFilter`. */
module Filters {
  import opened Wrappers
  import opened Wire
  import opened Errors
  import opened Consts

  /** `IntegerFilter` or `StringFilter`, the two subclasses of `_Filter`. */
  datatype FilterKind = IntegerFilter | StringFilter

  /** A `_Filter`: the selector, the value compared against and the `MQCFOP_` operator. */
  datatype PrivFilter = PrivFilter(kind: FilterKind, selector: int, value: Value, operator: int)

  /** A user-facing `Filter`: its selector and the operator name last recorded, `None`
      until an operator is named. */
  datatype Filter = Filter(selector: int, operator: Option<string>)

  /** `FilterOperator.operator_mapping`: the operator names and the `CMQCFC` constants
      they stand for. */
  const OperatorNames: seq<(string, string)> := [
    ("less", "MQCFOP_LESS"),
    ("equal", "MQCFOP_EQUAL"),
    ("greater", "MQCFOP_GREATER"),
    ("not_less", "MQCFOP_NOT_LESS"),
    ("not_equal", "MQCFOP_NOT_EQUAL"),
    ("not_greater", "MQCFOP_NOT_GREATER"),
    ("like", "MQCFOP_LIKE"),
    ("not_like", "MQCFOP_NOT_LIKE"),
    ("contains", "MQCFOP_CONTAINS"),
    ("excludes", "MQCFOP_EXCLUDES"),
    ("contains_gen", "MQCFOP_CONTAINS_GEN"),
    ("excludes_gen", "MQCFOP_EXCLUDES_GEN")
  ]

  /** The operator names the mapping holds. */
  predicate IsOperatorName(name: string) {
    exists i :: 0 <= i < |OperatorNames| && OperatorNames[i].0 == name
  }

  /** Position of an operator name in the mapping. */
  function OperatorIndex(name: string): (r: Option<nat>)
    ensures r.Some? <==> IsOperatorName(name)
    ensures r.Some? ==> r.value < |OperatorNames| && OperatorNames[r.value].0 == name
  {
    IndexFrom(name, 0)
  }

  /** Position of an operator name in the mapping at or after `j`. */
  function IndexFrom(name: string, j: nat): (r: Option<nat>)
    requires j <= |OperatorNames|
    ensures r.Some? <==> exists i :: j <= i < |OperatorNames| && OperatorNames[i].0 == name
    ensures r.Some? ==> j <= r.value < |OperatorNames| && OperatorNames[r.value].0 == name
    decreases |OperatorNames| - j
  {
    if j == |OperatorNames| then None
    else if OperatorNames[j].0 == name then Some(j)
    else IndexFrom(name, j + 1)
  }

  /** `operator_mapping.get(operator)`: `None` for a missing name and for `None`. */
  function OperatorGet(k: Consts, operator: Option<string>): (r: Option<int>)
    ensures r.Some? <==> operator.Some? && IsOperatorName(operator.value)
    ensures r.Some? ==>
      exists i :: 0 <= i < |OperatorNames| && OperatorNames[i].0 == operator.value && r.value == N(k, OperatorNames[i].1)
  {
    if operator.None? then None
    else
      match OperatorIndex(operator.value)
      case None => None
      case Some(i) => Some(N(k, OperatorNames[i].1))
  }

  /** `'%s' % operator`. */
  function OperatorText(operator: Option<string>): string {
    if operator.Some? then operator.value else "None"
  }

  /** The selector lies in the integer attribute range `[MQIA_FIRST, MQIA_LAST]`. */
  predicate IntegerSelector(k: Consts, selector: int) {
    N(k, "MQIA_FIRST") <= selector <= N(k, "MQIA_LAST")
  }

  /** The selector lies in the string attribute range `[MQCA_FIRST, MQCA_LAST]`. */
  predicate StringSelector(k: Consts, selector: int) {
    N(k, "MQCA_FIRST") <= selector <= N(k, "MQCA_LAST")
  }

  /** `FilterOperator(pub_filter)(value)`: the selector's range picks the filter class
      (the integer range first) and raises when it is neither; then the operator name is
      mapped, and a missing name, or a name mapped to 0, raises. A filter is made exactly
      when both checks pass, a selector in neither range raises whatever the operator,
      and the filter carries the selector, the value and the named operator's constant. */
  function FilterCall(k: Consts, pub: Filter, value: Value): (r: Result<PrivFilter, Error>)
    ensures r.Ok? <==>
      && (IntegerSelector(k, pub.selector) || StringSelector(k, pub.selector))
      && pub.operator.Some? && IsOperatorName(pub.operator.value)
      && OperatorGet(k, pub.operator).value != 0
    ensures !IntegerSelector(k, pub.selector) && !StringSelector(k, pub.selector) ==>
      r == Err(PymqiError(UnsupportedSelector(pub.selector)))
    ensures (IntegerSelector(k, pub.selector) || StringSelector(k, pub.selector)) && r.Err? ==>
      r == Err(PymqiError(UnsupportedOperator(OperatorText(pub.operator))))
    ensures r.Ok? ==>
      && r.value.selector == pub.selector && r.value.value == value
      && (r.value.kind == IntegerFilter <==> IntegerSelector(k, pub.selector))
      && (r.value.kind == StringFilter <==> !IntegerSelector(k, pub.selector) && StringSelector(k, pub.selector))
      && r.value.operator != 0
      && exists i :: 0 <= i < |OperatorNames| && OperatorNames[i].0 == pub.operator.value && r.value.operator == N(k, OperatorNames[i].1)
  {
    var kind :=
      if IntegerSelector(k, pub.selector) then Some(IntegerFilter)
      else if StringSelector(k, pub.selector) then Some(StringFilter)
      else None;
    if kind.None? then Err(PymqiError(UnsupportedSelector(pub.selector)))
    else
      var op := OperatorGet(k, pub.operator);
      if op.None? || op.value == 0 then Err(PymqiError(UnsupportedOperator(OperatorText(pub.operator))))
      else Ok(PrivFilter(kind.value, pub.selector, value, op.value))
  }

  /** What `filter.name` evaluates to: the selector or the recorded operator for those two
      names; for any other name, a `FilterOperator` over the filter now recording `name`. */
  datatype Attribute = SelectorAttr(selector: int) | OperatorAttr(operator: Option<string>) | Call(pub: Filter)

  /** `Filter.__getattribute__(name)`: the filter as it is afterwards, and the attribute.
      The `FilterOperator` carries a copy of the filter as it is at this read, where Python
      keeps a reference to the same object. */
  function GetAttr(f: Filter, name: string): (r: (Filter, Attribute))
    ensures name == "selector" ==> r == (f, SelectorAttr(f.selector))
    ensures name == "operator" ==> r == (f, OperatorAttr(f.operator))
    ensures name != "selector" && name != "operator" ==>
      r.0 == f.(operator := Some(name)) && r.1 == Call(r.0)
  {
    if name == "selector" then (f, SelectorAttr(f.selector))
    else if name == "operator" then (f, OperatorAttr(f.operator))
    else
      var f' := f.(operator := Some(name));
      (f', Call(f'))
  }

  /** `filter.less(value)`: naming an operator as an attribute records it, so that
      `filter.operator` reads it back and the `FilterOperator` handed out builds a filter
      exactly when the name is one of the mapping's with a non-zero constant, carrying the
      filter's selector and that name's constant. */
  lemma NamedOperatorCall(k: Consts, f: Filter, name: string, value: Value)
    requires name != "selector" && name != "operator"
    requires IntegerSelector(k, f.selector) || StringSelector(k, f.selector)
    ensures var (f1, a) := GetAttr(f, name);
      && GetAttr(f1, "operator").1 == OperatorAttr(Some(name))
      && a.Call?
      && (FilterCall(k, a.pub, value).Ok? <==> IsOperatorName(name) && N(k, OperatorNames[OperatorIndex(name).value].1) != 0)
      && (FilterCall(k, a.pub, value).Ok? ==>
            FilterCall(k, a.pub, value).value.selector == f.selector
            && FilterCall(k, a.pub, value).value.operator == N(k, OperatorNames[OperatorIndex(name).value].1))
  {
  }

  /** With the twelve `MQCFOP_` constants distinct and non-zero, the operator a filter
      carries names back the operator it was asked for: every name of the mapping gives a
      filter, and different names give different operators. */
  lemma OperatorRoundTrip(k: Consts, sel: int, a: string, b: string, value: Value)
    requires IntegerSelector(k, sel) || StringSelector(k, sel)
    requires forall i :: 0 <= i < |OperatorNames| ==> N(k, OperatorNames[i].1) != 0
    requires forall i, j :: 0 <= i < j < |OperatorNames| ==> N(k, OperatorNames[i].1) != N(k, OperatorNames[j].1)
    requires IsOperatorName(a) && IsOperatorName(b)
    ensures FilterCall(k, Filter(sel, Some(a)), value).Ok?
    ensures (FilterCall(k, Filter(sel, Some(a)), value).value.operator
               == FilterCall(k, Filter(sel, Some(b)), value).value.operator) <==> a == b
  {
    var ia := OperatorIndex(a).value;
    var ib := OperatorIndex(b).value;
    if a != b {
      assert ia != ib;
      if ia < ib {
        assert N(k, OperatorNames[ia].1) != N(k, OperatorNames[ib].1);
      } else {
        assert N(k, OperatorNames[ib].1) != N(k, OperatorNames[ia].1);
      }
    }
  }
}

=== FILE: mnemonics.dfy ===
/** Constant mnemonics: `_MQConst2String` (code/pymqi.py:1122-1148), which maps a
    constant's value back to its name, and `MQMIError.errorAsString`
    (code/pymqi.py:1180-1196), which uses two of those maps to spell a reason code. */
module Mnemonics {
  import opened Wrappers
  import opened Errors
  import opened Consts

  /** Python's `name[0:len(prefix)] == prefix`: a name shorter than the prefix slices to
      itself and so never matches. */
  predicate HasPrefix(name: string, prefix: string) {
    |prefix| <= |name| && name[..|prefix|] == prefix
  }

  /** Entry `i` of a module dictionary is a prefixed name that no later prefixed name
      with the same value follows. */
  predicate Latest(table: seq<(string, int)>, prefix: string, i: int)
    requires 0 <= i < |table|
  {
    && HasPrefix(table[i].0, prefix)
    && forall j :: i < j < |table| && HasPrefix(table[j].0, prefix) ==> table[j].1 != table[i].1
  }

  /** `_MQConst2String.__build`: every name with the prefix, in dictionary order, is
      stored under its value, so of several names with one value the last one stays. */
  function BuildDict(table: seq<(string, int)>, prefix: string): map<int, string>
    decreases |table|
  {
    if |table| == 0 then map[]
    else
      var m0 := BuildDict(table[..|table| - 1], prefix);
      var (name, v) := table[|table| - 1];
      if HasPrefix(name, prefix) then m0[v := name] else m0
  }

  /** The dictionary `__build` makes holds a value exactly when some prefixed name
      carries it, and then under the last prefixed name that does. */
  lemma {:induction false} BuildDictKey(table: seq<(string, int)>, prefix: string, k: int)
    ensures k in BuildDict(table, prefix) <==>
      exists i :: 0 <= i < |table| && HasPrefix(table[i].0, prefix) && table[i].1 == k
    ensures k in BuildDict(table, prefix) ==>
      exists i :: 0 <= i < |table| && table[i] == (BuildDict(table, prefix)[k], k) && Latest(table, prefix, i)
    decreases |table|
  {
    if |table| > 0 {
      var n := |table| - 1;
      var init := table[..n];
      BuildDictKey(init, prefix, k);
      var m0 := BuildDict(init, prefix);
      var m := BuildDict(table, prefix);
      var lastHits := HasPrefix(table[n].0, prefix) && table[n].1 == k;
      if lastHits {
        assert table[n] == (m[k], k) && Latest(table, prefix, n);
      } else {
        assert k in m <==> k in m0;
        if k in m0 {
          assert m[k] == m0[k];
          var i :| 0 <= i < n && init[i] == (m0[k], k) && Latest(init, prefix, i);
          assert init[i] == table[i];
          forall j | i < j < |table| && HasPrefix(table[j].0, prefix)
            ensures table[j].1 != table[i].1
          {
            if j < n {
              assert init[j] == table[j];
            }
          }
          assert Latest(table, prefix, i);
        }
        if exists i :: 0 <= i < |table| && HasPrefix(table[i].0, prefix) && table[i].1 == k {
          var i :| 0 <= i < |table| && HasPrefix(table[i].0, prefix) && table[i].1 == k;
          assert i < n && init[i] == table[i];
        }
      }
    }
  }

  /** `_MQConst2String(module, prefix)[code]`: the mnemonic, or `KeyError`. A mnemonic
      exists exactly when some prefixed name carries the code; it is one of those names,
      and in a module with one entry per name it looks the code up again. */
  function Const2String(table: seq<(string, int)>, prefix: string, code: int): (r: Result<string, Error>)
    ensures r.Ok? <==> exists i :: 0 <= i < |table| && HasPrefix(table[i].0, prefix) && table[i].1 == code
    ensures r.Ok? ==> HasPrefix(r.value, prefix) && exists i :: 0 <= i < |table| && table[i] == (r.value, code)
    ensures r.Err? ==> r.error == CodeKeyError(code)
    ensures r.Ok? && DistinctNames(table) ==> Lookup(table, r.value) == Some(code)
  {
    BuildDictKey(table, prefix, code);
    var m := BuildDict(table, prefix);
    if code in m then Ok(m[code]) else Err(CodeKeyError(code))
  }

  /** `_MQConst2String(module, prefix).has_key(code)`. */
  predicate HasKey(table: seq<(string, int)>, prefix: string, code: int) {
    code in BuildDict(table, prefix)
  }

  /** When only one prefixed name carries a value, that name is its mnemonic. */
  lemma MnemonicOfUniqueValue(table: seq<(string, int)>, prefix: string, i: int)
    requires 0 <= i < |table| && HasPrefix(table[i].0, prefix)
    requires forall j :: 0 <= j < |table| && j != i && HasPrefix(table[j].0, prefix) ==> table[j].1 != table[i].1
    ensures Const2String(table, prefix, table[i].1) == Ok(table[i].0)
  {
    var m := BuildDict(table, prefix);
    var k := table[i].1;
    BuildDictKey(table, prefix, k);
    assert k in m;
    var i' :| 0 <= i' < |table| && table[i'] == (m[k], k) && Latest(table, prefix, i');
    assert i' == i;
  }

  // ---------------------------------------------------------------------------
  // errorAsString
  // ---------------------------------------------------------------------------

  /** The decimal digits of a natural number, most significant first. */
  function Digits(n: nat): (s: string)
    ensures |s| >= 1 && forall i :: 0 <= i < |s| ==> '0' <= s[i] <= '9'
    decreases n
  {
    if n < 10 then [('0' as int + n) as char] else Digits(n / 10) + [('0' as int + n % 10) as char]
  }

  /** Python's `str(n)` on an integer. */
  function PyStr(n: int): string {
    if n < 0 then "-" + Digits(-n) else Digits(n)
  }

  /** The number a string of decimal digits spells. */
  function ParseDigits(s: string): nat
    requires forall i :: 0 <= i < |s| ==> '0' <= s[i] <= '9'
  {
    if |s| == 0 then 0 else ParseDigits(s[..|s| - 1]) * 10 + (s[|s| - 1] as int - '0' as int)
  }

  /** `Digits` is read back by `ParseDigits`. */
  lemma {:induction false} DigitsRoundTrip(n: nat)
    ensures ParseDigits(Digits(n)) == n
    decreases n
  {
    if n >= 10 {
      DigitsRoundTrip(n / 10);
      var s := Digits(n);
      assert s[..|s| - 1] == Digits(n / 10);
    }
  }

  /** `str(n)` is read back: a leading `-` exactly for negative numbers, then the digits
      of the magnitude. */
  lemma PyStrRoundTrip(n: int)
    ensures var s := PyStr(n);
      && |s| >= 1 && (s[0] == '-' <==> n < 0)
      && (n < 0 ==> ParseDigits(s[1..]) == -n)
      && (n >= 0 ==> ParseDigits(s) == n)
  {
    if n < 0 {
      DigitsRoundTrip(-n);
      assert PyStr(n)[1..] == Digits(-n);
    } else {
      DigitsRoundTrip(n);
    }
  }

  /** The fallback text for a reason code no dictionary names. */
  function Undefined(reason: int): string {
    "WTF? Error code " + PyStr(reason) + " not defined"
  }

  /** `MQMIError.errorAsString()`: `OK` for a successful completion; otherwise
      `WARNING: ` or `FAILED: ` and the reason's `MQRC_` mnemonic from `CMQC`, else its
      `MQRCCF_` mnemonic from `CMQCFC`, else the fallback text. */
  function ErrorAsString(k: Consts, comp: int, reason: int): (r: string)
    ensures comp == N(k, "MQCC_OK") ==> r == "OK"
  {
    if comp == N(k, "MQCC_OK") then "OK"
    else
      var pfx := if comp == N(k, "MQCC_WARNING") then "WARNING: " else "FAILED: ";
      if HasKey(k.cmqc, "MQRC_", reason) then pfx + Const2String(k.cmqc, "MQRC_", reason).value
      else if HasKey(k.cmqcfc, "MQRCCF_", reason) then pfx + Const2String(k.cmqcfc, "MQRCCF_", reason).value
      else pfx + Undefined(reason)
  }

  /** The shape of `errorAsString`: `OK` exactly for a successful completion; otherwise
      the severity prefix, then a name carrying the reason code in `CMQC` (an `MQRC_`
      name) or, failing that, in `CMQCFC` (an `MQRCCF_` name), or the fallback text
      when neither has one. */
  lemma ErrorAsStringCases(k: Consts, comp: int, reason: int)
    ensures var r := ErrorAsString(k, comp, reason);
      && (r == "OK" <==> comp == N(k, "MQCC_OK"))
      && (comp != N(k, "MQCC_OK") ==>
            var pfx := if comp == N(k, "MQCC_WARNING") then "WARNING: " else "FAILED: ";
            && |pfx| <= |r| && r[..|pfx|] == pfx
            && var rest := r[|pfx|..];
               && (HasKey(k.cmqc, "MQRC_", reason) ==>
                     HasPrefix(rest, "MQRC_") && exists i :: 0 <= i < |k.cmqc| && k.cmqc[i] == (rest, reason))
               && (!HasKey(k.cmqc, "MQRC_", reason) && HasKey(k.cmqcfc, "MQRCCF_", reason) ==>
                     HasPrefix(rest, "MQRCCF_") && exists i :: 0 <= i < |k.cmqcfc| && k.cmqcfc[i] == (rest, reason))
               && (!HasKey(k.cmqc, "MQRC_", reason) && !HasKey(k.cmqcfc, "MQRCCF_", reason) ==> rest == Undefined(reason)))
  {
    var r := ErrorAsString(k, comp, reason);
    if comp != N(k, "MQCC_OK") {
      var pfx := if comp == N(k, "MQCC_WARNING") then "WARNING: " else "FAILED: ";
      assert r[..|pfx|] == pfx;
      assert r[0] != "OK"[0];
    }
  }
}

=== FILE: mqopts.dfy ===
/** The schema-driven structure codec `MQOpts` (code/pymqi.py:156-368).

    A structure is an ordered list of members `(name, default, format)` and an attribute
    store. `pack` flattens the member values in list order and hands them to `struct`;
    `unpack` reads them back; `set`, `[]=`, `[]` and `get` are views on the store. */
module MQOpts {
  import opened Wrappers
  import opened Bytes
  import opened Wire
  import opened Errors

  /** The pymqi class an instance belongs to (for `isinstance` checks). */
  datatype Kind = GMO | PMO | OD | MD | RFH2 | TM | TMC2 | CD | SCO | SD | SRO | CMHO | PD | SMPO | IMPO

  /** One entry of the member list handed to `MQOpts.__init__`. */
  datatype Field = Field(name: string, default: Value, fmt: Format)

  /** The instance's attributes, keyed by name. */
  type Store = map<string, Value>

  /** An `MQOpts` instance: its class, its member list and its attributes. */
  datatype Struct = Struct(kind: Kind, fields: seq<Field>, store: Store)

  // ---------------------------------------------------------------------------
  // Member lists
  // ---------------------------------------------------------------------------

  function NameSet(fields: seq<Field>): (r: set<string>)
    ensures forall i :: 0 <= i < |fields| ==> fields[i].name in r
    ensures forall n :: n in r ==> exists i :: 0 <= i < |fields| && fields[i].name == n
  {
    set i | 0 <= i < |fields| :: fields[i].name
  }

  predicate UniqueNames(fields: seq<Field>) {
    forall i, j :: 0 <= i < j < |fields| ==> fields[i].name != fields[j].name
  }

  /** Every member has a live attribute: the invariant `MQOpts.__init__` establishes. */
  predicate Wf(s: Struct) {
    forall i :: 0 <= i < |s.fields| ==> s.fields[i].name in s.store
  }

  /** Every member name of a live instance is a key of its store. */
  lemma WfNames(s: Struct)
    requires Wf(s)
    ensures NameSet(s.fields) <= s.store.Keys
  {
  }

  /** The concatenated format compiles: string widths are not negative, only the first
      member may carry the byte-order prefix, and with that prefix (standard sizes) there
      is no `'P'`, which `struct` only knows in native mode. */
  predicate ValidFormat(fields: seq<Field>) {
    forall i :: 0 <= i < |fields| ==>
      && ValidSpec(fields[i].fmt.spec) && (i > 0 ==> !fields[i].fmt.big)
      && (fields[0].fmt.big ==> !IsPointer(fields[i].fmt.spec))
  }

  /** A `'P'` member. */
  predicate IsPointer(spec: Spec) {
    spec.Rep? && spec.code == Ptr
  }

  /** A leading `'>'` on the first member switches the whole structure to big-endian. */
  predicate BigEndian(fields: seq<Field>) {
    |fields| > 0 && fields[0].fmt.big
  }

  /** Without the `'>'` prefix `struct` works in native mode: little-endian on the x86-64
      build this model fixes, with every numeric code aligned to its own size. */
  predicate Native(fields: seq<Field>) {
    !BigEndian(fields)
  }

  /** The pad bytes native mode puts before a member at offset `off` so that its items start
      at a multiple of their size. CPython's `struct` aligns a numeric code even when its
      count is 0, and never aligns `'s'` or the one-byte codes. */
  function Gap(off: nat, spec: Spec, native: bool): (g: nat)
    ensures !native || spec.Str? ==> g == 0
    ensures g < 8
  {
    if !native || spec.Str? then 0
    else
      match spec.code
      case Long => (4 - off % 4) % 4
      case Quad => (8 - off % 8) % 8
      case Ptr => (8 - off % 8) % 8
      case SChar => 0
      case Char => 0
  }

  /** In native mode a member's items start at a multiple of their size. */
  lemma GapAligns(off: nat, spec: Spec)
    requires spec.Rep?
    ensures Gap(off, spec, true) < CodeSize(spec.code)
    ensures (off + Gap(off, spec, true)) % CodeSize(spec.code) == 0
  {
  }

  /** One member as `struct` lays it out: the padding before it, its format, and the bytes
      its items take. */
  datatype Laid = Laid(pad: nat, spec: Spec, size: nat)

  predicate ValidLaid(lay: seq<Laid>) {
    |lay| > 0 ==>
      ValidSpec(lay[0].spec) && AtomsSize(SpecAtoms(lay[0].spec)) == lay[0].size && ValidLaid(lay[1..])
  }

  /** `ValidLaid` member by member. */
  lemma {:induction false} ValidLaidIndex(lay: seq<Laid>)
    requires ValidLaid(lay)
    ensures forall i :: 0 <= i < |lay| ==> ValidSpec(lay[i].spec) && AtomsSize(SpecAtoms(lay[i].spec)) == lay[i].size
  {
    if |lay| > 0 {
      ValidLaidIndex(lay[1..]);
      assert forall i :: 1 <= i < |lay| ==> lay[1..][i - 1] == lay[i];
    }
  }

  /** The members laid out one after another from offset `off`. */
  function LayoutFrom(fields: seq<Field>, off: nat, native: bool): (lay: seq<Laid>)
    requires ValidFormat(fields)
    ensures |lay| == |fields| && ValidLaid(lay)
    ensures forall i :: 0 <= i < |fields| ==> lay[i].spec == fields[i].fmt.spec && lay[i].size == SpecSize(lay[i].spec)
  {
    if |fields| == 0 then []
    else
      var spec := fields[0].fmt.spec;
      var g := Gap(off, spec, native);
      SpecAtomsSize(spec);
      [Laid(g, spec, SpecSize(spec))] + LayoutFrom(fields[1..], off + g + SpecSize(spec), native)
  }

  /** The layout of a structure's format. */
  function Layout(fields: seq<Field>): (lay: seq<Laid>)
    requires ValidFormat(fields)
    ensures |lay| == |fields| && ValidLaid(lay)
  {
    LayoutFrom(fields, 0, Native(fields))
  }

  /** Bytes a laid-out format spans: every member and the padding before it. */
  function LaidSize(lay: seq<Laid>): nat
    requires ValidLaid(lay)
  {
    if |lay| == 0 then 0 else lay[0].pad + lay[0].size + LaidSize(lay[1..])
  }

  /** `struct.calcsize` of the concatenated format: the members, and in native mode the
      alignment padding between them (none after the last). */
  function Size(fields: seq<Field>): nat
    requires ValidFormat(fields)
  {
    LaidSize(Layout(fields))
  }

  lemma {:induction false} LaidSizeAppend(a: seq<Laid>, b: seq<Laid>)
    requires ValidLaid(a) && ValidLaid(b)
    ensures ValidLaid(a + b) && LaidSize(a + b) == LaidSize(a) + LaidSize(b)
  {
    if |a| > 0 {
      assert (a + b)[1..] == a[1..] + b;
      LaidSizeAppend(a[1..], b);
    } else {
      assert a + b == b;
    }
  }

  /** The running offset `struct` reaches after laying out `fields` from `off`. */
  function EndOf(fields: seq<Field>, off: nat, native: bool): (e: nat)
    requires ValidFormat(fields)
    ensures e >= off
  {
    if |fields| == 0 then off
    else EndOf(fields[1..], off + Gap(off, fields[0].fmt.spec, native) + SpecSize(fields[0].fmt.spec), native)
  }

  /** The layout spans exactly from `off` to the running offset. */
  lemma {:induction false} EndOfIsLaidSize(fields: seq<Field>, off: nat, native: bool)
    requires ValidFormat(fields)
    ensures EndOf(fields, off, native) == off + LaidSize(LayoutFrom(fields, off, native))
    decreases |fields|
  {
    if |fields| > 0 {
      EndOfIsLaidSize(fields[1..], off + Gap(off, fields[0].fmt.spec, native) + SpecSize(fields[0].fmt.spec), native);
    }
  }

  /** `struct.calcsize` is the running offset after the last member. */
  lemma SizeIsEnd(fields: seq<Field>)
    requires ValidFormat(fields)
    ensures Size(fields) == EndOf(fields, 0, Native(fields))
  {
    EndOfIsLaidSize(fields, 0, Native(fields));
  }

  /** One step of the running offset, at member `k`. */
  lemma EndOfStep(fields: seq<Field>, k: nat, off: nat, native: bool)
    requires ValidFormat(fields) && k < |fields|
    ensures ValidFormat(fields[k..]) && ValidFormat(fields[k + 1..])
    ensures EndOf(fields[k..], off, native) ==
      EndOf(fields[k + 1..], off + Gap(off, fields[k].fmt.spec, native) + SpecSize(fields[k].fmt.spec), native)
  {
    assert fields[k..][1..] == fields[k + 1..];
  }

  /** The padding before member `i` is what its running offset needs: a member's
      alignment depends on everything laid out before it. */
  lemma {:induction false} LayoutPads(fields: seq<Field>, off: nat, native: bool, i: nat)
    requires ValidFormat(fields) && i < |fields|
    ensures LayoutFrom(fields, off, native)[i].pad == Gap(EndOf(fields[..i], off, native), fields[i].fmt.spec, native)
    decreases i
  {
    if i > 0 {
      var off' := off + Gap(off, fields[0].fmt.spec, native) + SpecSize(fields[0].fmt.spec);
      LayoutStep(fields, off, native, i);
      LayoutPads(fields[1..], off', native, i - 1);
    }
  }

  /** Member `i > 0` of a layout is member `i - 1` of the layout of the rest, which
      starts where the first member ends. */
  lemma LayoutStep(fields: seq<Field>, off: nat, native: bool, i: nat)
    requires ValidFormat(fields) && 0 < i < |fields|
    ensures ValidFormat(fields[1..]) && ValidFormat(fields[..i]) && ValidFormat(fields[1..][..i - 1])
    ensures var off' := off + Gap(off, fields[0].fmt.spec, native) + SpecSize(fields[0].fmt.spec);
      && LayoutFrom(fields, off, native)[i] == LayoutFrom(fields[1..], off', native)[i - 1]
      && EndOf(fields[..i], off, native) == EndOf(fields[1..][..i - 1], off', native)
      && fields[i] == fields[1..][i - 1]
  {
    PrefixStep(fields, off, native, i);
  }

  /** The running offset over the first `i > 0` members is the one over the first
      `i - 1` members of the rest, from where the first member ends. */
  lemma PrefixStep(fields: seq<Field>, off: nat, native: bool, i: nat)
    requires ValidFormat(fields) && 0 < i <= |fields|
    ensures ValidFormat(fields[1..]) && ValidFormat(fields[..i]) && ValidFormat(fields[1..][..i - 1])
    ensures var off' := off + Gap(off, fields[0].fmt.spec, native) + SpecSize(fields[0].fmt.spec);
      EndOf(fields[..i], off, native) == EndOf(fields[1..][..i - 1], off', native)
  {
    assert fields[..i][1..] == fields[1..][..i - 1];
    assert fields[..i][0] == fields[0];
  }

  /** Native mode: every numeric member starts at a multiple of its own size. */
  lemma NativeAligned(fields: seq<Field>, i: nat)
    requires ValidFormat(fields) && Native(fields) && i < |fields| && fields[i].fmt.spec.Rep?
    ensures (EndOf(fields[..i], 0, true) + Layout(fields)[i].pad) % CodeSize(fields[i].fmt.spec.code) == 0
  {
    LayoutPads(fields, 0, true, i);
    GapAligns(EndOf(fields[..i], 0, true), fields[i].fmt.spec);
  }

  /** With the `'>'` prefix `struct` pads nothing, and the size is the members' sizes. */
  lemma BigEndianUnpadded(fields: seq<Field>, i: nat)
    requires ValidFormat(fields) && BigEndian(fields) && i < |fields|
    ensures Layout(fields)[i].pad == 0
  {
    LayoutPads(fields, 0, false, i);
  }

  // ---------------------------------------------------------------------------
  // Construction, set, [], get
  // ---------------------------------------------------------------------------

  /** The names of `fields` split into the first and the rest. */
  lemma NameSetCons(fields: seq<Field>)
    requires |fields| > 0
    ensures NameSet(fields) == {fields[0].name} + NameSet(fields[1..])
  {
    forall n | n in NameSet(fields) ensures n in {fields[0].name} + NameSet(fields[1..]) {
      var i :| 0 <= i < |fields| && fields[i].name == n;
      if i > 0 { assert fields[1..][i - 1].name == n; }
    }
  }

  /** The `setattr(self, name, default)` loop of `MQOpts.__init__`, in list order. */
  function WithDefaults(store: Store, fields: seq<Field>): (r: Store)
    ensures r.Keys == store.Keys + NameSet(fields)
    ensures forall n :: n in store && n !in NameSet(fields) ==> r[n] == store[n]
    decreases |fields|
  {
    if |fields| == 0 then store
    else
      NameSetCons(fields);
      WithDefaults(store[fields[0].name := fields[0].default], fields[1..])
  }

  /** With distinct member names every member starts out holding its own default. */
  lemma {:induction false} WithDefaultsUnique(store: Store, fields: seq<Field>)
    requires UniqueNames(fields)
    ensures forall i :: 0 <= i < |fields| ==> WithDefaults(store, fields)[fields[i].name] == fields[i].default
    decreases |fields|
  {
    if |fields| > 0 {
      NameSetCons(fields);
      var st := store[fields[0].name := fields[0].default];
      WithDefaultsUnique(st, fields[1..]);
      forall i | 0 <= i < |fields| ensures WithDefaults(store, fields)[fields[i].name] == fields[i].default {
        if i > 0 { assert fields[1..][i - 1] == fields[i]; }
      }
    }
  }

  /** Python keyword arguments: a dictionary, so its names are distinct. */
  predicate DistinctKeys(kw: seq<(string, Value)>) {
    forall i, j :: 0 <= i < j < |kw| ==> kw[i].0 != kw[j].0
  }

  /** The index of the first keyword that names no attribute, or `|kw|` if all do. */
  function FirstUnknown(store: Store, kw: seq<(string, Value)>): (j: nat)
    ensures j <= |kw|
    ensures forall i :: 0 <= i < j ==> kw[i].0 in store
    ensures j < |kw| ==> kw[j].0 !in store
    decreases |kw|
  {
    if |kw| == 0 || kw[0].0 !in store then 0
    else
      var j := FirstUnknown(store, kw[1..]);
      assert forall i :: 0 <= i < j ==> kw[1..][i] == kw[i + 1];
      1 + j
  }

  /** `MQOpts.set(**kw)`: each name is checked with `getattr` before it is written, so the
      first unknown name raises `AttributeError` after the names before it were written. */
  function SetKw(s: Struct, kw: seq<(string, Value)>): (r: (Struct, Option<Error>))
    ensures r.0.kind == s.kind && r.0.fields == s.fields && r.0.store.Keys == s.store.Keys
    ensures r.1 == (if FirstUnknown(s.store, kw) < |kw|
                    then Some(AttributeError(kw[FirstUnknown(s.store, kw)].0)) else None)
    decreases |kw|
  {
    if |kw| == 0 then (s, None)
    else if kw[0].0 !in s.store then (s, Some(AttributeError(kw[0].0)))
    else
      assert kw[1..][FirstUnknown(s.store, kw[1..]) .. ] == kw[1 + FirstUnknown(s.store, kw[1..])..];
      SetKw(s.(store := s.store[kw[0].0 := kw[0].1]), kw[1..])
  }

  /** What `set` leaves in the attributes: every keyword before the first unknown one is
      written, and no other attribute changes. */
  lemma {:induction false} SetKwWrites(s: Struct, kw: seq<(string, Value)>)
    requires DistinctKeys(kw)
    ensures forall i :: 0 <= i < FirstUnknown(s.store, kw) ==> SetKw(s, kw).0.store[kw[i].0] == kw[i].1
    ensures forall n :: n in s.store && (forall i :: 0 <= i < FirstUnknown(s.store, kw) ==> kw[i].0 != n) ==>
      SetKw(s, kw).0.store[n] == s.store[n]
    decreases |kw|
  {
    if |kw| > 0 && kw[0].0 in s.store {
      var s1 := s.(store := s.store[kw[0].0 := kw[0].1]);
      var j := FirstUnknown(s.store, kw);
      assert forall i :: 0 <= i < |kw| - 1 ==> kw[1..][i] == kw[i + 1];
      assert FirstUnknown(s1.store, kw[1..]) == j - 1 by {
        assert s1.store.Keys == s.store.Keys;
        FirstUnknownSameKeys(s1.store, s.store, kw[1..]);
      }
      SetKwWrites(s1, kw[1..]);
      forall n | n in s.store && (forall i :: 0 <= i < j ==> kw[i].0 != n)
        ensures SetKw(s, kw).0.store[n] == s.store[n]
      {
        assert forall i :: 0 <= i < j - 1 ==> kw[1..][i].0 != n;
      }
    }
  }

  lemma {:induction false} FirstUnknownSameKeys(a: Store, b: Store, kw: seq<(string, Value)>)
    requires a.Keys == b.Keys
    ensures FirstUnknown(a, kw) == FirstUnknown(b, kw)
    decreases |kw|
  {
    if |kw| > 0 && kw[0].0 in a {
      FirstUnknownSameKeys(a, b, kw[1..]);
    }
  }

  /** `MQOpts.__init__(list, **kw)`: defaults in list order, then the keywords. An unknown
      keyword aborts the construction. */
  function Create(kind: Kind, fields: seq<Field>, kw: seq<(string, Value)>): (r: Result<Struct, Error>)
    ensures r.Ok? <==> forall i :: 0 <= i < |kw| ==> kw[i].0 in NameSet(fields)
    ensures r.Ok? ==> r.value.kind == kind && r.value.fields == fields && Wf(r.value)
    ensures r.Ok? ==> r.value.store.Keys == NameSet(fields)
    ensures r.Ok? && DistinctKeys(kw) ==> forall i :: 0 <= i < |kw| ==> r.value.store[kw[i].0] == kw[i].1
    ensures r.Ok? && DistinctKeys(kw) && UniqueNames(fields) ==>
      forall i :: 0 <= i < |fields| && (forall j :: 0 <= j < |kw| ==> kw[j].0 != fields[i].name) ==>
        r.value.store[fields[i].name] == fields[i].default
    ensures r.Err? ==> exists j :: 0 <= j < |kw| && kw[j].0 !in NameSet(fields) && r.error == AttributeError(kw[j].0)
  {
    var s := Struct(kind, fields, WithDefaults(map[], fields));
    var (s', err) := SetKw(s, kw);
    if err.Some? then Err(err.value)
    else if DistinctKeys(kw) then
      SetKwWrites(s, kw);
      if UniqueNames(fields) then
        WithDefaultsUnique(map[], fields);
        Ok(s')
      else Ok(s')
    else Ok(s')
  }

  /** `obj[key] = value`: written only when the attribute already exists. */
  function SetItem(s: Struct, key: string, v: Value): (r: Result<Struct, Error>)
    ensures r.Ok? <==> key in s.store
    ensures r.Err? ==> r.error == AttributeError(key)
    ensures r.Ok? ==> r.value.fields == s.fields && r.value.kind == s.kind
    ensures r.Ok? ==> r.value.store.Keys == s.store.Keys && r.value.store[key] == v
    ensures r.Ok? ==> forall n :: n in s.store && n != key ==> r.value.store[n] == s.store[n]
  {
    if key in s.store then Ok(s.(store := s.store[key := v])) else Err(AttributeError(key))
  }

  /** A construction is the bare construction followed by `set(**kw)`. */
  lemma CreateIsSetKw(kind: Kind, fields: seq<Field>, kw: seq<(string, Value)>)
    ensures Create(kind, fields, []) == Ok(Struct(kind, fields, WithDefaults(map[], fields)))
    ensures Create(kind, fields, kw) ==
      var (s', e) := SetKw(Struct(kind, fields, WithDefaults(map[], fields)), kw);
      if e.Some? then Err(e.value) else Ok(s')
  {
    assert SetKw(Struct(kind, fields, WithDefaults(map[], fields)), []).1 == None;
  }

  /** A construction with one keyword is the bare construction with that item assigned. */
  lemma CreateOneIsSet(kind: Kind, fields: seq<Field>, k1: string, v1: Value)
    ensures Create(kind, fields, []).Ok?
    ensures Create(kind, fields, [(k1, v1)]) == SetItem(Create(kind, fields, []).value, k1, v1)
  {
    var s := Struct(kind, fields, WithDefaults(map[], fields));
    CreateIsSetKw(kind, fields, []);
    CreateIsSetKw(kind, fields, [(k1, v1)]);
    assert [(k1, v1)][1..] == [];
    assert SetKw(s.(store := s.store[k1 := v1]), []) == (s.(store := s.store[k1 := v1]), None);
  }

  /** A construction with two keywords assigns them in turn. */
  lemma CreateTwoIsSet(kind: Kind, fields: seq<Field>, k1: string, v1: Value, k2: string, v2: Value)
    requires k1 in NameSet(fields)
    ensures Create(kind, fields, []).Ok?
    ensures SetItem(Create(kind, fields, []).value, k1, v1).Ok?
    ensures Create(kind, fields, [(k1, v1), (k2, v2)]) ==
      SetItem(SetItem(Create(kind, fields, []).value, k1, v1).value, k2, v2)
  {
    var s := Struct(kind, fields, WithDefaults(map[], fields));
    var s1 := s.(store := s.store[k1 := v1]);
    CreateIsSetKw(kind, fields, []);
    CreateIsSetKw(kind, fields, [(k1, v1), (k2, v2)]);
    assert [(k1, v1), (k2, v2)][1..] == [(k2, v2)];
    assert [(k2, v2)][1..] == [];
    assert SetKw(s, [(k1, v1), (k2, v2)]) == SetKw(s1, [(k2, v2)]);
    assert SetKw(s1.(store := s1.store[k2 := v2]), []) == (s1.(store := s1.store[k2 := v2]), None);
  }

  /** `obj[key]`: the attribute, or `AttributeError`. */
  function GetItem(s: Struct, key: string): (r: Result<Value, Error>)
    ensures r.Ok? <==> key in s.store
    ensures r.Ok? ==> r.value == s.store[key]
    ensures r.Err? ==> r.error == AttributeError(key)
  {
    if key in s.store then Ok(s.store[key]) else Err(AttributeError(key))
  }

  /** Plain attribute assignment `obj.Name = value`, which Python never checks. */
  function Assign(s: Struct, key: string, v: Value): Struct {
    s.(store := s.store[key := v])
  }

  /** `MQOpts.get()`: one entry per member name, holding that member's value. */
  function Get(s: Struct): (d: map<string, Value>)
    requires Wf(s)
    ensures d.Keys == NameSet(s.fields)
    ensures forall i :: 0 <= i < |s.fields| ==> d[s.fields[i].name] == s.store[s.fields[i].name]
  {
    map n | n in NameSet(s.fields) :: s.store[n]
  }

  /** The items `get()` would be re-set from, as a keyword list in member order. */
  function SavedValues(s: Struct): (kw: seq<(string, Value)>)
    requires Wf(s)
    ensures |kw| == |s.fields|
    ensures forall i :: 0 <= i < |kw| ==> kw[i] == (s.fields[i].name, s.store[s.fields[i].name])
  {
    seq(|s.fields|, i requires 0 <= i < |s.fields| => (s.fields[i].name, s.store[s.fields[i].name]))
  }

  /** Re-running `MQOpts.__init__` over a new member list on a live instance and then
      `set(**saved)` from the old `get()`: new members get their defaults, every old member
      keeps its value (RFH2.add_folder, RFH2.pack and RFH2.unpack all do this). */
  function Reinit(s: Struct, fields: seq<Field>): (r: Struct)
    requires Wf(s)
    ensures r.kind == s.kind && r.fields == fields && Wf(r)
    ensures r.store.Keys == s.store.Keys + NameSet(fields)
    ensures forall i :: 0 <= i < |s.fields| ==> r.store[s.fields[i].name] == s.store[s.fields[i].name]
    ensures forall n :: n in s.store && n !in NameSet(fields) ==> r.store[n] == s.store[n]
    ensures forall n :: n in NameSet(fields) && n !in NameSet(s.fields) ==>
      exists i :: 0 <= i < |fields| && fields[i].name == n && r.store[n] == fields[i].default
    ensures UniqueNames(fields) ==>
      forall i :: 0 <= i < |fields| && fields[i].name !in NameSet(s.fields) ==> r.store[fields[i].name] == fields[i].default
  {
    var d := Get(s);
    var st := WithDefaults(s.store, fields);
    LastDefault(s.store, fields);
    if UniqueNames(fields) then
      WithDefaultsUnique(s.store, fields);
      Struct(s.kind, fields, map n | n in st :: if n in d then d[n] else st[n])
    else
      Struct(s.kind, fields, map n | n in st :: if n in d then d[n] else st[n])
  }

  /** After the defaults loop, a member name holds the default of some member with that name. */
  lemma {:induction false} LastDefault(store: Store, fields: seq<Field>)
    ensures forall n :: n in NameSet(fields) ==>
      exists i :: 0 <= i < |fields| && fields[i].name == n && WithDefaults(store, fields)[n] == fields[i].default
    decreases |fields|
  {
    if |fields| > 0 {
      var st := store[fields[0].name := fields[0].default];
      LastDefault(st, fields[1..]);
      forall n | n in NameSet(fields)
        ensures exists i :: 0 <= i < |fields| && fields[i].name == n && WithDefaults(store, fields)[n] == fields[i].default
      {
        if n in NameSet(fields[1..]) {
          var i :| 0 <= i < |fields[1..]| && fields[1..][i].name == n && WithDefaults(st, fields[1..])[n] == fields[1..][i].default;
          assert fields[i + 1].name == n;
        } else {
          assert n == fields[0].name;
        }
      }
    }
  }

  // ---------------------------------------------------------------------------
  // pack
  // ---------------------------------------------------------------------------

  /** The packed arguments a value contributes: a list is flattened element by element. */
  function Items(v: Value): seq<Scalar> {
    match v
    case One(x) => [x]
    case Many(xs) => xs
  }

  /** The items of a list of member values, in order: the argument list `pack` builds. */
  function FlattenValues(vs: seq<Value>): seq<Scalar> {
    if |vs| == 0 then [] else Items(vs[0]) + FlattenValues(vs[1..])
  }

  /** The member values in list order. */
  function Values(fields: seq<Field>, store: Store): (vs: seq<Value>)
    requires forall i :: 0 <= i < |fields| ==> fields[i].name in store
    ensures |vs| == |fields| && forall i :: 0 <= i < |fields| ==> vs[i] == store[fields[i].name]
  {
    seq(|fields|, i requires 0 <= i < |fields| => store[fields[i].name])
  }

  /** The `struct` items of a laid-out format, in member order. */
  function LaidAtoms(lay: seq<Laid>): seq<Atom>
    requires ValidLaid(lay)
  {
    if |lay| == 0 then [] else SpecAtoms(lay[0].spec) + LaidAtoms(lay[1..])
  }

  function AtomsSize(atoms: seq<Atom>): nat {
    if |atoms| == 0 then 0 else AtomSize(atoms[0]) + AtomsSize(atoms[1..])
  }

  /** `struct.pack` over items already paired with their arguments. */
  function PackItems(atoms: seq<Atom>, xs: seq<Scalar>, big: bool): (r: Option<bytes>)
    requires |atoms| == |xs|
    ensures r.Some? <==> forall i :: 0 <= i < |atoms| ==> Fits(atoms[i], xs[i])
    ensures r.Some? ==> |r.value| == AtomsSize(atoms)
  {
    if |atoms| == 0 then Some([])
    else
      match PackAtom(atoms[0], xs[0], big)
      case None => None
      case Some(b) =>
        match PackItems(atoms[1..], xs[1..], big)
        case None =>
          assert !(forall i :: 0 <= i < |atoms| - 1 ==> Fits(atoms[1..][i], xs[1..][i]));
          None
        case Some(rest) =>
          assert forall i :: 0 <= i < |atoms| - 1 ==> Fits(atoms[1..][i], xs[1..][i]);
          Some(b + rest)
  }

  /** `struct.pack` over a laid-out format: the arguments are consumed in order, each member
      taking as many as its format has items, after its zero padding. */
  function PackFields(lay: seq<Laid>, xs: seq<Scalar>, big: bool): (r: Option<bytes>)
    requires ValidLaid(lay) && |LaidAtoms(lay)| == |xs|
    ensures r.Some? ==> |r.value| == LaidSize(lay)
  {
    if |lay| == 0 then Some([])
    else
      var spec := lay[0].spec;
      var m := |SpecAtoms(spec)|;
      match PackItems(SpecAtoms(spec), xs[..m], big)
      case None => None
      case Some(b) =>
        match PackFields(lay[1..], xs[m..], big)
        case None => None
        case Some(rest) => Some(Zeros(lay[0].pad) + b + rest)
  }

  /** `MQOpts.pack()`: `struct.pack(format, *flattened values)`. */
  function Pack(s: Struct): (r: Result<bytes, Error>)
    requires Wf(s)
    ensures !ValidFormat(s.fields) ==> r == Err(StructError(BadFormat))
    ensures r.Ok? ==> ValidFormat(s.fields) && |r.value| == Size(s.fields)
    ensures r.Err? ==> r.error.StructError?
  {
    if !ValidFormat(s.fields) then Err(StructError(BadFormat))
    else
      var lay := Layout(s.fields);
      var xs := FlattenValues(Values(s.fields, s.store));
      if |LaidAtoms(lay)| != |xs| then Err(StructError(ItemCount))
      else
        match PackFields(lay, xs, BigEndian(s.fields))
        case None => Err(StructError(BadItem))
        case Some(b) => Ok(b)
  }

  /** `MQOpts.get_length()`: `struct.calcsize` of the format. */
  function GetLength(s: Struct): (r: Result<nat, Error>)
    ensures r.Ok? <==> ValidFormat(s.fields)
    ensures r.Ok? ==> r.value == Size(s.fields)
  {
    if ValidFormat(s.fields) then Ok(Size(s.fields)) else Err(StructError(BadFormat))
  }

  // ---------------------------------------------------------------------------
  // unpack
  // ---------------------------------------------------------------------------

  /** `struct.unpack` over a buffer of exactly the items' size: one scalar per item. */
  function UnpackItems(atoms: seq<Atom>, b: bytes, big: bool): (r: seq<Scalar>)
    requires |b| == AtomsSize(atoms)
    ensures |r| == |atoms|
  {
    if |atoms| == 0 then []
    else
      var k := AtomSize(atoms[0]);
      [UnpackAtom(atoms[0], b[..k], big)] + UnpackItems(atoms[1..], b[k..], big)
  }

  /** `struct.unpack` over a laid-out format: the flat tuple of every item, padding
      skipped. */
  function UnpackFlat(lay: seq<Laid>, b: bytes, big: bool): (r: seq<Scalar>)
    requires ValidLaid(lay) && |b| == LaidSize(lay)
    ensures |r| == |LaidAtoms(lay)|
  {
    if |lay| == 0 then []
    else
      var g := lay[0].pad;
      var k := lay[0].size;
      UnpackItems(SpecAtoms(lay[0].spec), b[g..g + k], big) + UnpackFlat(lay[1..], b[g + k..], big)
  }

  /** Sequential attribute writes `setattr(self, fields[i].name, vs[i])`. */
  function AssignAll(store: Store, fields: seq<Field>, vs: seq<Value>): (r: Store)
    requires |vs| == |fields|
    ensures r.Keys == store.Keys + NameSet(fields)
    ensures forall n :: n in store && n !in NameSet(fields) ==> r[n] == store[n]
    decreases |fields|
  {
    if |fields| == 0 then store
    else
      NameSetCons(fields);
      AssignAll(store[fields[0].name := vs[0]], fields[1..], vs[1..])
  }

  /** With distinct member names every member ends up holding its own value. */
  lemma {:induction false} AssignAllUnique(store: Store, fields: seq<Field>, vs: seq<Value>)
    requires |vs| == |fields| && UniqueNames(fields)
    ensures forall i :: 0 <= i < |fields| ==> AssignAll(store, fields, vs)[fields[i].name] == vs[i]
    decreases |fields|
  {
    if |fields| > 0 {
      NameSetCons(fields);
      AssignAllUnique(store[fields[0].name := vs[0]], fields[1..], vs[1..]);
      forall i | 0 <= i < |fields| ensures AssignAll(store, fields, vs)[fields[i].name] == vs[i] {
        if i > 0 { assert fields[1..][i - 1] == fields[i] && vs[1..][i - 1] == vs[i]; }
      }
    }
  }

  /** `MQOpts.unpack` as written (code/pymqi.py:224-235): the unpacked tuple is assigned
      one item per member, so a member whose format yields several items (`'2i'`) gets only
      the first and every later member is shifted. */
  function UnpackAsWritten(s: Struct, b: bytes): (r: Result<Struct, Error>)
    ensures r.Ok? ==> ValidFormat(s.fields) && |b| == Size(s.fields)
    ensures r.Ok? ==> r.value.kind == s.kind && r.value.fields == s.fields
    ensures r.Ok? ==> r.value.store.Keys == s.store.Keys + NameSet(s.fields)
    ensures ValidFormat(s.fields) && |b| != Size(s.fields) ==> r == Err(StructError(BufferSize))
  {
    if !ValidFormat(s.fields) then Err(StructError(BadFormat))
    else if |b| != Size(s.fields) then Err(StructError(BufferSize))
    else
      var items := UnpackFlat(Layout(s.fields), b, BigEndian(s.fields));
      if |items| < |s.fields| then Err(IndexError)
      else Ok(s.(store := AssignAll(s.store, s.fields, seq(|s.fields|, i requires 0 <= i < |s.fields| => One(items[i])))))
  }

  /** The value a member reads back from its own items: a list for a repeated code
      (`'2i'`, `'16i'`), a single scalar otherwise. */
  function Group(spec: Spec, items: seq<Scalar>): (v: Value)
    requires ValidSpec(spec) && |items| == |SpecAtoms(spec)|
    ensures Items(v) == items
  {
    if spec.Rep? && spec.count != 1 then Many(items) else One(items[0])
  }

  /** Decodes the members of a laid-out buffer one after another, skipping the padding
      before each. */
  function DecodeFields(lay: seq<Laid>, b: bytes, big: bool): (vs: seq<Value>)
    requires ValidLaid(lay) && |b| == LaidSize(lay)
    ensures |vs| == |lay|
  {
    if |lay| == 0 then []
    else
      var g := lay[0].pad;
      var spec := lay[0].spec;
      var k := lay[0].size;
      [Group(spec, UnpackItems(SpecAtoms(spec), b[g..g + k], big))] + DecodeFields(lay[1..], b[g + k..], big)
  }

  /** The flat tuple `struct.unpack` returns is the members' decoded values flattened: the
      as-written and the corrected unpack read the same items and differ only in how they
      hand them out. */
  lemma {:induction false} FlatIsDecoded(lay: seq<Laid>, b: bytes, big: bool)
    requires ValidLaid(lay) && |b| == LaidSize(lay)
    ensures UnpackFlat(lay, b, big) == FlattenValues(DecodeFields(lay, b, big))
  {
    if |lay| > 0 {
      var g := lay[0].pad;
      var k := lay[0].size;
      FlatIsDecoded(lay[1..], b[g + k..], big);
      var d := DecodeFields(lay, b, big);
      assert d[1..] == DecodeFields(lay[1..], b[g + k..], big);
    }
  }

  /** `MQOpts.unpack` with each member reading back all of its own items: the evidently
      intended behaviour, used by the rest of the model. */
  function Unpack(s: Struct, b: bytes): (r: Result<Struct, Error>)
    ensures r.Ok? <==> ValidFormat(s.fields) && |b| == Size(s.fields)
    ensures r.Err? ==> r.error.StructError?
    ensures r.Ok? ==> r.value.kind == s.kind && r.value.fields == s.fields
    ensures r.Ok? ==> r.value.store.Keys == s.store.Keys + NameSet(s.fields)
    ensures r.Ok? ==> forall n :: n in s.store && n !in NameSet(s.fields) ==> r.value.store[n] == s.store[n]
  {
    if !ValidFormat(s.fields) then Err(StructError(BadFormat))
    else if |b| != Size(s.fields) then Err(StructError(BufferSize))
    else Ok(s.(store := AssignAll(s.store, s.fields, DecodeFields(Layout(s.fields), b, BigEndian(s.fields)))))
  }

  /** A member whose format yields exactly one `struct` item: a string, or a numeric code
      without a repeat count other than 1. */
  predicate SingleItem(spec: Spec) {
    spec.Str? || spec.count == 1
  }

  /** Every member of a layout that yields one item decodes to a single scalar. */
  lemma {:induction false} DecodeSingles(lay: seq<Laid>, b: bytes, big: bool)
    requires ValidLaid(lay) && |b| == LaidSize(lay)
    requires forall i :: 0 <= i < |lay| ==> SingleItem(lay[i].spec)
    ensures forall i :: 0 <= i < |lay| ==> DecodeFields(lay, b, big)[i].One?
    decreases |lay|
  {
    if |lay| > 0 {
      var g := lay[0].pad;
      var k := lay[0].size;
      DecodeSingles(lay[1..], b[g + k..], big);
      var d := DecodeFields(lay, b, big);
      forall i | 0 <= i < |lay| ensures d[i].One? {
        if i > 0 { assert d[i] == DecodeFields(lay[1..], b[g + k..], big)[i - 1]; }
      }
    }
  }

  /** Flattening single scalars keeps one item per value. */
  lemma {:induction false} FlattenSingles(vs: seq<Value>)
    requires forall i :: 0 <= i < |vs| ==> vs[i].One?
    ensures |FlattenValues(vs)| == |vs|
    ensures forall i :: 0 <= i < |vs| ==> FlattenValues(vs)[i] == vs[i].x
  {
    if |vs| > 0 {
      FlattenSingles(vs[1..]);
      forall i | 0 <= i < |vs| ensures FlattenValues(vs)[i] == vs[i].x {
        if i > 0 { assert vs[1..][i - 1] == vs[i]; }
      }
    }
  }

  /** When no member's format yields several items, `unpack` as written and the corrected
      one give the same result: the misreading needs a list member such as `cd`'s
      `HdrCompList`. */
  lemma UnpackAgreesOnSingles(s: Struct, b: bytes)
    requires forall i :: 0 <= i < |s.fields| ==> SingleItem(s.fields[i].fmt.spec)
    ensures UnpackAsWritten(s, b) == Unpack(s, b)
  {
    if ValidFormat(s.fields) && |b| == Size(s.fields) {
      var lay := Layout(s.fields);
      var big := BigEndian(s.fields);
      assert forall i :: 0 <= i < |lay| ==> lay[i].spec == s.fields[i].fmt.spec;
      var d := DecodeFields(lay, b, big);
      FlatIsDecoded(lay, b, big);
      DecodeSingles(lay, b, big);
      FlattenSingles(d);
      var items := UnpackFlat(lay, b, big);
      assert seq(|s.fields|, i requires 0 <= i < |s.fields| => One(items[i])) == d;
    }
  }

  // ---------------------------------------------------------------------------
  // Round trip and length law
  // ---------------------------------------------------------------------------

  lemma SpecAtomsSize(spec: Spec)
    requires ValidSpec(spec)
    ensures AtomsSize(SpecAtoms(spec)) == SpecSize(spec)
  {
    match spec
    case Str(w) =>
    case Rep(n, c) => RepSize(n, c);
  }

  lemma {:induction false} RepSize(n: nat, c: Code)
    ensures AtomsSize(seq(n, _ => ANum(c))) == n * CodeSize(c)
  {
    if n > 0 {
      assert seq(n, _ => ANum(c))[1..] == seq(n - 1, _ => ANum(c));
      RepSize(n - 1, c);
    }
  }

  /** Decoding a buffer and re-encoding it yields the buffer. */
  lemma {:induction false} PackUnpackItems(atoms: seq<Atom>, b: bytes, big: bool)
    requires |b| == AtomsSize(atoms)
    ensures PackItems(atoms, UnpackItems(atoms, b, big), big) == Some(b)
  {
    if |atoms| > 0 {
      var k := AtomSize(atoms[0]);
      var xs := UnpackItems(atoms, b, big);
      UnpackedItemsSplit(atoms, b, big);
      assert xs[1..] == UnpackItems(atoms[1..], b[k..], big);
      PackUnpackAtom(atoms[0], b[..k], big);
      PackUnpackItems(atoms[1..], b[k..], big);
      PackItemsCons(atoms, xs, big, b[..k], b[k..]);
      assert b[..k] + b[k..] == b;
    }
  }

  /** Packing items is packing the first and then the rest. */
  lemma PackItemsCons(atoms: seq<Atom>, xs: seq<Scalar>, big: bool, b0: bytes, rest: bytes)
    requires 0 < |atoms| == |xs|
    requires PackAtom(atoms[0], xs[0], big) == Some(b0) && PackItems(atoms[1..], xs[1..], big) == Some(rest)
    ensures PackItems(atoms, xs, big) == Some(b0 + rest)
  {
  }

  /** What a member value reads back as after a pack: strings cut or padded to width, and
      negative pointers as their unsigned bit patterns. */
  function ReadBack(spec: Spec, v: Value): Value {
    if spec.Str? && spec.width >= 0 && v.One? && v.x.S? then One(S(FitWidth(v.x.s, spec.width)))
    else if spec.Rep? && spec.code == Ptr then
      match v
      case One(x) => One(Canonical(ANum(Ptr), x))
      case Many(xs) => Many(seq(|xs|, i requires 0 <= i < |xs| => Canonical(ANum(Ptr), xs[i])))
    else v
  }

  /** The value has the shape the member's format reads back: a list of `count` items for
      a repeated code, one scalar otherwise; and every item is packable. */
  predicate Shaped(spec: Spec, v: Value)
    requires ValidSpec(spec)
  {
    (if spec.Rep? && spec.count != 1 then v.Many? else v.One?) &&
    |Items(v)| == |SpecAtoms(spec)| &&
    forall i :: 0 <= i < |Items(v)| ==> Fits(SpecAtoms(spec)[i], Items(v)[i])
  }

  /** Items of one member round-trip through `struct` to the member's read-back value. */
  lemma {:induction false} UnpackPackItemsOf(spec: Spec, v: Value, big: bool)
    requires ValidSpec(spec) && Shaped(spec, v)
    ensures PackItems(SpecAtoms(spec), Items(v), big).Some?
    ensures Group(spec, UnpackItems(SpecAtoms(spec), PackItems(SpecAtoms(spec), Items(v), big).value, big)) ==
      ReadBack(spec, v)
  {
    var atoms := SpecAtoms(spec);
    var xs := Items(v);
    UnpackPackItemsGeneral(atoms, xs, big);
    var r := UnpackItems(atoms, PackItems(atoms, xs, big).value, big);
    if spec.Str? {
      assert r[0] == Canonical(atoms[0], xs[0]);
    } else if spec.code == Ptr {
      assert forall i :: 0 <= i < |xs| ==> r[i] == Canonical(ANum(Ptr), xs[i]);
      if v.Many? {
        assert r == seq(|xs|, i requires 0 <= i < |xs| => Canonical(ANum(Ptr), xs[i]));
      }
    } else {
      assert forall i :: 0 <= i < |xs| ==> r[i] == xs[i];
      assert r == xs;
    }
  }

  lemma {:induction false} UnpackPackItemsGeneral(atoms: seq<Atom>, xs: seq<Scalar>, big: bool)
    requires |atoms| == |xs| && forall i :: 0 <= i < |atoms| ==> Fits(atoms[i], xs[i])
    ensures PackItems(atoms, xs, big).Some?
    ensures forall i :: 0 <= i < |atoms| ==>
      UnpackItems(atoms, PackItems(atoms, xs, big).value, big)[i] == Canonical(atoms[i], xs[i])
  {
    if |atoms| > 0 {
      var b := PackItems(atoms, xs, big).value;
      PackedItemsSplit(atoms, xs, big);
      UnpackPackAtom(atoms[0], xs[0], big);
      UnpackPackItemsGeneral(atoms[1..], xs[1..], big);
      UnpackedItemsSplit(atoms, b, big);
    }
  }

  /** The items packed are the first item's bytes followed by the rest's. */
  lemma PackedItemsSplit(atoms: seq<Atom>, xs: seq<Scalar>, big: bool)
    requires 0 < |atoms| == |xs| && forall i :: 0 <= i < |atoms| ==> Fits(atoms[i], xs[i])
    ensures forall i :: 0 <= i < |atoms| - 1 ==> Fits(atoms[1..][i], xs[1..][i])
    ensures var b := PackItems(atoms, xs, big).value; var k := AtomSize(atoms[0]);
      && PackItems(atoms[1..], xs[1..], big).Some? && k <= |b|
      && b[..k] == PackAtom(atoms[0], xs[0], big).value && b[k..] == PackItems(atoms[1..], xs[1..], big).value
  {
    assert forall i :: 0 <= i < |atoms| - 1 ==> Fits(atoms[1..][i], xs[1..][i]);
    var b := PackItems(atoms, xs, big).value;
    var b0 := PackAtom(atoms[0], xs[0], big).value;
    assert b == b0 + PackItems(atoms[1..], xs[1..], big).value;
  }

  /** The items unpacked are the first item read from the front and the rest read from
      what follows. */
  lemma UnpackedItemsSplit(atoms: seq<Atom>, b: bytes, big: bool)
    requires 0 < |atoms| && |b| == AtomsSize(atoms)
    ensures AtomSize(atoms[0]) <= |b| && |b[AtomSize(atoms[0])..]| == AtomsSize(atoms[1..])
    ensures UnpackItems(atoms, b, big)[0] == UnpackAtom(atoms[0], b[..AtomSize(atoms[0])], big)
    ensures forall i :: 1 <= i < |atoms| ==>
      UnpackItems(atoms, b, big)[i] == UnpackItems(atoms[1..], b[AtomSize(atoms[0])..], big)[i - 1]
  {
  }

  /** Every value fits its member's format in shape and range. */
  predicate ShapedAll(lay: seq<Laid>, vs: seq<Value>)
    requires ValidLaid(lay)
  {
    |vs| == |lay| && (|lay| > 0 ==> Shaped(lay[0].spec, vs[0]) && ShapedAll(lay[1..], vs[1..]))
  }

  /** `ShapedAll` member by member. */
  lemma {:induction false} ShapedAllIndex(lay: seq<Laid>, vs: seq<Value>)
    requires ValidLaid(lay) && |vs| == |lay|
    ensures forall i :: 0 <= i < |lay| ==> ValidSpec(lay[i].spec)
    ensures ShapedAll(lay, vs) <==> forall i :: 0 <= i < |lay| ==> Shaped(lay[i].spec, vs[i])
  {
    ValidLaidIndex(lay);
    if |lay| > 0 {
      ShapedAllIndex(lay[1..], vs[1..]);
      assert forall i :: 1 <= i < |lay| ==> lay[1..][i - 1] == lay[i] && vs[1..][i - 1] == vs[i];
    }
  }

  /** Every member value fits its format in shape and range. */
  predicate AllShaped(s: Struct)
    requires Wf(s) && ValidFormat(s.fields)
  {
    ShapedAll(Layout(s.fields), Values(s.fields, s.store))
  }

  /** The bytes `pack` produces for well-shaped values: each member's padding, then the
      member packed. */
  function PackedFields(lay: seq<Laid>, vs: seq<Value>, big: bool): (b: bytes)
    requires ValidLaid(lay) && ShapedAll(lay, vs)
    ensures |b| == LaidSize(lay)
  {
    if |lay| == 0 then []
    else
      UnpackPackItemsOf(lay[0].spec, vs[0], big);
      Zeros(lay[0].pad) + PackItems(SpecAtoms(lay[0].spec), Items(vs[0]), big).value + PackedFields(lay[1..], vs[1..], big)
  }

  lemma {:induction false} PackIsPackedFields(lay: seq<Laid>, vs: seq<Value>, big: bool)
    requires ValidLaid(lay) && ShapedAll(lay, vs)
    ensures |LaidAtoms(lay)| == |FlattenValues(vs)|
    ensures PackFields(lay, FlattenValues(vs), big) == Some(PackedFields(lay, vs, big))
  {
    if |lay| > 0 {
      PackIsPackedFields(lay[1..], vs[1..], big);
      UnpackPackItemsOf(lay[0].spec, vs[0], big);
      var xs := FlattenValues(vs);
      var m := |SpecAtoms(lay[0].spec)|;
      assert xs[..m] == Items(vs[0]) && xs[m..] == FlattenValues(vs[1..]);
    }
  }

  lemma {:induction false} DecodePackedFields(lay: seq<Laid>, vs: seq<Value>, big: bool)
    requires ValidLaid(lay) && ShapedAll(lay, vs)
    ensures forall i :: 0 <= i < |lay| ==> DecodeFields(lay, PackedFields(lay, vs, big), big)[i] == ReadBack(lay[i].spec, vs[i])
  {
    if |lay| > 0 {
      var spec := lay[0].spec;
      var b := PackedFields(lay, vs, big);
      UnpackPackItemsOf(spec, vs[0], big);
      var b0 := PackItems(SpecAtoms(spec), Items(vs[0]), big).value;
      var g := lay[0].pad;
      var k := lay[0].size;
      assert b[g..g + k] == b0;
      assert b[g + k..] == PackedFields(lay[1..], vs[1..], big);
      DecodePackedFields(lay[1..], vs[1..], big);
      var d := DecodeFields(lay, b, big);
      forall i | 0 <= i < |lay| ensures d[i] == ReadBack(lay[i].spec, vs[i]) {
        if i > 0 {
          assert d[i] == DecodeFields(lay[1..], b[g + k..], big)[i - 1];
        }
      }
    }
  }

  /** Length law: a successful `pack` yields exactly `get_length()` bytes. */
  lemma PackLength(s: Struct)
    requires Wf(s) && Pack(s).Ok?
    ensures GetLength(s) == Ok(|Pack(s).value|)
  {
  }

  /** For well-shaped members `pack` yields the members' bytes, each after its padding. */
  lemma PackWellShaped(s: Struct)
    requires Wf(s) && ValidFormat(s.fields) && AllShaped(s)
    ensures Pack(s) == Ok(PackedFields(Layout(s.fields), Values(s.fields, s.store), BigEndian(s.fields)))
  {
    PackIsPackedFields(Layout(s.fields), Values(s.fields, s.store), BigEndian(s.fields));
  }

  /** When every member is well shaped, `pack` succeeds and `unpack` of its output gives
      every member its read-back value (the value itself, strings cut or NUL-padded to
      their width) and touches nothing else. */
  lemma RoundTrip(s: Struct)
    requires Wf(s) && ValidFormat(s.fields) && UniqueNames(s.fields) && AllShaped(s)
    ensures Pack(s).Ok?
    ensures Unpack(s, Pack(s).value).Ok?
    ensures Unpack(s, Pack(s).value).value.fields == s.fields
    ensures Unpack(s, Pack(s).value).value.store.Keys == s.store.Keys
    ensures forall i :: 0 <= i < |s.fields| ==>
      Unpack(s, Pack(s).value).value.store[s.fields[i].name] == ReadBack(s.fields[i].fmt.spec, s.store[s.fields[i].name])
    ensures forall n :: n in s.store && n !in NameSet(s.fields) ==> Unpack(s, Pack(s).value).value.store[n] == s.store[n]
  {
    RoundTripMembers(s);
  }

  /** The member-by-member half of `RoundTrip`. */
  lemma RoundTripMembers(s: Struct)
    requires Wf(s) && ValidFormat(s.fields) && UniqueNames(s.fields) && AllShaped(s)
    ensures Pack(s).Ok? && Unpack(s, Pack(s).value).Ok?
    ensures forall i :: 0 <= i < |s.fields| ==>
      Unpack(s, Pack(s).value).value.store[s.fields[i].name] == ReadBack(s.fields[i].fmt.spec, s.store[s.fields[i].name])
  {
    UnpackPacked(s);
    DecodedReadBack(s);
  }

  /** The members `unpack` decodes from the bytes `pack` lays down for well-shaped
      members. */
  function Decoded(s: Struct): seq<Value>
    requires Wf(s) && ValidFormat(s.fields) && AllShaped(s)
  {
    DecodeFields(Layout(s.fields), PackedFields(Layout(s.fields), Values(s.fields, s.store), BigEndian(s.fields)), BigEndian(s.fields))
  }

  /** Assigning the decoded members gives every member its read-back value. */
  lemma DecodedReadBack(s: Struct)
    requires Wf(s) && ValidFormat(s.fields) && UniqueNames(s.fields) && AllShaped(s)
    ensures |Decoded(s)| == |s.fields|
    ensures forall i :: 0 <= i < |s.fields| ==>
      AssignAll(s.store, s.fields, Decoded(s))[s.fields[i].name] == ReadBack(s.fields[i].fmt.spec, s.store[s.fields[i].name])
  {
    var lay := Layout(s.fields);
    var big := BigEndian(s.fields);
    var vs := Values(s.fields, s.store);
    var d := Decoded(s);
    ReadBackDecoded(lay, vs, big);
    AssignAllUnique(s.store, s.fields, d);
    forall i | 0 <= i < |s.fields|
      ensures AssignAll(s.store, s.fields, d)[s.fields[i].name] == ReadBack(s.fields[i].fmt.spec, s.store[s.fields[i].name])
    {
      assert d[i] == ReadBack(lay[i].spec, vs[i]);
    }
  }

  /** `unpack` of what `pack` produced assigns the decoded members in order. */
  lemma UnpackPacked(s: Struct)
    requires Wf(s) && ValidFormat(s.fields) && AllShaped(s)
    ensures Pack(s).Ok?
    ensures Unpack(s, Pack(s).value) == Ok(s.(store := AssignAll(s.store, s.fields, Decoded(s))))
  {
    PackWellShaped(s);
  }

  /** The members decoded from packed well-shaped values are the values' read-backs. */
  lemma ReadBackDecoded(lay: seq<Laid>, vs: seq<Value>, big: bool)
    requires ValidLaid(lay) && ShapedAll(lay, vs)
    ensures |DecodeFields(lay, PackedFields(lay, vs, big), big)| == |vs|
    ensures forall i :: 0 <= i < |vs| ==> DecodeFields(lay, PackedFields(lay, vs, big), big)[i] == ReadBack(lay[i].spec, vs[i])
  {
    DecodePackedFields(lay, vs, big);
  }

  /** A structure whose members already hold their read-back values is reproduced
      exactly by `unpack(pack())`. */
  lemma RoundTripIdentity(s: Struct)
    requires Wf(s) && ValidFormat(s.fields) && UniqueNames(s.fields) && AllShaped(s)
    requires forall i :: 0 <= i < |s.fields| ==> ReadBack(s.fields[i].fmt.spec, s.store[s.fields[i].name]) == s.store[s.fields[i].name]
    ensures Pack(s).Ok? && Unpack(s, Pack(s).value) == Ok(s)
  {
    RoundTrip(s);
    var s' := Unpack(s, Pack(s).value).value;
    SameStore(s, s'.store);
  }

  /** A store with the keys of `s`'s, agreeing with it on every member and on every
      other key, is `s`'s store. */
  lemma SameStore(s: Struct, st: Store)
    requires Wf(s) && st.Keys == s.store.Keys
    requires forall i :: 0 <= i < |s.fields| ==> st[s.fields[i].name] == s.store[s.fields[i].name]
    requires forall n :: n in s.store && n !in NameSet(s.fields) ==> st[n] == s.store[n]
    ensures st == s.store
  {
    forall n | n in s.store ensures st[n] == s.store[n] {
      if n in NameSet(s.fields) {
        var i :| 0 <= i < |s.fields| && s.fields[i].name == n;
      }
    }
  }

  /** A member decoded from its own bytes is well shaped. */
  lemma DecodedMemberShaped(spec: Spec, b: bytes, big: bool)
    requires ValidSpec(spec) && |b| == AtomsSize(SpecAtoms(spec))
    ensures Shaped(spec, Group(spec, UnpackItems(SpecAtoms(spec), b, big)))
  {
    PackUnpackItems(SpecAtoms(spec), b, big);
  }

  lemma {:induction false} DecodedShaped(lay: seq<Laid>, b: bytes, big: bool)
    requires ValidLaid(lay) && |b| == LaidSize(lay)
    ensures ShapedAll(lay, DecodeFields(lay, b, big))
  {
    if |lay| > 0 {
      var spec := lay[0].spec;
      var g := lay[0].pad;
      var k := lay[0].size;
      var mine := b[g..g + k];
      var rest := b[g + k..];
      var d := DecodeFields(lay, b, big);
      assert d[0] == Group(spec, UnpackItems(SpecAtoms(spec), mine, big));
      assert d[1..] == DecodeFields(lay[1..], rest, big);
      DecodedMemberShaped(spec, mine, big);
      DecodedShaped(lay[1..], rest, big);
    }
  }

  /** The first member of a laid-out buffer decodes from its own bytes, the rest from the
      bytes after it. */
  lemma DecodeCons(lay: seq<Laid>, b: bytes, big: bool)
    requires ValidLaid(lay) && |b| == LaidSize(lay) && |lay| > 0
    ensures lay[0].pad + lay[0].size <= |b|
    ensures |b[lay[0].pad + lay[0].size..]| == LaidSize(lay[1..])
    ensures DecodeFields(lay, b, big)[0] ==
      Group(lay[0].spec, UnpackItems(SpecAtoms(lay[0].spec), b[lay[0].pad..lay[0].pad + lay[0].size], big))
    ensures DecodeFields(lay, b, big)[1..] == DecodeFields(lay[1..], b[lay[0].pad + lay[0].size..], big)
  {
  }

  /** The first member packs after its padding, the rest after it. */
  lemma PackedCons(lay: seq<Laid>, vs: seq<Value>, big: bool)
    requires ValidLaid(lay) && ShapedAll(lay, vs) && |lay| > 0
    ensures PackItems(SpecAtoms(lay[0].spec), Items(vs[0]), big).Some?
    ensures PackedFields(lay, vs, big) ==
      Zeros(lay[0].pad) + PackItems(SpecAtoms(lay[0].spec), Items(vs[0]), big).value + PackedFields(lay[1..], vs[1..], big)
  {
    UnpackPackItemsOf(lay[0].spec, vs[0], big);
  }

  /** The padding bytes of a laid-out buffer are zero, as `pack` writes them. */
  predicate PadsZero(lay: seq<Laid>, b: bytes)
    requires ValidLaid(lay) && |b| == LaidSize(lay)
  {
    |lay| > 0 ==>
      var g := lay[0].pad;
      var k := lay[0].size;
      b[..g] == Zeros(g) && PadsZero(lay[1..], b[g + k..])
  }

  lemma {:induction false} PackedDecoded(lay: seq<Laid>, b: bytes, big: bool)
    requires ValidLaid(lay) && |b| == LaidSize(lay) && PadsZero(lay, b)
    ensures ShapedAll(lay, DecodeFields(lay, b, big))
    ensures PackedFields(lay, DecodeFields(lay, b, big), big) == b
  {
    DecodedShaped(lay, b, big);
    if |lay| > 0 {
      var g := lay[0].pad;
      var k := lay[0].size;
      var mine := b[g..g + k];
      var rest := b[g + k..];
      var d := DecodeFields(lay, b, big);
      DecodedHead(lay, b, big);
      PackedDecoded(lay[1..], rest, big);
      PackedCons(lay, d, big);
      SplitThree(b, g, k);
    }
  }

  /** A byte string is its prefix, middle and suffix put back together. */
  lemma SplitThree(b: bytes, g: nat, k: nat)
    requires g + k <= |b|
    ensures b == b[..g] + b[g..g + k] + b[g + k..]
  {
  }

  /** The first member of a decoded buffer packs back to its own bytes. */
  lemma DecodedHead(lay: seq<Laid>, b: bytes, big: bool)
    requires ValidLaid(lay) && |b| == LaidSize(lay) && |lay| > 0
    ensures PackItems(SpecAtoms(lay[0].spec), Items(DecodeFields(lay, b, big)[0]), big) ==
      Some(b[lay[0].pad..lay[0].pad + lay[0].size])
    ensures DecodeFields(lay, b, big)[1..] == DecodeFields(lay[1..], b[lay[0].pad + lay[0].size..], big)
  {
    DecodeCons(lay, b, big);
    PackUnpackItems(SpecAtoms(lay[0].spec), b[lay[0].pad..lay[0].pad + lay[0].size], big);
  }

  /** Any buffer of the right length whose padding bytes are zero survives `unpack`
      followed by `pack` unchanged. */
  lemma UnpackThenPack(s: Struct, b: bytes)
    requires Wf(s) && UniqueNames(s.fields) && Unpack(s, b).Ok?
    requires PadsZero(Layout(s.fields), b)
    ensures Pack(Unpack(s, b).value) == Ok(b)
  {
    var s' := Unpack(s, b).value;
    var lay := Layout(s.fields);
    var big := BigEndian(s.fields);
    var d := DecodeFields(lay, b, big);
    AssignAllUnique(s.store, s.fields, d);
    assert Values(s'.fields, s'.store) == d;
    PackedDecoded(lay, b, big);
    PackIsPackedFields(lay, d, big);
  }

  /** The two-member structure of the array finding: a `'2i'` list member, then an `'i'`. */
  predicate ArrayThenScalar(s: Struct, n0: string, n1: string, a: int, b: int, c: int) {
    && n0 != n1
    && s.fields == [Field(n0, Many([I(0), I(0)]), Format(false, Rep(2, Long))),
                    Field(n1, One(I(0)), Format(false, Rep(1, Long)))]
    && s.store == map[n0 := Many([I(a), I(b)]), n1 := One(I(c))]
    && -Half(4) <= a < Half(4) && -Half(4) <= b < Half(4) && -Half(4) <= c < Half(4)
  }

  lemma ArrayThenScalarCorrected(s: Struct, n0: string, n1: string, a: int, b: int, c: int)
    requires ArrayThenScalar(s, n0, n1, a, b, c)
    ensures Wf(s) && ValidFormat(s.fields) && UniqueNames(s.fields)
    ensures Pack(s).Ok? && Unpack(s, Pack(s).value) == Ok(s)
  {
    assert SpecAtoms(Rep(2, Long)) == [ANum(Long), ANum(Long)];
    assert SpecAtoms(Rep(1, Long)) == [ANum(Long)];
    var lay := Layout(s.fields);
    var vs := Values(s.fields, s.store);
    assert Shaped(lay[0].spec, vs[0]) && Shaped(lay[1].spec, vs[1]);
    ShapedAllIndex(lay, vs);
    RoundTripIdentity(s);
  }

  /** The packed bytes of the array example hold the three items in a row. */
  lemma ArrayThenScalarFlat(s: Struct, n0: string, n1: string, a: int, b: int, c: int)
    requires ArrayThenScalar(s, n0, n1, a, b, c)
    ensures Wf(s) && ValidFormat(s.fields) && Pack(s).Ok? && |Pack(s).value| == Size(s.fields)
    ensures UnpackFlat(Layout(s.fields), Pack(s).value, BigEndian(s.fields)) == [I(a), I(b), I(c)]
  {
    ArrayThenScalarCorrected(s, n0, n1, a, b, c);
    FlatOfReadBack(s, n0, n1, a, b, c, Pack(s).value);
  }

  /** A buffer that reads back as the array example holds its three items in a row. */
  lemma FlatOfReadBack(s: Struct, n0: string, n1: string, a: int, b: int, c: int, packed: bytes)
    requires ArrayThenScalar(s, n0, n1, a, b, c) && UniqueNames(s.fields)
    requires Unpack(s, packed) == Ok(s)
    ensures UnpackFlat(Layout(s.fields), packed, BigEndian(s.fields)) == [I(a), I(b), I(c)]
  {
    var lay := Layout(s.fields);
    var big := BigEndian(s.fields);
    var d := DecodeFields(lay, packed, big);
    assert s.store == AssignAll(s.store, s.fields, d);
    AssignAllUnique(s.store, s.fields, d);
    assert d == [Many([I(a), I(b)]), One(I(c))];
    FlatIsDecoded(lay, packed, big);
    assert d[1..][1..] == [];
  }

  /** Two distinct members written in turn hold the two values, over a store of exactly
      their names. */
  lemma AssignTwo(store: Store, fields: seq<Field>, x: Value, y: Value)
    requires |fields| == 2 && fields[0].name != fields[1].name
    requires store.Keys == {fields[0].name, fields[1].name}
    ensures AssignAll(store, fields, [x, y]) == map[fields[0].name := x, fields[1].name := y]
  {
    assert fields[1..][1..] == [];
  }

  lemma ArrayThenScalarAsWritten(s: Struct, n0: string, n1: string, a: int, b: int, c: int)
    requires ArrayThenScalar(s, n0, n1, a, b, c)
    ensures Wf(s) && Pack(s).Ok?
    ensures UnpackAsWritten(s, Pack(s).value) == Ok(s.(store := map[n0 := One(I(a)), n1 := One(I(b))]))
  {
    ArrayThenScalarFlat(s, n0, n1, a, b, c);
    var items := [I(a), I(b), I(c)];
    var vs := seq(|s.fields|, i requires 0 <= i < |s.fields| => One(items[i]));
    assert vs == [One(I(a)), One(I(b))];
    AssignTwo(s.store, s.fields, One(I(a)), One(I(b)));
  }

  /** Finding: `unpack` as written hands the tuple out one item per member. For a `'2i'`
      member followed by an `'i'` member the list member reads back a scalar (its first
      element), the next member reads the list's second element and the last item is
      dropped; the corrected `Unpack` reproduces the structure. */
  lemma UnpackAsWrittenMisalignsArrays(s: Struct, n0: string, n1: string, a: int, b: int, c: int)
    requires ArrayThenScalar(s, n0, n1, a, b, c)
    ensures Wf(s) && Pack(s).Ok?
    ensures UnpackAsWritten(s, Pack(s).value) == Ok(s.(store := map[n0 := One(I(a)), n1 := One(I(b))]))
    ensures Unpack(s, Pack(s).value) == Ok(s)
  {
    ArrayThenScalarAsWritten(s, n0, n1, a, b, c);
    ArrayThenScalarCorrected(s, n0, n1, a, b, c);
  }

  // ---------------------------------------------------------------------------
  // MQCHARV members: set_vs / get_vs
  // ---------------------------------------------------------------------------

  /** Process memory as far as MQCHARV pointers reach it: NUL-terminated buffers by
      address; `next` is the highest address handed out so far. */
  datatype Mem = Mem(cells: map<int, bytes>, next: nat)

  /** Every live buffer sits at an address already handed out, and none at 0. */
  predicate MemWf(m: Mem) {
    forall a :: a in m.cells ==> 1 <= a <= m.next
  }

  /** The bytes `c_char_p.value` reads: everything before the first NUL. */
  function UntilNul(b: bytes): (r: bytes)
    ensures |r| <= |b| && r == b[..|r|]
    ensures forall i :: 0 <= i < |r| ==> r[i] != 0
    ensures |r| < |b| ==> b[|r|] == 0
  {
    if |b| == 0 || b[0] == 0 then [] else [b[0]] + UntilNul(b[1..])
  }

  predicate EndsWithVSPtr(name: string) {
    |name| >= 5 && name[|name| - 5..] == "VSPtr"
  }

  /** The pointer member `set_vs` and `get_vs` address: the name itself when it already
      ends in `VSPtr`, otherwise the name with `VSPtr` appended. */
  function VsPtrName(name: string): string {
    if EndsWithVSPtr(name) then name else name + "VSPtr"
  }

  /** The MQCHARV base name: the name with a trailing `VSPtr` removed. */
  function VsBase(name: string): (base: string)
    ensures VsPtrName(name) == base + "VSPtr"
  {
    if EndsWithVSPtr(name) then
      assert name == name[..|name| - 5] + "VSPtr";
      name[..|name| - 5]
    else name
  }

  /** The state `set_vs` leaves: the structure, memory, and the exception if one escaped. */
  datatype VsOutcome = VsOutcome(s: Struct, mem: Mem, err: Option<Error>)

  /** The five item assignments of `set_vs`, in source order. `len(None)` raises
      `TypeError` after the first three were written. */
  function StoreVS(s: Struct, ptrName: string, base: string, p: int, len: Option<nat>,
                   offset: int, bufSize: int, ccsid: int): (r: (Struct, Option<Error>))
    ensures r.0.fields == s.fields && r.0.kind == s.kind && r.0.store.Keys == s.store.Keys
  {
    var (s1, e1) := SetKw(s, [(ptrName, One(I(p))), (base + "VSOffset", One(I(offset))),
                              (base + "VSBufSize", One(I(bufSize)))]);
    if e1.Some? then (s1, e1)
    else if len.None? then (s1, Some(TypeError(NoneArgument)))
    else SetKw(s1, [(base + "VSLength", One(I(len.value))), (base + "VSCCSID", One(I(ccsid)))])
  }

  function Len(value: Option<bytes>): Option<nat> {
    if value.Some? then Some(|value.value|) else None
  }

  /** `MQOpts.set_vs` as written (code/pymqi.py:307-350). The `VSPtr` suffix is kept on
      the other four member names, and the `ctypes` string buffer is owned by a local that
      dies when the method returns, so the pointer left behind refers to released memory. */
  function SetVSAsWritten(s: Struct, mem: Mem, name: string, value: Option<bytes>,
                          offset: int, bufSize: int, ccsid: int): (r: VsOutcome)
    ensures r.s.fields == s.fields && r.s.store.Keys == s.store.Keys
    ensures r.mem.cells == mem.cells
  {
    var p := if value.Some? then mem.next + 1 else 0;
    var mem' := if value.Some? then mem.(next := mem.next + 1) else mem;
    var (s', e) := StoreVS(s, VsPtrName(name), name, p, Len(value), offset, bufSize, ccsid);
    VsOutcome(s', mem', e)
  }

  /** `set_vs` with the suffix stripped from every member name and the string buffer kept
      alive for as long as the structure refers to it. */
  function SetVS(s: Struct, mem: Mem, name: string, value: Option<bytes>,
                 offset: int, bufSize: int, ccsid: int): (r: VsOutcome)
    requires MemWf(mem)
    ensures MemWf(r.mem)
    ensures r.s.fields == s.fields && r.s.kind == s.kind && r.s.store.Keys == s.store.Keys
    ensures forall a :: a in mem.cells ==> a in r.mem.cells && r.mem.cells[a] == mem.cells[a]
  {
    var base := VsBase(name);
    if value.Some? then
      var p := mem.next + 1;
      var mem' := Mem(mem.cells[p := value.value + [0]], p);
      var (s', e) := StoreVS(s, base + "VSPtr", base, p, Len(value), offset, bufSize, ccsid);
      VsOutcome(s', mem', e)
    else
      var (s', e) := StoreVS(s, base + "VSPtr", base, 0, None, offset, bufSize, ccsid);
      VsOutcome(s', mem, e)
  }

  /** `MQOpts.get_vs`: the NUL-terminated string the pointer member refers to, or `None`
      for a null pointer. A pointer member holding `None` is null too: `None != 0` holds,
      and casting `None` to `c_char_p` reads `None`. */
  function GetVS(s: Struct, mem: Mem, name: string): (r: Result<Option<bytes>, Error>)
    ensures VsPtrName(name) !in s.store ==> r == Err(AttributeError(VsPtrName(name)))
    ensures VsPtrName(name) in s.store && s.store[VsPtrName(name)] in {One(I(0)), One(Nil)} ==> r == Ok(None)
    ensures r == Ok(None) ==> VsPtrName(name) in s.store && s.store[VsPtrName(name)] in {One(I(0)), One(Nil)}
    ensures r.Ok? && r.value.Some? ==> exists p :: p in mem.cells && r.value.value == UntilNul(mem.cells[p])
  {
    var v :- GetItem(s, VsPtrName(name));
    match v
    case One(I(p)) =>
      if p == 0 then Ok(None)
      else if p in mem.cells then Ok(Some(UntilNul(mem.cells[p])))
      else Err(BadPointer(p))
    case One(Nil) => Ok(None)
    case _ => Err(TypeError(NotAPointer))
  }

  /** The five MQCHARV members of `base`. */
  predicate HasVS(s: Struct, base: string) {
    base + "VSPtr" in s.store && base + "VSOffset" in s.store && base + "VSBufSize" in s.store &&
    base + "VSLength" in s.store && base + "VSCCSID" in s.store
  }

  /** The five MQCHARV member names of `base` are distinct: their suffixes already differ
      in their third character. */
  lemma VsNamesDistinct(base: string)
    ensures base + "VSPtr" != base + "VSOffset" && base + "VSPtr" != base + "VSBufSize"
    ensures base + "VSPtr" != base + "VSLength" && base + "VSPtr" != base + "VSCCSID"
    ensures base + "VSOffset" != base + "VSBufSize" && base + "VSOffset" != base + "VSLength"
    ensures base + "VSOffset" != base + "VSCCSID" && base + "VSBufSize" != base + "VSLength"
    ensures base + "VSBufSize" != base + "VSCCSID" && base + "VSLength" != base + "VSCCSID"
  {
    var k := |base| + 2;
    assert (base + "VSPtr")[k] == 'P' && (base + "VSOffset")[k] == 'O' && (base + "VSBufSize")[k] == 'B';
    assert (base + "VSLength")[k] == 'L' && (base + "VSCCSID")[k] == 'C';
  }

  /** On a structure with the five MQCHARV members of `base`, the assignments of `set_vs`
      all land; only a missing length (`len(None)`) raises, after the pointer was written. */
  lemma StoreVSWrites(s: Struct, base: string, p: int, len: Option<nat>, offset: int, bufSize: int, ccsid: int)
    requires HasVS(s, base)
    ensures var r := StoreVS(s, base + "VSPtr", base, p, len, offset, bufSize, ccsid);
      && r.0.store[base + "VSPtr"] == One(I(p))
      && r.0.store[base + "VSOffset"] == One(I(offset))
      && (len.Some? ==> r.1.None? && r.0.store[base + "VSLength"] == One(I(len.value)))
      && (len.None? ==> r.1 == Some(TypeError(NoneArgument)))
  {
    var kw1 := [(base + "VSPtr", One(I(p))), (base + "VSOffset", One(I(offset))), (base + "VSBufSize", One(I(bufSize)))];
    VsFirstWrites(s, base, p, offset, bufSize);
    if len.Some? {
      VsSecondWrites(SetKw(s, kw1).0, base, len.value, ccsid);
    }
  }

  /** The first three assignments of `set_vs` all land. */
  lemma VsFirstWrites(s: Struct, base: string, p: int, offset: int, bufSize: int)
    requires HasVS(s, base)
    ensures var r := SetKw(s, [(base + "VSPtr", One(I(p))), (base + "VSOffset", One(I(offset))), (base + "VSBufSize", One(I(bufSize)))]);
      && r.1.None? && r.0.store[base + "VSPtr"] == One(I(p)) && r.0.store[base + "VSOffset"] == One(I(offset))
  {
    VsNamesDistinct(base);
    var kw1 := [(base + "VSPtr", One(I(p))), (base + "VSOffset", One(I(offset))), (base + "VSBufSize", One(I(bufSize)))];
    assert DistinctKeys(kw1) by {
      assert forall i, j :: 0 <= i < j < 3 ==> kw1[i].0 != kw1[j].0;
    }
    assert FirstUnknown(s.store, kw1) == 3 by {
      assert kw1[1..][1..][1..] == [];
    }
    SetKwWrites(s, kw1);
  }

  /** The last two assignments of `set_vs` land and leave the pointer and offset alone. */
  lemma VsSecondWrites(s: Struct, base: string, n: nat, ccsid: int)
    requires HasVS(s, base)
    ensures var r := SetKw(s, [(base + "VSLength", One(I(n))), (base + "VSCCSID", One(I(ccsid)))]);
      && r.1.None? && r.0.store[base + "VSLength"] == One(I(n))
      && r.0.store[base + "VSPtr"] == s.store[base + "VSPtr"]
      && r.0.store[base + "VSOffset"] == s.store[base + "VSOffset"]
  {
    VsNamesDistinct(base);
    var kw2 := [(base + "VSLength", One(I(n))), (base + "VSCCSID", One(I(ccsid)))];
    assert FirstUnknown(s.store, kw2) == 2 by {
      assert kw2[1..][1..] == [];
    }
    SetKwWrites(s, kw2);
  }

  /** The five MQCHARV member names of `base`. */
  function VsNames(base: string): set<string> {
    {base + "VSPtr", base + "VSOffset", base + "VSBufSize", base + "VSLength", base + "VSCCSID"}
  }

  /** A name shorter than every MQCHARV suffix of `base` is none of its members. */
  lemma ShortNotVs(n: string, base: string)
    requires |n| < |base| + 5
    ensures n !in VsNames(base)
  {
  }

  /** The corrected `set_vs` writes only the five MQCHARV members of the name; every other
      attribute keeps its value, whether or not it raised. */
  lemma SetVSKeepsOthers(s: Struct, mem: Mem, name: string, value: Option<bytes>, offset: int, bufSize: int, ccsid: int)
    requires MemWf(mem)
    ensures var r := SetVS(s, mem, name, value, offset, bufSize, ccsid);
      forall n :: n in s.store && n !in VsNames(VsBase(name)) ==> r.s.store[n] == s.store[n]
  {
    var base := VsBase(name);
    var p := if value.Some? then mem.next + 1 else 0;
    forall n | n in s.store && n !in VsNames(base)
      ensures SetVS(s, mem, name, value, offset, bufSize, ccsid).s.store[n] == s.store[n]
    {
      StoreVSKeeps(s, base, p, Len(value), offset, bufSize, ccsid, n);
    }
  }

  lemma StoreVSKeeps(s: Struct, base: string, p: int, len: Option<nat>, offset: int, bufSize: int, ccsid: int, n: string)
    requires n in s.store && n !in VsNames(base)
    ensures StoreVS(s, base + "VSPtr", base, p, len, offset, bufSize, ccsid).0.store[n] == s.store[n]
  {
    var kw1 := [(base + "VSPtr", One(I(p))), (base + "VSOffset", One(I(offset))), (base + "VSBufSize", One(I(bufSize)))];
    SetKwKeeps(s, kw1, n);
    if len.Some? {
      var kw2 := [(base + "VSLength", One(I(len.value))), (base + "VSCCSID", One(I(ccsid)))];
      SetKwKeeps(SetKw(s, kw1).0, kw2, n);
    }
  }

  /** `set(**kw)` leaves alone every attribute no keyword names. */
  lemma {:induction false} SetKwKeeps(s: Struct, kw: seq<(string, Value)>, n: string)
    requires n in s.store && forall i :: 0 <= i < |kw| ==> kw[i].0 != n
    ensures SetKw(s, kw).0.store[n] == s.store[n]
    decreases |kw|
  {
    if |kw| > 0 && kw[0].0 in s.store {
      SetKwKeeps(s.(store := s.store[kw[0].0 := kw[0].1]), kw[1..], n);
    }
  }

  /** `get_vs` reads only the pointer member and the buffer it refers to, so a structure
      and memory that agree on those read the same string. */
  lemma GetVSFrame(s: Struct, mem: Mem, s': Struct, mem': Mem, name: string)
    requires VsPtrName(name) in s.store && VsPtrName(name) in s'.store
    requires s'.store[VsPtrName(name)] == s.store[VsPtrName(name)]
    requires forall a :: a in mem.cells ==> a in mem'.cells && mem'.cells[a] == mem.cells[a]
    requires GetVS(s, mem, name).Ok?
    ensures GetVS(s', mem', name) == GetVS(s, mem, name)
  {
  }

  /** The corrected `set_vs` on a structure without the pointer member raises
      `AttributeError` naming it, as the first of its item assignments does. */
  lemma SetVSMissing(s: Struct, mem: Mem, name: string, value: Option<bytes>, offset: int, bufSize: int, ccsid: int)
    requires MemWf(mem) && VsPtrName(name) !in s.store
    ensures SetVS(s, mem, name, value, offset, bufSize, ccsid).err == Some(AttributeError(VsPtrName(name)))
  {
    var base := VsBase(name);
    var p := if value.Some? then mem.next + 1 else 0;
    var kw1 := [(base + "VSPtr", One(I(p))), (base + "VSOffset", One(I(offset))), (base + "VSBufSize", One(I(bufSize)))];
    assert FirstUnknown(s.store, kw1) == 0;
  }

  /** The corrected `set_vs` on a structure with the five MQCHARV members: nothing is
      raised for a string, the length member holds its length, and `get_vs` reads the
      string back (up to its first NUL). A missing string raises `TypeError` and leaves a
      null pointer, which `get_vs` reads as `None`. */
  lemma SetVSGetVS(s: Struct, mem: Mem, name: string, value: Option<bytes>, offset: int, bufSize: int, ccsid: int)
    requires MemWf(mem) && HasVS(s, VsBase(name))
    ensures var r := SetVS(s, mem, name, value, offset, bufSize, ccsid);
      && (value.Some? ==> r.err.None?)
      && (value.Some? ==> r.s.store[VsBase(name) + "VSLength"] == One(I(|value.value|)))
      && (value.Some? ==> r.s.store[VsBase(name) + "VSOffset"] == One(I(offset)))
      && (value.Some? ==> r.s.store[VsBase(name) + "VSPtr"] == One(I(mem.next + 1)))
      && (value.Some? ==> GetVS(r.s, r.mem, name) == Ok(Some(UntilNul(value.value + [0]))))
      && (value.None? ==> r.err == Some(TypeError(NoneArgument)) && GetVS(r.s, r.mem, name) == Ok(None))
  {
    var base := VsBase(name);
    var p := if value.Some? then mem.next + 1 else 0;
    StoreVSWrites(s, base, p, Len(value), offset, bufSize, ccsid);
  }

  /** `VSPtr`-suffixed names are their own pointer member and strip to their base. */
  lemma VsPtrSuffixed(base: string)
    ensures EndsWithVSPtr(base + "VSPtr") && VsPtrName(base + "VSPtr") == base + "VSPtr"
    ensures VsBase(base + "VSPtr") == base
  {
    var name := base + "VSPtr";
    assert name[|name| - 5..] == "VSPtr";
    assert name[..|name| - 5] == base;
  }

  lemma SetVSAsWrittenSuffixRaises(s: Struct, mem: Mem, base: string, value: bytes, offset: int, bufSize: int, ccsid: int)
    requires base + "VSPtr" in s.store && base + "VSPtrVSOffset" !in s.store
    ensures var r := SetVSAsWritten(s, mem, base + "VSPtr", Some(value), offset, bufSize, ccsid);
      r.err == Some(AttributeError(base + "VSPtrVSOffset")) && r.s.store[base + "VSPtr"] == One(I(mem.next + 1))
  {
    var name := base + "VSPtr";
    VsPtrSuffixed(base);
    var kw1 := [(name, One(I(mem.next + 1))), (name + "VSOffset", One(I(offset))), (name + "VSBufSize", One(I(bufSize)))];
    assert name + "VSOffset" == base + "VSPtrVSOffset";
    assert kw1[1..][0].0 == base + "VSPtrVSOffset";
    assert FirstUnknown(s.store, kw1[1..]) == 0;
    assert FirstUnknown(s.store, kw1) == 1;
    assert |name| < |name + "VSOffset"| && |name| < |name + "VSBufSize"| && |name + "VSOffset"| < |name + "VSBufSize"|;
    assert DistinctKeys(kw1);
    SetKwWrites(s, kw1);
  }

  /** Finding: `set_vs` as written, given the pointer member's own name, addresses
      `...VSPtrVSOffset`, which no structure has; the pointer is written and then
      `AttributeError` escapes. The corrected `set_vs` succeeds on the same call. */
  lemma SetVSAsWrittenKeepsSuffix(s: Struct, mem: Mem, base: string, value: bytes, offset: int, bufSize: int, ccsid: int)
    requires MemWf(mem) && HasVS(s, base)
    requires base + "VSPtrVSOffset" !in s.store
    ensures var r := SetVSAsWritten(s, mem, base + "VSPtr", Some(value), offset, bufSize, ccsid);
      r.err == Some(AttributeError(base + "VSPtrVSOffset")) && r.s.store[base + "VSPtr"] == One(I(mem.next + 1))
    ensures SetVS(s, mem, base + "VSPtr", Some(value), offset, bufSize, ccsid).err.None?
  {
    SetVSAsWrittenSuffixRaises(s, mem, base, value, offset, bufSize, ccsid);
    VsPtrSuffixed(base);
    SetVSGetVS(s, mem, base + "VSPtr", Some(value), offset, bufSize, ccsid);
  }

  /** Finding: after `set_vs` as written returns, the string buffer is gone, so `get_vs`
      (and MQOPEN, which reads the same pointer) dereferences released memory; the
      corrected `set_vs` keeps the buffer and `get_vs` reads the string back. */
  lemma SetVSAsWrittenDangles(s: Struct, mem: Mem, base: string, value: bytes, offset: int, bufSize: int, ccsid: int)
    requires MemWf(mem) && HasVS(s, base) && !EndsWithVSPtr(base)
    ensures var r := SetVSAsWritten(s, mem, base, Some(value), offset, bufSize, ccsid);
      r.err.None? && GetVS(r.s, r.mem, base) == Err(BadPointer(mem.next + 1))
    ensures var r := SetVS(s, mem, base, Some(value), offset, bufSize, ccsid);
      GetVS(r.s, r.mem, base) == Ok(Some(UntilNul(value + [0])))
  {
    SetVSGetVS(s, mem, base, Some(value), offset, bufSize, ccsid);
    var r := SetVS(s, mem, base, Some(value), offset, bufSize, ccsid);
    var w := SetVSAsWritten(s, mem, base, Some(value), offset, bufSize, ccsid);
    assert w.s == r.s;
    assert mem.next + 1 !in w.mem.cells;
  }
}

=== FILE: pcf.dfy ===
/** `PCFExecute.stringifyKeys` (code/pymqi.py:2391-2407): the integer keys of an inquiry
    row are renamed to their `CMQC` mnemonics where one exists. */
module PcfKeys {
  import opened Wrappers
  import opened Wire
  import opened Consts
  import opened Mnemonics

  /** A key of the dictionary `stringifyKeys` returns: a mnemonic, or the integer key it
      could not rename. */
  datatype PyKey = Name(name: string) | Code(code: int)

  /** `type(value) is types.StringType`. */
  predicate IsString(v: Value) {
    v.One? && v.x.S?
  }

  /** String values are looked up among the `MQCA_` names, everything else among the
      `MQIA_` names. */
  function DictPrefix(v: Value): string {
    if IsString(v) then "MQCA_" else "MQIA_"
  }

  /** The key one raw entry is stored under: `d[k]`, or `k` itself when `d[k]` raises
      `KeyError`. */
  function Translate(k: Consts, key: int, v: Value): PyKey {
    var c := Const2String(k.cmqc, DictPrefix(v), key);
    if c.Ok? then Name(c.value) else Code(key)
  }

  /** The loop of `stringifyKeys`: each raw key, in the order `keys`, stores its value
      under the key `ren` gives it, a later store replacing an earlier one. */
  function Rekey(ren: (int, Value) -> PyKey, raw: map<int, Value>, keys: seq<int>): map<PyKey, Value>
    requires forall i :: 0 <= i < |keys| ==> keys[i] in raw
    decreases |keys|
  {
    if |keys| == 0 then map[]
    else
      var key := keys[|keys| - 1];
      Rekey(ren, raw, keys[..|keys| - 1])[ren(key, raw[key]) := raw[key]]
  }

  /** `stringifyKeys(rawDict)`, the raw keys visited in the order `keys`. */
  function StringifyKeys(k: Consts, raw: map<int, Value>, keys: seq<int>): map<PyKey, Value>
    requires forall i :: 0 <= i < |keys| ==> keys[i] in raw
  {
    Rekey((key: int, v: Value) => Translate(k, key, v), raw, keys)
  }

  /** No raw key is visited twice. */
  predicate NoRepeats(keys: seq<int>) {
    forall i, j :: 0 <= i < j < |keys| ==> keys[i] != keys[j]
  }

  /** `keys` is the iteration order of `rawDict.keys()`: every key once. */
  predicate Enumerates(keys: seq<int>, raw: map<int, Value>) {
    && NoRepeats(keys)
    && (forall i :: 0 <= i < |keys| ==> keys[i] in raw)
    && (forall key :: key in raw ==> exists i :: 0 <= i < |keys| && keys[i] == key)
  }

  /** Distinct raw keys get distinct new keys. */
  ghost predicate Injective(ren: (int, Value) -> PyKey) {
    forall a, b, va, vb :: a != b ==> ren(a, va) != ren(b, vb)
  }

  /** The loop's keys are exactly the new keys of the visited raw keys. */
  lemma {:induction false} RekeyDomain(ren: (int, Value) -> PyKey, raw: map<int, Value>, keys: seq<int>, pk: PyKey)
    requires forall i :: 0 <= i < |keys| ==> keys[i] in raw
    ensures pk in Rekey(ren, raw, keys) <==> exists i :: 0 <= i < |keys| && ren(keys[i], raw[keys[i]]) == pk
    decreases |keys|
  {
    if |keys| > 0 {
      var n := |keys| - 1;
      var init := keys[..n];
      RekeyDomain(ren, raw, init, pk);
      if exists i :: 0 <= i < |keys| && ren(keys[i], raw[keys[i]]) == pk {
        var i :| 0 <= i < |keys| && ren(keys[i], raw[keys[i]]) == pk;
        if i < n {
          assert init[i] == keys[i];
        }
      }
      if exists i :: 0 <= i < n && ren(init[i], raw[init[i]]) == pk {
        var i :| 0 <= i < n && ren(init[i], raw[init[i]]) == pk;
        assert init[i] == keys[i];
      }
    }
  }

  /** With an injective renaming and no key visited twice, each visited value is stored
      under its new key and nothing is overwritten, so the result has one entry per
      visited key. */
  lemma {:induction false} RekeyValues(ren: (int, Value) -> PyKey, raw: map<int, Value>, keys: seq<int>)
    requires Injective(ren) && NoRepeats(keys)
    requires forall i :: 0 <= i < |keys| ==> keys[i] in raw
    ensures var r := Rekey(ren, raw, keys);
      && |r| == |keys|
      && forall i :: 0 <= i < |keys| ==> ren(keys[i], raw[keys[i]]) in r && r[ren(keys[i], raw[keys[i]])] == raw[keys[i]]
    decreases |keys|
  {
    if |keys| > 0 {
      var n := |keys| - 1;
      var init := keys[..n];
      var key := keys[n];
      var pk := ren(key, raw[key]);
      assert forall i :: 0 <= i < n ==> init[i] == keys[i];
      RekeyValues(ren, raw, init);
      RekeyDomain(ren, raw, init, pk);
    }
  }

  /** The renaming `stringifyKeys` applies is injective when `CMQC` has one entry per
      name: a mnemonic names a single value, and a kept integer key is itself. */
  lemma StringifyInjective(k: Consts)
    requires DistinctNames(k.cmqc)
    ensures Injective((key: int, v: Value) => Translate(k, key, v))
  {
    var ren := (key: int, v: Value) => Translate(k, key, v);
    forall a, b, va, vb | a != b
      ensures ren(a, va) != ren(b, vb)
    {
    }
  }

  /** `stringifyKeys` over a whole raw row: one entry per raw key, each value stored
      under its renamed key. */
  lemma StringifyRow(k: Consts, raw: map<int, Value>, keys: seq<int>)
    requires DistinctNames(k.cmqc) && Enumerates(keys, raw)
    ensures var r := StringifyKeys(k, raw, keys);
      && |r| == |raw|
      && forall key :: key in raw ==> Translate(k, key, raw[key]) in r && r[Translate(k, key, raw[key])] == raw[key]
  {
    var ren := (key: int, v: Value) => Translate(k, key, v);
    StringifyInjective(k);
    RekeyValues(ren, raw, keys);
    CountListed(keys, raw.Keys);
    forall key | key in raw
      ensures ren(key, raw[key]) in Rekey(ren, raw, keys)
      ensures Rekey(ren, raw, keys)[ren(key, raw[key])] == raw[key]
    {
      var i :| 0 <= i < |keys| && keys[i] == key;
    }
  }

  /** A key `CMQC` names (an `MQCA_` name for a string value, an `MQIA_` name otherwise)
      is replaced by that name, which looks the key up again; the integer key is gone. */
  lemma StringifyKnownKey(k: Consts, raw: map<int, Value>, keys: seq<int>, key: int)
    requires DistinctNames(k.cmqc) && Enumerates(keys, raw)
    requires key in raw && Const2String(k.cmqc, DictPrefix(raw[key]), key).Ok?
    ensures var r := StringifyKeys(k, raw, keys);
      var n := Const2String(k.cmqc, DictPrefix(raw[key]), key).value;
      && Name(n) in r && r[Name(n)] == raw[key] && Code(key) !in r
      && HasPrefix(n, DictPrefix(raw[key])) && Lookup(k.cmqc, n) == Some(key)
  {
    var ren := (key: int, v: Value) => Translate(k, key, v);
    StringifyRow(k, raw, keys);
    forall i | 0 <= i < |keys|
      ensures ren(keys[i], raw[keys[i]]) != Code(key)
    {
      if keys[i] != key {
        assert Translate(k, keys[i], raw[keys[i]]) != Code(key);
      }
    }
    RekeyDomain(ren, raw, keys, Code(key));
  }

  /** A key `CMQC` does not name passes through unchanged, with its value. */
  lemma StringifyUnknownKey(k: Consts, raw: map<int, Value>, keys: seq<int>, key: int)
    requires DistinctNames(k.cmqc) && Enumerates(keys, raw)
    requires key in raw && Const2String(k.cmqc, DictPrefix(raw[key]), key).Err?
    ensures Code(key) in StringifyKeys(k, raw, keys) && StringifyKeys(k, raw, keys)[Code(key)] == raw[key]
  {
    StringifyRow(k, raw, keys);
  }

  /** A sequence without repeats that lists exactly the members of a set has as many
      entries as the set. */
  lemma {:induction false} CountListed(keys: seq<int>, s: set<int>)
    requires NoRepeats(keys)
    requires forall i :: 0 <= i < |keys| ==> keys[i] in s
    requires forall x :: x in s ==> exists i :: 0 <= i < |keys| && keys[i] == x
    ensures |s| == |keys|
    decreases |keys|
  {
    if |keys| == 0 {
      assert forall x :: x !in s;
      assert s == {};
    } else {
      var n := |keys| - 1;
      var init := keys[..n];
      var s0 := s - {keys[n]};
      forall i | 0 <= i < n
        ensures init[i] in s0
      {
        assert init[i] == keys[i] && keys[i] != keys[n];
      }
      forall x | x in s0
        ensures exists i :: 0 <= i < n && init[i] == x
      {
        var i :| 0 <= i < |keys| && keys[i] == x;
        assert i < n && init[i] == x;
      }
      assert NoRepeats(init) by {
        forall i, j | 0 <= i < j < n
          ensures init[i] != init[j]
        {
          assert init[i] == keys[i] && init[j] == keys[j];
        }
      }
      CountListed(init, s0);
    }
  }
}

/** `PCFExecute` (code/pymqi.py:2344-2389) and the `_Method` functor it hands out
    (code/pymqi.py:2317-2338): a PCF command named by attribute access is resolved in
    `CMQCFC` and sent through `mqaiExecute`. */
module Pcf {
  import opened Wrappers
  import opened Bytes
  import opened Wire
  import opened Errors
  import opened Consts
  import opened Transport
  import opened QMgr
  import opened Mnemonics

  /** A `PCFExecute`: its own queue manager connection, and the queue manager it was
      constructed from, when it was. */
  datatype PcfExecute = PcfExecute(own: QueueManager, qm: Option<QueueManager>)

  /** What `PCFExecute(name)` was given: a `QueueManager` instance, or a name. */
  datatype PcfArg = SharedQm(shared: QueueManager) | QmName(name: Option<bytes>)

  /** `PCFExecute.__init__`: a given queue manager is kept and no connection of its own is
      made; a name connects as `QueueManager(name)` does. */
  function NewPcf(b: Broker, w: World, arg: PcfArg): (r: Step<PcfExecute, ()>)
    ensures arg.SharedQm? ==> r == Step(PcfExecute(QueueManager(None, None, None), Some(arg.shared)), w, Ok(()))
    ensures arg.QmName? ==> r.state.qm.None? && r.world == NewQueueManager(b, w, arg.name).world
    ensures arg.QmName? ==> r.result == NewQueueManager(b, w, arg.name).result
  {
    match arg
    case SharedQm(q) => Step(PcfExecute(QueueManager(None, None, None), Some(q)), w, Ok(()))
    case QmName(name) =>
      var s := NewQueueManager(b, w, name);
      Step(PcfExecute(s.state, None), s.world, s.result)
  }

  /** A `_Method`: the dotted attribute path it was reached by. */
  datatype Method = Method(name: string)

  /** `pcf.NAME`: `__getattr__` hands out a `_Method` for any name. */
  function PcfAttr(name: string): (m: Method)
    ensures m.name == name
  {
    Method(name)
  }

  /** `method.NAME`: the path grows by one dotted component. */
  function MethodAttr(m: Method, name: string): (m': Method)
    ensures m'.name == m.name + "." + name
  {
    Method(m.name + "." + name)
  }

  /** The command name a call resolves: one leading `CMQCFC.` removed. */
  function CommandName(name: string): string {
    if HasPrefix(name, "CMQCFC.") then name[7..] else name
  }

  /** `pcf.CMQCFC.NAME(...)` resolves `NAME`. */
  lemma QualifiedCommand(name: string)
    ensures CommandName(MethodAttr(PcfAttr("CMQCFC"), name).name) == name
  {
    var full := MethodAttr(PcfAttr("CMQCFC"), name).name;
    assert full == "CMQCFC." + name;
    assert full[..7] == "CMQCFC.";
    assert full[7..] == name;
  }

  /** A name without the module prefix is resolved as it stands, and only such a name. */
  lemma CommandNameKeeps(name: string)
    ensures CommandName(name) == name <==> !HasPrefix(name, "CMQCFC.")
    ensures HasPrefix(name, "CMQCFC.") ==> "CMQCFC." + CommandName(name) == name
  {
    if HasPrefix(name, "CMQCFC.") {
      assert name == name[..7] + name[7..];
      assert |CommandName(name)| < |name|;
    }
  }

  /** The handle a call uses: the given queue manager's when there is one (an instance is
      always true), else the object's own. */
  function PcfHandle(p: PcfExecute): (r: Result<int, Error>)
    ensures p.qm.Some? ==> r == GetHandle(p.qm.value)
    ensures p.qm.None? ==> r == GetHandle(p.own)
  {
    if p.qm.Some? then GetHandle(p.qm.value) else GetHandle(p.own)
  }

  /** `_Method.__call__(*args)`: the prefix is stripped from the stored name first (so the
      `_Method` keeps the stripped name whatever follows); then the handle is fetched,
      the command looked up in `CMQCFC` (`KeyError` when it is not there), `mqaiExecute`
      called, and a non-zero completion code raised; otherwise the result rows.
      A call succeeds exactly when a handle is at hand, the command is defined and the
      queue manager answers with a zero completion code; then exactly one `mqaiExecute`
      went out, carrying that handle, the command's code and the arguments, and its rows
      are returned. An unknown command makes no call. */
  function Run(p: PcfExecute, m: Method, b: Broker, w: World, k: Consts, args: seq<map<int, Value>>)
    : (r: Step<Method, seq<map<int, Value>>>)
    ensures r.state == Method(CommandName(m.name))
    ensures var code := Lookup(k.cmqcfc, CommandName(m.name));
      && (PcfHandle(p).Err? ==> r.world == w && r.result == Err(PcfHandle(p).error))
      && (PcfHandle(p).Ok? && code.None? ==> r.world == w && r.result == Err(KeyError(CommandName(m.name))))
      && (PcfHandle(p).Ok? && code.Some? ==>
            var c := Execute(PcfHandle(p).value, code.value, args);
            && r.world.log == w.log + [c] && r.world.mem == w.mem
            && (r.result.Ok? <==> b(w.log, c).comp == 0)
            && (r.result.Ok? ==> r.result.value == b(w.log, c).rows)
            && (r.result.Err? ==> r.result.error == MQMIError(b(w.log, c).comp, b(w.log, c).reason)))
  {
    var m1 := Method(CommandName(m.name));
    match PcfHandle(p)
    case Err(e) => Step(m1, w, Err(e))
    case Ok(h) =>
      match Lookup(k.cmqcfc, m1.name)
      case None => Step(m1, w, Err(KeyError(m1.name)))
      case Some(cmd) =>
        var (rep, w1) := Invoke(b, w, Execute(h, cmd, args));
        match Check(rep)
        case Err(e) => Step(m1, w1, Err(e))
        case Ok(_) => Step(m1, w1, Ok(rep.rows))
  }

  /** A `PCFExecute` built on a connected queue manager sends its commands over that
      connection, never its own (which it never opened). */
  lemma SharedConnectionUsed(b: Broker, w: World, q: QueueManager, m: Method, k: Consts, args: seq<map<int, Value>>)
    requires Truthy(q.handle) && Lookup(k.cmqcfc, CommandName(m.name)).Some?
    ensures var p := NewPcf(b, w, SharedQm(q)).state;
      && p.own.handle.None?
      && Run(p, m, b, w, k, args).world.log
           == w.log + [Execute(q.handle.value, Lookup(k.cmqcfc, CommandName(m.name)).value, args)]
  {
    var p := NewPcf(b, w, SharedQm(q)).state;
    assert PcfHandle(p) == Ok(q.handle.value);
  }
}

=== FILE: qargs.dfy ===
/** The argument helpers the queue operations share, `makeQDesc` and `commonQArgs`
    (code/pymqi.py:1460-1482), and the structures the methods build with no keywords. */
module QArgs {
  import opened Wrappers
  import opened Bytes
  import opened Wire
  import opened Errors
  import opened Consts
  import opened MQOpts
  import opened Schemas

  /** `od()`, `md()`, `pmo()`, `gmo()`, `cd()` and `sd()`: the structures the methods of
      `QueueManager`, `Queue`, `Topic` and `Subscription` create with no keywords. They
      depend only on the environment, so the methods take them ready-made;
      `FreshOf(env)` is the record the classes build. */
  datatype Fresh = Fresh(od: Struct, md: Struct, pmo: Struct, gmo: Struct, cd: Struct, sd: Struct)

  /** What the methods rely on: each structure is live, of its class, and has the
      members the methods assign by name. */
  predicate FreshWf(f: Fresh) {
    && f.od.kind == OD && Wf(f.od)
    && "ObjectName" in f.od.store && "ObjectType" in f.od.store
    && "ObjectQMgrName" in f.od.store && "Version" in f.od.store
    && f.md.kind == MD && Wf(f.md)
    && f.pmo.kind == PMO && Wf(f.pmo)
    && f.gmo.kind == GMO && Wf(f.gmo)
    && f.cd.kind == CD && Wf(f.cd)
    && f.sd.kind == SD && Wf(f.sd)
  }

  /** `od()`. */
  function DefaultOd(env: Env): (s: Struct)
    ensures s.kind == OD && Wf(s) && s.fields == Od(env)
    ensures "ObjectName" in s.store && "ObjectType" in s.store
    ensures "ObjectQMgrName" in s.store && "Version" in s.store
  {
    OdNames(env);
    NewOd(env, []).value
  }

  /** `md()`. */
  function DefaultMd(env: Env): (s: Struct)
    ensures s.kind == MD && Wf(s) && s.fields == Md(env.k)
  {
    NewMd(env, []).value
  }

  /** `pmo()`. */
  function DefaultPmo(env: Env): (s: Struct)
    ensures s.kind == PMO && Wf(s) && s.fields == Pmo(env)
  {
    NewPmo(env, []).value
  }

  /** `gmo()`. */
  function DefaultGmo(env: Env): (s: Struct)
    ensures s.kind == GMO && Wf(s) && s.fields == Gmo(env)
  {
    NewGmo(env, []).value
  }

  /** `cd()`. */
  function DefaultCd(env: Env): (s: Struct)
    ensures s.kind == CD && Wf(s) && s.fields == Cd(env)
  {
    NewCd(env, []).value
  }

  /** `sd()`. */
  function DefaultSd(env: Env): (s: Struct)
    ensures s.kind == SD && Wf(s) && s.fields == Sd(env.k)
  {
    NewSd(env, []).value
  }

  function FreshOf(env: Env): Fresh {
    Fresh(DefaultOd(env), DefaultMd(env), DefaultPmo(env), DefaultGmo(env), DefaultCd(env), DefaultSd(env))
  }

  /** The classes' own structures meet what the methods rely on. */
  lemma FreshOfWf(env: Env)
    ensures FreshWf(FreshOf(env))
  {
  }

  /** The `SD()` `Subscription.sub` fills in has the members it sets. */
  lemma FreshSdMembers(env: Env)
    ensures var s := DefaultSd(env);
      "Options" in s.store && "ObjectName" in s.store && HasVS(s, "ObjectString") && HasVS(s, "SubName")
  {
    var s := DefaultSd(env);
    var k := env.k;
    SdHeadNames(k);
    SdSplit(k);
    assert s.fields[2] == SdHead(k)[2] && s.fields[3] == SdHead(k)[3];
    VsBetween(s, SdHead(k), "ObjectString", CharV("SubName") + SdTail(k));
    VsBetween(s, SdHead(k) + CharV("ObjectString"), "SubName", SdTail(k));
  }

  /** From level 7.0 the `od()` a topic descriptor starts from has the MQCHARV
      `ObjectString`. */
  lemma FreshOdObjectString(env: Env)
    requires "7.0" in env.levels
    ensures HasVS(DefaultOd(env), "ObjectString")
  {
    OdSplit(env);
    VsBetween(DefaultOd(env), OdBase(env.k), "ObjectString", OdAfterObjectString());
  }

  /** A queue named by a string or given as a ready-made `od()`. */
  datatype QArg = Name(name: bytes) | Desc(od: Struct)

  /** `makeQDesc`: a string becomes `od(ObjectName=string)`; a descriptor, or `None`, is
      passed through. */
  function MakeQDesc(f: Fresh, a: Option<QArg>): (r: Option<Struct>)
    requires FreshWf(f)
    ensures a.None? ==> r.None?
    ensures a.Some? && a.value.Desc? ==> r == Some(a.value.od)
    ensures a.Some? && a.value.Name? ==>
      && r.Some? && r.value.kind == OD && Wf(r.value) && r.value.fields == f.od.fields
      && r.value.store == f.od.store["ObjectName" := One(S(a.value.name))]
  {
    match a
    case None => None
    case Some(Desc(d)) => Some(d)
    case Some(Name(n)) => Some(SetItem(f.od, "ObjectName", One(S(n))).value)
  }

  /** With the classes' own `od()`, a named queue is `od(ObjectName=name)`. */
  lemma MakeQDescIsNew(env: Env, f: Fresh, n: bytes)
    requires FreshWf(f) && f.od == DefaultOd(env)
    ensures NewOd(env, [("ObjectName", One(S(n)))]).Ok?
    ensures MakeQDesc(f, Some(Name(n))) == Some(NewOd(env, [("ObjectName", One(S(n)))]).value)
  {
    CreateOneIsSet(OD, Od(env), "ObjectName", One(S(n)));
  }

  /** The optional `(mDesc, pgOpts)` tail of put, get and put1: at most two items, a
      missing or `None` descriptor replaced by a default `md()`, the options passed on
      as they are. */
  function CommonQArgs(f: Fresh, opts: seq<Option<Struct>>): (r: Result<(Struct, Option<Struct>), Error>)
    ensures |opts| > 2 ==> r == Err(TypeError(TooManyArgs))
    ensures |opts| <= 2 ==> r.Ok? && r.value.1 == (if |opts| == 2 then opts[1] else None)
    ensures |opts| <= 2 ==> r.value.0 == (if |opts| > 0 && opts[0].Some? then opts[0].value else f.md)
  {
    if |opts| > 2 then Err(TypeError(TooManyArgs))
    else
      var mDesc := if |opts| > 0 then opts[0] else None;
      var pgOpts := if |opts| == 2 then opts[1] else None;
      Ok((if mDesc.None? then f.md else mDesc.value, pgOpts))
  }

  /** Every structure argument is a live `MQOpts` instance. */
  predicate AllWf(opts: seq<Option<Struct>>) {
    forall i :: 0 <= i < |opts| && opts[i].Some? ==> Wf(opts[i].value)
  }

  /** The descriptor and options a message verb sends and unpacks its reply into:
      `commonQArgs`, then the verb's own default options (`pmo()` or `gmo()`) when none
      were passed. */
  function MsgStructs(f: Fresh, opts: seq<Option<Struct>>, dflt: Struct): (r: Result<(Struct, Struct), Error>)
    requires FreshWf(f) && AllWf(opts) && Wf(dflt)
    ensures |opts| > 2 ==> r == Err(TypeError(TooManyArgs))
    ensures |opts| <= 2 ==> r.Ok? && Wf(r.value.0) && Wf(r.value.1)
    ensures r.Ok? ==> r.value.0 == (if |opts| > 0 && opts[0].Some? then opts[0].value else f.md)
    ensures r.Ok? ==> r.value.1 == (if |opts| == 2 && opts[1].Some? then opts[1].value else dflt)
  {
    match CommonQArgs(f, opts)
    case Err(e) => Err(e)
    case Ok((md, o)) =>
      CommonQArgsWf(f, opts);
      Ok((md, if o.Some? then o.value else dflt))
  }

  lemma CommonQArgsWf(f: Fresh, opts: seq<Option<Struct>>)
    requires FreshWf(f) && AllWf(opts) && |opts| <= 2
    ensures Wf(CommonQArgs(f, opts).value.0)
    ensures CommonQArgs(f, opts).value.1.Some? ==> Wf(CommonQArgs(f, opts).value.1.value)
  {
  }
}

=== FILE: qmgr.dfy ===
/** `QueueManager` (code/pymqi.py:1219-1440): the connection handle, connecting and
    disconnecting, transactions, `put1`, and `inquire` with its cached queue manager
    object. */
module QMgr {
  import opened Wrappers
  import opened Bytes
  import opened Wire
  import opened Errors
  import opened Consts
  import opened MQOpts
  import opened Schemas
  import opened Transport
  import opened QArgs

  /** The connection handle, the queue manager name, and the handle of the queue manager
      object `inquire` opened, once it has. */
  datatype QueueManager = QueueManager(handle: Option<int>, name: Option<bytes>, qmobj: Option<int>)

  /** `connect(name)`: MQCONN; a non-zero completion code raises, otherwise the handle and
      the name are kept. */
  function Connect(qm: QueueManager, b: Broker, w: World, name: bytes): (r: Step<QueueManager, ()>)
    ensures r.world.log == w.log + [Conn(name)] && r.world.mem == w.mem
    ensures var rep := b(w.log, Conn(name));
      && (r.result.Ok? <==> rep.comp == 0)
      && (r.result.Ok? ==> r.state == qm.(handle := Some(rep.handle), name := Some(name)))
      && (r.result.Err? ==> r.state == qm && r.result.error == MQMIError(rep.comp, rep.reason))
  {
    var (rep, w1) := Invoke(b, w, Conn(name));
    if rep.comp != 0 then Step(qm, w1, Err(MQMIError(rep.comp, rep.reason)))
    else Step(qm.(handle := Some(rep.handle), name := Some(name)), w1, Ok(()))
  }

  /** `QueueManager(name)`: connects at once unless the name is `None`. */
  function NewQueueManager(b: Broker, w: World, name: Option<bytes>): (r: Step<QueueManager, ()>)
    ensures name.None? ==> r == Step(QueueManager(None, None, None), w, Ok(()))
    ensures name.Some? ==> r.world.log == w.log + [Conn(name.value)] && r.state.qmobj.None?
    ensures name.Some? ==> (r.result.Ok? <==> b(w.log, Conn(name.value)).comp == 0)
    ensures r.result.Ok? && name.Some? ==> r.state.handle == Some(b(w.log, Conn(name.value)).handle)
  {
    var qm := QueueManager(None, name, None);
    if name.Some? then Connect(qm, b, w, name.value) else Step(qm, w, Ok(()))
  }

  /** `getHandle()`: the handle while it is truthy. */
  function GetHandle(qm: QueueManager): (r: Result<int, Error>)
    ensures r.Ok? <==> Truthy(qm.handle)
    ensures r.Ok? ==> r.value == qm.handle.value
    ensures r.Err? ==> r.error == PYIFError(NotConnected)
  {
    if Truthy(qm.handle) then Ok(qm.handle.value) else Err(PYIFError(NotConnected))
  }

  /** `disconnect()`: MQDISC when connected, whatever it answers; the handle is not
      cleared. Raises when not connected. */
  function Disconnect(qm: QueueManager, b: Broker, w: World): (r: Step<QueueManager, ()>)
    ensures Truthy(qm.handle) ==> r == Step(qm, w.(log := w.log + [Disc(qm.handle.value)]), Ok(()))
    ensures !Truthy(qm.handle) ==> r == Step(qm, w, Err(PYIFError(NotConnected)))
  {
    if Truthy(qm.handle) then
      var (_, w1) := Invoke(b, w, Disc(qm.handle.value));
      Step(qm, w1, Ok(()))
    else Step(qm, w, Err(PYIFError(NotConnected)))
  }

  /** After `disconnect()` the old handle is still handed out. */
  lemma DisconnectKeepsHandle(qm: QueueManager, b: Broker, w: World)
    requires Disconnect(qm, b, w).result.Ok?
    ensures GetHandle(Disconnect(qm, b, w).state) == Ok(qm.handle.value)
    ensures |Disconnect(qm, b, w).world.log| == |w.log| + 1
  {
  }

  /** `getHandle()` over the life of a queue manager: one built without a name hands out
      nothing and raises `PYIFError`; one whose MQCONN succeeded hands out the handle the
      broker answered, unless that handle is 0. */
  lemma ConnectedHandle(b: Broker, w: World, name: bytes)
    ensures GetHandle(NewQueueManager(b, w, None).state) == Err(PYIFError(NotConnected))
    ensures var r := NewQueueManager(b, w, Some(name));
      var h := b(w.log, Conn(name)).handle;
      r.result.Ok? ==> GetHandle(r.state) == (if h != 0 then Ok(h) else Err(PYIFError(NotConnected)))
  {
  }

  // ---------------------------------------------------------------------------
  // connectWithOptions
  // ---------------------------------------------------------------------------

  /** A keyword or positional argument of `connectWithOptions`. */
  datatype ConnArg = IntArg(n: int) | StructArg(s: Struct) | NoneArg

  /** A keyword name: the three `connectWithOptions` reads, or any other. */
  datatype Key = OptsKey | CdKey | ScoKey | OtherKey(name: string)

  /** The keywords a caller may pass in the new style. */
  predicate Allowed(key: Key) {
    !key.OtherKey?
  }

  /** Keyword arguments: a dictionary, iterated in the order given. */
  predicate DistinctKw(kw: seq<(Key, ConnArg)>) {
    forall i, j :: 0 <= i < j < |kw| ==> kw[i].0 != kw[j].0
  }

  /** `kw.has_key(key)` / `kw[key]`. */
  function KwGet(kw: seq<(Key, ConnArg)>, key: Key): (r: Option<ConnArg>)
    ensures r.Some? <==> exists i :: 0 <= i < |kw| && kw[i].0 == key
    ensures r.Some? && DistinctKw(kw) ==> forall i :: 0 <= i < |kw| && kw[i].0 == key ==> kw[i].1 == r.value
  {
    if |kw| == 0 then None
    else if kw[0].0 == key then Some(kw[0].1)
    else
      var r := KwGet(kw[1..], key);
      assert forall i :: 1 <= i < |kw| ==> kw[i] == kw[1..][i - 1];
      r
  }

  /** `kw[key] = v`. */
  function KwSet(kw: seq<(Key, ConnArg)>, key: Key, v: ConnArg): (r: seq<(Key, ConnArg)>)
    ensures KwGet(r, key) == Some(v)
    ensures forall k :: k != key ==> KwGet(r, k) == KwGet(kw, k)
  {
    if |kw| == 0 then [(key, v)]
    else if kw[0].0 == key then [(key, v)] + kw[1..]
    else
      var r := [kw[0]] + KwSet(kw[1..], key, v);
      assert r[1..] == KwSet(kw[1..], key, v);
      r
  }

  /** The index of the first keyword outside `opts`, `cd`, `sco`, or `|kw|`. */
  function FirstInvalid(kw: seq<(Key, ConnArg)>): (j: nat)
    ensures j <= |kw|
    ensures forall i :: 0 <= i < j ==> Allowed(kw[i].0)
    ensures j < |kw| ==> !Allowed(kw[j].0)
  {
    if |kw| == 0 || !Allowed(kw[0].0) then 0
    else
      var j := FirstInvalid(kw[1..]);
      assert forall i :: 1 <= i < j + 1 ==> kw[i] == kw[1..][i - 1];
      1 + j
  }

  /** The keywords `connectWithOptions` works from: old-style positional `cd` and `sco`
      overwrite the keywords and nothing is checked; new-style keywords must be among
      `opts`, `cd`, `sco`. */
  function ConnKeywords(bwopts: seq<ConnArg>, kw: seq<(Key, ConnArg)>): (r: Result<seq<(Key, ConnArg)>, Error>)
    ensures |bwopts| > 2 ==> r == Err(TypeError(TooManyArgs))
    ensures |bwopts| == 0 ==> (r.Err? <==> FirstInvalid(kw) < |kw|)
    ensures |bwopts| == 0 && r.Err? ==> r.error == TypeError(InvalidOption(kw[FirstInvalid(kw)].0.name))
    ensures |bwopts| == 0 && r.Ok? ==> r.value == kw
    ensures 0 < |bwopts| <= 2 ==> r.Ok? && KwGet(r.value, CdKey) == Some(bwopts[0])
    ensures 0 < |bwopts| <= 2 ==> KwGet(r.value, ScoKey) == (if |bwopts| == 2 then Some(bwopts[1]) else KwGet(kw, ScoKey))
    ensures 0 < |bwopts| <= 2 ==> KwGet(r.value, OptsKey) == KwGet(kw, OptsKey)
    ensures r.Ok? && ConnArgsWf(bwopts, kw) ==> KwWf(r.value)
  {
    if |bwopts| > 0 then
      if |bwopts| > 2 then Err(TypeError(TooManyArgs))
      else
        var kw1 := KwSet(kw, CdKey, bwopts[0]);
        if ConnArgsWf(bwopts, kw) then
          KwSetWf(kw, CdKey, bwopts[0]);
          if |bwopts| == 2 then KwSetWf(kw1, ScoKey, bwopts[1]); Ok(KwSet(kw1, ScoKey, bwopts[1])) else Ok(kw1)
        else Ok(if |bwopts| == 2 then KwSet(kw1, ScoKey, bwopts[1]) else kw1)
    else
      var j := FirstInvalid(kw);
      if j < |kw| then Err(TypeError(InvalidOption(kw[j].0.name))) else Ok(kw)
  }

  /** `x.pack()` on an argument: only structures have it. */
  function PackArg(a: ConnArg): (r: Result<bytes, Error>)
    requires a.StructArg? ==> Wf(a.s)
    ensures !a.StructArg? ==> r == Err(AttributeError("pack"))
    ensures a.StructArg? ==> r == Pack(a.s)
  {
    if a.StructArg? then Pack(a.s) else Err(AttributeError("pack"))
  }

  /** An integer argument handed to a verb. */
  function IntOf(a: ConnArg): (r: Result<int, Error>)
    ensures r.Ok? <==> a.IntArg?
    ensures r.Ok? ==> r.value == a.n
  {
    match a
    case IntArg(n) => Ok(n)
    case NoneArg => Err(TypeError(NoneArgument))
    case StructArg(_) => Err(TypeError(WrongArgument))
  }

  predicate ConnArgWf(a: ConnArg) {
    a.StructArg? ==> Wf(a.s)
  }

  predicate KwWf(kw: seq<(Key, ConnArg)>) {
    forall i :: 0 <= i < |kw| ==> ConnArgWf(kw[i].1)
  }

  predicate ConnArgsWf(bwopts: seq<ConnArg>, kw: seq<(Key, ConnArg)>) {
    (forall i :: 0 <= i < |bwopts| ==> ConnArgWf(bwopts[i])) && KwWf(kw)
  }

  lemma KwGetWf(kw: seq<(Key, ConnArg)>, key: Key)
    requires KwWf(kw)
    ensures KwGet(kw, key).Some? ==> ConnArgWf(KwGet(kw, key).value)
  {
    if |kw| > 0 && kw[0].0 != key {
      KwGetWf(kw[1..], key);
    }
  }

  lemma KwSetWf(kw: seq<(Key, ConnArg)>, key: Key, v: ConnArg)
    requires KwWf(kw) && ConnArgWf(v)
    ensures KwWf(KwSet(kw, key, v))
  {
    if |kw| > 0 && kw[0].0 != key {
      KwSetWf(kw[1..], key, v);
    }
  }

  /** The MQCONNX call `connectWithOptions` makes from its working keywords, or what is
      raised while its arguments are evaluated: the `cd` is packed, then the `sco`, then
      the options are checked by the C extension. */
  function ConnXCall(env: Env, f: Fresh, name: bytes, kw: seq<(Key, ConnArg)>): (r: Result<Call, Error>)
    requires FreshWf(f) && KwWf(kw)
    ensures r.Ok? ==> r.value.ConnX? && r.value.name == name
    ensures r.Ok? && KwGet(kw, OptsKey).Some? ==> KwGet(kw, OptsKey).value == IntArg(r.value.options)
    ensures r.Ok? && KwGet(kw, OptsKey).None? ==> r.value.options == N(env.k, "MQCNO_NONE")
    ensures KwGet(kw, CdKey).Some? ==> ConnArgWf(KwGet(kw, CdKey).value)
    ensures r.Ok? && KwGet(kw, CdKey).Some? ==> PackArg(KwGet(kw, CdKey).value) == Ok(r.value.cd)
    ensures r.Ok? && KwGet(kw, CdKey).None? ==> Pack(f.cd) == Ok(r.value.cd)
    ensures r.Ok? ==> (r.value.sco.Some? <==> KwGet(kw, ScoKey).Some?)
  {
    KwGetWf(kw, CdKey);
    KwGetWf(kw, ScoKey);
    var cdArg := KwGet(kw, CdKey).GetOr(StructArg(f.cd));
    var cdb :- PackArg(cdArg);
    var scob :- (if KwGet(kw, ScoKey).Some? then
                   var x :- PackArg(KwGet(kw, ScoKey).value); Ok(Some(x))
                 else Ok(None));
    var options :- (if KwGet(kw, OptsKey).Some? then IntOf(KwGet(kw, OptsKey).value) else Ok(N(env.k, "MQCNO_NONE")));
    Ok(ConnX(name, options, cdb, scob))
  }

  /** The call `connectWithOptions` makes, or what it raises before making one. */
  function ConnArgs(env: Env, f: Fresh, name: bytes, bwopts: seq<ConnArg>, kw: seq<(Key, ConnArg)>): (r: Result<Call, Error>)
    requires FreshWf(f) && ConnArgsWf(bwopts, kw)
    ensures ConnKeywords(bwopts, kw).Err? ==> r == Err(ConnKeywords(bwopts, kw).error)
    ensures ConnKeywords(bwopts, kw).Ok? ==> r == ConnXCall(env, f, name, ConnKeywords(bwopts, kw).value)
  {
    var kw1 :- ConnKeywords(bwopts, kw);
    ConnXCall(env, f, name, kw1)
  }

  /** `connectWithOptions(name, *bwopts, **kw)`: nothing is called when the arguments
      raise; otherwise one MQCONNX, and the handle and name are kept when it succeeds. */
  function ConnectWithOptions(qm: QueueManager, b: Broker, w: World, env: Env, f: Fresh, name: bytes,
                              bwopts: seq<ConnArg>, kw: seq<(Key, ConnArg)>): (r: Step<QueueManager, ()>)
    requires FreshWf(f) && ConnArgsWf(bwopts, kw)
    ensures ConnArgs(env, f, name, bwopts, kw).Err? ==> r == Step(qm, w, Err(ConnArgs(env, f, name, bwopts, kw).error))
    ensures ConnArgs(env, f, name, bwopts, kw).Ok? ==>
      var c := ConnArgs(env, f, name, bwopts, kw).value;
      && r.world == w.(log := w.log + [c])
      && (r.result.Ok? <==> b(w.log, c).comp == 0)
      && r.state == (if r.result.Ok? then qm.(handle := Some(b(w.log, c).handle), name := Some(name)) else qm)
  {
    match ConnArgs(env, f, name, bwopts, kw)
    case Err(e) => Step(qm, w, Err(e))
    case Ok(c) =>
      var (rep, w1) := Invoke(b, w, c);
      match Check(rep)
      case Err(e) => Step(qm, w1, Err(e))
      case Ok(_) => Step(qm.(handle := Some(rep.handle), name := Some(name)), w1, Ok(()))
  }

  /** Old-style positional options switch the keyword check off: a keyword other than
      `opts`, `cd` and `sco` is neither rejected nor used. */
  lemma OldStyleIgnoresKeywords(bwopts: seq<ConnArg>, kw: seq<(Key, ConnArg)>, extra: string, v: ConnArg)
    requires 0 < |bwopts| <= 2
    ensures ConnKeywords(bwopts, kw).Ok? && ConnKeywords(bwopts, KwSet(kw, OtherKey(extra), v)).Ok?
    ensures forall key :: Allowed(key) ==>
      KwGet(ConnKeywords(bwopts, kw).value, key) == KwGet(ConnKeywords(bwopts, KwSet(kw, OtherKey(extra), v)).value, key)
  {
  }

  /** A new-style keyword outside `opts`, `cd`, `sco` raises `TypeError` naming the first
      such keyword, before anything is called. */
  lemma NewStyleRejects(qm: QueueManager, b: Broker, w: World, env: Env, f: Fresh, name: bytes,
                        kw: seq<(Key, ConnArg)>, i: nat)
    requires FreshWf(f) && KwWf(kw)
    requires i < |kw| && !Allowed(kw[i].0)
    ensures var r := ConnectWithOptions(qm, b, w, env, f, name, [], kw);
      && r.world == w && r.state == qm && r.result.Err?
      && exists j :: 0 <= j <= i && !Allowed(kw[j].0) && r.result.error == TypeError(InvalidOption(kw[j].0.name))
  {
    assert ConnArgsWf([], kw);
    var j := FirstInvalid(kw);
    assert j <= i;
  }

  /** With only the name, `connectWithOptions` sends `MQCNO_NONE`, a default `cd()` and
      no `sco`. */
  lemma ConnectDefaults(env: Env, f: Fresh, name: bytes)
    requires FreshWf(f) && Pack(f.cd).Ok?
    ensures ConnArgs(env, f, name, [], []) == Ok(ConnX(name, N(env.k, "MQCNO_NONE"), Pack(f.cd).value, None))
  {
  }

  /** The channel definition `connectTCPClient` hands on: its channel name, connection
      name, channel type and transport type written as plain attributes. */
  function ClientChannel(k: Consts, cd: Struct, channelName: bytes, connectString: bytes): (r: Struct)
    ensures r.kind == cd.kind && r.fields == cd.fields
    ensures Wf(cd) ==> Wf(r)
  {
    var c1 := Assign(cd, "ChannelName", One(S(channelName)));
    var c2 := Assign(c1, "ConnectionName", One(S(connectString)));
    var c3 := Assign(c2, "ChannelType", One(I(N(k, "MQCHT_CLNTCONN"))));
    Assign(c3, "TransportType", One(I(N(k, "MQXPT_TCP"))))
  }

  /** The client channel definition holds the four settings, and every other attribute
      of `cd` as it was. */
  lemma ClientChannelHolds(k: Consts, cd: Struct, channelName: bytes, connectString: bytes)
    ensures var r := ClientChannel(k, cd, channelName, connectString);
      && r.store.Keys == cd.store.Keys + {"ChannelName", "ConnectionName", "ChannelType", "TransportType"}
      && r.store["ChannelName"] == One(S(channelName)) && r.store["ConnectionName"] == One(S(connectString))
      && r.store["ChannelType"] == One(I(N(k, "MQCHT_CLNTCONN"))) && r.store["TransportType"] == One(I(N(k, "MQXPT_TCP")))
      && forall n :: n in cd.store && n !in {"ChannelName", "ConnectionName", "ChannelType", "TransportType"} ==> r.store[n] == cd.store[n]
  {
    assert "ChannelName"[7] != "ChannelType"[7];
    assert |"ChannelName"| != |"ConnectionName"| && |"ChannelName"| != |"TransportType"|;
    assert |"ConnectionName"| != |"ChannelType"| && |"ConnectionName"| != |"TransportType"|;
    assert |"ChannelType"| != |"TransportType"|;
  }

  /** `connectTCPClient(name, cd, channelName, connectString)`: the client channel
      settings go into `cd` (the caller's object, returned here as it is afterwards), then
      `connectWithOptions(name, cd)`. */
  function ConnectTcpClient(qm: QueueManager, b: Broker, w: World, env: Env, f: Fresh, name: bytes,
                            cd: Struct, channelName: bytes, connectString: bytes): (r: (Struct, Step<QueueManager, ()>))
    requires FreshWf(f) && Wf(cd)
    ensures r.0 == ClientChannel(env.k, cd, channelName, connectString) && Wf(r.0)
  {
    var cd' := ClientChannel(env.k, cd, channelName, connectString);
    (cd', ConnectWithOptions(qm, b, w, env, f, name, [StructArg(cd')], []))
  }

  /** A TCP client connection is one MQCONNX with `MQCNO_NONE`, the packed client channel
      definition and no `sco`, and keeps the handle and name when it succeeds; a channel
      definition that does not pack raises before anything is called. */
  lemma ConnectTcpClientSends(qm: QueueManager, b: Broker, w: World, env: Env, f: Fresh, name: bytes,
                              cd: Struct, channelName: bytes, connectString: bytes)
    requires FreshWf(f) && Wf(cd)
    ensures var (cd', r) := ConnectTcpClient(qm, b, w, env, f, name, cd, channelName, connectString);
      && (Pack(cd').Err? ==> r == Step(qm, w, Err(Pack(cd').error)))
      && (Pack(cd').Ok? ==>
            var c := ConnX(name, N(env.k, "MQCNO_NONE"), Pack(cd').value, None);
            && r.world == w.(log := w.log + [c])
            && (r.result.Ok? <==> b(w.log, c).comp == 0)
            && (r.result.Ok? ==> r.state == qm.(handle := Some(b(w.log, c).handle), name := Some(name))))
  {
    var cd' := ClientChannel(env.k, cd, channelName, connectString);
    var kw := KwSet([], CdKey, StructArg(cd'));
    assert ConnArgsWf([StructArg(cd')], []);
    assert ConnKeywords([StructArg(cd')], []) == Ok(kw);
    assert KwGet(kw, CdKey) == Some(StructArg(cd'));
    assert KwGet(kw, ScoKey).None? && KwGet(kw, OptsKey).None?;
  }

  // ---------------------------------------------------------------------------
  // Transactions and put1
  // ---------------------------------------------------------------------------

  datatype SyncVerb = BeginVerb | CommitVerb | BackoutVerb

  function SyncCall(v: SyncVerb, h: int): Call {
    match v
    case BeginVerb => Begin(h)
    case CommitVerb => Commit(h)
    case BackoutVerb => Back(h)
  }

  /** `begin()`, `commit()`, `backout()`: the verb on the raw handle; a non-zero
      completion code raises. */
  function Sync(qm: QueueManager, b: Broker, w: World, v: SyncVerb): (r: Step<QueueManager, ()>)
    ensures r.state == qm
    ensures qm.handle.None? ==> r.world == w && r.result == Err(TypeError(NoneArgument))
    ensures qm.handle.Some? ==> r.world.log == w.log + [SyncCall(v, qm.handle.value)] && r.world.mem == w.mem
    ensures qm.handle.Some? ==> var rep := b(w.log, SyncCall(v, qm.handle.value));
      r.result == if rep.comp != 0 then Err(MQMIError(rep.comp, rep.reason)) else Ok(())
  {
    match Arg(qm.handle)
    case Err(e) => Step(qm, w, Err(e))
    case Ok(h) =>
      var (rep, w1) := Invoke(b, w, SyncCall(v, h));
      if rep.comp != 0 then Step(qm, w1, Err(MQMIError(rep.comp, rep.reason))) else Step(qm, w1, Ok(()))
  }

  predicate QArgWf(a: Option<QArg>) {
    a.Some? && a.value.Desc? ==> Wf(a.value.od)
  }

  /** `obj.pack()` on something that may be `None`. */
  function PackSome(s: Option<Struct>): (r: Result<bytes, Error>)
    requires s.Some? ==> Wf(s.value)
    ensures s.None? ==> r == Err(AttributeError("pack"))
    ensures s.Some? ==> r == Pack(s.value)
  {
    if s.Some? then Pack(s.value) else Err(AttributeError("pack"))
  }

  /** The MQPUT1 call `put1` makes, or what its argument evaluation raises:
      `makeQDesc(qDesc).pack()`, `mDesc.pack()`, `putOpts.pack()`, then the handle, which
      the C extension rejects when it is `None`. */
  function Put1Call(qm: QueueManager, f: Fresh, qDesc: Option<QArg>, md: Struct, pmo: Struct, msg: bytes): (r: Result<Call, Error>)
    requires FreshWf(f) && QArgWf(qDesc) && Wf(md) && Wf(pmo)
    ensures r.Ok? ==> qm.handle.Some? && r.value.Put1?
    ensures r.Ok? ==> r.value == Put1(qm.handle.value, r.value.od, r.value.md, r.value.pmo, msg)
    ensures r.Ok? ==> PackSome(MakeQDesc(f, qDesc)) == Ok(r.value.od)
    ensures r.Ok? ==> Pack(md) == Ok(r.value.md) && Pack(pmo) == Ok(r.value.pmo)
  {
    match PackSome(MakeQDesc(f, qDesc))
    case Err(e) => Err(e)
    case Ok(odb) =>
      match Pack(md)
      case Err(e) => Err(e)
      case Ok(mdb) =>
        match Pack(pmo)
        case Err(e) => Err(e)
        case Ok(pmob) =>
          match Arg(qm.handle)
          case Err(e) => Err(e)
          case Ok(h) => Ok(Put1(h, odb, mdb, pmob, msg))
  }

  /** The MQPUT1 call `put1` makes with the structures it unpacks the reply into, or
      what is raised before the call. */
  function Put1Args(qm: QueueManager, f: Fresh, qDesc: Option<QArg>, msg: bytes,
                    opts: seq<Option<Struct>>): (r: Result<(Call, Struct, Struct), Error>)
    requires FreshWf(f) && QArgWf(qDesc) && AllWf(opts)
    ensures MsgStructs(f, opts, f.pmo).Err? ==> r == Err(MsgStructs(f, opts, f.pmo).error)
    ensures MsgStructs(f, opts, f.pmo).Ok? ==>
      var (md, pmo) := MsgStructs(f, opts, f.pmo).value;
      r == (match Put1Call(qm, f, qDesc, md, pmo, msg)
            case Err(e) => Err(e)
            case Ok(c) => Ok((c, md, pmo)))
  {
    match MsgStructs(f, opts, f.pmo)
    case Err(e) => Err(e)
    case Ok((md, pmo)) =>
      match Put1Call(qm, f, qDesc, md, pmo, msg)
      case Err(e) => Err(e)
      case Ok(c) => Ok((c, md, pmo))
  }

  /** `put1(qDesc, msg, *opts)`: one MQPUT1 once the arguments evaluate; a non-zero
      completion code raises, otherwise the descriptor and options are refreshed from
      the reply. */
  function Put1Msg(qm: QueueManager, b: Broker, w: World, f: Fresh, qDesc: Option<QArg>, msg: bytes,
                   opts: seq<Option<Struct>>): (r: Step<QueueManager, (Struct, Struct)>)
    requires FreshWf(f) && QArgWf(qDesc) && AllWf(opts)
    ensures r.state == qm
    ensures Put1Args(qm, f, qDesc, msg, opts).Err? ==>
      r.world == w && r.result == Err(Put1Args(qm, f, qDesc, msg, opts).error)
    ensures Put1Args(qm, f, qDesc, msg, opts).Ok? ==>
      var (c, md, pmo) := Put1Args(qm, f, qDesc, msg, opts).value;
      var rep := b(w.log, c);
      && r.world == w.(log := w.log + [c])
      && (rep.comp != 0 ==> r.result == Err(MQMIError(rep.comp, rep.reason)))
      && (r.result.Ok? ==>
            (rep.comp == 0 && Unpack(md, rep.buf1) == Ok(r.result.value.0) && Unpack(pmo, rep.buf2) == Ok(r.result.value.1)))
  {
    match Put1Args(qm, f, qDesc, msg, opts)
    case Err(e) => Step(qm, w, Err(e))
    case Ok((c, md, pmo)) =>
      var (rep, w1) := Invoke(b, w, c);
      match Check(rep)
      case Err(e) => Step(qm, w1, Err(e))
      case Ok(_) =>
        match Unpack(md, rep.buf1)
        case Err(e) => Step(qm, w1, Err(e))
        case Ok(md1) =>
          match Unpack(pmo, rep.buf2)
          case Err(e) => Step(qm, w1, Err(e))
          case Ok(pmo1) => Step(qm, w1, Ok((md1, pmo1)))
  }

  /** A `put1` that succeeds hands back structures of the classes it was given: the
      reply changes member values, never the member lists. */
  lemma Put1KeepsShape(qm: QueueManager, b: Broker, w: World, f: Fresh, qDesc: Option<QArg>, msg: bytes,
                       opts: seq<Option<Struct>>)
    requires FreshWf(f) && QArgWf(qDesc) && AllWf(opts)
    requires Put1Msg(qm, b, w, f, qDesc, msg, opts).result.Ok?
    ensures var (md1, pmo1) := Put1Msg(qm, b, w, f, qDesc, msg, opts).result.value;
      && md1.fields == (if |opts| > 0 && opts[0].Some? then opts[0].value.fields else f.md.fields)
      && pmo1.fields == (if |opts| == 2 && opts[1].Some? then opts[1].value.fields else f.pmo.fields)
  {
  }

  // ---------------------------------------------------------------------------
  // inquire
  // ---------------------------------------------------------------------------

  /** A Python string attribute that may be `None`, as a structure value. */
  function NameValue(name: Option<bytes>): Value {
    if name.Some? then One(S(name.value)) else One(Nil)
  }

  /** `od(ObjectType=MQOT_Q_MGR, ObjectQMgrName=name)`. */
  function QMgrOd(env: Env, f: Fresh, name: Option<bytes>): (od: Struct)
    requires FreshWf(f)
    ensures od.kind == OD && Wf(od) && od.fields == f.od.fields
    ensures od.store == f.od.store["ObjectType" := One(I(N(env.k, "MQOT_Q_MGR")))]["ObjectQMgrName" := NameValue(name)]
  {
    var od1 := SetItem(f.od, "ObjectType", One(I(N(env.k, "MQOT_Q_MGR")))).value;
    SetItem(od1, "ObjectQMgrName", NameValue(name)).value
  }

  /** With the classes' own `od()`, the queue manager descriptor is the keyword
      construction `inquire` writes. */
  lemma QMgrOdIsNew(env: Env, f: Fresh, name: Option<bytes>)
    requires FreshWf(f) && f.od == DefaultOd(env)
    ensures NewOd(env, [("ObjectType", One(I(N(env.k, "MQOT_Q_MGR")))), ("ObjectQMgrName", NameValue(name))]) ==
      Ok(QMgrOd(env, f, name))
  {
    CreateTwoIsSet(OD, Od(env), "ObjectType", One(I(N(env.k, "MQOT_Q_MGR"))), "ObjectQMgrName", NameValue(name));
  }

  /** MQINQ on the cached queue manager object. */
  function InquireOpen(qm: QueueManager, b: Broker, w: World, attr: int): (r: Step<QueueManager, Value>)
    requires qm.qmobj.Some?
    ensures r.state == qm
    ensures qm.handle.None? ==> r.world == w && r.result == Err(TypeError(NoneArgument))
    ensures qm.handle.Some? ==> r.world == w.(log := w.log + [Inq(qm.handle.value, qm.qmobj.value, attr)])
    ensures qm.handle.Some? ==> var rep := b(w.log, Inq(qm.handle.value, qm.qmobj.value, attr));
      r.result == if rep.comp != 0 then Err(MQMIError(rep.comp, rep.reason)) else Ok(rep.value)
  {
    match Arg(qm.handle)
    case Err(e) => Step(qm, w, Err(e))
    case Ok(h) =>
      var (rep, w1) := Invoke(b, w, Inq(h, qm.qmobj.value, attr));
      match Check(rep)
      case Err(e) => Step(qm, w1, Err(e))
      case Ok(_) => Step(qm, w1, Ok(rep.value))
  }

  /** The MQOPEN `inquire` makes on its first call, or what packing its descriptor or
      passing the handle raises. */
  function QMgrOpenCall(qm: QueueManager, env: Env, f: Fresh): (r: Result<Call, Error>)
    requires FreshWf(f)
    ensures r.Ok? ==> qm.handle.Some? && r.value.Open?
    ensures r.Ok? ==> r.value == Open(qm.handle.value, r.value.od, N(env.k, "MQOO_INQUIRE"))
    ensures r.Ok? ==> Pack(QMgrOd(env, f, qm.name)) == Ok(r.value.od)
  {
    match Pack(QMgrOd(env, f, qm.name))
    case Err(e) => Err(e)
    case Ok(odb) =>
      match Arg(qm.handle)
      case Err(e) => Err(e)
      case Ok(h) => Ok(Open(h, odb, N(env.k, "MQOO_INQUIRE")))
  }

  /** `inquire(attribute)`: the first call opens the queue manager object for inquiry and
      caches its handle; every call then makes one MQINQ on it. */
  function Inquire(qm: QueueManager, b: Broker, w: World, env: Env, f: Fresh, attr: int): (r: Step<QueueManager, Value>)
    requires FreshWf(f)
    ensures qm.qmobj.Some? ==> r == InquireOpen(qm, b, w, attr)
    ensures qm.qmobj.None? && QMgrOpenCall(qm, env, f).Err? ==>
      r == Step(qm, w, Err(QMgrOpenCall(qm, env, f).error))
    ensures qm.qmobj.None? && QMgrOpenCall(qm, env, f).Ok? ==>
      var c := QMgrOpenCall(qm, env, f).value;
      var rep := b(w.log, c);
      var w1 := w.(log := w.log + [c]);
      r == if rep.comp != 0 then Step(qm, w1, Err(MQMIError(rep.comp, rep.reason)))
           else InquireOpen(qm.(qmobj := Some(rep.handle)), b, w1, attr)
  {
    if qm.qmobj.None? then
      match QMgrOpenCall(qm, env, f)
      case Err(e) => Step(qm, w, Err(e))
      case Ok(c) =>
        var (rep, w1) := Invoke(b, w, c);
        match Check(rep)
        case Err(e) => Step(qm, w1, Err(e))
        case Ok(_) => InquireOpen(qm.(qmobj := Some(rep.handle)), b, w1, attr)
    else InquireOpen(qm, b, w, attr)
  }

  /** `inquire` never touches the connection: the handle and name stay, and a cached
      object handle is never replaced. */
  lemma InquireKeepsConnection(qm: QueueManager, b: Broker, w: World, env: Env, f: Fresh, attr: int)
    requires FreshWf(f)
    ensures var r := Inquire(qm, b, w, env, f, attr);
      && r.state.handle == qm.handle && r.state.name == qm.name
      && (qm.qmobj.Some? ==> r.state.qmobj == qm.qmobj)
      && (r.result.Ok? ==> r.state.qmobj.Some?)
  {
  }

  /** The queue manager object is opened once: after a successful `inquire`, the next one
      makes a single MQINQ on the cached handle and no MQOPEN. */
  lemma InquireOpensOnce(qm: QueueManager, b: Broker, w: World, env: Env, f: Fresh, a1: int, a2: int)
    requires FreshWf(f)
    requires Inquire(qm, b, w, env, f, a1).result.Ok?
    ensures var r1 := Inquire(qm, b, w, env, f, a1);
      var r2 := Inquire(r1.state, b, r1.world, env, f, a2);
      && r2.state == r1.state && qm.handle.Some?
      && r2.world.log == r1.world.log + [Inq(qm.handle.value, r1.state.qmobj.value, a2)]
  {
  }
}

=== FILE: queue.dfy ===
/** `Queue` (code/pymqi.py:1487-1786): a queue handle that is opened at construction,
    by `open()`, or lazily by the first verb that needs it, with an open option chosen by
    that verb. The RFH2 variants of put and get are in `Chain`. */
module Queues {
  import opened Wrappers
  import opened Bytes
  import opened Wire
  import opened Errors
  import opened Consts
  import opened MQOpts
  import opened Transport
  import opened QArgs
  import opened QMgr

  /** The object handle, the descriptor and the open options of a `Queue`. The queue
      manager it was made with is passed to every operation. */
  datatype Queue = Queue(handle: Option<int>, desc: Option<Struct>, openOpts: Option<int>)

  /** A queue with nothing set: a fresh or a closed one. */
  const Unopened := Queue(None, None, None)

  /** The descriptor, when there is one, is a live `MQOpts` instance. */
  predicate QueueWf(q: Queue) {
    q.desc.Some? ==> Wf(q.desc.value)
  }

  /** `unpack` into a live instance leaves it live. */
  lemma UnpackWf(s: Struct, b: bytes)
    requires Unpack(s, b).Ok?
    ensures Wf(Unpack(s, b).value)
  {
    var u := Unpack(s, b).value;
    forall i | 0 <= i < |u.fields| ensures u.fields[i].name in u.store {
      assert u.fields[i].name in NameSet(s.fields);
    }
  }

  // ---------------------------------------------------------------------------
  // Opening
  // ---------------------------------------------------------------------------

  /** The MQOPEN `__realOpen` makes, or what is raised first: no descriptor, then the
      arguments in order — the connection handle, the packed descriptor, and the open
      options, which the C extension rejects when they are `None`. */
  function OpenCall(q: Queue, qm: QueueManager): (r: Result<Call, Error>)
    requires QueueWf(q)
    ensures q.desc.None? ==> r == Err(PYIFError(QueueDescNotSet))
    ensures q.desc.Some? && !Truthy(qm.handle) ==> r == Err(PYIFError(NotConnected))
    ensures r.Ok? ==> Truthy(qm.handle) && q.desc.Some? && q.openOpts.Some?
    ensures r.Ok? ==> Pack(q.desc.value).Ok? && r.value == Open(qm.handle.value, Pack(q.desc.value).value, q.openOpts.value)
  {
    match q.desc
    case None => Err(PYIFError(QueueDescNotSet))
    case Some(d) =>
      match GetHandle(qm)
      case Err(e) => Err(e)
      case Ok(h) =>
        match Pack(d)
        case Err(e) => Err(e)
        case Ok(odb) =>
          match Arg(q.openOpts)
          case Err(e) => Err(e)
          case Ok(o) => Ok(Open(h, odb, o))
  }

  /** `__realOpen()`: one MQOPEN when its arguments evaluate. A non-zero completion code
      raises and changes nothing; otherwise the handle is kept and the descriptor is
      refreshed from the reply (the handle stays even if that refresh raises). */
  function RealOpen(q: Queue, qm: QueueManager, b: Broker, w: World): (r: Step<Queue, ()>)
    requires QueueWf(q)
    ensures QueueWf(r.state) && r.state.openOpts == q.openOpts
    ensures OpenCall(q, qm).Err? ==> r == Step(q, w, Err(OpenCall(q, qm).error))
    ensures OpenCall(q, qm).Ok? ==>
      var c := OpenCall(q, qm).value;
      var rep := b(w.log, c);
      && r.world == w.(log := w.log + [c])
      && (rep.comp != 0 ==> r.state == q && r.result == Err(MQMIError(rep.comp, rep.reason)))
      && (rep.comp == 0 ==> r.state.handle == Some(rep.handle))
      && (rep.comp == 0 ==> (r.result.Ok? <==> Unpack(q.desc.value, rep.buf1).Ok?))
      && (r.result.Ok? ==> r.state.desc == Some(Unpack(q.desc.value, rep.buf1).value))
      && (r.result.Err? ==> r.state.desc == q.desc)
  {
    match OpenCall(q, qm)
    case Err(e) => Step(q, w, Err(e))
    case Ok(c) =>
      var (rep, w1) := Invoke(b, w, c);
      match Check(rep)
      case Err(e) => Step(q, w1, Err(e))
      case Ok(_) =>
        var q1 := q.(handle := Some(rep.handle));
        match Unpack(q.desc.value, rep.buf1)
        case Err(e) => Step(q1, w1, Err(e))
        case Ok(d) =>
          UnpackWf(q.desc.value, rep.buf1);
          Step(q1.(desc := Some(d)), w1, Ok(()))
  }

  /** `Queue(qMgr, *opts)` with `argc` items in `opts`: the first names the queue, the
      second gives the open options and opens it at once. */
  function NewQueue(qm: QueueManager, b: Broker, w: World, f: Fresh, argc: nat,
                    qDesc: Option<QArg>, openOpts: Option<int>): (r: Step<Queue, ()>)
    requires FreshWf(f) && QArgWf(qDesc)
    ensures QueueWf(r.state)
    ensures argc > 2 ==> r == Step(Unopened, w, Err(TypeError(TooManyArgs)))
    ensures argc == 0 ==> r == Step(Unopened, w, Ok(()))
    ensures argc == 1 ==> r == Step(Queue(None, MakeQDesc(f, qDesc), None), w, Ok(()))
    ensures argc == 2 ==> r == RealOpen(Queue(None, MakeQDesc(f, qDesc), openOpts), qm, b, w)
  {
    if argc > 2 then Step(Unopened, w, Err(TypeError(TooManyArgs)))
    else if argc == 0 then Step(Unopened, w, Ok(()))
    else
      var q := Queue(None, MakeQDesc(f, qDesc), None);
      if argc == 1 then Step(q, w, Ok(())) else RealOpen(q.(openOpts := openOpts), qm, b, w)
  }

  /** `open(qDesc, *opts)` with `argc` items in `opts`: refused on an open queue;
      otherwise the descriptor is replaced, and the queue is opened at once when open
      options are given. */
  function OpenQueue(q: Queue, qm: QueueManager, b: Broker, w: World, f: Fresh, qDesc: Option<QArg>,
                     argc: nat, openOpts: Option<int>): (r: Step<Queue, ()>)
    requires QueueWf(q) && FreshWf(f) && QArgWf(qDesc)
    ensures QueueWf(r.state)
    ensures argc > 1 ==> r == Step(q, w, Err(TypeError(TooManyArgs)))
    ensures argc <= 1 && Truthy(q.handle) ==> r == Step(q, w, Err(PYIFError(QueueAlreadyOpen)))
    ensures argc == 0 && !Truthy(q.handle) ==> r == Step(q.(desc := MakeQDesc(f, qDesc)), w, Ok(()))
    ensures argc == 1 && !Truthy(q.handle) ==>
      r == RealOpen(q.(desc := MakeQDesc(f, qDesc), openOpts := openOpts), qm, b, w)
  {
    if argc > 1 then Step(q, w, Err(TypeError(TooManyArgs)))
    else if Truthy(q.handle) then Step(q, w, Err(PYIFError(QueueAlreadyOpen)))
    else
      var q1 := q.(desc := MakeQDesc(f, qDesc));
      if argc == 0 then Step(q1, w, Ok(())) else RealOpen(q1.(openOpts := openOpts), qm, b, w)
  }

  /** What a verb does first when the queue is not open: set the open options to the
      verb's own and open. An open queue is used as it is. */
  function LazyOpen(q: Queue, qm: QueueManager, b: Broker, w: World, opt: int): (r: Step<Queue, ()>)
    requires QueueWf(q)
    ensures QueueWf(r.state)
    ensures Truthy(q.handle) ==> r == Step(q, w, Ok(()))
    ensures !Truthy(q.handle) ==> r == RealOpen(q.(openOpts := Some(opt)), qm, b, w)
    ensures !Truthy(q.handle) ==> r.state.openOpts == Some(opt)
    ensures r.result.Ok? ==> r.state.handle.Some?
  {
    if Truthy(q.handle) then Step(q, w, Ok(())) else RealOpen(q.(openOpts := Some(opt)), qm, b, w)
  }

  /** `set_handle(h)`: adopts a handle from elsewhere; `get_handle()` is the field
      `handle`. */
  function SetHandle(q: Queue, h: Option<int>): (r: Queue)
    ensures r.handle == h && r.desc == q.desc && r.openOpts == q.openOpts
  {
    q.(handle := h)
  }

  // ---------------------------------------------------------------------------
  // put and get
  // ---------------------------------------------------------------------------

  /** The arguments MQPUT and MQGET share, evaluated in order: the connection handle,
      the object handle, the packed message descriptor and the packed options. */
  datatype MsgArgs = MsgArgs(hconn: int, hobj: int, md: bytes, opts: bytes)

  function EvalMsgArgs(q: Queue, qm: QueueManager, md: Struct, o: Struct): (r: Result<MsgArgs, Error>)
    requires Wf(md) && Wf(o)
    ensures !Truthy(qm.handle) ==> r == Err(PYIFError(NotConnected))
    ensures r.Ok? <==> Truthy(qm.handle) && Pack(md).Ok? && Pack(o).Ok? && q.handle.Some?
    ensures r.Ok? ==> r.value == MsgArgs(qm.handle.value, q.handle.value, Pack(md).value, Pack(o).value)
  {
    match GetHandle(qm)
    case Err(e) => Err(e)
    case Ok(h) =>
      match Pack(md)
      case Err(e) => Err(e)
      case Ok(mdb) =>
        match Pack(o)
        case Err(e) => Err(e)
        case Ok(ob) =>
          match Arg(q.handle)
          case Err(e) => Err(e)
          case Ok(hobj) => Ok(MsgArgs(h, hobj, mdb, ob))
  }

  /** A reply's descriptor and options read back into the structures sent. */
  function Refresh(md: Struct, o: Struct, rep: Reply): (r: Result<(Struct, Struct), Error>)
    ensures r.Ok? <==> Unpack(md, rep.buf1).Ok? && Unpack(o, rep.buf2).Ok?
    ensures r.Ok? ==> r.value == (Unpack(md, rep.buf1).value, Unpack(o, rep.buf2).value)
    ensures r.Ok? ==> r.value.0.fields == md.fields && r.value.1.fields == o.fields
  {
    match Unpack(md, rep.buf1)
    case Err(e) => Err(e)
    case Ok(md1) =>
      match Unpack(o, rep.buf2)
      case Err(e) => Err(e)
      case Ok(o1) => Ok((md1, o1))
  }

  /** MQPUT on an open queue: a non-zero completion code raises; otherwise the descriptor
      and options come back refreshed. The queue itself is not touched. */
  function Send(q: Queue, qm: QueueManager, b: Broker, w: World, md: Struct, pmo: Struct, msg: bytes): (r: Step<Queue, (Struct, Struct)>)
    requires Wf(md) && Wf(pmo)
    ensures r.state == q
    ensures EvalMsgArgs(q, qm, md, pmo).Err? ==> r.world == w && r.result == Err(EvalMsgArgs(q, qm, md, pmo).error)
    ensures EvalMsgArgs(q, qm, md, pmo).Ok? ==>
      var a := EvalMsgArgs(q, qm, md, pmo).value;
      var c := Put(a.hconn, a.hobj, a.md, a.opts, msg);
      var rep := b(w.log, c);
      && r.world == w.(log := w.log + [c])
      && r.result == (if rep.comp != 0 then Err(MQMIError(rep.comp, rep.reason)) else Refresh(md, pmo, rep))
  {
    match EvalMsgArgs(q, qm, md, pmo)
    case Err(e) => Step(q, w, Err(e))
    case Ok(a) =>
      var (rep, w1) := Invoke(b, w, Put(a.hconn, a.hobj, a.md, a.opts, msg));
      match Check(rep)
      case Err(e) => Step(q, w1, Err(e))
      case Ok(_) => Step(q, w1, Refresh(md, pmo, rep))
  }

  /** `put(msg, *opts)`: the optional descriptor and options, a lazy open for output,
      then MQPUT. Returns the refreshed descriptor and options (Python updates the
      caller's objects in place). */
  function PutMsg(q: Queue, qm: QueueManager, b: Broker, w: World, env: Env, f: Fresh, msg: bytes,
                  opts: seq<Option<Struct>>): (r: Step<Queue, (Struct, Struct)>)
    requires QueueWf(q) && FreshWf(f) && AllWf(opts)
    ensures QueueWf(r.state)
    ensures |opts| > 2 ==> r == Step(q, w, Err(TypeError(TooManyArgs)))
    ensures |opts| <= 2 ==>
      var (md, pmo) := MsgStructs(f, opts, f.pmo).value;
      var o := LazyOpen(q, qm, b, w, N(env.k, "MQOO_OUTPUT"));
      r == if o.result.Err? then Step(o.state, o.world, Err(o.result.error))
           else Send(o.state, qm, b, o.world, md, pmo, msg)
  {
    match MsgStructs(f, opts, f.pmo)
    case Err(e) => Step(q, w, Err(e))
    case Ok((md, pmo)) =>
      var o := LazyOpen(q, qm, b, w, N(env.k, "MQOO_OUTPUT"));
      if o.result.Err? then Step(o.state, o.world, Err(o.result.error))
      else Send(o.state, qm, b, o.world, md, pmo, msg)
  }

  /** A message taken off the queue, with the refreshed descriptor and options. */
  datatype Got = Got(msg: bytes, md: Struct, gmo: Struct)

  /** The buffer `get` asks for when no maximum length is given. */
  const DefaultLength := 4096

  /** One MQGET on an open queue with the given buffer length, and its reply. */
  function Fetch(q: Queue, qm: QueueManager, b: Broker, w: World, md: Struct, gmo: Struct, length: int): (r: (Result<Reply, Error>, World))
    requires Wf(md) && Wf(gmo)
    ensures EvalMsgArgs(q, qm, md, gmo).Err? ==> r == (Err(EvalMsgArgs(q, qm, md, gmo).error), w)
    ensures EvalMsgArgs(q, qm, md, gmo).Ok? ==>
      var a := EvalMsgArgs(q, qm, md, gmo).value;
      var c := Get(a.hconn, a.hobj, a.md, a.opts, length);
      r == (Ok(b(w.log, c)), w.(log := w.log + [c]))
  {
    match EvalMsgArgs(q, qm, md, gmo)
    case Err(e) => (Err(e), w)
    case Ok(a) =>
      var (rep, w1) := Invoke(b, w, Get(a.hconn, a.hobj, a.md, a.opts, length));
      (Ok(rep), w1)
  }

  /** The message a successful MQGET delivers. */
  function Delivered(md: Struct, gmo: Struct, rep: Reply): (r: Result<Got, Error>)
    ensures r.Ok? <==> Refresh(md, gmo, rep).Ok?
    ensures r.Ok? ==> r.value == Got(rep.msg, Refresh(md, gmo, rep).value.0, Refresh(md, gmo, rep).value.1)
  {
    match Refresh(md, gmo, rep)
    case Err(e) => Err(e)
    case Ok((md1, gmo1)) => Ok(Got(rep.msg, md1, gmo1))
  }

  /** The second MQGET after a truncated default-buffer read: the full reported length,
      with the descriptor refreshed by the first reply. Any failure now raises. */
  function Retry(q: Queue, qm: QueueManager, b: Broker, w: World, md: Struct, gmo: Struct, length: int): (r: Step<Queue, Got>)
    requires Wf(md) && Wf(gmo)
    ensures r.state == q
    ensures Fetch(q, qm, b, w, md, gmo, length).0.Err? ==>
      r.world == w && r.result == Err(Fetch(q, qm, b, w, md, gmo, length).0.error)
    ensures Fetch(q, qm, b, w, md, gmo, length).0.Ok? ==>
      var rep := Fetch(q, qm, b, w, md, gmo, length).0.value;
      && r.world == Fetch(q, qm, b, w, md, gmo, length).1
      && r.result == (if rep.comp != 0 then Err(MQMIError(rep.comp, rep.reason)) else Delivered(md, gmo, rep))
  {
    match Fetch(q, qm, b, w, md, gmo, length)
    case (Err(e), w1) => Step(q, w1, Err(e))
    case (Ok(rep), w1) =>
      if rep.comp != 0 then Step(q, w1, Err(MQMIError(rep.comp, rep.reason)))
      else Step(q, w1, Delivered(md, gmo, rep))
  }

  /** Whether a failed first MQGET is retried: only with the default buffer, and only
      when the reason is that the message was truncated. */
  predicate Retries(env: Env, maxLength: Option<int>, rep: Reply) {
    rep.comp != 0 && !(maxLength.Some? && maxLength.value >= 0)
    && rep.reason == N(env.k, "MQRC_TRUNCATED_MSG_FAILED")
  }

  /** The MQGETs of `get` on an open queue: the caller's length or 4096; success
      delivers; a failure raises unless it `Retries`, in which case the descriptor is
      refreshed from the reply and one more MQGET asks for the reported length. */
  function Receive(q: Queue, qm: QueueManager, b: Broker, w: World, env: Env, maxLength: Option<int>,
                   md: Struct, gmo: Struct): (r: Step<Queue, Got>)
    requires Wf(md) && Wf(gmo)
    ensures r.state == q
    ensures var (first, w1) := Fetch(q, qm, b, w, md, gmo, if maxLength.Some? then maxLength.value else DefaultLength);
      && (first.Err? ==> r.world == w && r.result == Err(first.error))
      && (first.Ok? && first.value.comp == 0 ==> r.world == w1 && r.result == Delivered(md, gmo, first.value))
      && (first.Ok? && first.value.comp != 0 && !Retries(env, maxLength, first.value) ==>
            r.world == w1 && r.result == Err(MQMIError(first.value.comp, first.value.reason)))
      && (first.Ok? && Retries(env, maxLength, first.value) ==>
            (Unpack(md, first.value.buf1).Err? ==> r.world == w1 && r.result == Err(Unpack(md, first.value.buf1).error))
            && (Unpack(md, first.value.buf1).Ok? ==>
                  (Wf(Unpack(md, first.value.buf1).value)
                   && r == Retry(q, qm, b, w1, Unpack(md, first.value.buf1).value, gmo, first.value.dataLength))))
  {
    var length := if maxLength.Some? then maxLength.value else DefaultLength;
    match Fetch(q, qm, b, w, md, gmo, length)
    case (Err(e), w1) => Step(q, w1, Err(e))
    case (Ok(rep), w1) =>
      if rep.comp == 0 then Step(q, w1, Delivered(md, gmo, rep))
      else if !Retries(env, maxLength, rep) then Step(q, w1, Err(MQMIError(rep.comp, rep.reason)))
      else
        match Unpack(md, rep.buf1)
        case Err(e) => Step(q, w1, Err(e))
        case Ok(md1) =>
          UnpackWf(md, rep.buf1);
          Retry(q, qm, b, w1, md1, gmo, rep.dataLength)
  }

  /** `get(maxLength, *opts)`: the optional descriptor and options, a lazy open for
      input, then `Receive`. */
  function GetMsg(q: Queue, qm: QueueManager, b: Broker, w: World, env: Env, f: Fresh, maxLength: Option<int>,
                  opts: seq<Option<Struct>>): (r: Step<Queue, Got>)
    requires QueueWf(q) && FreshWf(f) && AllWf(opts)
    ensures QueueWf(r.state)
    ensures |opts| > 2 ==> r == Step(q, w, Err(TypeError(TooManyArgs)))
    ensures |opts| <= 2 ==>
      var (md, gmo) := MsgStructs(f, opts, f.gmo).value;
      var o := LazyOpen(q, qm, b, w, N(env.k, "MQOO_INPUT_AS_Q_DEF"));
      r == if o.result.Err? then Step(o.state, o.world, Err(o.result.error))
           else Receive(o.state, qm, b, o.world, env, maxLength, md, gmo)
  {
    match MsgStructs(f, opts, f.gmo)
    case Err(e) => Step(q, w, Err(e))
    case Ok((md, gmo)) =>
      var o := LazyOpen(q, qm, b, w, N(env.k, "MQOO_INPUT_AS_Q_DEF"));
      if o.result.Err? then Step(o.state, o.world, Err(o.result.error))
      else Receive(o.state, qm, b, o.world, env, maxLength, md, gmo)
  }

  // ---------------------------------------------------------------------------
  // close, inquire, set
  // ---------------------------------------------------------------------------

  /** `close(options)`, where `None` stands for the default `MQCO_NONE`: refused unless
      the queue is open; a non-zero completion code raises and keeps the queue; otherwise
      the handle, the descriptor and the open options are all cleared. */
  function CloseQueue(q: Queue, qm: QueueManager, b: Broker, w: World, env: Env, options: Option<int>): (r: Step<Queue, ()>)
    ensures !Truthy(q.handle) ==> r == Step(q, w, Err(PYIFError(QueueNotOpen)))
    ensures Truthy(q.handle) && !Truthy(qm.handle) ==> r == Step(q, w, Err(PYIFError(NotConnected)))
    ensures Truthy(q.handle) && Truthy(qm.handle) ==>
      var c := Close(qm.handle.value, q.handle.value, options.GetOr(N(env.k, "MQCO_NONE")));
      var rep := b(w.log, c);
      && r.world == w.(log := w.log + [c])
      && r.state == (if rep.comp != 0 then q else Unopened)
      && r.result == (if rep.comp != 0 then Err(MQMIError(rep.comp, rep.reason)) else Ok(()))
  {
    if !Truthy(q.handle) then Step(q, w, Err(PYIFError(QueueNotOpen)))
    else
      match GetHandle(qm)
      case Err(e) => Step(q, w, Err(e))
      case Ok(h) =>
        var (rep, w1) := Invoke(b, w, Close(h, q.handle.value, options.GetOr(N(env.k, "MQCO_NONE"))));
        match Check(rep)
        case Err(e) => Step(q, w1, Err(e))
        case Ok(_) => Step(Unopened, w1, Ok(()))
  }

  /** The connection and object handles a verb on an open queue passes first. */
  function Handles(q: Queue, qm: QueueManager): (r: Result<(int, int), Error>)
    ensures !Truthy(qm.handle) ==> r == Err(PYIFError(NotConnected))
    ensures r.Ok? <==> Truthy(qm.handle) && q.handle.Some?
    ensures r.Ok? ==> r.value == (qm.handle.value, q.handle.value)
  {
    match GetHandle(qm)
    case Err(e) => Err(e)
    case Ok(h) =>
      match Arg(q.handle)
      case Err(e) => Err(e)
      case Ok(hobj) => Ok((h, hobj))
  }

  /** `inquire(attribute)`: a lazy open for inquiry, then MQINQ, whose second item, the
      completion code, raises when non-zero. */
  function InquireQueue(q: Queue, qm: QueueManager, b: Broker, w: World, env: Env, attr: int): (r: Step<Queue, Value>)
    requires QueueWf(q)
    ensures QueueWf(r.state)
    ensures var o := LazyOpen(q, qm, b, w, N(env.k, "MQOO_INQUIRE"));
      && r.state == o.state
      && (o.result.Err? ==> r.world == o.world && r.result == Err(o.result.error))
      && (o.result.Ok? && Handles(o.state, qm).Err? ==> r.world == o.world && r.result == Err(Handles(o.state, qm).error))
      && (o.result.Ok? && Handles(o.state, qm).Ok? ==>
            var (h, hobj) := Handles(o.state, qm).value;
            var rep := b(o.world.log, Inq(h, hobj, attr));
            && r.world == o.world.(log := o.world.log + [Inq(h, hobj, attr)])
            && r.result == (if rep.comp != 0 then Err(MQMIError(rep.comp, rep.reason)) else Ok(rep.value)))
  {
    var o := LazyOpen(q, qm, b, w, N(env.k, "MQOO_INQUIRE"));
    if o.result.Err? then Step(o.state, o.world, Err(o.result.error))
    else
      match Handles(o.state, qm)
      case Err(e) => Step(o.state, o.world, Err(e))
      case Ok((h, hobj)) =>
        var (rep, w1) := Invoke(b, o.world, Inq(h, hobj, attr));
        match Check(rep)
        case Err(e) => Step(o.state, w1, Err(e))
        case Ok(_) => Step(o.state, w1, Ok(rep.value))
  }

  /** `set(attribute, arg)`: a lazy open for setting, then MQSET, whose second item, the
      reason code, raises when non-zero. */
  function SetQueueAttr(q: Queue, qm: QueueManager, b: Broker, w: World, env: Env, attr: int, arg: Value): (r: Step<Queue, ()>)
    requires QueueWf(q)
    ensures QueueWf(r.state)
    ensures var o := LazyOpen(q, qm, b, w, N(env.k, "MQOO_SET"));
      && r.state == o.state
      && (o.result.Err? ==> r.world == o.world && r.result == Err(o.result.error))
      && (o.result.Ok? && Handles(o.state, qm).Err? ==> r.world == o.world && r.result == Err(Handles(o.state, qm).error))
      && (o.result.Ok? && Handles(o.state, qm).Ok? ==>
            var (h, hobj) := Handles(o.state, qm).value;
            var rep := b(o.world.log, Set(h, hobj, attr, arg));
            && r.world == o.world.(log := o.world.log + [Set(h, hobj, attr, arg)])
            && r.result == (if rep.reason != 0 then Err(MQMIError(rep.comp, rep.reason)) else Ok(())))
  {
    var o := LazyOpen(q, qm, b, w, N(env.k, "MQOO_SET"));
    if o.result.Err? then Step(o.state, o.world, Err(o.result.error))
    else
      match Handles(o.state, qm)
      case Err(e) => Step(o.state, o.world, Err(e))
      case Ok((h, hobj)) =>
        var (rep, w1) := Invoke(b, o.world, Set(h, hobj, attr, arg));
        if rep.reason != 0 then Step(o.state, w1, Err(MQMIError(rep.comp, rep.reason)))
        else Step(o.state, w1, Ok(()))
  }

  // ---------------------------------------------------------------------------
  // Properties
  // ---------------------------------------------------------------------------

  /** The construction table: with no descriptor or no open options nothing is called
      and the queue is not open; with both, exactly one MQOPEN with those options, or the
      `PYIFError` of a missing descriptor before any call. */
  lemma ConstructionOpens(qm: QueueManager, b: Broker, w: World, f: Fresh, argc: nat,
                          qDesc: Option<QArg>, openOpts: Option<int>)
    requires FreshWf(f) && QArgWf(qDesc) && argc <= 2
    ensures var r := NewQueue(qm, b, w, f, argc, qDesc, openOpts);
      && (argc < 2 ==> r.result.Ok? && r.world == w && r.state.handle.None?)
      && (argc < 2 ==> (r.state.desc.Some? <==> argc == 1 && qDesc.Some?))
      && (argc == 2 && qDesc.None? ==> r.world == w && r.result == Err(PYIFError(QueueDescNotSet)))
      && (argc == 2 && r.result.Ok? ==>
            && |r.world.log| == |w.log| + 1 && r.world.log[..|w.log|] == w.log
            && r.world.log[|w.log|].Open? && Some(r.world.log[|w.log|].options) == openOpts
            && r.state.handle == Some(b(w.log, r.world.log[|w.log|]).handle))
  {
    if argc == 2 {
      var q := Queue(None, MakeQDesc(f, qDesc), openOpts);
      var r := RealOpen(q, qm, b, w);
      if r.result.Ok? {
        var c := OpenCall(q, qm).value;
        assert r.world.log == w.log + [c];
      }
    }
  }

  /** A queue that an MQOPEN handed a non-zero handle refuses a second `open`. */
  lemma OpenedQueueRefusesOpen(q: Queue, qm: QueueManager, b: Broker, w: World, f: Fresh,
                               d1: Option<QArg>, o1: Option<int>, d2: Option<QArg>, argc: nat, o2: Option<int>)
    requires QueueWf(q) && FreshWf(f) && QArgWf(d1) && QArgWf(d2) && argc <= 1
    requires OpenQueue(q, qm, b, w, f, d1, 1, o1).result.Ok?
    requires OpenQueue(q, qm, b, w, f, d1, 1, o1).state.handle != Some(0)
    ensures var r1 := OpenQueue(q, qm, b, w, f, d1, 1, o1);
      OpenQueue(r1.state, qm, b, r1.world, f, d2, argc, o2) == Step(r1.state, r1.world, Err(PYIFError(QueueAlreadyOpen)))
  {
  }

  /** A lazy open that succeeds on a queue that was not open made exactly one call: an
      MQOPEN of the queue's descriptor with the verb's option. */
  lemma LazyOpenCall(q: Queue, qm: QueueManager, b: Broker, w: World, opt: int)
    requires QueueWf(q) && !Truthy(q.handle)
    requires LazyOpen(q, qm, b, w, opt).result.Ok?
    ensures var o := LazyOpen(q, qm, b, w, opt);
      && Truthy(qm.handle) && q.desc.Some? && Pack(q.desc.value).Ok?
      && o.world.log == w.log + [Open(qm.handle.value, Pack(q.desc.value).value, opt)]
      && o.state.openOpts == Some(opt) && o.state.handle.Some?
  {
  }

  /** The object handle a call on an open object passes. */
  function ObjectOf(c: Call): (h: Option<int>)
    ensures h.Some? <==> c.Put? || c.Get? || c.Close? || c.Inq? || c.Set? || c.Sub?
  {
    match c
    case Put(_, h, _, _, _) => Some(h)
    case Get(_, h, _, _, _) => Some(h)
    case Close(_, h, _) => Some(h)
    case Inq(_, h, _) => Some(h)
    case Set(_, h, _, _) => Some(h)
    case Sub(_, _, h) => Some(h)
    case _ => None
  }

  predicate IsPut(c: Call) { c.Put? }
  predicate IsGet(c: Call) { c.Get? }

  /** Every call is a `verb` call on the object handle `hobj`. */
  predicate AllOn(calls: seq<Call>, verb: Call -> bool, hobj: int) {
    forall i :: 0 <= i < |calls| ==> verb(calls[i]) && ObjectOf(calls[i]) == Some(hobj)
  }

  /** `after` extends `before` by an MQOPEN with the option `opt` followed by one to
      `n` calls, each a `verb` call on the object handle `hobj`. */
  predicate OpenedThen(before: seq<Call>, after: seq<Call>, opt: int, verb: Call -> bool, hobj: int, n: nat) {
    && |before| + 2 <= |after| <= |before| + 1 + n && after[..|before|] == before
    && after[|before|].Open? && after[|before|].options == opt
    && AllOn(after[|before| + 1..], verb, hobj)
  }

  /** The calls of a verb that opened the queue lazily: the MQOPEN, then the verb's own
      calls. */
  lemma OpenedThenCalls(w: World, o: World, r: World, c: Call, opt: int, verb: Call -> bool, hobj: int, n: nat)
    requires c.Open? && c.options == opt && o.log == w.log + [c]
    requires Grows(o, r) && 1 <= |Since(o, r)| <= n && AllOn(Since(o, r), verb, hobj)
    ensures OpenedThen(w.log, r.log, opt, verb, hobj, n)
  {
    assert r.log[..|w.log|] == r.log[..|o.log|][..|w.log|];
    assert r.log[|w.log| + 1..] == Since(o, r);
  }

  /** An MQPUT step whose arguments evaluate makes exactly one call: MQPUT on the
      queue's handle. */
  lemma SendCall(q: Queue, qm: QueueManager, b: Broker, w: World, md: Struct, pmo: Struct, msg: bytes)
    requires Wf(md) && Wf(pmo) && EvalMsgArgs(q, qm, md, pmo).Ok?
    ensures var w1 := Send(q, qm, b, w, md, pmo, msg).world;
      Grows(w, w1) && |Since(w, w1)| == 1 && AllOn(Since(w, w1), IsPut, q.handle.value)
  {
    var a := EvalMsgArgs(q, qm, md, pmo).value;
    assert Since(w, Send(q, qm, b, w, md, pmo, msg).world) == [Put(a.hconn, a.hobj, a.md, a.opts, msg)];
  }

  /** `put` on a queue that is not open first opens it for output: a successful put
      makes an MQOPEN with `MQOO_OUTPUT` and then one MQPUT on the handle it returned. */
  lemma PutOpensForOutput(q: Queue, qm: QueueManager, b: Broker, w: World, env: Env, f: Fresh, msg: bytes,
                          opts: seq<Option<Struct>>)
    requires QueueWf(q) && FreshWf(f) && AllWf(opts) && !Truthy(q.handle)
    requires PutMsg(q, qm, b, w, env, f, msg, opts).result.Ok?
    ensures var r := PutMsg(q, qm, b, w, env, f, msg, opts);
      r.state.handle.Some? && OpenedThen(w.log, r.world.log, N(env.k, "MQOO_OUTPUT"), IsPut, r.state.handle.value, 1)
  {
    var opt := N(env.k, "MQOO_OUTPUT");
    var (md, pmo) := MsgStructs(f, opts, f.pmo).value;
    var o := LazyOpen(q, qm, b, w, opt);
    LazyOpenCall(q, qm, b, w, opt);
    SendCall(o.state, qm, b, o.world, md, pmo, msg);
    var r := Send(o.state, qm, b, o.world, md, pmo, msg);
    OpenedThenCalls(w, o.world, r.world, Open(qm.handle.value, Pack(q.desc.value).value, opt), opt, IsPut, o.state.handle.value, 1);
  }

  /** `put` on an open queue makes the MQPUT alone, on the queue's own handle, and
      leaves the queue as it was. */
  lemma PutOnOpenQueue(q: Queue, qm: QueueManager, b: Broker, w: World, env: Env, f: Fresh, msg: bytes,
                       opts: seq<Option<Struct>>)
    requires QueueWf(q) && FreshWf(f) && AllWf(opts) && Truthy(q.handle) && |opts| <= 2
    ensures var r := PutMsg(q, qm, b, w, env, f, msg, opts);
      && r.state == q && |r.world.log| <= |w.log| + 1 && r.world.log[..|w.log|] == w.log
      && (|r.world.log| == |w.log| + 1 ==> r.world.log[|w.log|].Put? && r.world.log[|w.log|].hobj == q.handle.value)
  {
  }

  /** `get` on a queue that is not open first opens it for input with
      `MQOO_INPUT_AS_Q_DEF`; a successful get then makes one or two MQGETs on the handle
      the open returned. */
  lemma GetOpensForInput(q: Queue, qm: QueueManager, b: Broker, w: World, env: Env, f: Fresh,
                         maxLength: Option<int>, opts: seq<Option<Struct>>)
    requires QueueWf(q) && FreshWf(f) && AllWf(opts) && !Truthy(q.handle)
    requires GetMsg(q, qm, b, w, env, f, maxLength, opts).result.Ok?
    ensures var r := GetMsg(q, qm, b, w, env, f, maxLength, opts);
      r.state.handle.Some? && OpenedThen(w.log, r.world.log, N(env.k, "MQOO_INPUT_AS_Q_DEF"), IsGet, r.state.handle.value, 2)
  {
    var opt := N(env.k, "MQOO_INPUT_AS_Q_DEF");
    var (md, gmo) := MsgStructs(f, opts, f.gmo).value;
    var o := LazyOpen(q, qm, b, w, opt);
    LazyOpenCall(q, qm, b, w, opt);
    ReceiveCalls(o.state, qm, b, o.world, env, maxLength, md, gmo);
    var r := Receive(o.state, qm, b, o.world, env, maxLength, md, gmo);
    OpenedThenCalls(w, o.world, r.world, Open(qm.handle.value, Pack(q.desc.value).value, opt), opt, IsGet, o.state.handle.value, 2);
  }

  /** An MQGET that was made is one call on the queue's handle with the length asked. */
  lemma FetchCall(q: Queue, qm: QueueManager, b: Broker, w: World, md: Struct, gmo: Struct, length: int)
    requires Wf(md) && Wf(gmo) && Fetch(q, qm, b, w, md, gmo, length).0.Ok?
    ensures var w1 := Fetch(q, qm, b, w, md, gmo, length).1;
      && Grows(w, w1) && |Since(w, w1)| == 1 && AllOn(Since(w, w1), IsGet, q.handle.value)
      && Since(w, w1)[0].length == length
  {
    var a := EvalMsgArgs(q, qm, md, gmo).value;
    assert Since(w, Fetch(q, qm, b, w, md, gmo, length).1) == [Get(a.hconn, a.hobj, a.md, a.opts, length)];
  }

  /** A successful `Receive` made one or two calls, each an MQGET on the queue's
      handle, the first asking for the caller's length or 4096 without one. */
  lemma ReceiveCalls(q: Queue, qm: QueueManager, b: Broker, w: World, env: Env, maxLength: Option<int>,
                     md: Struct, gmo: Struct)
    requires Wf(md) && Wf(gmo)
    requires Receive(q, qm, b, w, env, maxLength, md, gmo).result.Ok?
    ensures var r := Receive(q, qm, b, w, env, maxLength, md, gmo);
      && Grows(w, r.world) && 1 <= |Since(w, r.world)| <= 2 && AllOn(Since(w, r.world), IsGet, q.handle.value)
      && Since(w, r.world)[0].length == (if maxLength.Some? then maxLength.value else DefaultLength)
  {
    var length := if maxLength.Some? then maxLength.value else DefaultLength;
    var (first, w1) := Fetch(q, qm, b, w, md, gmo, length);
    var r := Receive(q, qm, b, w, env, maxLength, md, gmo);
    FetchCall(q, qm, b, w, md, gmo, length);
    if first.value.comp != 0 {
      var md1 := Unpack(md, first.value.buf1).value;
      UnpackWf(md, first.value.buf1);
      FetchCall(q, qm, b, w1, md1, gmo, first.value.dataLength);
      GrowsTrans(w, w1, r.world);
      assert Since(w, r.world)[0] == Since(w, w1)[0];
      AllOnAppend(Since(w, w1), Since(w1, r.world), IsGet, q.handle.value);
    }
  }

  lemma AllOnAppend(a: seq<Call>, c: seq<Call>, verb: Call -> bool, hobj: int)
    requires AllOn(a, verb, hobj) && AllOn(c, verb, hobj)
    ensures AllOn(a + c, verb, hobj)
  {
  }

  /** The truncation retry: after a truncated default-buffer read, the descriptor is
      refreshed from the reply and exactly one more MQGET asks for the reported length
      with it; its outcome is the outcome of `get`. */
  lemma TruncatedGetRetries(q: Queue, qm: QueueManager, b: Broker, w: World, env: Env, md: Struct, gmo: Struct)
    requires Wf(md) && Wf(gmo) && EvalMsgArgs(q, qm, md, gmo).Ok?
    requires var a := EvalMsgArgs(q, qm, md, gmo).value;
      var rep := b(w.log, Get(a.hconn, a.hobj, a.md, a.opts, DefaultLength));
      Retries(env, None, rep) && Unpack(md, rep.buf1).Ok?
    ensures var a := EvalMsgArgs(q, qm, md, gmo).value;
      var c := Get(a.hconn, a.hobj, a.md, a.opts, DefaultLength);
      var rep := b(w.log, c);
      var md1 := Unpack(md, rep.buf1).value;
      && Wf(md1)
      && Receive(q, qm, b, w, env, None, md, gmo) == Retry(q, qm, b, w.(log := w.log + [c]), md1, gmo, rep.dataLength)
      && (EvalMsgArgs(q, qm, md1, gmo).Ok? ==>
            Receive(q, qm, b, w, env, None, md, gmo).world.log ==
              w.log + [c, Get(a.hconn, a.hobj, Pack(md1).value, a.opts, rep.dataLength)])
  {
    var a := EvalMsgArgs(q, qm, md, gmo).value;
    var c := Get(a.hconn, a.hobj, a.md, a.opts, DefaultLength);
    var rep := b(w.log, c);
    UnpackWf(md, rep.buf1);
  }

  /** A caller-supplied length that is not negative is never retried: `get` raises on
      the first failure, and at most one MQGET is made on an open queue. */
  lemma ExplicitLengthGetsOnce(q: Queue, qm: QueueManager, b: Broker, w: World, env: Env, n: int,
                               md: Struct, gmo: Struct)
    requires Wf(md) && Wf(gmo) && n >= 0
    ensures var r := Receive(q, qm, b, w, env, Some(n), md, gmo);
      && |r.world.log| <= |w.log| + 1
      && (|r.world.log| == |w.log| + 1 ==>
            var rep := b(w.log, r.world.log[|w.log|]);
            rep.comp != 0 ==> r.result == Err(MQMIError(rep.comp, rep.reason)))
  {
  }

  /** With the default buffer, a failure for any reason but truncation raises the
      reply's codes without a second MQGET. */
  lemma OtherFailuresNotRetried(q: Queue, qm: QueueManager, b: Broker, w: World, env: Env,
                                md: Struct, gmo: Struct)
    requires Wf(md) && Wf(gmo) && EvalMsgArgs(q, qm, md, gmo).Ok?
    requires var a := EvalMsgArgs(q, qm, md, gmo).value;
      var rep := b(w.log, Get(a.hconn, a.hobj, a.md, a.opts, DefaultLength));
      rep.comp != 0 && rep.reason != N(env.k, "MQRC_TRUNCATED_MSG_FAILED")
    ensures var a := EvalMsgArgs(q, qm, md, gmo).value;
      var c := Get(a.hconn, a.hobj, a.md, a.opts, DefaultLength);
      Receive(q, qm, b, w, env, None, md, gmo) ==
        Step(q, w.(log := w.log + [c]), Err(MQMIError(b(w.log, c).comp, b(w.log, c).reason)))
  {
  }

  /** A successful `close` forgets the descriptor, so the next verb cannot reopen the
      queue: `put` raises the missing-descriptor `PYIFError` without calling anything,
      after recording its own open options. */
  lemma ClosedQueueCannotPut(q: Queue, qm: QueueManager, b: Broker, w: World, env: Env, f: Fresh,
                             options: Option<int>, msg: bytes, opts: seq<Option<Struct>>)
    requires QueueWf(q) && FreshWf(f) && AllWf(opts) && |opts| <= 2
    requires CloseQueue(q, qm, b, w, env, options).result.Ok?
    ensures var c := CloseQueue(q, qm, b, w, env, options);
      && c.state == Unopened
      && PutMsg(c.state, qm, b, c.world, env, f, msg, opts) ==
           Step(Unopened.(openOpts := Some(N(env.k, "MQOO_OUTPUT"))), c.world, Err(PYIFError(QueueDescNotSet)))
      && CloseQueue(c.state, qm, b, c.world, env, options) == Step(Unopened, c.world, Err(PYIFError(QueueNotOpen)))
  {
  }

  /** A handle adopted with `set_handle` is used as it is: `inquire` makes a single MQINQ
      on it and no MQOPEN. */
  lemma AdoptedHandleSkipsOpen(q: Queue, qm: QueueManager, b: Broker, w: World, env: Env, h: int, attr: int)
    requires QueueWf(q) && h != 0 && Truthy(qm.handle)
    ensures var r := InquireQueue(SetHandle(q, Some(h)), qm, b, w, env, attr);
      && r.state == SetHandle(q, Some(h))
      && r.world.log == w.log + [Inq(qm.handle.value, h, attr)]
  {
  }

  /** `inquire` and `set` on a queue that is not open open it with their own options
      before their verb. */
  lemma InquireSetOpenOptions(q: Queue, qm: QueueManager, b: Broker, w: World, env: Env, attr: int, arg: Value)
    requires QueueWf(q) && !Truthy(q.handle)
    ensures var r := InquireQueue(q, qm, b, w, env, attr);
      r.result.Ok? ==> (|r.world.log| == |w.log| + 2 && r.world.log[|w.log|].Open?
        && r.world.log[|w.log|].options == N(env.k, "MQOO_INQUIRE") && r.world.log[|w.log| + 1].Inq?)
    ensures var r := SetQueueAttr(q, qm, b, w, env, attr, arg);
      r.result.Ok? ==> (|r.world.log| == |w.log| + 2 && r.world.log[|w.log|].Open?
        && r.world.log[|w.log|].options == N(env.k, "MQOO_SET") && r.world.log[|w.log| + 1].Set?)
  {
    InquireOpensForInquiry(q, qm, b, w, env, attr);
    SetOpensForSetting(q, qm, b, w, env, attr, arg);
  }

  /** `inquire` on a queue that is not open makes an MQOPEN with `MQOO_INQUIRE`, then one
      MQINQ. */
  lemma InquireOpensForInquiry(q: Queue, qm: QueueManager, b: Broker, w: World, env: Env, attr: int)
    requires QueueWf(q) && !Truthy(q.handle)
    ensures var r := InquireQueue(q, qm, b, w, env, attr);
      r.result.Ok? ==> (|r.world.log| == |w.log| + 2 && r.world.log[|w.log|].Open?
        && r.world.log[|w.log|].options == N(env.k, "MQOO_INQUIRE") && r.world.log[|w.log| + 1].Inq?)
  {
    var opt := N(env.k, "MQOO_INQUIRE");
    if LazyOpen(q, qm, b, w, opt).result.Ok? {
      LazyOpenCall(q, qm, b, w, opt);
    }
  }

  /** `set` on a queue that is not open makes an MQOPEN with `MQOO_SET`, then one MQSET. */
  lemma SetOpensForSetting(q: Queue, qm: QueueManager, b: Broker, w: World, env: Env, attr: int, arg: Value)
    requires QueueWf(q) && !Truthy(q.handle)
    ensures var r := SetQueueAttr(q, qm, b, w, env, attr, arg);
      r.result.Ok? ==> (|r.world.log| == |w.log| + 2 && r.world.log[|w.log|].Open?
        && r.world.log[|w.log|].options == N(env.k, "MQOO_SET") && r.world.log[|w.log| + 1].Set?)
  {
    var opt := N(env.k, "MQOO_SET");
    if LazyOpen(q, qm, b, w, opt).result.Ok? {
      LazyOpenCall(q, qm, b, w, opt);
    }
  }
}

=== FILE: rfh2.dfy ===
/** The MQRFH2 header class `RFH2` (code/pymqi.py:553-745).

    An RFH2 header is a fixed 36-byte preamble followed by XML folders, each a 4-byte
    length and the folder text, padded with spaces to a multiple of four bytes. The class
    keeps its member list in `self.opts` and re-runs `MQOpts.__init__` over it whenever a
    folder is added or parsed, so the member list grows with the header. */
module Rfh2 {
  import opened Wrappers
  import opened Bytes
  import opened Wire
  import opened Errors
  import opened Consts
  import opened MQOpts
  import opened Schemas

  /** The root tag of a folder as the XML parser (lxml, or minidom) reports it, or `None`
      when the text is not well-formed XML. The parser itself is not part of this model. */
  type RootTag = bytes -> Option<string>

  /** One folder: its root tag, the value of its length member, and its text. */
  datatype Folder = Folder(name: string, length: int, data: bytes)

  /** `RFH2.big_endian_encodings`: the encodings whose integers are big-endian. */
  function BigEndianEncodings(k: Consts): seq<int> {
    var i := N(k, "MQENC_INTEGER_NORMAL");
    var d := N(k, "MQENC_DECIMAL_NORMAL");
    var f := N(k, "MQENC_FLOAT_IEEE_NORMAL");
    [i, d, f, N(k, "MQENC_FLOAT_S390"), i + d, i + f, d + f, i + d + f]
  }

  function Min(a: int, b: int): int {
    if a <= b then a else b
  }

  // ---------------------------------------------------------------------------
  // Member lists of a header
  // ---------------------------------------------------------------------------

  /** A fresh copy of `initial_opts`, with `'>'` on the first member's format when `big`. */
  function Preamble(k: Consts, big: bool): seq<Field> {
    var init := Rfh2Initial(k);
    [init[0].(fmt := Format(big, init[0].fmt.spec))] + init[1..]
  }

  /** The members `initial_opts` lays down, by name and format. */
  predicate PreambleShape(f: seq<Field>) {
    && |f| == 8
    && f[0].name == "StrucId" && f[0].fmt.spec == Str(4)
    && f[1].name == "Version" && f[1].fmt == Format(false, Rep(1, Long))
    && f[2].name == "StrucLength" && f[2].fmt == Format(false, Rep(1, Long))
    && f[3].name == "Encoding" && f[3].fmt == Format(false, Rep(1, Long))
    && f[4].name == "CodedCharSetId" && f[4].fmt == Format(false, Rep(1, Long))
    && f[5].name == "Format" && f[5].fmt == Format(false, Str(8))
    && f[6].name == "Flags" && f[6].fmt == Format(false, Rep(1, Long))
    && f[7].name == "NameValueCCSID" && f[7].fmt == Format(false, Rep(1, Long))
  }

  /** The preamble has the RFH2 members, and its byte order is the one asked for. */
  lemma PreambleShaped(k: Consts, big: bool)
    ensures PreambleShape(Preamble(k, big))
    ensures BigEndian(Preamble(k, big)) == big
  {
  }

  /** Without the prefix the preamble is `initial_opts` itself. */
  lemma PreambleLittle(k: Consts)
    ensures Preamble(k, false) == Rfh2Initial(k)
  {
    var init := Rfh2Initial(k);
    assert init == [init[0]] + init[1..];
  }

  /** The eight preamble names are distinct: those of equal length differ in their first
      character. */
  lemma PreambleNamesUnique(f: seq<Field>)
    requires PreambleShape(f)
    ensures UniqueNames(f)
  {
    forall i, j | 0 <= i < j < 8 ensures f[i].name != f[j].name {
      if |f[i].name| == |f[j].name| {
        assert f[i].name[0] != f[j].name[0];
      }
    }
  }

  /** The preamble compiles, has distinct names, and spans 36 bytes in either byte order. */
  lemma PreambleFacts(f: seq<Field>)
    requires PreambleShape(f)
    ensures ValidFormat(f) && UniqueNames(f) && Size(f) == 36
  {
    PreambleNamesUnique(f);
    PreambleSize(f);
  }

  /** The preamble compiles and spans 36 bytes, in either byte order. */
  lemma PreambleValid(k: Consts, big: bool)
    ensures ValidFormat(Preamble(k, big)) && Size(Preamble(k, big)) == 36
  {
    PreambleShaped(k, big);
    PreambleFacts(Preamble(k, big));
  }

  /** The preamble compiles, in either byte order. */
  lemma PreambleCompiles(k: Consts, big: bool)
    ensures ValidFormat(Preamble(k, big))
  {
    PreambleShaped(k, big);
  }

  /** The two members a folder adds: `[name + "Length", length, MQLONG_TYPE]` and
      `[name, data, "%is" % length]`. */
  function FolderMembers(f: Folder): seq<Field> {
    [Field(f.name + "Length", One(I(f.length)), Format(false, Rep(1, Long))),
     Field(f.name, One(S(f.data)), Format(false, Str(f.length)))]
  }

  /** The members of a run of folders, in order. */
  function FolderFields(fs: seq<Folder>): (r: seq<Field>)
    ensures |r| == 2 * |fs|
    ensures forall i :: 0 <= i < |r| ==> !r[i].fmt.big && !IsPointer(r[i].fmt.spec)
  {
    if |fs| == 0 then [] else FolderMembers(fs[0]) + FolderFields(fs[1..])
  }

  lemma {:induction false} FolderFieldsAppend(fs: seq<Folder>, gs: seq<Folder>)
    ensures FolderFields(fs + gs) == FolderFields(fs) + FolderFields(gs)
    decreases |fs|
  {
    if |fs| == 0 {
      assert fs + gs == gs;
    } else {
      assert (fs + gs)[1..] == fs[1..] + gs;
      FolderFieldsAppend(fs[1..], gs);
    }
  }

  /** The member values, in member order, when every member holds its default. */
  function Defaults(fields: seq<Field>): (vs: seq<Value>)
    ensures |vs| == |fields| && forall i :: 0 <= i < |fields| ==> vs[i] == fields[i].default
  {
    seq(|fields|, i requires 0 <= i < |fields| => fields[i].default)
  }

  /** Every member holds its default: the folder members right after `add_folder` or
      `unpack` created them. */
  predicate HoldDefaults(store: Store, fields: seq<Field>) {
    forall i :: 0 <= i < |fields| ==> fields[i].name in store && store[fields[i].name] == fields[i].default
  }

  /** An RFH2 instance whose member list is the preamble in byte order `big` followed by
      the members of `fs`, each folder member holding its folder's length or text. */
  predicate Holds(s: Struct, k: Consts, big: bool, fs: seq<Folder>) {
    HoldsOver(s, Preamble(k, big), fs)
  }

  /** `Holds` for any preamble member list `pre`. */
  predicate HoldsOver(s: Struct, pre: seq<Field>, fs: seq<Folder>) {
    && s.kind == RFH2
    && s.fields == pre + FolderFields(fs)
    && Wf(s)
    && UniqueNames(s.fields)
    && HoldDefaults(s.store, FolderFields(fs))
  }

  // ---------------------------------------------------------------------------
  // Construction and add_folder
  // ---------------------------------------------------------------------------

  /** `RFH2(**kw)`: the preamble with its defaults, overridden by the keywords. */
  function NewHeader(k: Consts, kw: seq<(string, Value)>): (r: Result<Struct, Error>)
    ensures r.Ok? <==> forall i :: 0 <= i < |kw| ==> kw[i].0 in NameSet(Rfh2Initial(k))
    ensures r.Ok? ==> r.value.kind == RFH2 && r.value.fields == Rfh2Initial(k)
  {
    Create(RFH2, Rfh2Initial(k), kw)
  }

  /** A preamble alone is a header without folders. */
  lemma HoldsNoFolders(s: Struct, k: Consts, big: bool)
    requires s.kind == RFH2 && s.fields == Preamble(k, big) && Wf(s)
    ensures Holds(s, k, big, [])
  {
    PreambleShaped(k, big);
    PreambleFacts(Preamble(k, big));
    assert Preamble(k, big) + FolderFields([]) == Preamble(k, big);
  }

  /** A new header is a little-endian preamble without folders. */
  lemma NewHeaderHolds(k: Consts, kw: seq<(string, Value)>)
    requires NewHeader(k, kw).Ok?
    ensures Holds(NewHeader(k, kw).value, k, false, [])
  {
    PreambleLittle(k);
    HoldsNoFolders(NewHeader(k, kw).value, k, false);
  }

  /** The spaces `add_folder` appends so that the folder length divides by 4. */
  function PadCount(n: nat): (p: nat)
    ensures p < 4 && (n + p) % 4 == 0
  {
    if n % 4 == 0 then 0 else 4 - n % 4
  }

  /** `RFH2.add_folder(folder_data)`: the text must be well-formed XML; it is padded with
      spaces to a multiple of four bytes, its length and text members are appended, the
      structure is re-initialised keeping every current value, and `StrucLength` is set to
      the new `get_length()`. */
  function AddFolder(s: Struct, data: bytes, tag: RootTag): (r: Result<Struct, Error>)
    requires Wf(s)
    ensures tag(data).None? ==> r == Err(PYIFError(FolderNotWellFormed))
    ensures r.Ok? ==> r.value.kind == s.kind && Wf(r.value)
    ensures r.Ok? ==> exists f: Folder :: f.name == tag(data).value && r.value.fields == s.fields + FolderMembers(f)
  {
    match tag(data)
    case None => Err(PYIFError(FolderNotWellFormed))
    case Some(name) =>
      var f := Padded(name, data);
      var s1 := Reinit(s, s.fields + FolderMembers(f));
      match GetLength(s1)
      case Err(e) => Err(e)
      case Ok(n) => SetItem(s1, "StrucLength", One(I(n)))
  }

  /** The folder `add_folder` appends for text `data` with root tag `name`: the text
      followed by fewer than four spaces, its length a multiple of four. */
  function Padded(name: string, data: bytes): (f: Folder)
    ensures f.name == name && f.length == |f.data|
    ensures f.length % 4 == 0 && |data| <= f.length < |data| + 4
    ensures f.data[..|data|] == data
    ensures forall i :: |data| <= i < f.length ==> f.data[i] == 32
  {
    var padded := data + Spaces(PadCount(|data|));
    Folder(name, |padded|, padded)
  }

  /** A member list followed by members without the `'>'` prefix, and without `'P'`,
      compiles when both do. */
  lemma ValidFormatAppend(a: seq<Field>, b: seq<Field>)
    requires ValidFormat(a) && ValidFormat(b)
    requires forall i :: 0 <= i < |b| ==> !b[i].fmt.big && !IsPointer(b[i].fmt.spec)
    ensures ValidFormat(a + b)
  {
    assert forall i :: |a| <= i < |a + b| ==> (a + b)[i] == b[i - |a|];
  }

  /** Folder members compile exactly when no folder length is negative (`"%is" % -4`
      is not a format). */
  lemma {:induction false} FolderFieldsValid(fs: seq<Folder>)
    ensures ValidFormat(FolderFields(fs)) <==> forall i :: 0 <= i < |fs| ==> fs[i].length >= 0
    decreases |fs|
  {
    if |fs| > 0 {
      FolderFieldsValid(fs[1..]);
      var m := FolderMembers(fs[0]);
      var r := FolderFields(fs[1..]);
      assert FolderFields(fs) == m + r;
      assert forall i :: 0 <= i < |r| ==> (m + r)[i + 2] == r[i];
      assert (m + r)[1] == m[1];
      if forall i :: 0 <= i < |fs| ==> fs[i].length >= 0 {
        assert forall i :: 0 <= i < |fs| - 1 ==> fs[1..][i] == fs[i + 1];
        ValidFormatAppend(m, r);
      } else {
        var j :| 0 <= j < |fs| && fs[j].length < 0;
        if j > 0 {
          assert fs[1..][j - 1] == fs[j];
        }
      }
    }
  }

  /** A compiling member list followed by folders whose lengths are not negative
      compiles. */
  lemma HeaderValid(pre: seq<Field>, fs: seq<Folder>)
    requires ValidFormat(pre)
    requires forall i :: 0 <= i < |fs| ==> fs[i].length >= 0
    ensures ValidFormat(pre + FolderFields(fs))
  {
    FolderFieldsValid(fs);
    ValidFormatAppend(pre, FolderFields(fs));
  }

  /** Appending two members with names not yet used keeps the names distinct. */
  lemma UniqueAppendFolder(fields: seq<Field>, f: Folder)
    requires UniqueNames(fields)
    requires f.name !in NameSet(fields) && f.name + "Length" !in NameSet(fields)
    ensures UniqueNames(fields + FolderMembers(f))
  {
    var m := FolderMembers(f);
    assert |m[0].name| != |m[1].name|;
    var all := fields + m;
    forall i, j | 0 <= i < j < |all| ensures all[i].name != all[j].name {
      if j >= |fields| && i < |fields| {
        assert all[i] == fields[i];
      }
    }
  }

  /** `add_folder` on a header, with a root tag whose members do not exist yet and every
      earlier folder length non-negative: the padded folder is appended, every member
      keeps its value, and `StrucLength` holds the new `get_length()`. */
  lemma AddFolderHolds(s: Struct, k: Consts, big: bool, fs: seq<Folder>, data: bytes, tag: RootTag)
    requires Holds(s, k, big, fs) && tag(data).Some?
    requires tag(data).value !in NameSet(s.fields) && tag(data).value + "Length" !in NameSet(s.fields)
    requires forall i :: 0 <= i < |fs| ==> fs[i].length >= 0
    ensures AddFolder(s, data, tag).Ok?
    ensures Holds(AddFolder(s, data, tag).value, k, big, fs + [Padded(tag(data).value, data)])
    ensures AddFolder(s, data, tag).value.store["StrucLength"] == One(I(Size(AddFolder(s, data, tag).value.fields)))
    ensures forall i :: 0 <= i < |s.fields| && s.fields[i].name != "StrucLength" ==>
      AddFolder(s, data, tag).value.store[s.fields[i].name] == s.store[s.fields[i].name]
  {
    var f := Padded(tag(data).value, data);
    PreambleCompiles(k, big);
    PreambleShaped(k, big);
    AddMembersHold(s, Preamble(k, big), fs, f, "StrucLength");
    AddFolderIs(s, data, tag);
  }

  /** What `add_folder` computes once the grown member list compiles. */
  lemma AddFolderIs(s: Struct, data: bytes, tag: RootTag)
    requires Wf(s) && tag(data).Some? && "StrucLength" in s.store
    requires ValidFormat(s.fields + FolderMembers(Padded(tag(data).value, data)))
    ensures var r := Reinit(s, s.fields + FolderMembers(Padded(tag(data).value, data)));
      AddFolder(s, data, tag) == Ok(r.(store := r.store["StrucLength" := One(I(Size(r.fields)))]))
  {
  }

  /** Appending a folder's members under new names to a header over preamble `pre`, with
      member 2 named `sl` then set to the new size: the result is a header with the folder
      appended, and every old member keeps its value. */
  lemma AddMembersHold(s: Struct, pre: seq<Field>, fs: seq<Folder>, f: Folder, sl: string)
    requires HoldsOver(s, pre, fs) && ValidFormat(pre) && |pre| == 8 && pre[2].name == sl
    requires f.name !in NameSet(s.fields) && f.name + "Length" !in NameSet(s.fields)
    requires f.length >= 0 && forall i :: 0 <= i < |fs| ==> fs[i].length >= 0
    ensures ValidFormat(s.fields + FolderMembers(f)) && sl in s.store
    ensures var r := Reinit(s, s.fields + FolderMembers(f));
      && HoldsOver(r.(store := r.store[sl := One(I(Size(r.fields)))]), pre, fs + [f])
      && forall i :: 0 <= i < |s.fields| ==> r.store[s.fields[i].name] == s.store[s.fields[i].name]
  {
    var m := FolderMembers(f);
    AppendedMembers(fs, f);
    AppendedHeader(pre, fs, f);
    AppendedValid(pre, fs, f);
    UniqueAppendFolder(s.fields, f);
    HeaderParts(s.fields, pre, FolderFields(fs));
    FolderDefaults(s, fs, m, sl, One(I(Size(s.fields + m))));
  }

  /** Appending a folder's members to a header's members gives the header with the folder
      appended. */
  lemma AppendedMembers(fs: seq<Folder>, f: Folder)
    ensures FolderFields(fs) + FolderMembers(f) == FolderFields(fs + [f])
  {
    FolderFieldsAppend(fs, [f]);
    assert FolderFields([f]) == FolderMembers(f) + FolderFields([]);
  }

  lemma AppendedHeader(pre: seq<Field>, fs: seq<Folder>, f: Folder)
    ensures pre + FolderFields(fs) + FolderMembers(f) == pre + FolderFields(fs + [f])
  {
    AppendedMembers(fs, f);
    assert pre + FolderFields(fs) + FolderMembers(f) == pre + (FolderFields(fs) + FolderMembers(f));
  }

  /** The header with a folder appended compiles when no length is negative. */
  lemma AppendedValid(pre: seq<Field>, fs: seq<Folder>, f: Folder)
    requires ValidFormat(pre) && f.length >= 0 && forall i :: 0 <= i < |fs| ==> fs[i].length >= 0
    ensures ValidFormat(pre + FolderFields(fs + [f]))
  {
    forall i | 0 <= i < |fs + [f]| ensures (fs + [f])[i].length >= 0 {
      if i < |fs| { assert (fs + [f])[i] == fs[i]; }
    }
    HeaderValid(pre, fs + [f]);
  }

  /** The members of a header split into the eight preamble members and the folder part. */
  lemma HeaderParts(fields: seq<Field>, pre: seq<Field>, ff: seq<Field>)
    requires fields == pre + ff && |pre| == 8
    ensures fields[2] == pre[2] && fields[8..] == ff
  {
  }

  /** Member `i` of the folder part of a header is member `i + 8` of the header. */
  lemma ShiftedIndex(fields: seq<Field>, ff: seq<Field>, m: seq<Field>, i: nat)
    requires |fields| >= 8 && fields[8..] == ff && i < |ff| + |m|
    ensures (ff + m)[i] == (fields + m)[i + 8]
    ensures i < |ff| ==> (ff + m)[i] == fields[i + 8]
  {
    if i < |ff| {
      assert ff[i] == fields[8..][i];
    }
  }

  /** Defaults held by two runs of members are held by the two together. */
  lemma HoldDefaultsAppend(store: Store, a: seq<Field>, b: seq<Field>)
    requires HoldDefaults(store, a) && HoldDefaults(store, b)
    ensures HoldDefaults(store, a + b)
  {
    forall i | |a| <= i < |a + b| ensures (a + b)[i] == b[i - |a|] {
    }
  }

  /** The folder members a header already had keep their defaults when the store is
      rebuilt with every old value kept and `StrucLength` then overwritten. */
  lemma OldMembersKept(fields: seq<Field>, ff: seq<Field>, store: Store, st: Store, sl: string, v: Value)
    requires |fields| >= 8 && fields[8..] == ff && fields[2].name == sl && UniqueNames(fields)
    requires HoldDefaults(store, ff)
    requires store.Keys <= st.Keys
    requires forall i :: 0 <= i < |fields| && fields[i].name in store ==> st[fields[i].name] == store[fields[i].name]
    ensures HoldDefaults(st[sl := v], ff)
  {
    forall i | 0 <= i < |ff|
      ensures ff[i].name in st && st[ff[i].name] == ff[i].default && ff[i].name != sl
    {
      ShiftedIndex(fields, ff, [], i);
    }
  }

  /** A prefix of a member list with distinct names has distinct names. */
  lemma UniquePrefix(a: seq<Field>, b: seq<Field>)
    requires UniqueNames(a + b)
    ensures UniqueNames(a)
  {
    forall i, j | 0 <= i < j < |a| ensures a[i].name != a[j].name {
      assert (a + b)[i] == a[i] && (a + b)[j] == a[j];
    }
  }

  /** Members appended under new names hold their defaults after the re-initialisation. */
  lemma NewMembersSet(s: Struct, m: seq<Field>)
    requires Wf(s) && UniqueNames(s.fields + m)
    requires forall i :: 0 <= i < |m| ==> m[i].name !in NameSet(s.fields)
    ensures HoldDefaults(Reinit(s, s.fields + m).store, m)
  {
    var fields := s.fields + m;
    forall i | 0 <= i < |m| ensures fields[|s.fields| + i] == m[i] {
    }
  }

  /** A store update under a name no member uses keeps their values. */
  lemma HoldDefaultsUpdate(store: Store, a: seq<Field>, n: string, v: Value)
    requires HoldDefaults(store, a) && forall i :: 0 <= i < |a| ==> a[i].name != n
    ensures HoldDefaults(store[n := v], a)
  {
  }

  /** After the re-initialisation in `add_folder` every folder member holds its default:
      the old ones keep their values, the new ones get theirs, and the update of member 2
      (`StrucLength`) touches none of them. */
  lemma FolderDefaults(s: Struct, fs: seq<Folder>, m: seq<Field>, sl: string, v: Value)
    requires Wf(s) && UniqueNames(s.fields + m)
    requires |s.fields| >= 8 && s.fields[8..] == FolderFields(fs) && s.fields[2].name == sl
    requires HoldDefaults(s.store, FolderFields(fs))
    requires forall i :: 0 <= i < |m| ==> m[i].name !in NameSet(s.fields)
    ensures HoldDefaults(Reinit(s, s.fields + m).store[sl := v], FolderFields(fs) + m)
  {
    var r := Reinit(s, s.fields + m);
    UniquePrefix(s.fields, m);
    OldMembersKept(s.fields, FolderFields(fs), s.store, r.store, sl, v);
    NewMembersSet(s, m);
    assert sl in NameSet(s.fields);
    HoldDefaultsUpdate(r.store, m, sl, v);
    HoldDefaultsAppend(r.store[sl := v], FolderFields(fs), m);
  }
}

=== FILE: rfh2codec.dfy ===
/** Reading and writing RFH2 headers as bytes: `RFH2.unpack` and `RFH2.pack`
    (code/pymqi.py:638-743).

    `unpack` checks the structure id and the buffer length, decodes the 36-byte preamble
    in the byte order the encoding (or, without one, byte 4 of the buffer) selects, and
    then walks the folder area `buff[36:StrucLength]` as a run of (4-byte signed length,
    folder text) pairs, each folder adding its two members. */
module Rfh2Codec {
  import opened Wrappers
  import opened Bytes
  import opened Wire
  import opened Errors
  import opened Consts
  import opened MQOpts
  import opened Schemas
  import opened Rfh2

  // ---------------------------------------------------------------------------
  // Python slicing
  // ---------------------------------------------------------------------------

  /** The position a Python slice bound `n` denotes in a string of length `len`: negative
      bounds count from the end, and every bound is clamped into the string. */
  function Cut(n: int, len: nat): (c: nat)
    ensures c <= len
    ensures 0 <= n <= len ==> c == n
    ensures n > len ==> c == len
    ensures n < 0 ==> c == if len + n < 0 then 0 else len + n
  {
    if n >= 0 then Min(n, len) else if len + n < 0 then 0 else len + n
  }

  /** `s[:n]`. */
  function Take(s: bytes, n: int): (r: bytes)
    ensures r == s[..Cut(n, |s|)]
  {
    s[..Cut(n, |s|)]
  }

  /** `s[n:]`: what `s[:n]` leaves. */
  function Drop(s: bytes, n: int): (r: bytes)
    ensures Take(s, n) + r == s
    ensures |r| <= |s|
  {
    assert s[..Cut(n, |s|)] + s[Cut(n, |s|)..] == s;
    s[Cut(n, |s|)..]
  }

  // ---------------------------------------------------------------------------
  // Folders as bytes
  // ---------------------------------------------------------------------------

  /** A folder whose length member is its text's length, which a 4-byte `'l'` holds. */
  predicate Complete(f: Folder) {
    0 <= f.length == |f.data| < Half(4)
  }

  /** The 4-byte two's complement length in front of a folder. */
  function LengthBytes(n: int, big: bool): (r: bytes)
    requires -Half(4) <= n < Half(4)
    ensures |r| == 4
    ensures Signed(DecodeUnsigned(r, big), 4) == n
  {
    DecodeEncodeUnsigned(TwosComplement(n, 4), 4, big);
    SignedOfTwosComplement(n, 4);
    EncodeUnsigned(TwosComplement(n, 4), 4, big)
  }

  /** The bytes of a run of complete folders: each length, then the text. */
  function FolderBytes(fs: seq<Folder>, big: bool): (b: bytes)
    requires forall i :: 0 <= i < |fs| ==> Complete(fs[i])
  {
    if |fs| == 0 then []
    else
      assert Complete(fs[0]);
      LengthBytes(fs[0].length, big) + fs[0].data + FolderBytes(fs[1..], big)
  }

  /** The folder loop of `RFH2.unpack`. Each pass takes `s[0:4]` and decodes it with
      `">l"` in big-endian mode (4 bytes) or with native `"l"`, which is `width` bytes on
      the platform; a slice of another length is a `struct.error`. Then the folder text
      `s[4:][:n]` must have a root tag, and the loop goes on with `s[4:][n:]`, with
      Python's slicing for any `n`, negative ones included. */
  function ReadFolders(s: bytes, big: bool, width: nat, tag: RootTag): (r: Result<seq<Folder>, Error>)
    ensures r.Ok? ==> forall i :: 0 <= i < |r.value| ==> tag(r.value[i].data) == Some(r.value[i].name)
    ensures r.Err? ==> r.error == StructError(BufferSize) || r.error == PYIFError(FolderNotWellFormed)
    decreases |s|
  {
    if |s| == 0 then Ok([])
    else
      var lb := Take(s, 4);
      var w := if big then 4 else width;
      if |lb| != w then Err(StructError(BufferSize))
      else
        var n := Signed(DecodeUnsigned(lb, big), w);
        var rest := Drop(s, 4);
        var data := Take(rest, n);
        match tag(data)
        case None => Err(PYIFError(FolderNotWellFormed))
        case Some(name) =>
          match ReadFolders(Drop(rest, n), big, width, tag)
          case Err(e) => Err(e)
          case Ok(more) => Ok([Folder(name, n, data)] + more)
  }

  /** The bytes of complete folders with root tags read back as those folders. */
  lemma {:induction false} BytesReadFolders(fs: seq<Folder>, big: bool, tag: RootTag)
    requires forall i :: 0 <= i < |fs| ==> Complete(fs[i]) && tag(fs[i].data) == Some(fs[i].name)
    ensures ReadFolders(FolderBytes(fs, big), big, 4, tag) == Ok(fs)
    decreases |fs|
  {
    if |fs| > 0 {
      var f := fs[0];
      var lb := LengthBytes(f.length, big);
      var tail := FolderBytes(fs[1..], big);
      var s := lb + f.data + tail;
      assert s == FolderBytes(fs, big);
      assert Take(s, 4) == lb;
      assert Drop(s, 4) == f.data + tail;
      assert Take(f.data + tail, f.length) == f.data;
      assert Drop(f.data + tail, f.length) == tail;
      BytesReadFolders(fs[1..], big, tag);
      assert fs == [f] + fs[1..];
    }
  }

  /** Conversely, when the folder loop reads only folders whose text is as long as their
      length member says, the area is exactly the bytes of those folders. */
  lemma {:induction false} ReadFoldersBytes(s: bytes, big: bool, tag: RootTag)
    requires ReadFolders(s, big, 4, tag).Ok?
    requires forall i :: 0 <= i < |ReadFolders(s, big, 4, tag).value| ==>
      ReadFolders(s, big, 4, tag).value[i].length == |ReadFolders(s, big, 4, tag).value[i].data|
    ensures forall i :: 0 <= i < |ReadFolders(s, big, 4, tag).value| ==> Complete(ReadFolders(s, big, 4, tag).value[i])
    ensures FolderBytes(ReadFolders(s, big, 4, tag).value, big) == s
    decreases |s|
  {
    var fs := ReadFolders(s, big, 4, tag).value;
    if |s| > 0 {
      var next := FirstFolderRead(s, big, tag);
      forall i | 0 <= i < |fs| - 1 ensures fs[1..][i] == fs[i + 1] { }
      ReadFoldersBytes(next, big, tag);
    }
  }

  /** The first turn of the folder loop over four-byte lengths: the first folder read is
      complete, its length bytes and text are the front of `s`, and the rest of the
      folders are read from what follows. */
  lemma FirstFolderRead(s: bytes, big: bool, tag: RootTag) returns (next: bytes)
    requires |s| > 0 && ReadFolders(s, big, 4, tag).Ok?
    requires ReadFolders(s, big, 4, tag).value[0].length == |ReadFolders(s, big, 4, tag).value[0].data|
    ensures Complete(ReadFolders(s, big, 4, tag).value[0])
    ensures ReadFolders(next, big, 4, tag).Ok?
    ensures ReadFolders(s, big, 4, tag).value[1..] == ReadFolders(next, big, 4, tag).value
    ensures var f := ReadFolders(s, big, 4, tag).value[0];
      s == LengthBytes(f.length, big) + f.data + next
    ensures |next| < |s|
  {
    var fs := ReadFolders(s, big, 4, tag).value;
    var lb := Take(s, 4);
    var n := Signed(DecodeUnsigned(lb, big), 4);
    var rest := Drop(s, 4);
    next := Drop(rest, n);
    assert fs[0].length == n && fs[0].data == Take(rest, n);
    EncodeDecodeUnsigned(lb, big);
    TwosComplementOfSigned(DecodeUnsigned(lb, big), 4);
    assert LengthBytes(n, big) == lb;
  }

  /** With native `"l"` eight bytes wide, as on 64-bit Linux, the four-byte slice can
      never be decoded: a little-endian folder area with anything in it always fails. */
  lemma ReadFoldersNativeLong(s: bytes, tag: RootTag)
    requires |s| > 0
    ensures ReadFolders(s, false, 8, tag) == Err(StructError(BufferSize))
  {
    assert |Take(s, 4)| <= 4;
  }

  // ---------------------------------------------------------------------------
  // unpack
  // ---------------------------------------------------------------------------

  /** The byte order `unpack` selects: big-endian when the encoding given is one of
      `big_endian_encodings`, or, without an encoding, when byte 4 (the first byte of
      `Version`, whose value is small) is zero. */
  predicate DetectBig(k: Consts, b: bytes, enc: Option<int>)
    requires |b| > 4
  {
    match enc
    case Some(e) => e in BigEndianEncodings(k)
    case None => b[4] == 0
  }

  /** The `StrucLength` member as the preamble decodes it: the signed 4-byte integer at
      offset 8. */
  function StrucLengthAt(b: bytes, big: bool): (n: int)
    requires |b| >= 12
    ensures -Half(4) <= n < Half(4)
  {
    Signed(DecodeUnsigned(b[8..12], big), 4)
  }

  /** The folder area `buff[36:StrucLength]`. */
  function FolderArea(b: bytes, sl: int): (a: bytes)
    requires |b| >= 36 && sl >= 0
    ensures 36 <= sl <= |b| ==> a == b[36..sl]
    ensures sl < 36 ==> a == []
    ensures sl > |b| ==> a == b[36..]
  {
    Drop(Take(b, sl), 36)
  }

  /** The preamble `unpack` lays down on the instance: `MQOpts.__init__` over a fresh copy
      of `initial_opts`, without keywords, so every preamble member gets its default and
      no other attribute changes. */
  function Restart(s: Struct, pre: seq<Field>): (r: Struct)
    ensures r.kind == s.kind && r.fields == pre && Wf(r)
    ensures r.store.Keys == s.store.Keys + NameSet(pre)
  {
    s.(fields := pre, store := WithDefaults(s.store, pre))
  }

  /** `RFH2.unpack(buff, encoding)`, with native `"l"` `width` bytes wide. The checks come
      in the source's order: the structure id, the 36-byte minimum, a negative
      `StrucLength`, then (only for buffers longer than 36 bytes) a `StrucLength` past the
      end; a malformed folder aborts the whole unpack. On success the instance holds the
      preamble followed by the folders' members, the preamble members as decoded and every
      folder member holding its folder's length or text. */
  function UnpackWith(s: Struct, b: bytes, enc: Option<int>, k: Consts, tag: RootTag, width: nat): (r: Result<Struct, Error>)
    ensures Take(b, 4) != C(k, "MQRFH_STRUC_ID") ==> r == Err(PYIFError(StrucIdMismatch))
    ensures Take(b, 4) == C(k, "MQRFH_STRUC_ID") && |b| < 36 ==> r == Err(PYIFError(BufferTooShort))
    ensures Take(b, 4) == C(k, "MQRFH_STRUC_ID") && |b| >= 36 && StrucLengthAt(b, DetectBig(k, b, enc)) < 0 ==>
      r == Err(PYIFError(NegativeStrucLength))
    ensures Take(b, 4) == C(k, "MQRFH_STRUC_ID") && |b| > 36 && StrucLengthAt(b, DetectBig(k, b, enc)) > |b| ==>
      r == Err(PYIFError(StrucLengthBeyondBuffer))
    ensures r.Ok? ==> Take(b, 4) == C(k, "MQRFH_STRUC_ID") && |b| >= 36
    ensures r.Ok? ==>
      var big := DetectBig(k, b, enc);
      var sl := StrucLengthAt(b, big);
      && 0 <= sl && (|b| > 36 ==> sl <= |b|)
      && ReadFolders(FolderArea(b, sl), big, width, tag).Ok?
      && r.value.kind == s.kind
      && r.value.fields == Preamble(k, big) + FolderFields(ReadFolders(FolderArea(b, sl), big, width, tag).value)
  {
    if Take(b, 4) != C(k, "MQRFH_STRUC_ID") then Err(PYIFError(StrucIdMismatch))
    else if |b| < 36 then Err(PYIFError(BufferTooShort))
    else
      var big := DetectBig(k, b, enc);
      var pre := Preamble(k, big);
      PreambleValid(k, big);
      var s1 := Unpack(Restart(s, pre), b[..36]).value;
      var sl := StrucLengthAt(b, big);
      if sl < 0 then Err(PYIFError(NegativeStrucLength))
      else if |b| > 36 && sl > |b| then Err(PYIFError(StrucLengthBeyondBuffer))
      else
        match ReadFolders(FolderArea(b, sl), big, width, tag)
        case Err(e) => Err(e)
        case Ok(fs) => Ok(Reinit(s1, pre + FolderFields(fs)))
  }

  /** `RFH2.unpack` as written: the folder length is decoded with native `"l"`, eight bytes
      on 64-bit Linux, from a four-byte slice. */
  function UnpackHeaderAsWritten(s: Struct, b: bytes, enc: Option<int>, k: Consts, tag: RootTag): (r: Result<Struct, Error>)
    ensures |b| > 4 && DetectBig(k, b, enc) ==> r == UnpackHeader(s, b, enc, k, tag)
    ensures r.Ok? ==> |b| >= 36 && (DetectBig(k, b, enc) || r.value.fields == Preamble(k, false))
  {
    if |b| > 4 && DetectBig(k, b, enc) then
      NativeWidthBig(s, b, enc, k, tag);
      UnpackWith(s, b, enc, k, tag, 8)
    else if |b| > 4 && UnpackWith(s, b, enc, k, tag, 8).Ok? then
      NativeWidthLittle(s, b, enc, k, tag);
      UnpackWith(s, b, enc, k, tag, 8)
    else UnpackWith(s, b, enc, k, tag, 8)
  }

  /** In big-endian mode the folder length is read with `">l"`, so the width of native
      `"l"` never matters. */
  lemma {:induction false} ReadFoldersBigAnyWidth(s: bytes, tag: RootTag, width: nat)
    ensures ReadFolders(s, true, width, tag) == ReadFolders(s, true, 4, tag)
    decreases |s|
  {
    if |s| > 0 && |Take(s, 4)| == 4 {
      var n := Signed(DecodeUnsigned(Take(s, 4), true), 4);
      ReadFoldersBigAnyWidth(Drop(Drop(s, 4), n), tag, width);
    }
  }

  /** The 8-byte native `"l"` changes nothing for a big-endian header. */
  lemma NativeWidthBig(s: Struct, b: bytes, enc: Option<int>, k: Consts, tag: RootTag)
    requires |b| > 4 && DetectBig(k, b, enc)
    ensures UnpackWith(s, b, enc, k, tag, 8) == UnpackWith(s, b, enc, k, tag, 4)
  {
    if Take(b, 4) == C(k, "MQRFH_STRUC_ID") && |b| >= 36 {
      var sl := StrucLengthAt(b, true);
      if sl >= 0 {
        ReadFoldersBigAnyWidth(FolderArea(b, sl), tag, 8);
      }
    }
  }

  /** With the 8-byte native `"l"` a little-endian header unpacks only when it has no
      folder. */
  lemma NativeWidthLittle(s: Struct, b: bytes, enc: Option<int>, k: Consts, tag: RootTag)
    requires |b| > 4 && !DetectBig(k, b, enc) && UnpackWith(s, b, enc, k, tag, 8).Ok?
    ensures UnpackWith(s, b, enc, k, tag, 8).value.fields == Preamble(k, false)
  {
    var area := FolderArea(b, StrucLengthAt(b, false));
    if |area| > 0 {
      ReadFoldersNativeLong(area, tag);
    } else {
      assert ReadFolders(area, false, 8, tag) == Ok([]);
      assert Preamble(k, false) + FolderFields([]) == Preamble(k, false);
    }
  }


  /** `RFH2.unpack` with the folder length read as the four-byte MQLONG it is (`"<l"` or
      `"=l"`), the evidently intended behaviour, used by the rest of the model. */
  function UnpackHeader(s: Struct, b: bytes, enc: Option<int>, k: Consts, tag: RootTag): Result<Struct, Error> {
    UnpackWith(s, b, enc, k, tag, 4)
  }

  /** As written, every little-endian header with a folder fails with `struct.error`,
      however well formed: only folder-free little-endian headers unpack. */
  lemma UnpackAsWrittenLittleFails(s: Struct, b: bytes, enc: Option<int>, k: Consts, tag: RootTag)
    requires Take(b, 4) == C(k, "MQRFH_STRUC_ID") && |b| > 36
    requires !DetectBig(k, b, enc)
    requires 36 < StrucLengthAt(b, false) <= |b|
    ensures UnpackHeaderAsWritten(s, b, enc, k, tag) == Err(StructError(BufferSize))
  {
    var sl := StrucLengthAt(b, false);
    PreambleValid(k, false);
    ReadFoldersNativeLong(FolderArea(b, sl), tag);
  }

  /** The members of a folder run are named after the folders, with and without the
      `Length` suffix. */
  lemma FolderFieldNames(fs: seq<Folder>, pre: seq<Field>)
    requires UniqueNames(pre + FolderFields(fs))
    ensures forall i :: 0 <= i < |FolderFields(fs)| ==> FolderFields(fs)[i].name !in NameSet(pre)
  {
    var all := pre + FolderFields(fs);
    forall i | 0 <= i < |FolderFields(fs)| ensures FolderFields(fs)[i].name !in NameSet(pre) {
      forall j | 0 <= j < |pre| ensures pre[j].name != FolderFields(fs)[i].name {
        assert all[j] == pre[j] && all[|pre| + i] == FolderFields(fs)[i];
      }
    }
  }

  /** Re-initialising a preamble over the preamble followed by folders with new, distinct
      names gives a header holding those folders. */
  lemma ReinitHolds(s: Struct, pre: seq<Field>, fs: seq<Folder>)
    requires Wf(s) && s.kind == RFH2 && s.fields == pre && UniqueNames(pre + FolderFields(fs))
    ensures HoldsOver(Reinit(s, pre + FolderFields(fs)), pre, fs)
  {
    FolderFieldNames(fs, pre);
    NewMembersSet(s, FolderFields(fs));
  }

  /** Round trip from the bytes: a 36-byte preamble whose `StrucLength` covers exactly the
      folder bytes after it, followed by complete folders and any message data, unpacks to
      a header over those folders; with distinct member names each folder member holds its
      folder's length or text. */
  lemma UnpackHeaderFolders(s: Struct, p: bytes, fs: seq<Folder>, rest: bytes, enc: Option<int>, k: Consts, tag: RootTag)
    requires |p| == 36 && Take(p, 4) == C(k, "MQRFH_STRUC_ID")
    requires forall i :: 0 <= i < |fs| ==> Complete(fs[i]) && tag(fs[i].data) == Some(fs[i].name)
    requires StrucLengthAt(p, DetectBig(k, p, enc)) == 36 + |FolderBytes(fs, DetectBig(k, p, enc))|
    ensures var b := p + FolderBytes(fs, DetectBig(k, p, enc)) + rest;
      && UnpackHeader(s, b, enc, k, tag).Ok?
      && UnpackHeader(s, b, enc, k, tag).value.fields == Preamble(k, DetectBig(k, p, enc)) + FolderFields(fs)
      && (s.kind == RFH2 && UniqueNames(Preamble(k, DetectBig(k, p, enc)) + FolderFields(fs)) ==>
           Holds(UnpackHeader(s, b, enc, k, tag).value, k, DetectBig(k, p, enc), fs))
  {
    var big := DetectBig(k, p, enc);
    var fb := FolderBytes(fs, big);
    var b := p + fb + rest;
    HeaderBytes(p, fb, rest, enc, k);
    BytesReadFolders(fs, big, tag);
    PreambleValid(k, big);
    var pre := Preamble(k, big);
    if s.kind == RFH2 && UniqueNames(pre + FolderFields(fs)) {
      ReinitHolds(Unpack(Restart(s, pre), b[..36]).value, pre, fs);
    }
  }

  /** A preamble followed by folder bytes and message data: the preamble's fields are
      read from the whole buffer alike, and the folder area is the folder bytes. */
  lemma HeaderBytes(p: bytes, fb: bytes, rest: bytes, enc: Option<int>, k: Consts)
    requires |p| == 36
    ensures var b := p + fb + rest;
      && Take(b, 4) == Take(p, 4) && b[..36] == p
      && DetectBig(k, b, enc) == DetectBig(k, p, enc)
      && StrucLengthAt(b, DetectBig(k, p, enc)) == StrucLengthAt(p, DetectBig(k, p, enc))
      && FolderArea(b, 36 + |fb|) == fb
  {
    var b := p + fb + rest;
    assert b[8..12] == p[8..12];
    assert b[36..36 + |fb|] == fb;
  }

  // ---------------------------------------------------------------------------
  // pack
  // ---------------------------------------------------------------------------

  /** Whether `encoding` asks for big-endian integers. */
  predicate BigEncoding(k: Consts, enc: Option<int>) {
    enc.Some? && enc.value in BigEndianEncodings(k)
  }

  /** The instance with its first member's format set to `initial_opts[0][2]` (`'4s'`),
      with or without the `'>'` prefix, re-initialised keeping every value. */
  function WithByteOrder(s: Struct, k: Consts, big: bool): (r: Struct)
    requires Wf(s) && |s.fields| > 0
    ensures r.kind == s.kind && Wf(r) && |r.fields| == |s.fields| && r.fields[1..] == s.fields[1..]
    ensures r.fields[0] == s.fields[0].(fmt := Format(big, Str(4)))
    ensures BigEndian(r.fields) == big
    ensures forall i :: 0 <= i < |s.fields| ==> r.store[s.fields[i].name] == s.store[s.fields[i].name]
    ensures r.store.Keys == s.store.Keys
  {
    InitialFirst(k);
    var fields := Restyled(s.fields, Format(big, Rfh2Initial(k)[0].fmt.spec));
    WfNames(s);
    Reinit(s, fields)
  }

  /** `initial_opts[0][2]` is `'4s'`. */
  lemma InitialFirst(k: Consts)
    ensures |Rfh2Initial(k)| > 0 && Rfh2Initial(k)[0].fmt.spec == Str(4)
  {
    PreambleLittle(k);
    PreambleShaped(k, false);
  }

  /** The member list with the first member's format replaced. */
  function Restyled(fields: seq<Field>, fmt: Format): (r: seq<Field>)
    requires |fields| > 0
    ensures |r| == |fields| && r[0] == fields[0].(fmt := fmt) && r[1..] == fields[1..]
    ensures NameSet(r) == NameSet(fields)
  {
    var r := [fields[0].(fmt := fmt)] + fields[1..];
    assert r[0].name == fields[0].name;
    assert NameSet(r) == NameSet(fields) by {
      assert forall i :: 1 <= i < |r| ==> r[i] == fields[i];
    }
    r
  }

  /** `RFH2.pack(encoding)` as written: a big-endian encoding puts `'>'` in front of the
      first member's format, rebuilt from `initial_opts` so that it never doubles up; any
      other encoding, or none, leaves the member list as it is. Returns the instance after
      the call and what `MQOpts.pack` gives. */
  function PackHeaderAsWritten(s: Struct, enc: Option<int>, k: Consts): (r: (Struct, Result<bytes, Error>))
    requires Wf(s) && |s.fields| > 0
    ensures Wf(r.0) && r.0.kind == s.kind && |r.0.fields| == |s.fields| && r.0.fields[1..] == s.fields[1..]
    ensures BigEncoding(k, enc) ==> r.0.fields[0].fmt == Format(true, Str(4)) && BigEndian(r.0.fields)
    ensures !BigEncoding(k, enc) ==> r.0 == s
    ensures r.0.store.Keys == s.store.Keys
    ensures forall i :: 0 <= i < |s.fields| ==> r.0.store[s.fields[i].name] == s.store[s.fields[i].name]
    ensures r.1 == Pack(r.0)
  {
    if BigEncoding(k, enc) then
      var s1 := WithByteOrder(s, k, true);
      (s1, Pack(s1))
    else (s, Pack(s))
  }

  /** `RFH2.pack(encoding)` with the byte order following every encoding given: big-endian
      ones set the prefix and the others clear it. This is the evidently intended
      behaviour. */
  function PackHeader(s: Struct, enc: Option<int>, k: Consts): (r: (Struct, Result<bytes, Error>))
    requires Wf(s) && |s.fields| > 0
    ensures Wf(r.0) && r.0.kind == s.kind && |r.0.fields| == |s.fields| && r.0.fields[1..] == s.fields[1..]
    ensures enc.Some? ==> r.0.fields[0].fmt == Format(BigEncoding(k, enc), Str(4)) && BigEndian(r.0.fields) == BigEncoding(k, enc)
    ensures enc.None? ==> r.0 == s
    ensures r.0.store.Keys == s.store.Keys
    ensures forall i :: 0 <= i < |s.fields| ==> r.0.store[s.fields[i].name] == s.store[s.fields[i].name]
    ensures r.1 == Pack(r.0)
  {
    if enc.Some? then
      var s1 := WithByteOrder(s, k, BigEncoding(k, enc));
      (s1, Pack(s1))
    else (s, Pack(s))
  }

  /** As written, the prefix sticks: after a pack with a big-endian encoding, a pack asking
      for a little-endian one still packs big-endian. */
  lemma PackAsWrittenSticks(s: Struct, k: Consts, eb: int, el: int)
    requires Wf(s) && |s.fields| > 0
    requires eb in BigEndianEncodings(k) && el !in BigEndianEncodings(k)
    ensures BigEndian(PackHeaderAsWritten(PackHeaderAsWritten(s, Some(eb), k).0, Some(el), k).0.fields)
  {
  }

  /** The corrected pack follows the last encoding asked for. */
  lemma PackFollowsEncoding(s: Struct, k: Consts, eb: int, el: int)
    requires Wf(s) && |s.fields| > 0
    requires eb in BigEndianEncodings(k) && el !in BigEndianEncodings(k)
    ensures !BigEndian(PackHeader(PackHeader(s, Some(eb), k).0, Some(el), k).0.fields)
    ensures BigEndian(PackHeader(PackHeader(s, Some(el), k).0, Some(eb), k).0.fields)
  {
  }
}

=== FILE: schemas.dfy ===
/** The concrete MQI structures pymqi builds on `MQOpts` (code/pymqi.py:375-1112): each is
    a member list that depends only on the MQ levels the C extension was built with
    (`pymqe.__mqlevels__`) and on the values of the MQ constants. */
module Schemas {
  import opened Wrappers
  import opened Bytes
  import opened Wire
  import opened Errors
  import opened Consts
  import opened MQOpts

  /** A member whose format `struct` compiles: native byte order, no negative width. Every
      member of the fixed structures is one. */
  type Member = f: Field | !f.fmt.big && ValidSpec(f.fmt.spec)
    witness Field([], One(Nil), Format(false, Str(0)))

  /** `[name, v, MQLONG_TYPE]`. */
  function MqLong(name: string, v: int): Member {
    Field(name, One(I(v)), Format(false, Rep(1, Long)))
  }

  /** `[name, v, '<width>s']`. */
  function Chars(name: string, v: bytes, width: nat): Member {
    Field(name, One(S(v)), Format(false, Str(width)))
  }

  /** `[name, 0, 'P']`: every pointer member starts out null. */
  function Pointer(name: string): Member {
    Field(name, One(I(0)), Format(false, Rep(1, Ptr)))
  }

  /** `[name, v, 'q']`. */
  function Int64(name: string, v: int): Member {
    Field(name, One(I(v)), Format(false, Rep(1, Quad)))
  }

  /** `[name, v, 'b']`. */
  function SByte(name: string, v: int): Member {
    Field(name, One(I(v)), Format(false, Rep(1, SChar)))
  }

  /** `[name, v, 'c']`. */
  function OneChar(name: string, v: bytes): Member {
    Field(name, One(S(v)), Format(false, Rep(1, Char)))
  }

  /** `[name, [v0, v1, ...], '<n>' + MQLONG_TYPE]`: an array member holding a list. */
  function Longs(name: string, vs: seq<int>): Member {
    Field(name, Many(seq(|vs|, i requires 0 <= i < |vs| => I(vs[i]))), Format(false, Rep(|vs|, Long)))
  }

  /** The five members of an MQCHARV variable-length string `base`: a null pointer, then
      its offset, buffer size, length and CCSID, all 0. */
  function CharV(base: string): seq<Member> {
    [Pointer(base + "VSPtr"), MqLong(base + "VSOffset", 0), MqLong(base + "VSBufSize", 0),
     MqLong(base + "VSLength", 0), MqLong(base + "VSCCSID", 0)]
  }

  /** Every member list made of such members compiles and packs in native mode. */
  lemma MembersCompile(fields: seq<Member>)
    ensures ValidFormat(fields) && Native(fields)
  {
  }

  // ---------------------------------------------------------------------------
  // The structures
  // ---------------------------------------------------------------------------

  /** MQGMO; level 7.0 adds `Reserved2` and `MsgHandle`. */
  function Gmo(env: Env): seq<Member> {
    GmoBase(env.k) +
    (if "7.0" in env.levels then [MqLong("Reserved2", 0), Int64("MsgHandle", 0)] else [])
  }

  /** The MQGMO members every level has. */
  function GmoBase(k: Consts): seq<Member> {
    [Chars("StrucId", C(k, "MQGMO_STRUC_ID"), 4),
     MqLong("Version", N(k, "MQGMO_VERSION_1")),
     MqLong("Options", N(k, "MQGMO_NO_WAIT")),
     MqLong("WaitInterval", 0),
     MqLong("Signal1", 0),
     MqLong("Signal2", 0),
     Chars("ResolvedQName", [], 48),
     MqLong("MatchOptions", N(k, "MQMO_MATCH_MSG_ID") + N(k, "MQMO_MATCH_CORREL_ID")),
     SByte("GroupStatus", N(k, "MQGS_NOT_IN_GROUP")),
     SByte("SegmentStatus", N(k, "MQSS_NOT_A_SEGMENT")),
     SByte("Segmentation", N(k, "MQSEG_INHIBITED")),
     OneChar("Reserved1", Ascii(" ")),
     Chars("MsgToken", [], 16),
     MqLong("ReturnedLength", N(k, "MQRL_UNDEFINED"))]
  }

  /** MQPMO; level 7.0 adds the message handles, `Action` and `PubLevel`. */
  function Pmo(env: Env): seq<Member> {
    PmoBase(env.k) +
    (if "7.0" in env.levels then
       [Int64("OriginalMsgHandle", 0), Int64("NewMsgHandle", 0), MqLong("Action", 0), MqLong("PubLevel", 0)]
     else [])
  }

  /** The MQPMO members every level has. */
  function PmoBase(k: Consts): seq<Member> {
    [Chars("StrucId", C(k, "MQPMO_STRUC_ID"), 4),
     MqLong("Version", N(k, "MQPMO_VERSION_1")),
     MqLong("Options", N(k, "MQPMO_NONE")),
     MqLong("Timeout", -1),
     MqLong("Context", 0),
     MqLong("KnownDestCount", 0),
     MqLong("UnknownDestCount", 0),
     MqLong("InvalidDestCount", 0),
     Chars("ResolvedQName", [], 48),
     Chars("ResolvedQMgrName", [], 48),
     MqLong("RecsPresent", 0),
     MqLong("PutMsgRecFields", 0),
     MqLong("PutMsgRecOffset", 0),
     MqLong("ResponseRecOffset", 0),
     Pointer("PutMsgRecPtr"),
     Pointer("ResponseRecPtr")]
  }

  /** MQOD; level 7.0 adds three MQCHARV strings, `ResolvedType` and, because `MQLONG_TYPE`
      is `'i'` on a 64-bit build, a 4-byte `pad`. */
  function Od(env: Env): seq<Member> {
    OdBase(env.k) +
    (if "7.0" in env.levels then
       CharV("ObjectString") + CharV("SelectionString") + CharV("ResObjectString") +
       [MqLong("ResolvedType", -3), Chars("pad", [], 4)]
     else [])
  }

  /** The MQOD members every level has. */
  function OdBase(k: Consts): seq<Member> {
    [Chars("StrucId", C(k, "MQOD_STRUC_ID"), 4),
     MqLong("Version", N(k, "MQOD_VERSION_1")),
     MqLong("ObjectType", N(k, "MQOT_Q")),
     Chars("ObjectName", [], 48),
     Chars("ObjectQMgrName", [], 48),
     Chars("DynamicQName", Ascii("AMQ.*"), 48),
     Chars("AlternateUserId", [], 12),
     MqLong("RecsPresent", 0),
     MqLong("KnownDestCount", 0),
     MqLong("UnknownDestCount", 0),
     MqLong("InvalidDestCount", 0),
     MqLong("ObjectRecOffset", 0),
     MqLong("ResponseRecOffset", 0),
     Pointer("ObjectRecPtr"),
     Pointer("ResponseRecPtr"),
     Chars("AlternateSecurityId", [], 40),
     Chars("ResolvedQName", [], 48),
     Chars("ResolvedQMgrName", [], 48)]
  }

  /** MQMD (version 1). */
  function Md(k: Consts): seq<Member> {
    [Chars("StrucId", C(k, "MQMD_STRUC_ID"), 4),
     MqLong("Version", N(k, "MQMD_VERSION_1")),
     MqLong("Report", N(k, "MQRO_NONE")),
     MqLong("MsgType", N(k, "MQMT_DATAGRAM")),
     MqLong("Expiry", N(k, "MQEI_UNLIMITED")),
     MqLong("Feedback", N(k, "MQFB_NONE")),
     MqLong("Encoding", N(k, "MQENC_NATIVE")),
     MqLong("CodedCharSetId", N(k, "MQCCSI_Q_MGR")),
     Chars("Format", [], 8),
     MqLong("Priority", N(k, "MQPRI_PRIORITY_AS_Q_DEF")),
     MqLong("Persistence", N(k, "MQPER_PERSISTENCE_AS_Q_DEF")),
     Chars("MsgId", [], 24),
     Chars("CorrelId", [], 24),
     MqLong("BackoutCount", 0),
     Chars("ReplyToQ", [], 48),
     Chars("ReplyToQMgr", [], 48),
     Chars("UserIdentifier", [], 12),
     Chars("AccountingToken", [], 32),
     Chars("ApplIdentityData", [], 32),
     MqLong("PutApplType", N(k, "MQAT_NO_CONTEXT")),
     Chars("PutApplName", [], 28),
     Chars("PutDate", [], 8),
     Chars("PutTime", [], 8),
     Chars("ApplOriginData", [], 4),
     Chars("GroupId", [], 24),
     MqLong("MsgSeqNumber", 1),
     MqLong("Offset", 0),
     MqLong("MsgFlags", N(k, "MQMF_NONE")),
     MqLong("OriginalLength", N(k, "MQOL_UNDEFINED"))]
  }

  /** `RFH2.initial_opts`: the fixed 36-byte preamble of an MQRFH2 header. */
  function Rfh2Initial(k: Consts): seq<Member> {
    [Chars("StrucId", C(k, "MQRFH_STRUC_ID"), 4),
     MqLong("Version", N(k, "MQRFH_VERSION_2")),
     MqLong("StrucLength", 0),
     MqLong("Encoding", N(k, "MQENC_NATIVE")),
     MqLong("CodedCharSetId", N(k, "MQCCSI_Q_MGR")),
     Chars("Format", C(k, "MQFMT_NONE"), 8),
     MqLong("Flags", 0),
     MqLong("NameValueCCSID", N(k, "MQCCSI_Q_MGR"))]
  }

  /** MQTM, the trigger message. */
  function Tm(k: Consts): seq<Member> {
    [Chars("StrucId", C(k, "MQTM_STRUC_ID"), 4),
     MqLong("Version", N(k, "MQTM_VERSION_1")),
     Chars("QName", [], 48),
     Chars("ProcessName", [], 48),
     Chars("TriggerData", [], 64),
     MqLong("ApplType", 0),
     Chars("ApplId", [], 256),
     Chars("EnvData", [], 128),
     Chars("UserData", [], 128)]
  }

  /** MQTMC2, the character form of the trigger message. */
  function Tmc2(k: Consts): seq<Member> {
    [Chars("StrucId", C(k, "MQTMC_STRUC_ID"), 4),
     Chars("Version", C(k, "MQTMC_VERSION_2"), 4),
     Chars("QName", [], 48),
     Chars("ProcessName", [], 48),
     Chars("TriggerData", [], 64),
     Chars("ApplType", [], 4),
     Chars("ApplId", [], 256),
     Chars("EnvData", [], 128),
     Chars("UserData", [], 128),
     Chars("QMgrName", [], 48)]
  }

  /** The class attributes `cd._mqcd_version` and `cd._mqcd_current_length`: the names of
      the MQCD version and length constants for the highest level built in. */
  function CdVersionNames(levels: set<string>): (string, string) {
    if "7.5" in levels then ("MQCD_VERSION_10", "MQCD_LENGTH_10")
    else if "7.0" in levels then ("MQCD_VERSION_9", "MQCD_LENGTH_9")
    else if "6.0" in levels then ("MQCD_VERSION_8", "MQCD_LENGTH_8")
    else if "5.3" in levels then ("MQCD_VERSION_7", "MQCD_LENGTH_7")
    else ("MQCD_VERSION_6", "MQCD_LENGTH_6")
  }

  /** The MQCD members every level has, with the defaults of `Version` and
      `StrucLength`. */
  function CdBase(k: Consts, version: int, length: int): seq<Member> {
    CdChannel(k, version) + CdExits(k) + CdConnection(k, length) + CdPointers()
  }

  /** MQCD members 0-16: the channel's names, batch size and retry counts. */
  function CdChannel(k: Consts, version: int): seq<Member> {
    [Chars("ChannelName", [], 20),
     MqLong("Version", version),
     MqLong("ChannelType", N(k, "MQCHT_SENDER")),
     MqLong("TransportType", N(k, "MQXPT_LU62")),
     Chars("Desc", [], 64),
     Chars("QMgrName", [], 48),
     Chars("XmitQName", [], 48),
     Chars("ShortConnectionName", [], 20),
     Chars("MCAName", [], 20),
     Chars("ModeName", [], 8),
     Chars("TpName", [], 64),
     MqLong("BatchSize", 50),
     MqLong("DiscInterval", 6000),
     MqLong("ShortRetryCount", 10),
     MqLong("ShortRetryInterval", 60),
     MqLong("LongRetryCount", 999999999),
     MqLong("LongRetryInterval", 1200)]
  }

  /** MQCD members 17-31: exit names, limits and user identities. */
  function CdExits(k: Consts): seq<Member> {
    [Chars("SecurityExit", [], 128),
     Chars("MsgExit", [], 128),
     Chars("SendExit", [], 128),
     Chars("ReceiveExit", [], 128),
     MqLong("SeqNumberWrap", 999999999),
     MqLong("MaxMsgLength", 4194304),
     MqLong("PutAuthority", N(k, "MQPA_DEFAULT")),
     MqLong("DataConversion", N(k, "MQCDC_NO_SENDER_CONVERSION")),
     Chars("SecurityUserData", [], 32),
     Chars("MsgUserData", [], 32),
     Chars("SendUserData", [], 32),
     Chars("ReceiveUserData", [], 32),
     Chars("UserIdentifier", [], 12),
     Chars("Password", [], 12),
     Chars("MCAUserIdentifier", [], 12)]
  }

  /** MQCD members 32-48: connection, message retry, `StrucLength` and exit counts. */
  function CdConnection(k: Consts, length: int): seq<Member> {
    [MqLong("MCAType", N(k, "MQMCAT_PROCESS")),
     Chars("ConnectionName", [], 264),
     Chars("RemoteUserIdentifier", [], 12),
     Chars("RemotePassword", [], 12),
     Chars("MsgRetryExit", [], 128),
     Chars("MsgRetryUserData", [], 32),
     MqLong("MsgRetryCount", 10),
     MqLong("MsgRetryInterval", 1000),
     MqLong("HeartbeatInterval", 300),
     MqLong("BatchInterval", 0),
     MqLong("NonPersistentMsgSpeed", N(k, "MQNPMS_FAST")),
     MqLong("StrucLength", length),
     MqLong("ExitNameLength", N(k, "MQ_EXIT_NAME_LENGTH")),
     MqLong("ExitDataLength", N(k, "MQ_EXIT_DATA_LENGTH")),
     MqLong("MsgExitsDefined", 0),
     MqLong("SendExitsDefined", 0),
     MqLong("ReceiveExitsDefined", 0)]
  }

  /** MQCD members 49-63: exit and cluster pointers and the security ids. */
  function CdPointers(): seq<Member> {
    [Pointer("MsgExitPtr"),
     Pointer("MsgUserDataPtr"),
     Pointer("SendExitPtr"),
     Pointer("SendUserDataPtr"),
     Pointer("ReceiveExitPtr"),
     Pointer("ReceiveUserDataPtr"),
     Pointer("ClusterPtr"),
     MqLong("ClustersDefined", 0),
     MqLong("NetworkPriority", 0),
     MqLong("LongMCAUserIdLength", 0),
     MqLong("LongRemoteUserIdLength", 0),
     Pointer("LongMCAUserIdPtr"),
     Pointer("LongRemoteUserIdPtr"),
     Chars("MCASecurityId", [], 40),
     Chars("RemoteSecurityId", [], 40)]
  }

  /** The SSL members (level 5.3). */
  function CdSsl(): seq<Member> {
    [Chars("SSLCipherSpec", [], 32),
     Pointer("SSLPeerNamePtr"),
     MqLong("SSLPeerNameLength", 0),
     MqLong("SSLClientAuth", 0),
     MqLong("KeepAliveInterval", -1),
     Chars("LocalAddress", [], 48),
     MqLong("BatchHeartbeat", 0)]
  }

  /** The level 6.0 members, with the two compression lists. */
  function CdV6(): seq<Member> {
    [Longs("HdrCompList", [0, -1]),
     Longs("MsgCompList", [0] + seq(15, _ => -1)),
     MqLong("CLWLChannelRank", 0),
     MqLong("CLWLChannelPriority", 0),
     MqLong("CLWLChannelWeight", 50),
     MqLong("ChannelMonitoring", 0),
     MqLong("ChannelStatistics", 0)]
  }

  /** The level 7.0 members. */
  function CdV7(): seq<Member> {
    [MqLong("SharingConversations", 10),
     MqLong("PropertyControl", 0),
     MqLong("MaxInstances", 999999999),
     MqLong("MaxInstancesPerClient", 999999999),
     MqLong("ClientChannelWeight", 0),
     MqLong("ConnectionAffinity", 1)]
  }

  /** The level 7.1 members. */
  function CdV71(): seq<Member> {
    [MqLong("BatchDataLimit", 5000), MqLong("UseDLQ", 2), MqLong("DefReconnect", 0)]
  }

  /** MQCD. Without level 5.3 `Version` is overwritten with `MQCD_VERSION_6`, while
      `StrucLength` keeps the length chosen from the highest level. */
  function Cd(env: Env): seq<Member> {
    var (versionName, lengthName) := CdVersionNames(env.levels);
    var version := if "5.3" in env.levels then N(env.k, versionName) else N(env.k, "MQCD_VERSION_6");
    CdBase(env.k, version, N(env.k, lengthName)) + CdLevelMembers(env.levels)
  }

  /** The MQCD members each level adds; below 7.1 a 4-byte `pad` ends the list. */
  function CdLevelMembers(levels: set<string>): seq<Member> {
    CdBelow71(levels) + (if "7.1" in levels then CdV71() else [Chars("pad", [], 4)])
  }

  /** The MQCD members levels 5.3, 6.0 and 7.0 add. */
  function CdBelow71(levels: set<string>): seq<Member> {
    (if "5.3" in levels then CdSsl() else []) +
    (if "6.0" in levels then CdV6() else []) +
    (if "7.0" in levels then CdV7() else [])
  }

  /** MQSCO; level 6.0 adds `KeyResetCount` and `FipsRequired`. */
  function Sco(env: Env): seq<Member> {
    ScoBase(env.k) +
    (if "6.0" in env.levels then [MqLong("KeyResetCount", 0), MqLong("FipsRequired", 0)] else [])
  }

  /** The MQSCO members every level has. */
  function ScoBase(k: Consts): seq<Member> {
    [Chars("StrucId", C(k, "MQSCO_STRUC_ID"), 4),
     MqLong("Version", N(k, "MQSCO_VERSION_1")),
     Chars("KeyRepository", [], 256),
     Chars("CryptoHardware", [], 256),
     MqLong("AuthInfoRecCount", 0),
     MqLong("AuthInfoRecOffset", 0),
     Pointer("AuthInfoRecPtr")]
  }

  /** MQSD, the subscription descriptor. */
  function Sd(k: Consts): seq<Member> {
    SdHead(k) + CharV("ObjectString") + CharV("SubName") + SdTail(k)
  }

  /** The MQSD members before `ObjectString`. */
  function SdHead(k: Consts): seq<Member> {
    [Chars("StrucId", C(k, "MQSD_STRUC_ID"), 4),
     MqLong("Version", N(k, "MQSD_VERSION_1")),
     MqLong("Options", N(k, "MQSO_NON_DURABLE")),
     Chars("ObjectName", [], 48),
     Chars("AlternateUserId", [], 12),
     Chars("AlternateSecurityId", C(k, "MQSID_NONE"), 40),
     MqLong("SubExpiry", N(k, "MQEI_UNLIMITED"))]
  }

  /** The MQSD members after `SubName`. */
  function SdTail(k: Consts): seq<Member> {
    CharV("SubUserData") +
    [Chars("SubCorrelId", C(k, "MQCI_NONE"), 24),
     MqLong("PubPriority", N(k, "MQPRI_PRIORITY_AS_Q_DEF")),
     Chars("PubAccountingToken", C(k, "MQACT_NONE"), 32),
     Chars("PubApplIdentityData", [], 32)] +
    CharV("SelectionString") + [MqLong("SubLevel", 0)] + CharV("ResObjectString")
  }

  /** MQSRO, the subscription request options. */
  function Sro(k: Consts): seq<Member> {
    [Chars("StrucId", C(k, "MQSRO_STRUC_ID"), 4),
     MqLong("Version", N(k, "MQSRO_VERSION_1")),
     MqLong("Options", N(k, "MQSRO_FAIL_IF_QUIESCING")),
     MqLong("NumPubs", 0)]
  }

  /** MQCMHO, the create-message-handle options. */
  function Cmho(k: Consts): seq<Member> {
    [Chars("StrucId", C(k, "MQCMHO_STRUC_ID"), 4),
     MqLong("Version", N(k, "MQCMHO_VERSION_1")),
     MqLong("Options", N(k, "MQCMHO_DEFAULT_VALIDATION"))]
  }

  /** MQPD, the property descriptor. */
  function Pd(k: Consts): seq<Member> {
    [Chars("StrucId", C(k, "MQPD_STRUC_ID"), 4),
     MqLong("Version", N(k, "MQPD_VERSION_1")),
     MqLong("Options", N(k, "MQPD_NONE")),
     MqLong("Support", N(k, "MQPD_SUPPORT_OPTIONAL")),
     MqLong("Context", N(k, "MQPD_NO_CONTEXT")),
     MqLong("CopyOptions", N(k, "MQCOPY_DEFAULT"))]
  }

  /** MQSMPO, the set-message-property options. */
  function Smpo(k: Consts): seq<Member> {
    [Chars("StrucId", C(k, "MQSMPO_STRUC_ID"), 4),
     MqLong("Version", N(k, "MQSMPO_VERSION_1")),
     MqLong("Options", N(k, "MQSMPO_SET_FIRST")),
     MqLong("ValueEncoding", N(k, "MQENC_NATIVE")),
     MqLong("ValueCCSID", N(k, "MQCCSI_APPL"))]
  }

  /** MQIMPO, the inquire-message-property options. */
  function Impo(k: Consts): seq<Member> {
    [Chars("StrucId", C(k, "MQIMPO_STRUC_ID"), 4),
     MqLong("Version", N(k, "MQIMPO_VERSION_1")),
     MqLong("Options", N(k, "MQIMPO_INQ_FIRST")),
     MqLong("RequestedEncoding", N(k, "MQENC_NATIVE")),
     MqLong("RequestedCCSID", N(k, "MQCCSI_APPL")),
     MqLong("ReturnedEncoding", N(k, "MQENC_NATIVE")),
     MqLong("ReturnedCCSID", 0),
     MqLong("Reserved1", 0)] +
    CharV("ReturnedName") + [Chars("TypeString", [], 8)]
  }

  /** The member list the constructor of each class hands to `MQOpts.__init__`. */
  function Schema(env: Env, kind: Kind): seq<Member> {
    match kind
    case GMO => Gmo(env)
    case PMO => Pmo(env)
    case OD => Od(env)
    case MD => Md(env.k)
    case RFH2 => Rfh2Initial(env.k)
    case TM => Tm(env.k)
    case TMC2 => Tmc2(env.k)
    case CD => Cd(env)
    case SCO => Sco(env)
    case SD => Sd(env.k)
    case SRO => Sro(env.k)
    case CMHO => Cmho(env.k)
    case PD => Pd(env.k)
    case SMPO => Smpo(env.k)
    case IMPO => Impo(env.k)
  }

  /** `gmo(**kw)`, `od(**kw)`, ...: the structure with its defaults, then the keywords. */
  function New(env: Env, kind: Kind, kw: seq<(string, Value)>): (r: Result<Struct, Error>)
    ensures r.Ok? <==> forall i :: 0 <= i < |kw| ==> kw[i].0 in NameSet(Schema(env, kind))
    ensures r.Ok? ==> r.value.kind == kind && r.value.fields == Schema(env, kind) && Wf(r.value)
    ensures r.Ok? ==> ValidFormat(r.value.fields) && Native(r.value.fields)
    ensures r.Ok? && DistinctKeys(kw) ==> forall i :: 0 <= i < |kw| ==> r.value.store[kw[i].0] == kw[i].1
  {
    MembersCompile(Schema(env, kind));
    Create(kind, Schema(env, kind), kw)
  }

  // ---------------------------------------------------------------------------
  // The classes the verbs build
  // ---------------------------------------------------------------------------

  /** `od(**kw)`. The queue, topic and queue manager methods build their structures
      through these class constructors: each is `New` at its kind, with the member list
      of that class named directly. */
  function NewOd(env: Env, kw: seq<(string, Value)>): Result<Struct, Error> {
    Create(OD, Od(env), kw)
  }

  /** `md(**kw)`. */
  function NewMd(env: Env, kw: seq<(string, Value)>): Result<Struct, Error> {
    Create(MD, Md(env.k), kw)
  }

  /** `pmo(**kw)`. */
  function NewPmo(env: Env, kw: seq<(string, Value)>): Result<Struct, Error> {
    Create(PMO, Pmo(env), kw)
  }

  /** `gmo(**kw)`. */
  function NewGmo(env: Env, kw: seq<(string, Value)>): Result<Struct, Error> {
    Create(GMO, Gmo(env), kw)
  }

  /** `cd(**kw)`. */
  function NewCd(env: Env, kw: seq<(string, Value)>): Result<Struct, Error> {
    Create(CD, Cd(env), kw)
  }

  /** `sd(**kw)`. */
  function NewSd(env: Env, kw: seq<(string, Value)>): Result<Struct, Error> {
    Create(SD, Sd(env.k), kw)
  }

  /** The MQOD members the verbs set by name. */
  lemma OdNames(env: Env)
    ensures "Version" in NameSet(Od(env)) && "ObjectType" in NameSet(Od(env))
    ensures "ObjectName" in NameSet(Od(env)) && "ObjectQMgrName" in NameSet(Od(env))
  {
    assert Od(env)[1].name == "Version" && Od(env)[2].name == "ObjectType";
    assert Od(env)[3].name == "ObjectName" && Od(env)[4].name == "ObjectQMgrName";
  }

  /** The MQSD members before `ObjectString` are seven, `Options` and `ObjectName` among
      them. */
  lemma SdHeadNames(k: Consts)
    ensures |SdHead(k)| == 7 && SdHead(k)[2].name == "Options" && SdHead(k)[3].name == "ObjectName"
  {
  }

  /** A live structure with an MQCHARV group among its members has its five members. */
  lemma VsBetween(s: Struct, a: seq<Member>, base: string, c: seq<Member>)
    requires Wf(s) && s.fields == a + CharV(base) + c
    ensures HasVS(s, base)
  {
    var i := |a|;
    assert s.fields[i].name == base + "VSPtr" && s.fields[i + 1].name == base + "VSOffset";
    assert s.fields[i + 2].name == base + "VSBufSize" && s.fields[i + 3].name == base + "VSLength";
    assert s.fields[i + 4].name == base + "VSCCSID";
  }

  /** The MQOD members after `ObjectString` at level 7.0. */
  function OdAfterObjectString(): seq<Member> {
    CharV("SelectionString") + CharV("ResObjectString") + [MqLong("ResolvedType", -3), Chars("pad", [], 4)]
  }

  /** At level 7.0 the MQCHARV `ObjectString` follows the MQOD base members. */
  lemma OdSplit(env: Env)
    requires "7.0" in env.levels
    ensures Od(env) == OdBase(env.k) + CharV("ObjectString") + OdAfterObjectString()
  {
  }

  /** MQSD is its head, `ObjectString`, `SubName` and its tail. */
  lemma SdSplit(k: Consts)
    ensures Sd(k) == SdHead(k) + CharV("ObjectString") + (CharV("SubName") + SdTail(k))
    ensures Sd(k) == (SdHead(k) + CharV("ObjectString")) + CharV("SubName") + SdTail(k)
  {
  }

  // ---------------------------------------------------------------------------
  // Properties of the structures
  // ---------------------------------------------------------------------------

  /** Level 7.0 appends `Reserved2` and `MsgHandle` to MQGMO, and nothing else. */
  lemma GmoGate(env: Env)
    ensures Gmo(env.(levels := env.levels + {"7.0"})) ==
            Gmo(env.(levels := env.levels - {"7.0"})) + [MqLong("Reserved2", 0), Int64("MsgHandle", 0)]
  {
  }

  /** Level 7.0 appends the two message handles, `Action` and `PubLevel` to MQPMO. */
  lemma PmoGate(env: Env)
    ensures Pmo(env.(levels := env.levels + {"7.0"})) ==
            Pmo(env.(levels := env.levels - {"7.0"})) +
            [Int64("OriginalMsgHandle", 0), Int64("NewMsgHandle", 0), MqLong("Action", 0), MqLong("PubLevel", 0)]
  {
  }

  /** Level 7.0 appends three MQCHARV strings, `ResolvedType` and the 64-bit pad to MQOD. */
  lemma OdGate(env: Env)
    ensures Od(env.(levels := env.levels + {"7.0"})) ==
            Od(env.(levels := env.levels - {"7.0"})) +
            CharV("ObjectString") + CharV("SelectionString") + CharV("ResObjectString") +
            [MqLong("ResolvedType", -3), Chars("pad", [], 4)]
  {
  }

  /** Level 6.0 appends `KeyResetCount` and `FipsRequired` to MQSCO. */
  lemma ScoGate(env: Env)
    ensures Sco(env.(levels := env.levels + {"6.0"})) ==
            Sco(env.(levels := env.levels - {"6.0"})) + [MqLong("KeyResetCount", 0), MqLong("FipsRequired", 0)]
  {
  }

  /** Level 5.3 puts the SSL members right after the MQCD base members. */
  lemma CdSslGate(levels: set<string>)
    ensures CdLevelMembers(levels + {"5.3"}) == CdSsl() + CdLevelMembers(levels - {"5.3"})
  {
  }

  /** Level 7.1 replaces the trailing 4-byte `pad` of MQCD with its three members. */
  lemma Cd71Gate(levels: set<string>)
    ensures var without := CdLevelMembers(levels - {"7.1"});
            |without| > 0 && CdLevelMembers(levels + {"7.1"}) == without[..|without| - 1] + CdV71()
  {
    var pre := CdBelow71(levels);
    assert "5.3" != "7.1" && "6.0" != "7.1" && "7.0" != "7.1";
    assert CdBelow71(levels - {"7.1"}) == pre == CdBelow71(levels + {"7.1"});
    assert (pre + [Chars("pad", [], 4)])[..|pre|] == pre;
  }

  /** The names of the version and length constants of MQCD version `v`, as the MQ
      headers number them. */
  function MqcdNames(v: nat): (string, string)
    requires 6 <= v <= 10
  {
    match v
    case 6 => ("MQCD_VERSION_6", "MQCD_LENGTH_6")
    case 7 => ("MQCD_VERSION_7", "MQCD_LENGTH_7")
    case 8 => ("MQCD_VERSION_8", "MQCD_LENGTH_8")
    case 9 => ("MQCD_VERSION_9", "MQCD_LENGTH_9")
    case _ => ("MQCD_VERSION_10", "MQCD_LENGTH_10")
  }

  /** MQ levels as a real build reports them: each level implies the ones below it. */
  predicate Nested(levels: set<string>) {
    ("7.5" in levels ==> "7.0" in levels) && ("7.0" in levels ==> "6.0" in levels) && ("6.0" in levels ==> "5.3" in levels)
  }

  lemma CdChannelLength(k: Consts, version: int)
    ensures |CdChannel(k, version)| == 17
  {
  }

  lemma CdChannelVersion(k: Consts, version: int)
    ensures CdChannel(k, version)[1] == MqLong("Version", version)
  {
  }

  lemma CdExitsLength(k: Consts)
    ensures |CdExits(k)| == 15
  {
  }

  lemma CdConnectionLength(k: Consts, length: int)
    ensures |CdConnection(k, length)| == 17
  {
  }

  lemma CdConnectionStrucLength(k: Consts, length: int)
    ensures CdConnection(k, length)[11] == MqLong("StrucLength", length)
  {
  }

  /** `Version` is member 1 of MQCD and `StrucLength` member 43. */
  lemma CdBaseVersion(k: Consts, version: int, length: int)
    ensures |CdBase(k, version, length)| > 43
    ensures CdBase(k, version, length)[1] == MqLong("Version", version)
    ensures CdBase(k, version, length)[43] == MqLong("StrucLength", length)
  {
    CdChannelLength(k, version);
    CdChannelVersion(k, version);
    CdExitsLength(k);
    CdConnectionLength(k, length);
    CdConnectionStrucLength(k, length);
    var a := CdChannel(k, version);
    var b := CdExits(k);
    var c := CdConnection(k, length);
    var d := CdPointers();
    assert CdBase(k, version, length) == a + b + c + d;
    assert (a + b + c + d)[43] == c[11];
  }

  /** The MQCD version chosen from the highest level built in, 6 to 10. */
  function CdVersionNumber(levels: set<string>): (v: nat)
    ensures 6 <= v <= 10
  {
    if "7.5" in levels then 10 else if "7.0" in levels then 9 else if "6.0" in levels then 8
    else if "5.3" in levels then 7 else 6
  }

  /** On a real build the default `Version` and `StrucLength` of an MQCD name the same MQCD
      version, the one of the highest level built in. */
  lemma CdVersionAgrees(env: Env)
    requires Nested(env.levels)
    ensures |Cd(env)| > 43
    ensures exists v :: 6 <= v <= 10 &&
                        Cd(env)[1] == MqLong("Version", N(env.k, MqcdNames(v).0)) &&
                        Cd(env)[43] == MqLong("StrucLength", N(env.k, MqcdNames(v).1))
  {
    var (vn, ln) := CdVersionNames(env.levels);
    var version := if "5.3" in env.levels then N(env.k, vn) else N(env.k, "MQCD_VERSION_6");
    CdBaseVersion(env.k, version, N(env.k, ln));
    assert MqcdNames(CdVersionNumber(env.levels)) == CdVersionNames(env.levels);
  }

  /** Without level 5.3 the `Version` overwrite pins MQCD version 6, while `StrucLength`
      still follows the highest level: the two disagree exactly when a level of 6.0 or
      above is present. */
  lemma CdVersionWithoutSsl(env: Env)
    requires "5.3" !in env.levels
    ensures |Cd(env)| > 43
    ensures Cd(env)[1] == MqLong("Version", N(env.k, "MQCD_VERSION_6"))
    ensures Cd(env)[43] == MqLong("StrucLength", N(env.k, MqcdNames(CdVersionNumber(env.levels)).1))
    ensures CdVersionNumber(env.levels) != 6 <==> "6.0" in env.levels || "7.0" in env.levels || "7.5" in env.levels
  {
    var (vn, ln) := CdVersionNames(env.levels);
    CdBaseVersion(env.k, N(env.k, "MQCD_VERSION_6"), N(env.k, ln));
    assert MqcdNames(CdVersionNumber(env.levels)) == CdVersionNames(env.levels);
  }

  /** A preamble laid out as the RFH2 one (`'4s'`, four `MQLONG_TYPE`s, `'8s'`, two
      `MQLONG_TYPE`s) spans 36 bytes in either byte order: native alignment adds nothing. */
  lemma PreambleSize(f: seq<Field>)
    requires ValidFormat(f) && |f| == 8
    requires f[0].fmt.spec == Str(4) &&
      f[1].fmt.spec == Rep(1, Long) &&
      f[2].fmt.spec == Rep(1, Long) &&
      f[3].fmt.spec == Rep(1, Long) &&
      f[4].fmt.spec == Rep(1, Long) &&
      f[5].fmt.spec == Str(8) &&
      f[6].fmt.spec == Rep(1, Long) &&
      f[7].fmt.spec == Rep(1, Long)
    ensures Size(f) == 36
  {
    var n := Native(f);
    AlignedStep(f, 7, 32, n);
    assert f[8..] == [];
    AlignedStep(f, 6, 28, n);
    AlignedStep(f, 5, 20, n);
    AlignedStep(f, 4, 16, n);
    assert EndOf(f[4..], 16, n) == 36;
    PreambleFront(f, n);
    SizeIsEnd(f);
  }

  /** The first four members of the RFH2 preamble span 16 bytes. */
  lemma PreambleFront(f: seq<Field>, n: bool)
    requires ValidFormat(f) && |f| == 8
    requires f[0].fmt.spec == Str(4) && f[1].fmt.spec == Rep(1, Long) &&
      f[2].fmt.spec == Rep(1, Long) && f[3].fmt.spec == Rep(1, Long)
    ensures ValidFormat(f[4..]) && EndOf(f, 0, n) == EndOf(f[4..], 16, n)
  {
    AlignedStep(f, 0, 0, n);
    AlignedStep(f, 1, 4, n);
    AlignedStep(f, 2, 8, n);
    AlignedStep(f, 3, 12, n);
    assert f[0..] == f;
  }

  /** A string member, or a single `MQLONG_TYPE` at a four-byte boundary, adds its own
      size to the running offset and no padding. */
  lemma AlignedStep(f: seq<Field>, k: nat, off: nat, native: bool)
    requires ValidFormat(f) && k < |f| && off % 4 == 0
    requires f[k].fmt.spec.Str? || f[k].fmt.spec == Rep(1, Long)
    ensures ValidFormat(f[k..]) && ValidFormat(f[k + 1..])
    ensures EndOf(f[k..], off, native) == EndOf(f[k + 1..], off + SpecSize(f[k].fmt.spec), native)
  {
    EndOfStep(f, k, off, native);
    assert Gap(off, f[k].fmt.spec, native) == 0;
  }

  /** The RFH2 preamble is the 36 bytes `RFH2.unpack` reads before the folders. */
  lemma Rfh2InitialSize(k: Consts)
    ensures Size(Rfh2Initial(k)) == 36
  {
    MembersCompile(Rfh2Initial(k));
    PreambleSize(Rfh2Initial(k));
  }
}

=== FILE: topic.dfy ===
/** `Topic` and `Subscription` (code/pymqi.py:1789-2126): publish and subscribe. A topic
    keeps a handle, a descriptor and open options exactly as a `Queue` does and opens on
    the same terms, so its MQOPEN, MQPUT and MQCLOSE are the queue's, raising the topic's
    own `PYIFError`s. */
module Topics {
  import opened Wrappers
  import opened Bytes
  import opened Wire
  import opened Errors
  import opened Consts
  import opened MQOpts
  import opened Transport
  import opened QArgs
  import opened QMgr
  import opened Queues

  /** A string argument Python treats as given: not `None` and not empty. */
  predicate Given(s: Option<bytes>) {
    s.Some? && |s.value| > 0
  }

  // ---------------------------------------------------------------------------
  // Topic
  // ---------------------------------------------------------------------------

  /** A `Topic`: its handle, descriptor and open options, kept as a queue keeps them, and
      the topic name and topic string. */
  datatype Topic = Topic(obj: Queue, name: Option<bytes>, str: Option<bytes>)

  predicate TopicWf(t: Topic) {
    QueueWf(t.obj)
  }

  /** A step of the queue part seen as a step of the topic. */
  function Lift<T>(t: Topic, s: Step<Queue, T>): Step<Topic, T> {
    Step(t.(obj := s.state), s.world, s.result)
  }

  /** The checks `Topic(...)` makes of a descriptor it is given: `ObjectType` must be
      `MQOT_TOPIC`, then `Version` must be `MQOD_VERSION_4`; a structure without either
      member raises `AttributeError`. */
  function CheckTopicDesc(env: Env, d: Struct): (r: Result<(), Error>)
    ensures r.Ok? <==> && "ObjectType" in d.store && d.store["ObjectType"] == One(I(N(env.k, "MQOT_TOPIC")))
                       && "Version" in d.store && d.store["Version"] == One(I(N(env.k, "MQOD_VERSION_4")))
    ensures "ObjectType" in d.store && d.store["ObjectType"] != One(I(N(env.k, "MQOT_TOPIC"))) ==>
      r == Err(PYIFError(TopicObjectType))
    ensures "ObjectType" in d.store && d.store["ObjectType"] == One(I(N(env.k, "MQOT_TOPIC"))) &&
            "Version" in d.store && d.store["Version"] != One(I(N(env.k, "MQOD_VERSION_4"))) ==>
      r == Err(PYIFError(TopicVersion))
  {
    match GetItem(d, "ObjectType")
    case Err(e) => Err(e)
    case Ok(ty) =>
      if ty != One(I(N(env.k, "MQOT_TOPIC"))) then Err(PYIFError(TopicObjectType))
      else
        match GetItem(d, "Version")
        case Err(e) => Err(e)
        case Ok(v) => if v != One(I(N(env.k, "MQOD_VERSION_4"))) then Err(PYIFError(TopicVersion)) else Ok(())
  }

  /** The `od()` of `__create_topic_desc` before its topic string: `ObjectType`
      `MQOT_TOPIC`, `Version` `MQOD_VERSION_4`, and the topic name when one is given. */
  function TopicOd(env: Env, f: Fresh, name: Option<bytes>): (d: Struct)
    requires FreshWf(f)
    ensures d.kind == OD && Wf(d) && d.fields == f.od.fields && d.store.Keys == f.od.store.Keys
    ensures d.store["ObjectType"] == One(I(N(env.k, "MQOT_TOPIC")))
    ensures d.store["Version"] == One(I(N(env.k, "MQOD_VERSION_4")))
    ensures d.store["ObjectName"] == if Given(name) then One(S(name.value)) else f.od.store["ObjectName"]
  {
    var d0 := SetItem(f.od, "ObjectType", One(I(N(env.k, "MQOT_TOPIC")))).value;
    var d1 := SetItem(d0, "Version", One(I(N(env.k, "MQOD_VERSION_4")))).value;
    if Given(name) then SetItem(d1, "ObjectName", One(S(name.value))).value else d1
  }

  /** `__create_topic_desc(name, string)`: the topic `od()`, with the topic string set as
      its MQCHARV `ObjectString` when one is given. */
  function CreateTopicDesc(env: Env, f: Fresh, mem: Mem, name: Option<bytes>, str: Option<bytes>): (r: VsOutcome)
    requires FreshWf(f) && MemWf(mem)
    ensures MemWf(r.mem) && r.s.kind == OD && Wf(r.s) && r.s.fields == f.od.fields
    ensures !Given(str) ==> r.mem == mem && r.err.None?
  {
    var d := TopicOd(env, f, name);
    if Given(str) then SetVS(d, mem, "ObjectString", str, 0, 0, 0) else VsOutcome(d, mem, None)
  }

  /** `__real_open()`: refused without a descriptor, otherwise the queue's MQOPEN. */
  function RealOpenTopic(t: Topic, qm: QueueManager, b: Broker, w: World): (r: Step<Topic, ()>)
    requires TopicWf(t)
    ensures TopicWf(r.state) && r.state.name == t.name && r.state.str == t.str
    ensures r.world.mem == w.mem
  {
    if t.obj.desc.None? then Step(t, w, Err(PYIFError(TopicDescNotSet)))
    else Lift(t, RealOpen(t.obj, qm, b, w))
  }

  /** The descriptor the constructor and `open` settle on: the one passed, or one built
      from the topic name and string. Building it may raise, leaving the descriptor as
      it was. */
  function WithDesc(t: Topic, env: Env, f: Fresh, w: World, desc: Option<Struct>): (r: Step<Topic, ()>)
    requires TopicWf(t) && FreshWf(f) && MemWf(w.mem) && (desc.Some? ==> Wf(desc.value))
    ensures TopicWf(r.state) && MemWf(r.world.mem) && r.world.log == w.log
    ensures r.state.obj.handle == t.obj.handle && r.state.obj.openOpts == t.obj.openOpts
    ensures r.state.name == t.name && r.state.str == t.str
  {
    match desc
    case Some(d) => Step(t.(obj := t.obj.(desc := Some(d))), w, Ok(()))
    case None =>
      var c := CreateTopicDesc(env, f, w.mem, t.name, t.str);
      if c.err.Some? then Step(t, w.(mem := c.mem), Err(c.err.value))
      else Step(t.(obj := t.obj.(desc := Some(c.s))), w.(mem := c.mem), Ok(()))
  }

  /** `if open_opts: self.__open_opts = open_opts; self.__real_open()`. */
  function OpenIfAsked(t: Topic, qm: QueueManager, b: Broker, w: World, openOpts: Option<int>): (r: Step<Topic, ()>)
    requires TopicWf(t)
    ensures TopicWf(r.state) && r.world.mem == w.mem
    ensures !Truthy(openOpts) ==> r == Step(t, w, Ok(()))
  {
    if Truthy(openOpts) then RealOpenTopic(t.(obj := t.obj.(openOpts := openOpts)), qm, b, w)
    else Step(t, w, Ok(()))
  }

  /** `Topic(qmgr, topic_name, topic_string, topic_desc, open_opts)`. A descriptor passed
      in is checked; without one a descriptor is built from the name and string. The
      topic is opened at once exactly when open options are given. */
  function NewTopic(qm: QueueManager, b: Broker, w: World, env: Env, f: Fresh, name: Option<bytes>,
                    str: Option<bytes>, desc: Option<Struct>, openOpts: Option<int>): (r: Step<Topic, ()>)
    requires FreshWf(f) && MemWf(w.mem) && (desc.Some? ==> Wf(desc.value))
    ensures TopicWf(r.state) && MemWf(r.world.mem)
    ensures r.state.name == name && r.state.str == str
  {
    var t := Topic(Queue(None, desc, openOpts), name, str);
    if desc.Some? && CheckTopicDesc(env, desc.value).Err? then Step(t, w, Err(CheckTopicDesc(env, desc.value).error))
    else
      var d := WithDesc(t, env, f, w, desc);
      if d.result.Err? then d else OpenIfAsked(d.state, qm, b, d.world, openOpts)
  }

  /** `open(topic_name, topic_string, topic_desc, open_opts)`: refused on an open topic;
      a given name or string replaces the topic's own, the descriptor is settled (a
      descriptor passed here is not checked), and the topic is opened when open options
      are given. */
  function OpenTopic(t: Topic, qm: QueueManager, b: Broker, w: World, env: Env, f: Fresh, name: Option<bytes>,
                     str: Option<bytes>, desc: Option<Struct>, openOpts: Option<int>): (r: Step<Topic, ()>)
    requires TopicWf(t) && FreshWf(f) && MemWf(w.mem) && (desc.Some? ==> Wf(desc.value))
    ensures TopicWf(r.state) && MemWf(r.world.mem)
    ensures Truthy(t.obj.handle) ==> r == Step(t, w, Err(PYIFError(TopicAlreadyOpen)))
  {
    if Truthy(t.obj.handle) then Step(t, w, Err(PYIFError(TopicAlreadyOpen)))
    else
      var t1 := t.(name := if Given(name) then name else t.name, str := if Given(str) then str else t.str);
      var d := WithDesc(t1, env, f, w, desc);
      if d.result.Err? then d else OpenIfAsked(d.state, qm, b, d.world, openOpts)
  }

  /** The open `pub` makes first on a topic that is not open: open options
      `MQOO_OUTPUT`, then `__real_open`. */
  function LazyOpenTopic(t: Topic, qm: QueueManager, b: Broker, w: World, env: Env): (r: Step<Topic, ()>)
    requires TopicWf(t)
    ensures TopicWf(r.state) && r.state.name == t.name && r.state.str == t.str
    ensures Truthy(t.obj.handle) ==> r == Step(t, w, Ok(()))
    ensures !Truthy(t.obj.handle) && t.obj.desc.None? ==>
      r == Step(t.(obj := t.obj.(openOpts := Some(N(env.k, "MQOO_OUTPUT")))), w, Err(PYIFError(TopicDescNotSet)))
    ensures !Truthy(t.obj.handle) && t.obj.desc.Some? ==> r == Lift(t, LazyOpen(t.obj, qm, b, w, N(env.k, "MQOO_OUTPUT")))
  {
    if Truthy(t.obj.handle) then Step(t, w, Ok(()))
    else RealOpenTopic(t.(obj := t.obj.(openOpts := Some(N(env.k, "MQOO_OUTPUT")))), qm, b, w)
  }

  /** `pub(msg, *opts)`: the optional descriptor and options as `put` takes them, a lazy
      open for output, then MQPUT on the topic handle. Returns the refreshed descriptor
      and options. */
  function Pub(t: Topic, qm: QueueManager, b: Broker, w: World, env: Env, f: Fresh, msg: bytes,
               opts: seq<Option<Struct>>): (r: Step<Topic, (Struct, Struct)>)
    requires TopicWf(t) && FreshWf(f) && AllWf(opts)
    ensures TopicWf(r.state)
    ensures |opts| > 2 ==> r == Step(t, w, Err(TypeError(TooManyArgs)))
  {
    match MsgStructs(f, opts, f.pmo)
    case Err(e) => Step(t, w, Err(e))
    case Ok((md, pmo)) =>
      var o := LazyOpenTopic(t, qm, b, w, env);
      if o.result.Err? then Step(o.state, o.world, Err(o.result.error))
      else Lift(o.state, Send(o.state.obj, qm, b, o.world, md, pmo, msg))
  }

  /** `close(options)`: refused unless the topic is open, otherwise the queue's MQCLOSE,
      which on success forgets the handle, the descriptor and the open options. */
  function CloseTopic(t: Topic, qm: QueueManager, b: Broker, w: World, env: Env, options: Option<int>): (r: Step<Topic, ()>)
    ensures !Truthy(t.obj.handle) ==> r == Step(t, w, Err(PYIFError(TopicNotOpen)))
    ensures r.state.name == t.name && r.state.str == t.str
  {
    if !Truthy(t.obj.handle) then Step(t, w, Err(PYIFError(TopicNotOpen)))
    else Lift(t, CloseQueue(t.obj, qm, b, w, env, options))
  }

  /** `ObjectType`, `Version` and `ObjectName` are none of the MQCHARV members of
      `ObjectString`. */
  lemma TopicMembersNotObjectString()
    ensures VsBase("ObjectString") == "ObjectString"
    ensures "ObjectType" !in VsNames("ObjectString") && "Version" !in VsNames("ObjectString")
    ensures "ObjectName" !in VsNames("ObjectString")
  {
    assert !EndsWithVSPtr("ObjectString");
    ShortNotVs("ObjectType", "ObjectString");
    ShortNotVs("Version", "ObjectString");
    ShortNotVs("ObjectName", "ObjectString");
  }

  /** A descriptor `__create_topic_desc` builds passes the constructor's own checks and
      names the topic, whether or not setting the topic string raised. */
  lemma CreatedDescPassesCheck(env: Env, f: Fresh, mem: Mem, name: Option<bytes>, str: Option<bytes>)
    requires FreshWf(f) && MemWf(mem)
    ensures var r := CreateTopicDesc(env, f, mem, name, str);
      && CheckTopicDesc(env, r.s).Ok?
      && r.s.store["ObjectName"] == (if Given(name) then One(S(name.value)) else f.od.store["ObjectName"])
  {
    var d := TopicOd(env, f, name);
    if Given(str) {
      SetVSKeepsOthers(d, mem, "ObjectString", str, 0, 0, 0);
      TopicMembersNotObjectString();
    }
  }

  /** On an `od()` with the MQCHARV `ObjectString` (MQ 7.0 and later), a given topic
      string is set without error and `get_vs` reads it back. */
  lemma CreatedDescString(env: Env, f: Fresh, mem: Mem, name: Option<bytes>, str: Option<bytes>)
    requires FreshWf(f) && MemWf(mem) && HasVS(f.od, "ObjectString") && Given(str)
    ensures var r := CreateTopicDesc(env, f, mem, name, str);
      && r.err.None?
      && GetVS(r.s, r.mem, "ObjectString") == Ok(Some(UntilNul(str.value + [0])))
  {
    TopicMembersNotObjectString();
    SetVSGetVS(TopicOd(env, f, name), mem, "ObjectString", str, 0, 0, 0);
  }

  /** On an `od()` without the MQCHARV `ObjectString` (before MQ 7.0), a given topic string
      makes `__create_topic_desc` raise `AttributeError` for the pointer member. */
  lemma CreatedDescNeedsCharV(env: Env, f: Fresh, mem: Mem, name: Option<bytes>, str: Option<bytes>)
    requires FreshWf(f) && MemWf(mem) && VsPtrName("ObjectString") !in f.od.store && Given(str)
    ensures CreateTopicDesc(env, f, mem, name, str).err == Some(AttributeError(VsPtrName("ObjectString")))
  {
    SetVSMissing(TopicOd(env, f, name), mem, "ObjectString", str, 0, 0, 0);
  }

  /** The constructor's table without open options: a descriptor that fails the checks
      raises before anything else; without open options nothing is called and the topic
      is not open, and a passed descriptor that passes the checks is accepted as it is. */
  lemma ConstructionChecksTopic(qm: QueueManager, b: Broker, w: World, env: Env, f: Fresh, name: Option<bytes>,
                                str: Option<bytes>, desc: Option<Struct>, openOpts: Option<int>)
    requires FreshWf(f) && MemWf(w.mem) && (desc.Some? ==> Wf(desc.value))
    ensures var r := NewTopic(qm, b, w, env, f, name, str, desc, openOpts);
      && (desc.Some? && CheckTopicDesc(env, desc.value).Err? ==> r.world == w && r.result.Err?)
      && (!Truthy(openOpts) ==> r.world.log == w.log && r.state.obj.handle.None?)
      && (!Truthy(openOpts) && desc.Some? ==>
            r.world == w && (r.result.Ok? <==> CheckTopicDesc(env, desc.value).Ok?) && r.state.obj.desc == desc)
  {
    var t := Topic(Queue(None, desc, openOpts), name, str);
    if !(desc.Some? && CheckTopicDesc(env, desc.value).Err?) {
      var d := WithDesc(t, env, f, w, desc);
      if desc.Some? {
        assert d == Step(t.(obj := t.obj.(desc := desc)), w, Ok(()));
      }
      if d.result.Ok? && !Truthy(openOpts) {
        assert NewTopic(qm, b, w, env, f, name, str, desc, openOpts) == Step(d.state, d.world, Ok(()));
      }
    }
  }

  /** With open options, a successful construction made exactly one MQOPEN, with those
      options, and holds the handle it returned. */
  lemma ConstructionOpensTopic(qm: QueueManager, b: Broker, w: World, env: Env, f: Fresh, name: Option<bytes>,
                               str: Option<bytes>, desc: Option<Struct>, openOpts: Option<int>)
    requires FreshWf(f) && MemWf(w.mem) && (desc.Some? ==> Wf(desc.value))
    ensures var r := NewTopic(qm, b, w, env, f, name, str, desc, openOpts);
      Truthy(openOpts) && r.result.Ok? ==>
        && |r.world.log| == |w.log| + 1 && r.world.log[..|w.log|] == w.log
        && r.world.log[|w.log|].Open? && r.world.log[|w.log|].options == openOpts.value
        && r.state.obj.handle == Some(b(w.log, r.world.log[|w.log|]).handle)
  {
    var t := Topic(Queue(None, desc, openOpts), name, str);
    if !(desc.Some? && CheckTopicDesc(env, desc.value).Err?) {
      var d := WithDesc(t, env, f, w, desc);
      if d.result.Ok? {
        OpenIfAskedLogs(d.state, qm, b, d.world, openOpts);
      }
    }
  }

  /** A successful `open` on request appends one MQOPEN, with the requested options, and
      the topic takes the handle the broker answered. */
  lemma OpenIfAskedLogs(t: Topic, qm: QueueManager, b: Broker, w: World, openOpts: Option<int>)
    requires TopicWf(t)
    ensures var r := OpenIfAsked(t, qm, b, w, openOpts);
      Truthy(openOpts) && r.result.Ok? ==>
        && |r.world.log| == |w.log| + 1 && r.world.log[..|w.log|] == w.log
        && r.world.log[|w.log|].Open? && r.world.log[|w.log|].options == openOpts.value
        && r.state.obj.handle == Some(b(w.log, r.world.log[|w.log|]).handle)
  {
    if Truthy(openOpts) {
      var q := t.obj.(openOpts := openOpts);
      if RealOpen(q, qm, b, w).result.Ok? {
        assert RealOpen(q, qm, b, w).world.log == w.log + [OpenCall(q, qm).value];
      }
    }
  }

  /** A topic that an MQOPEN handed a non-zero handle refuses a second `open`. */
  lemma OpenedTopicRefusesOpen(t: Topic, qm: QueueManager, b: Broker, w: World, env: Env, f: Fresh,
                               desc: Option<Struct>, openOpts: Option<int>,
                               name2: Option<bytes>, str2: Option<bytes>, desc2: Option<Struct>, openOpts2: Option<int>)
    requires TopicWf(t) && FreshWf(f) && MemWf(w.mem) && (desc.Some? ==> Wf(desc.value)) && (desc2.Some? ==> Wf(desc2.value))
    requires OpenTopic(t, qm, b, w, env, f, None, None, desc, openOpts).result.Ok?
    requires OpenTopic(t, qm, b, w, env, f, None, None, desc, openOpts).state.obj.handle.Some?
    requires OpenTopic(t, qm, b, w, env, f, None, None, desc, openOpts).state.obj.handle != Some(0)
    ensures var r1 := OpenTopic(t, qm, b, w, env, f, None, None, desc, openOpts);
      OpenTopic(r1.state, qm, b, r1.world, env, f, name2, str2, desc2, openOpts2) ==
        Step(r1.state, r1.world, Err(PYIFError(TopicAlreadyOpen)))
  {
  }

  /** `pub` is the queue's `put` on the topic's handle, descriptor and open options: the
      same calls, the same result and the same new state, except that a topic with no
      descriptor and no handle raises the topic's own `PYIFError`. */
  lemma PubIsQueuePut(t: Topic, qm: QueueManager, b: Broker, w: World, env: Env, f: Fresh, msg: bytes,
                      opts: seq<Option<Struct>>)
    requires TopicWf(t) && FreshWf(f) && AllWf(opts)
    ensures t.obj.desc.Some? || Truthy(t.obj.handle) ==>
      Pub(t, qm, b, w, env, f, msg, opts) == Lift(t, PutMsg(t.obj, qm, b, w, env, f, msg, opts))
    ensures t.obj.desc.None? && !Truthy(t.obj.handle) && |opts| <= 2 ==>
      var out := t.obj.(openOpts := Some(N(env.k, "MQOO_OUTPUT")));
      && Pub(t, qm, b, w, env, f, msg, opts) == Step(t.(obj := out), w, Err(PYIFError(TopicDescNotSet)))
      && PutMsg(t.obj, qm, b, w, env, f, msg, opts) == Step(out, w, Err(PYIFError(QueueDescNotSet)))
  {
  }

  /** `pub` on a topic that is not open first opens it for output: a successful `pub`
      makes an MQOPEN with `MQOO_OUTPUT` and then one MQPUT on the handle it returned. */
  lemma PubOpensForOutput(t: Topic, qm: QueueManager, b: Broker, w: World, env: Env, f: Fresh, msg: bytes,
                          opts: seq<Option<Struct>>)
    requires TopicWf(t) && FreshWf(f) && AllWf(opts) && !Truthy(t.obj.handle)
    requires Pub(t, qm, b, w, env, f, msg, opts).result.Ok?
    ensures var r := Pub(t, qm, b, w, env, f, msg, opts);
      r.state.obj.handle.Some? && OpenedThen(w.log, r.world.log, N(env.k, "MQOO_OUTPUT"), IsPut, r.state.obj.handle.value, 1)
  {
    PubIsQueuePut(t, qm, b, w, env, f, msg, opts);
    PutOpensForOutput(t.obj, qm, b, w, env, f, msg, opts);
  }

  /** A successful `close` forgets the descriptor, so `pub` cannot reopen the topic: it
      raises the missing-descriptor `PYIFError` without calling anything, and a second
      `close` raises the not-open one. */
  lemma ClosedTopicCannotPub(t: Topic, qm: QueueManager, b: Broker, w: World, env: Env, f: Fresh,
                             options: Option<int>, msg: bytes, opts: seq<Option<Struct>>)
    requires TopicWf(t) && FreshWf(f) && AllWf(opts) && |opts| <= 2
    requires CloseTopic(t, qm, b, w, env, options).result.Ok?
    ensures var c := CloseTopic(t, qm, b, w, env, options);
      && c.state.obj == Unopened
      && Pub(c.state, qm, b, c.world, env, f, msg, opts) ==
           Step(c.state.(obj := Unopened.(openOpts := Some(N(env.k, "MQOO_OUTPUT")))), c.world, Err(PYIFError(TopicDescNotSet)))
      && CloseTopic(c.state, qm, b, c.world, env, options) == Step(c.state, c.world, Err(PYIFError(TopicNotOpen)))
  {
  }

  // ---------------------------------------------------------------------------
  // Subscription
  // ---------------------------------------------------------------------------

  /** An attribute only some paths assign: `Unset` until one does. */
  datatype Attr<T> = Unset | Val(v: T)

  /** A subscription queue as `sub` accepts it: a `Queue`, or a bare object handle. */
  datatype SubQueue = QueueObj(q: Queue) | HandleArg(h: int)

  /** A `Subscription`: the descriptor, the private subscription handle (assigned only by a
      successful `sub`), the subscription queue, and the name, options, topic name and
      topic string it was made with. */
  datatype Subscription = Subscription(desc: Option<Struct>, handle: Attr<Option<int>>, queue: Option<SubQueue>,
                                       name: Option<bytes>, opts: Option<int>,
                                       topicName: Option<bytes>, topicString: Option<bytes>)

  predicate SubWf(s: Subscription) {
    && (s.desc.Some? ==> Wf(s.desc.value))
    && (s.queue.Some? && s.queue.value.QueueObj? ==> QueueWf(s.queue.value.q))
  }

  /** `MQSO_CREATE + MQSO_NON_DURABLE + MQSO_MANAGED`: the options of a subscription made
      without any. */
  function DefaultSubOptions(env: Env): int {
    N(env.k, "MQSO_CREATE") + N(env.k, "MQSO_NON_DURABLE") + N(env.k, "MQSO_MANAGED")
  }

  /** The options `sub` writes into the `SD()` it builds. */
  function SubOptions(env: Env, subOpts: Option<int>): int {
    if Truthy(subOpts) then subOpts.value else DefaultSubOptions(env)
  }

  /** The first step of `sub`'s `SD()`: `sub_desc["Options"] = ...`. */
  function SdOptions(env: Env, f: Fresh, mem: Mem, subOpts: Option<int>): (r: VsOutcome)
    requires FreshWf(f) && MemWf(mem)
    ensures MemWf(r.mem) && r.s.kind == SD && Wf(r.s) && r.s.fields == f.sd.fields && r.s.store.Keys == f.sd.store.Keys
  {
    match SetItem(f.sd, "Options", One(I(SubOptions(env, subOpts))))
    case Err(e) => VsOutcome(f.sd, mem, Some(e))
    case Ok(d) => VsOutcome(d, mem, None)
  }

  /** The subscription name step of `sub`'s `SD()`: `set_vs("SubName", ...)` when given. */
  function SdSubName(v: VsOutcome, subName: Option<bytes>): (r: VsOutcome)
    requires MemWf(v.mem)
    ensures MemWf(r.mem) && r.s.kind == v.s.kind && r.s.fields == v.s.fields && r.s.store.Keys == v.s.store.Keys
  {
    if Given(subName) then SetVS(v.s, v.mem, "SubName", subName, 0, 0, 0) else v
  }

  /** The topic name step of `sub`'s `SD()`: `sub_desc["ObjectName"] = ...` when given. */
  function SdTopicName(v: VsOutcome, topicName: Option<bytes>): (r: VsOutcome)
    ensures r.mem == v.mem && r.s.kind == v.s.kind && r.s.fields == v.s.fields && r.s.store.Keys == v.s.store.Keys
  {
    if !Given(topicName) then v
    else
      match SetItem(v.s, "ObjectName", One(S(topicName.value)))
      case Err(e) => VsOutcome(v.s, v.mem, Some(e))
      case Ok(d) => VsOutcome(d, v.mem, None)
  }

  /** The topic string step of `sub`'s `SD()`: `set_vs("ObjectString", ...)` when given. */
  function SdTopicString(v: VsOutcome, topicString: Option<bytes>): (r: VsOutcome)
    requires MemWf(v.mem)
    ensures MemWf(r.mem) && r.s.kind == v.s.kind && r.s.fields == v.s.fields && r.s.store.Keys == v.s.store.Keys
  {
    if Given(topicString) then SetVS(v.s, v.mem, "ObjectString", topicString, 0, 0, 0) else v
  }

  /** The `SD()` `sub` builds when it is given none: the options, then the subscription
      name, the topic name and the topic string, each only when given; the first step
      that raises ends it. */
  function BuildSd(env: Env, f: Fresh, mem: Mem, subName: Option<bytes>, subOpts: Option<int>,
                   topicName: Option<bytes>, topicString: Option<bytes>): (r: VsOutcome)
    requires FreshWf(f) && MemWf(mem)
    ensures MemWf(r.mem) && r.s.kind == SD && Wf(r.s) && r.s.fields == f.sd.fields
  {
    var v0 := SdOptions(env, f, mem, subOpts);
    if v0.err.Some? then v0
    else
      var v1 := SdSubName(v0, subName);
      if v1.err.Some? then v1
      else
        var v2 := SdTopicName(v1, topicName);
        if v2.err.Some? then v2 else SdTopicString(v2, topicString)
  }

  /** The object handle MQSUB is given: `MQHO_NONE` unless a truthy subscription queue is
      passed, then a `Queue`'s own handle (which may be `None`) or the handle itself. */
  function SubQueueHandle(env: Env, sq: Option<SubQueue>): (h: Option<int>)
    ensures sq.None? ==> h == Some(N(env.k, "MQHO_NONE"))
    ensures sq.Some? && sq.value.HandleArg? && sq.value.h != 0 ==> h == Some(sq.value.h)
    ensures sq.Some? && sq.value.QueueObj? ==> h == sq.value.q.handle
  {
    match sq
    case Some(QueueObj(q)) => q.handle
    case Some(HandleArg(n)) => if n != 0 then Some(n) else Some(N(env.k, "MQHO_NONE"))
    case None => Some(N(env.k, "MQHO_NONE"))
  }

  /** The MQSUB call, or what its argument evaluation raises: the connection handle, the
      packed descriptor, then the queue handle, which the C extension rejects when it is
      `None`. */
  function SubCall(qm: QueueManager, sd: Struct, hobj: Option<int>): (r: Result<Call, Error>)
    requires Wf(sd)
    ensures !Truthy(qm.handle) ==> r == Err(PYIFError(NotConnected))
    ensures r.Ok? <==> Truthy(qm.handle) && Pack(sd).Ok? && hobj.Some?
    ensures r.Ok? ==> r.value == Sub(qm.handle.value, Pack(sd).value, hobj.value)
  {
    match GetHandle(qm)
    case Err(e) => Err(e)
    case Ok(h) =>
      match Pack(sd)
      case Err(e) => Err(e)
      case Ok(sdb) =>
        match Arg(hobj)
        case Err(e) => Err(e)
        case Ok(o) => Ok(Sub(h, sdb, o))
  }

  /** MQSUB with the settled descriptor. The descriptor is recorded first; a non-zero
      completion code raises; otherwise the descriptor is refreshed from the reply's
      MQSD, the subscription queue becomes a `Queue` holding the reply's queue handle
      (`handle`), and the subscription handle (`handle2`) is kept. */
  function SendSub(s: Subscription, qm: QueueManager, b: Broker, w: World, sd: Struct, hobj: Option<int>): (r: Step<Subscription, ()>)
    requires SubWf(s) && Wf(sd)
    ensures SubWf(r.state) && r.world.mem == w.mem
    ensures r.state.name == s.name && r.state.topicName == s.topicName && r.state.topicString == s.topicString
    ensures SubCall(qm, sd, hobj).Err? ==> r == Step(s.(desc := Some(sd)), w, Err(SubCall(qm, sd, hobj).error))
    ensures SubCall(qm, sd, hobj).Ok? ==>
      var c := SubCall(qm, sd, hobj).value;
      var rep := b(w.log, c);
      && r.world.log == w.log + [c]
      && (rep.comp != 0 ==> r == Step(s.(desc := Some(sd)), r.world, Err(MQMIError(rep.comp, rep.reason))))
      && (r.result.Ok? <==> rep.comp == 0 && Unpack(sd, rep.buf1).Ok?)
      && (r.result.Ok? ==>
            && r.state.desc == Some(Unpack(sd, rep.buf1).value)
            && r.state.queue == Some(QueueObj(Queue(Some(rep.handle), None, None)))
            && r.state.handle == Val(Some(rep.handle2)))
  {
    var s1 := s.(desc := Some(sd));
    match SubCall(qm, sd, hobj)
    case Err(e) => Step(s1, w, Err(e))
    case Ok(c) =>
      var (rep, w1) := Invoke(b, w, c);
      match Check(rep)
      case Err(e) => Step(s1, w1, Err(e))
      case Ok(_) =>
        match Unpack(sd, rep.buf1)
        case Err(e) => Step(s1, w1, Err(e))
        case Ok(sd1) =>
          UnpackWf(sd, rep.buf1);
          var q := SetHandle(Unopened, Some(rep.handle));
          Step(s1.(desc := Some(sd1), queue := Some(QueueObj(q)), handle := Val(Some(rep.handle2))), w1, Ok(()))
  }

  /** `sub(sub_desc, sub_queue, sub_name, sub_opts, topic_name, topic_string)`: a given
      name, topic name or topic string replaces the subscription's own; a descriptor
      passed in must be an `SD`, otherwise one is built; then MQSUB. */
  function Subscribe(s: Subscription, qm: QueueManager, b: Broker, w: World, env: Env, f: Fresh,
                     subDesc: Option<Struct>, subQueue: Option<SubQueue>, subName: Option<bytes>,
                     subOpts: Option<int>, topicName: Option<bytes>, topicString: Option<bytes>): (r: Step<Subscription, ()>)
    requires SubWf(s) && FreshWf(f) && MemWf(w.mem) && (subDesc.Some? ==> Wf(subDesc.value))
    ensures SubWf(r.state) && MemWf(r.world.mem)
    ensures subDesc.Some? && subDesc.value.kind != SD ==> r.world == w && r.result == Err(TypeError(NotAnSD))
  {
    var s1 := s.(topicName := if Given(topicName) then topicName else s.topicName,
                 topicString := if Given(topicString) then topicString else s.topicString,
                 name := if Given(subName) then subName else s.name);
    var hobj := SubQueueHandle(env, subQueue);
    match subDesc
    case Some(d) =>
      if d.kind != SD then Step(s1, w, Err(TypeError(NotAnSD)))
      else SendSub(s1, qm, b, w, d, hobj)
    case None =>
      var v := BuildSd(env, f, w.mem, s1.name, subOpts, s1.topicName, s1.topicString);
      if v.err.Some? then Step(s1, w.(mem := v.mem), Err(v.err.value))
      else SendSub(s1, qm, b, w.(mem := v.mem), v.s, hobj)
  }

  /** A subscription as the constructor first records it, before any `sub`. */
  function Recorded(subDesc: Option<Struct>, subName: Option<bytes>, subQueue: Option<SubQueue>,
                    subOpts: Option<int>, topicName: Option<bytes>, topicString: Option<bytes>): Subscription {
    Subscription(subDesc, Unset, subQueue, subName, subOpts, topicName, topicString)
  }

  predicate SubQueueWf(sq: Option<SubQueue>) {
    sq.Some? && sq.value.QueueObj? ==> QueueWf(sq.value.q)
  }

  /** `Subscription(qmgr, sub_desc, sub_name, sub_queue, sub_opts, topic_name,
      topic_string)` as written: with a descriptor it subscribes at once, but through
      `self.sub(sub_desc=...)` alone, so the subscription queue it was given is not
      passed to MQSUB. */
  function NewSubscriptionAsWritten(qm: QueueManager, b: Broker, w: World, env: Env, f: Fresh,
                                    subDesc: Option<Struct>, subName: Option<bytes>, subQueue: Option<SubQueue>,
                                    subOpts: Option<int>, topicName: Option<bytes>, topicString: Option<bytes>): (r: Step<Subscription, ()>)
    requires FreshWf(f) && MemWf(w.mem) && (subDesc.Some? ==> Wf(subDesc.value)) && SubQueueWf(subQueue)
    ensures SubWf(r.state) && MemWf(r.world.mem)
    ensures subDesc.None? ==> r == Step(Recorded(subDesc, subName, subQueue, subOpts, topicName, topicString), w, Ok(()))
  {
    var s := Recorded(subDesc, subName, subQueue, subOpts, topicName, topicString);
    if subDesc.Some? then Subscribe(s, qm, b, w, env, f, subDesc, None, None, None, None, None)
    else Step(s, w, Ok(()))
  }

  /** The constructor passing the subscription queue it was given on to `sub`: the
      evidently intended behaviour, used by the rest of the model. */
  function NewSubscription(qm: QueueManager, b: Broker, w: World, env: Env, f: Fresh,
                           subDesc: Option<Struct>, subName: Option<bytes>, subQueue: Option<SubQueue>,
                           subOpts: Option<int>, topicName: Option<bytes>, topicString: Option<bytes>): (r: Step<Subscription, ()>)
    requires FreshWf(f) && MemWf(w.mem) && (subDesc.Some? ==> Wf(subDesc.value)) && SubQueueWf(subQueue)
    ensures SubWf(r.state) && MemWf(r.world.mem)
    ensures subDesc.None? ==> r == Step(Recorded(subDesc, subName, subQueue, subOpts, topicName, topicString), w, Ok(()))
  {
    var s := Recorded(subDesc, subName, subQueue, subOpts, topicName, topicString);
    if subDesc.Some? then Subscribe(s, qm, b, w, env, f, subDesc, subQueue, None, None, None, None)
    else Step(s, w, Ok(()))
  }

  /** `Topic.sub(*opts)`: a new subscription on the same queue manager, subscribed with
      the first two items (descriptor and subscription queue, later items ignored) and
      the topic's name and string. */
  function TopicSub(t: Topic, qm: QueueManager, b: Broker, w: World, env: Env, f: Fresh,
                    subDesc: Option<Struct>, subQueue: Option<SubQueue>): (r: Step<Subscription, ()>)
    requires FreshWf(f) && MemWf(w.mem) && (subDesc.Some? ==> Wf(subDesc.value))
    ensures SubWf(r.state) && MemWf(r.world.mem)
  {
    var s := Recorded(None, None, None, None, None, None);
    Subscribe(s, qm, b, w, env, f, subDesc, subQueue, None, None, t.name, t.str)
  }

  /** `close(sub_close_options, close_sub_queue, close_sub_queue_options)`. Before any
      `sub` the private handle does not exist and reading it raises `AttributeError`; a
      falsy handle raises `PYIFError`. MQCLOSE with a non-zero completion code raises;
      otherwise the handle and descriptor are cleared, and the subscription queue is
      closed when asked. */
  function SubClose(s: Subscription, qm: QueueManager, b: Broker, w: World, env: Env, options: Option<int>,
                    closeQueue: bool, queueOptions: Option<int>): (r: Step<Subscription, ()>)
    requires SubWf(s)
    ensures SubWf(r.state)
    ensures s.handle.Unset? ==> r == Step(s, w, Err(AttributeError("_Subscription__sub_handle")))
    ensures s.handle.Val? && !Truthy(s.handle.v) ==> r == Step(s, w, Err(PYIFError(SubscriptionNotOpen)))
  {
    match s.handle
    case Unset => Step(s, w, Err(AttributeError("_Subscription__sub_handle")))
    case Val(h) =>
      if !Truthy(h) then Step(s, w, Err(PYIFError(SubscriptionNotOpen)))
      else
        match GetHandle(qm)
        case Err(e) => Step(s, w, Err(e))
        case Ok(hc) =>
          var (rep, w1) := Invoke(b, w, Close(hc, h.value, options.GetOr(N(env.k, "MQCO_NONE"))));
          match Check(rep)
          case Err(e) => Step(s, w1, Err(e))
          case Ok(_) =>
            var s1 := s.(handle := Val(None), desc := None);
            if !closeQueue then Step(s1, w1, Ok(()))
            else
              match s1.queue
              case Some(QueueObj(q)) =>
                var c := CloseQueue(q, qm, b, w1, env, queueOptions);
                Step(s1.(queue := Some(QueueObj(c.state))), c.world, c.result)
              case _ => Step(s1, w1, Err(AttributeError("close")))
  }

  /** `SubName`, `Options` and `ObjectName` are none of the MQCHARV members of
      `ObjectString`, and `Options` and `ObjectName` none of those of `SubName`. */
  lemma SdMembersApart()
    ensures VsBase("SubName") == "SubName" && VsBase("ObjectString") == "ObjectString"
    ensures VsPtrName("SubName") !in VsNames("ObjectString") && VsPtrName("SubName") != "ObjectName"
    ensures "Options" !in VsNames("ObjectString") && "ObjectName" !in VsNames("ObjectString")
    ensures "Options" !in VsNames("SubName") && "ObjectName" !in VsNames("SubName")
  {
    assert !EndsWithVSPtr("SubName") && !EndsWithVSPtr("ObjectString");
    assert |VsPtrName("SubName")| == 12;
    ShortNotVs(VsPtrName("SubName"), "ObjectString");
    ShortNotVs("Options", "ObjectString");
    ShortNotVs("ObjectName", "ObjectString");
    ShortNotVs("Options", "SubName");
    ShortNotVs("ObjectName", "SubName");
  }

  /** `get(max_length, *opts)`: `get` on the subscription queue. */
  function SubGet(s: Subscription, qm: QueueManager, b: Broker, w: World, env: Env, f: Fresh,
                  maxLength: Option<int>, opts: seq<Option<Struct>>): (r: Step<Subscription, Got>)
    requires SubWf(s) && FreshWf(f) && AllWf(opts)
    ensures SubWf(r.state)
    ensures !(s.queue.Some? && s.queue.value.QueueObj?) ==> r == Step(s, w, Err(AttributeError("get")))
  {
    match s.queue
    case Some(QueueObj(q)) =>
      var g := GetMsg(q, qm, b, w, env, f, maxLength, opts);
      Step(s.(queue := Some(QueueObj(g.state))), g.world, g.result)
    case _ => Step(s, w, Err(AttributeError("get")))
  }

  /** The members `sub` sets in the `SD()` it builds. */
  predicate SdMembers(d: Struct) {
    "Options" in d.store && "ObjectName" in d.store && HasVS(d, "SubName") && HasVS(d, "ObjectString")
  }

  /** A stage of `sub`'s `SD()` that raised nothing and still has the members the later
      stages set. */
  predicate SdReady(v: VsOutcome) {
    && MemWf(v.mem) && v.err.None? && "Options" in v.s.store && "ObjectName" in v.s.store
    && HasVS(v.s, "ObjectString")
  }

  /** `get_vs` reads `read` for the subscription name, when `read` is given. */
  predicate ReadsSubName(v: VsOutcome, read: Option<Option<bytes>>) {
    read.Some? ==> VsPtrName("SubName") in v.s.store && GetVS(v.s, v.mem, "SubName") == Ok(read.value)
  }

  /** What `get_vs` reads for a subscription name that was set, if one was. */
  function SubNameRead(subName: Option<bytes>): Option<Option<bytes>> {
    if Given(subName) then Some(Some(UntilNul(subName.value + [0]))) else None
  }

  /** The subscription name step on a structure with the members `sub` sets: nothing
      is raised, `get_vs` reads the name back, and the options and the topic name stay. */
  lemma SubNameStep(v: VsOutcome, subName: Option<bytes>)
    requires SdReady(v) && HasVS(v.s, "SubName")
    ensures var r := SdSubName(v, subName);
      && SdReady(r) && ReadsSubName(r, SubNameRead(subName))
      && r.s.store["Options"] == v.s.store["Options"] && r.s.store["ObjectName"] == v.s.store["ObjectName"]
  {
    SdMembersApart();
    if Given(subName) {
      SetVSGetVS(v.s, v.mem, "SubName", subName, 0, 0, 0);
      SetVSKeepsOthers(v.s, v.mem, "SubName", subName, 0, 0, 0);
    }
  }

  /** The topic name step: nothing is raised, the name is set, and the options and what
      `get_vs` reads for the subscription name stay. */
  lemma TopicNameStep(v: VsOutcome, topicName: Option<bytes>, read: Option<Option<bytes>>)
    requires SdReady(v) && ReadsSubName(v, read)
    ensures var r := SdTopicName(v, topicName);
      && SdReady(r) && ReadsSubName(r, read) && r.s.store["Options"] == v.s.store["Options"]
      && r.s.store["ObjectName"] == (if Given(topicName) then One(S(topicName.value)) else v.s.store["ObjectName"])
  {
    SdMembersApart();
    if read.Some? {
      GetVSFrame(v.s, v.mem, SdTopicName(v, topicName).s, v.mem, "SubName");
    }
  }

  /** The topic string step: nothing is raised, `get_vs` reads the string back, and the
      options, the topic name and what `get_vs` reads for the subscription name stay. */
  lemma TopicStringStep(v: VsOutcome, topicString: Option<bytes>, read: Option<Option<bytes>>)
    requires SdReady(v) && ReadsSubName(v, read)
    ensures var r := SdTopicString(v, topicString);
      && r.err.None? && ReadsSubName(r, read)
      && r.s.store["Options"] == v.s.store["Options"] && r.s.store["ObjectName"] == v.s.store["ObjectName"]
      && (Given(topicString) ==> GetVS(r.s, r.mem, "ObjectString") == Ok(Some(UntilNul(topicString.value + [0]))))
  {
    SdMembersApart();
    if Given(topicString) {
      SetVSGetVS(v.s, v.mem, "ObjectString", topicString, 0, 0, 0);
      SetVSKeepsOthers(v.s, v.mem, "ObjectString", topicString, 0, 0, 0);
      if read.Some? {
        var r := SetVS(v.s, v.mem, "ObjectString", topicString, 0, 0, 0);
        GetVSFrame(v.s, v.mem, r.s, r.mem, "SubName");
      }
    }
  }

  /** The options step on an `SD()` with the members `sub` sets: nothing is raised and
      `Options` holds the given options or the managed non-durable default. */
  lemma OptionsStep(env: Env, f: Fresh, mem: Mem, subOpts: Option<int>)
    requires FreshWf(f) && MemWf(mem)
    requires SdMembers(f.sd)
    ensures var r := SdOptions(env, f, mem, subOpts);
      SdReady(r) && HasVS(r.s, "SubName") && r.s.store["Options"] == One(I(SubOptions(env, subOpts)))
  {
  }

  /** The `SD()` `sub` builds on a structure with its members (every `SD()`, by
      `FreshSdMembers`): nothing is raised, `Options` holds the given options or the
      managed non-durable default, the topic name is set, and `get_vs` reads back the
      subscription name and the topic string. */
  lemma BuiltSdContents(env: Env, f: Fresh, mem: Mem, subName: Option<bytes>, subOpts: Option<int>,
                        topicName: Option<bytes>, topicString: Option<bytes>)
    requires FreshWf(f) && MemWf(mem)
    requires SdMembers(f.sd)
    ensures var r := BuildSd(env, f, mem, subName, subOpts, topicName, topicString);
      && r.err.None?
      && r.s.store["Options"] == One(I(SubOptions(env, subOpts)))
      && (Given(topicName) ==> r.s.store["ObjectName"] == One(S(topicName.value)))
      && ReadsSubName(r, SubNameRead(subName))
      && (Given(topicString) ==> GetVS(r.s, r.mem, "ObjectString") == Ok(Some(UntilNul(topicString.value + [0]))))
  {
    OptionsStep(env, f, mem, subOpts);
    var v0 := SdOptions(env, f, mem, subOpts);
    SubNameStep(v0, subName);
    var v1 := SdSubName(v0, subName);
    TopicNameStep(v1, topicName, SubNameRead(subName));
    var v2 := SdTopicName(v1, topicName);
    TopicStringStep(v2, topicString, SubNameRead(subName));
  }

  /** `after` extends `before` by exactly one MQSUB on the connection of `qm`, sending
      the packed `sd` and the object handle `hobj`. */
  predicate SubscribedWith(before: seq<Call>, after: seq<Call>, qm: QueueManager, sd: Struct, hobj: Option<int>) {
    && |after| == |before| + 1 && after[..|before|] == before && after[|before|].Sub?
    && Some(after[|before|].hconn) == qm.handle && Wf(sd) && Pack(sd) == Ok(after[|before|].sd)
    && Some(after[|before|].hobj) == hobj
  }

  /** The descriptor `sub` settles on: the one passed, or the one built from the
      subscription's name and topic after the arguments replaced them. */
  function SettledSd(s: Subscription, w: World, env: Env, f: Fresh, subDesc: Option<Struct>, subName: Option<bytes>,
                     subOpts: Option<int>, topicName: Option<bytes>, topicString: Option<bytes>): (sd: Struct)
    requires FreshWf(f) && MemWf(w.mem) && (subDesc.Some? ==> Wf(subDesc.value))
    ensures Wf(sd)
  {
    if subDesc.Some? then subDesc.value
    else BuildSd(env, f, w.mem, if Given(subName) then subName else s.name, subOpts,
                 if Given(topicName) then topicName else s.topicName,
                 if Given(topicString) then topicString else s.topicString).s
  }

  /** A successful MQSUB step made exactly that call and keeps the reply's handles. */
  lemma SendSubSends(s: Subscription, qm: QueueManager, b: Broker, w: World, sd: Struct, hobj: Option<int>)
    requires SubWf(s) && Wf(sd) && SendSub(s, qm, b, w, sd, hobj).result.Ok?
    ensures var r := SendSub(s, qm, b, w, sd, hobj);
      && SubscribedWith(w.log, r.world.log, qm, sd, hobj)
      && r.state.handle == Val(Some(b(w.log, r.world.log[|w.log|]).handle2))
      && r.state.queue == Some(QueueObj(Queue(Some(b(w.log, r.world.log[|w.log|]).handle), None, None)))
  {
  }

  /** A successful `sub` made exactly one call: MQSUB with the connection handle, the
      packed descriptor and the subscription queue's handle. The subscription then holds
      the reply's subscription handle, and as its queue a `Queue` on the reply's queue
      handle with nothing else set. */
  lemma SubscribeSends(s: Subscription, qm: QueueManager, b: Broker, w: World, env: Env, f: Fresh,
                       subDesc: Option<Struct>, subQueue: Option<SubQueue>, subName: Option<bytes>,
                       subOpts: Option<int>, topicName: Option<bytes>, topicString: Option<bytes>)
    requires SubWf(s) && FreshWf(f) && MemWf(w.mem) && (subDesc.Some? ==> Wf(subDesc.value))
    requires Subscribe(s, qm, b, w, env, f, subDesc, subQueue, subName, subOpts, topicName, topicString).result.Ok?
    ensures var r := Subscribe(s, qm, b, w, env, f, subDesc, subQueue, subName, subOpts, topicName, topicString);
      && SubscribedWith(w.log, r.world.log, qm, SettledSd(s, w, env, f, subDesc, subName, subOpts, topicName, topicString),
                        SubQueueHandle(env, subQueue))
      && r.state.handle == Val(Some(b(w.log, r.world.log[|w.log|]).handle2))
      && r.state.queue == Some(QueueObj(Queue(Some(b(w.log, r.world.log[|w.log|]).handle), None, None)))
  {
    var s1 := s.(topicName := if Given(topicName) then topicName else s.topicName,
                 topicString := if Given(topicString) then topicString else s.topicString,
                 name := if Given(subName) then subName else s.name);
    var hobj := SubQueueHandle(env, subQueue);
    var r := Subscribe(s, qm, b, w, env, f, subDesc, subQueue, subName, subOpts, topicName, topicString);
    if subDesc.Some? {
      assert r == SendSub(s1, qm, b, w, subDesc.value, hobj);
      SendSubSends(s1, qm, b, w, subDesc.value, hobj);
    } else {
      var v := BuildSd(env, f, w.mem, s1.name, subOpts, s1.topicName, s1.topicString);
      assert SettledSd(s, w, env, f, subDesc, subName, subOpts, topicName, topicString) == v.s;
      assert r == SendSub(s1, qm, b, w.(mem := v.mem), v.s, hobj);
      SendSubSends(s1, qm, b, w.(mem := v.mem), v.s, hobj);
    }
  }

  /** `Topic.sub()` with no descriptor subscribes through the `SD()` built from the
      topic's name and topic string with default options and no subscription name: a
      successful one made exactly that MQSUB. With `BuiltSdContents`, the descriptor asks
      for a managed, non-durable subscription created on demand. */
  lemma TopicSubSends(t: Topic, qm: QueueManager, b: Broker, w: World, env: Env, f: Fresh, subQueue: Option<SubQueue>)
    requires FreshWf(f) && MemWf(w.mem)
    ensures var r := TopicSub(t, qm, b, w, env, f, None, subQueue);
      r.result.Ok? ==> SubscribedWith(w.log, r.world.log, qm, BuildSd(env, f, w.mem, None, None, t.name, t.str).s,
                                      SubQueueHandle(env, subQueue))
  {
    var s := Recorded(None, None, None, None, None, None);
    if TopicSub(t, qm, b, w, env, f, None, subQueue).result.Ok? {
      SubscribeSends(s, qm, b, w, env, f, None, subQueue, None, None, t.name, t.str);
    }
  }

  /** Before any successful `sub` there is no subscription handle: `close` raises
      `AttributeError` without calling anything. */
  lemma CloseBeforeSub(qm: QueueManager, b: Broker, w: World, env: Env, f: Fresh, subName: Option<bytes>,
                       subQueue: Option<SubQueue>, subOpts: Option<int>, topicName: Option<bytes>, topicString: Option<bytes>,
                       options: Option<int>, closeQueue: bool, queueOptions: Option<int>)
    requires FreshWf(f) && MemWf(w.mem) && SubQueueWf(subQueue)
    ensures var n := NewSubscription(qm, b, w, env, f, None, subName, subQueue, subOpts, topicName, topicString);
      && n.world == w && n.state.handle.Unset?
      && SubClose(n.state, qm, b, n.world, env, options, closeQueue, queueOptions) ==
           Step(n.state, w, Err(AttributeError("_Subscription__sub_handle")))
  {
  }

  /** A subscription holding a non-zero handle (as a successful `sub` that returned
      one leaves it) is closed with an MQCLOSE on that handle with the given options
      (`MQCO_NONE` by default); once that succeeds the handle and the descriptor are
      gone, and a second `close` raises `PYIFError` without calling anything. */
  lemma SubCloseOnce(s: Subscription, qm: QueueManager, b: Broker, w: World, env: Env,
                     options: Option<int>, queueOptions: Option<int>)
    requires SubWf(s) && s.handle.Val? && Truthy(s.handle.v) && Truthy(qm.handle)
    ensures var c := SubClose(s, qm, b, w, env, options, false, queueOptions);
      && c.world.log == w.log + [Close(qm.handle.value, s.handle.v.value, options.GetOr(N(env.k, "MQCO_NONE")))]
      && (c.result.Ok? ==>
            && c.state.handle == Val(None) && c.state.desc.None? && c.state.queue == s.queue
            && SubClose(c.state, qm, b, c.world, env, options, false, queueOptions) ==
                 Step(c.state, c.world, Err(PYIFError(SubscriptionNotOpen))))
  {
  }

  /** Closing with `close_sub_queue` after the subscription's own MQCLOSE succeeded
      closes the open subscription queue too: a second MQCLOSE, on the queue's handle with
      the queue options, and a successful one leaves the queue unopened. */
  lemma SubCloseWithQueue(s: Subscription, qm: QueueManager, b: Broker, w: World, env: Env,
                          options: Option<int>, queueOptions: Option<int>)
    requires SubWf(s) && s.handle.Val? && Truthy(s.handle.v) && Truthy(qm.handle)
    requires s.queue.Some? && s.queue.value.QueueObj? && Truthy(s.queue.value.q.handle)
    ensures var c := SubClose(s, qm, b, w, env, options, true, queueOptions);
      var first := Close(qm.handle.value, s.handle.v.value, options.GetOr(N(env.k, "MQCO_NONE")));
      var second := Close(qm.handle.value, s.queue.value.q.handle.value, queueOptions.GetOr(N(env.k, "MQCO_NONE")));
      && (b(w.log, first).comp == 0 ==> c.world.log == w.log + [first, second])
      && (c.result.Ok? ==> c.state.handle == Val(None) && c.state.queue == Some(QueueObj(Unopened)))
  {
  }

  /** The queue a successful `sub` leaves holds the reply's queue handle; when that is
      non-zero, `get` uses it as it is: a successful `get` makes one or two MQGETs on it
      and no MQOPEN. */
  lemma SubscribedGetNeedsNoOpen(s: Subscription, qm: QueueManager, b: Broker, w: World, env: Env, f: Fresh,
                                 maxLength: Option<int>, opts: seq<Option<Struct>>)
    requires SubWf(s) && FreshWf(f) && AllWf(opts)
    requires s.queue.Some? && s.queue.value.QueueObj? && Truthy(s.queue.value.q.handle)
    requires SubGet(s, qm, b, w, env, f, maxLength, opts).result.Ok?
    ensures var r := SubGet(s, qm, b, w, env, f, maxLength, opts);
      && r.state == s
      && Grows(w, r.world) && 1 <= |Since(w, r.world)| <= 2
      && AllOn(Since(w, r.world), IsGet, s.queue.value.q.handle.value)
  {
    var q := s.queue.value.q;
    var (md, gmo) := MsgStructs(f, opts, f.gmo).value;
    ReceiveCalls(q, qm, b, w, env, maxLength, md, gmo);
  }

  /** The constructor as written, given a descriptor and a subscription queue handle
      other than `MQHO_NONE`: the MQSUB it makes is passed `MQHO_NONE`, not the queue it
      was given. */
  lemma AsWrittenDropsSubQueue(qm: QueueManager, b: Broker, w: World, env: Env, f: Fresh, d: Struct, h: int,
                               subName: Option<bytes>, subOpts: Option<int>, topicName: Option<bytes>, topicString: Option<bytes>)
    requires FreshWf(f) && MemWf(w.mem) && Wf(d) && d.kind == SD && h != 0 && h != N(env.k, "MQHO_NONE")
    ensures var r := NewSubscriptionAsWritten(qm, b, w, env, f, Some(d), subName, Some(HandleArg(h)), subOpts, topicName, topicString);
      r.result.Ok? ==> SubscribedWith(w.log, r.world.log, qm, d, Some(N(env.k, "MQHO_NONE"))) &&
                       !SubscribedWith(w.log, r.world.log, qm, d, Some(h))
  {
    var s := Recorded(Some(d), subName, Some(HandleArg(h)), subOpts, topicName, topicString);
    if Subscribe(s, qm, b, w, env, f, Some(d), None, None, None, None, None).result.Ok? {
      SubscribeSends(s, qm, b, w, env, f, Some(d), None, None, None, None, None);
    }
  }

  /** The corrected constructor, given a descriptor: the MQSUB it makes is passed the
      handle of the subscription queue it was given. */
  lemma NewSubscriptionUsesSubQueue(qm: QueueManager, b: Broker, w: World, env: Env, f: Fresh, d: Struct,
                                    subQueue: Option<SubQueue>, subName: Option<bytes>, subOpts: Option<int>,
                                    topicName: Option<bytes>, topicString: Option<bytes>)
    requires FreshWf(f) && MemWf(w.mem) && Wf(d) && d.kind == SD && SubQueueWf(subQueue)
    ensures var r := NewSubscription(qm, b, w, env, f, Some(d), subName, subQueue, subOpts, topicName, topicString);
      r.result.Ok? ==> SubscribedWith(w.log, r.world.log, qm, d, SubQueueHandle(env, subQueue))
  {
    var s := Recorded(Some(d), subName, subQueue, subOpts, topicName, topicString);
    if Subscribe(s, qm, b, w, env, f, Some(d), subQueue, None, None, None, None).result.Ok? {
      SubscribeSends(s, qm, b, w, env, f, Some(d), subQueue, None, None, None, None);
    }
  }
}

=== FILE: transport.dfy ===
/** The C extension `pymqe` as pymqi sees it. Every verb is a call appended to a log and
    answered by a broker: an oracle of the call and of every call made before it. The
    `ctypes` memory that `set_vs` allocates travels with the log. */
module Transport {
  import opened Wrappers
  import opened Bytes
  import opened Wire
  import opened Errors
  import opened MQOpts

  /** One call of a `pymqe` verb, with its arguments as pymqi passes them (structures
      already packed). */
  datatype Call =
    | Conn(name: bytes)                                               // MQCONN
    | ConnX(name: bytes, options: int, cd: bytes, sco: Option<bytes>) // MQCONNX
    | Disc(hconn: int)                                                // MQDISC
    | Begin(hconn: int)                                               // MQBEGIN
    | Commit(hconn: int)                                              // MQCMIT
    | Back(hconn: int)                                                // MQBACK
    | Open(hconn: int, od: bytes, options: int)                       // MQOPEN
    | Put(hconn: int, hobj: int, md: bytes, pmo: bytes, msg: bytes)   // MQPUT
    | Put1(hconn: int, od: bytes, md: bytes, pmo: bytes, msg: bytes)  // MQPUT1
    | Get(hconn: int, hobj: int, md: bytes, gmo: bytes, length: int)  // MQGET
    | Close(hconn: int, hobj: int, options: int)                      // MQCLOSE
    | Inq(hconn: int, hobj: int, selector: int)                       // MQINQ
    | Set(hconn: int, hobj: int, selector: int, arg: Value)           // MQSET
    | Sub(hconn: int, sd: bytes, hobj: int)                           // MQSUB
    | Execute(hconn: int, command: int, args: seq<map<int, Value>>)   // mqaiExecute

  /** What a verb hands back. Each verb reads the parts its tuple has: MQCONN the
      connection handle; MQOPEN the object handle and the MQOD; MQPUT the MQMD and MQPMO;
      MQGET the message, MQMD, MQGMO and the message's full length; MQINQ the value; MQSUB
      the MQSD, the subscription queue handle and the subscription handle; mqaiExecute the
      result rows. Every tuple ends with the completion and reason codes. */
  datatype Reply = Reply(
    handle: int,
    handle2: int,
    buf1: bytes,
    buf2: bytes,
    msg: bytes,
    dataLength: int,
    value: Value,
    rows: seq<map<int, Value>>,
    comp: int,
    reason: int)

  /** The queue manager on the other side of the C extension. */
  type Broker = (seq<Call>, Call) -> Reply

  /** The calls made so far and the `ctypes` buffers alive. Every operation also takes
      the broker that answers the calls. */
  datatype World = World(log: seq<Call>, mem: Mem)

  /** Making one call. */
  function Invoke(b: Broker, w: World, c: Call): (r: (Reply, World))
    ensures r.1 == w.(log := w.log + [c])
    ensures r.0 == b(w.log, c)
  {
    (b(w.log, c), w.(log := w.log + [c]))
  }

  /** A later world with the same memory: the log only grew. */
  predicate Grows(w: World, w': World) {
    w'.mem == w.mem && |w.log| <= |w'.log| && w'.log[..|w.log|] == w.log
  }

  /** The calls made between two worlds. */
  function Since(w: World, w': World): seq<Call>
    requires |w.log| <= |w'.log|
  {
    w'.log[|w.log|..]
  }

  lemma GrowsTrans(a: World, b: World, c: World)
    requires Grows(a, b) && Grows(b, c)
    ensures Grows(a, c)
    ensures Since(a, c) == Since(a, b) + Since(b, c)
  {
    assert c.log[..|b.log|][..|a.log|] == c.log[..|a.log|];
  }

  /** Python truthiness of a handle attribute: `None` and `0` are false. */
  predicate Truthy(h: Option<int>) {
    h.Some? && h.value != 0
  }

  /** A handle passed straight to a verb: the C extension rejects `None`. */
  function Arg(h: Option<int>): (r: Result<int, Error>)
    ensures r.Ok? <==> h.Some?
    ensures r.Ok? ==> r.value == h.value
    ensures r.Err? ==> r.error == TypeError(NoneArgument)
  {
    if h.Some? then Ok(h.value) else Err(TypeError(NoneArgument))
  }

  /** `if rv[-2]: raise MQMIError(rv[-2], rv[-1])`: a non-zero completion code raises. */
  function Check(rep: Reply): (r: Result<(), Error>)
    ensures r.Ok? <==> rep.comp == 0
    ensures r.Err? ==> r.error == MQMIError(rep.comp, rep.reason)
  {
    if rep.comp != 0 then Err(MQMIError(rep.comp, rep.reason)) else Ok(())
  }

  /** The state an object method leaves, the world after it, and what it returned or
      raised. */
  datatype Step<S, T> = Step(state: S, world: World, result: Result<T, Error>)
}

=== FILE: wire.dfy ===
/** Wire formats of single structure members, after the format strings pymqi hands to
    Python's `struct` module (code/pymqi.py:383-396 and the other schemas):
    `'Ns'` fixed-width strings, `MQLONG_TYPE` (`'i'` on a 64-bit build), `'q'`, `'P'`,
    `'b'`, `'c'`, and repeated codes such as `'2i'`. */
module Wire {
  import opened Bytes
  import opened Wrappers

  /** Numeric and character format codes. */
  datatype Code =
    | Long    // MQLONG_TYPE 'i': 4-byte signed
    | Quad    // 'q': 8-byte signed
    | Ptr     // 'P': 8-byte pointer; a negative int packs as its two's complement
    | SChar   // 'b': 1-byte signed
    | Char    // 'c': a one-character string

  /** The body of a member's format: `'Ns'` or `'<count><code>'`.
      A string width comes from `"%is" % length` in RFH2 and may be negative there. */
  datatype Spec = Str(width: int) | Rep(count: nat, code: Code)

  /** A member's format string; `big` is the leading `'>'` RFH2 puts on its first member. */
  datatype Format = Format(big: bool, spec: Spec)

  /** One Python value `struct` can pack: an int, a byte string, or `None`. */
  datatype Scalar = I(n: int) | S(s: bytes) | Nil

  /** A member's value: a scalar, or a Python list that `pack` flattens. */
  datatype Value = One(x: Scalar) | Many(xs: seq<Scalar>)

  /** One item of the flattened `struct` format: each consumes one packed argument. */
  datatype Atom = AStr(width: nat) | ANum(code: Code)

  function CodeSize(c: Code): (n: nat)
    ensures n >= 1
  {
    match c
    case Long => 4
    case Quad => 8
    case Ptr => 8
    case SChar => 1
    case Char => 1
  }

  function AtomSize(a: Atom): nat {
    match a
    case AStr(w) => w
    case ANum(c) => CodeSize(c)
  }

  predicate ValidSpec(s: Spec) {
    s.Str? ==> s.width >= 0
  }

  /** The items a member's format contributes: one for a string, `count` for a code. */
  function SpecAtoms(s: Spec): (r: seq<Atom>)
    requires ValidSpec(s)
    ensures s.Str? ==> r == [AStr(s.width)]
    ensures s.Rep? ==> |r| == s.count && forall i :: 0 <= i < |r| ==> r[i] == ANum(s.code)
  {
    match s
    case Str(w) => [AStr(w)]
    case Rep(n, c) => seq(n, _ => ANum(c))
  }

  /** Bytes a member's format occupies (`struct.calcsize` of it). */
  function SpecSize(s: Spec): nat
    requires ValidSpec(s)
  {
    match s
    case Str(w) => w
    case Rep(n, c) => n * CodeSize(c)
  }

  /** Whether `struct` accepts `x` for item `a`; outside this it raises `struct.error`. */
  predicate Fits(a: Atom, x: Scalar) {
    match a
    case AStr(_) => x.S?
    case ANum(c) =>
      match c
      case Char => x.S? && |x.s| == 1
      case Long => x.I? && -Half(4) <= x.n < Half(4)
      case Quad => x.I? && -Half(8) <= x.n < Half(8)
      case SChar => x.I? && -Half(1) <= x.n < Half(1)
      case Ptr => x.I? && -Half(8) <= x.n < Pow256(8)
  }

  /** `s` cut or NUL-padded to `w` bytes, as `struct` packs an `'Ns'` item. */
  function FitWidth(s: bytes, w: nat): (r: bytes)
    ensures |r| == w
    ensures |s| >= w ==> r == s[..w]
    ensures |s| < w ==> r == s + Zeros(w - |s|)
  {
    if |s| >= w then s[..w] else s + Zeros(w - |s|)
  }

  /** Packs one item; `None` is the `struct.error` Python raises. */
  function PackAtom(a: Atom, x: Scalar, big: bool): (r: Option<bytes>)
    ensures r.Some? <==> Fits(a, x)
    ensures r.Some? ==> |r.value| == AtomSize(a)
  {
    if !Fits(a, x) then None
    else
      match a
      case AStr(w) => Some(FitWidth(x.s, w))
      case ANum(c) =>
        match c
        case Char => Some(x.s)
        case Ptr => Some(EncodeUnsigned(PtrBits(x.n), 8, big))
        case _ => Some(EncodeUnsigned(TwosComplement(x.n, CodeSize(c)), CodeSize(c), big))
  }

  /** Unpacks one item from exactly its own bytes (`struct.unpack` never fails then). */
  function UnpackAtom(a: Atom, b: bytes, big: bool): (x: Scalar)
    requires |b| == AtomSize(a)
  {
    match a
    case AStr(_) => S(b)
    case ANum(c) =>
      match c
      case Char => S(b)
      case Ptr => I(DecodeUnsigned(b, big))
      case _ => I(Signed(DecodeUnsigned(b, big), CodeSize(c)))
  }

  /** The bit pattern a `'P'` item packs: CPython's pointer conversion takes a negative
      int through the signed 64-bit branch, so it wraps around, and reads back unsigned. */
  function PtrBits(n: int): (u: nat)
    requires -Half(8) <= n < Pow256(8)
    ensures u < Pow256(8)
    ensures u % Pow256(8) == n % Pow256(8)
  {
    if n < 0 then n + Pow256(8) else n
  }

  /** What a packed item reads back as: strings come back cut or padded to their width,
      and a negative pointer comes back as its unsigned bit pattern. */
  function Canonical(a: Atom, x: Scalar): Scalar {
    if a.AStr? && x.S? then S(FitWidth(x.s, a.width))
    else if a == ANum(Ptr) && x.I? && -Half(8) <= x.n < 0 then I(PtrBits(x.n))
    else x
  }

  /** A negative pointer packs exactly like the unsigned value with the same low 64 bits. */
  lemma NegativePointerWraps(n: int, big: bool)
    requires -Half(8) <= n < 0
    ensures PackAtom(ANum(Ptr), I(n), big).Some?
    ensures PackAtom(ANum(Ptr), I(n), big) == PackAtom(ANum(Ptr), I(n + Pow256(8)), big)
  {
  }

  /** Every packable item reads back as its canonical form. */
  lemma UnpackPackAtom(a: Atom, x: Scalar, big: bool)
    requires Fits(a, x)
    ensures PackAtom(a, x, big).Some?
    ensures UnpackAtom(a, PackAtom(a, x, big).value, big) == Canonical(a, x)
  {
    match a
    case AStr(w) =>
    case ANum(c) =>
      match c
      case Char =>
      case Ptr => DecodeEncodeUnsigned(PtrBits(x.n), 8, big);
      case _ =>
        DecodeEncodeUnsigned(TwosComplement(x.n, CodeSize(c)), CodeSize(c), big);
        SignedOfTwosComplement(x.n, CodeSize(c));
  }

  /** Every byte string of an item's size is reproduced by unpacking and re-packing it. */
  lemma PackUnpackAtom(a: Atom, b: bytes, big: bool)
    requires |b| == AtomSize(a)
    ensures PackAtom(a, UnpackAtom(a, b, big), big) == Some(b)
  {
    match a
    case AStr(w) => assert b[..w] == b;
    case ANum(c) =>
      match c
      case Char =>
      case Ptr => EncodeDecodeUnsigned(b, big);
      case _ =>
        var u := DecodeUnsigned(b, big);
        TwosComplementOfSigned(u, CodeSize(c));
        EncodeDecodeUnsigned(b, big);
  }

  /** A canonical value is its own read-back. */
  lemma CanonicalIdempotent(a: Atom, x: Scalar)
    ensures Canonical(a, Canonical(a, x)) == Canonical(a, x)
  {
  }
}

=== FILE: wrappers.dfy ===
/** Failure-compatible wrappers shared by every module of the model. */
module Wrappers {

  /** A value that may be absent (Python's `None`). */
  datatype Option<+T> = None | Some(value: T) {
    predicate IsFailure() { None? }

    function PropagateFailure<U>(): Option<U>
      requires None?
    {
      None
    }

    function Extract(): T
      requires Some?
    {
      value
    }

    function GetOr(default: T): T {
      match this
      case Some(v) => v
      case None => default
    }
  }

  /** The outcome of an operation that may raise: a value or an exception. */
  datatype Result<+T, +E> = Ok(value: T) | Err(error: E) {
    predicate IsFailure() { Err? }

    function PropagateFailure<U>(): Result<U, E>
      requires Err?
    {
      Err(error)
    }

    function Extract(): T
      requires Ok?
    {
      value
    }
  }
}
